=== FILE: README.md ===
# orchester core, modelled in Dafny

orchester switches the configuration of AI coding command-line tools (Claude Code, Codex CLI, Gemini CLI,
Cursor, Antigravity, OpenCode) between "orchestration profiles". A profile lives under
`~/.orchester/profiles/<name>/` with a `manifest.yaml` that lists links from files in the profile to
places such as `$HOME/.claude/agents/`. Switching removes the links of the old profile (only links that
point into `~/.orchester/profiles`), creates the links of the new one and records the active profile in
`~/.orchester/state.json`. A "vanilla" snapshot of the user's own Claude Code configuration can be taken
and restored. Around this engine sit a registry of installable profiles, a detector for tools and
orchestration layers already on the system, a usage-statistics aggregator and a small translation table.

This project models those parts and proves properties of them:

- `disk.dfy` (module `Disk`): the filesystem as a map from path to node, a path looked up with its trailing slashes dropped and nothing else normalised (file, directory or
  symlink), the fs-extra primitives the core calls (`existsSync`, `lstatSync`, `ensureDirSync`,
  `removeSync`, `unlinkSync`, `copySync`, `copyFileSync`, `moveSync`, `writeJsonSync`) as functions
  returning the new tree and the error they throw, and a `Disk` class whose `tree` field the imperative
  operations update in place. `types.dfy`, `values.dfy`, `text.dfy`, `seqs.dfy` and `wrappers.dfy` hold
  the shared data types, the parsed JSON/YAML value with JavaScript truthiness and `??`, string
  helpers and sequence lemmas.
- `linker.dfy` (`Linker`): `expandPath`, `createSymlink`, `removeSymlink`, `isOrchSymlink`,
  `listActiveLinks`.
- `manifest.dfy` (`ManifestParse`): `parseManifest` over an already parsed document, and
  `listProfileDirs`.
- `state.dfy` (`StateStore`): `loadState`, `saveState`, `setActiveProfile`, `migrateIfNeeded` and the
  directory layout under `~/.orchester`.
- `vanilla.dfy` (`Vanilla`): the detection paths, `detectConfigs`, `createVanillaSnapshot`,
  `restoreVanilla`, `hasVanilla`.
- `switcher.dfy` (`Switcher`): `expandVars`, `resolveSource`, `buildDiffPreview` and the four-phase
  `switchProfile` with its rollback.
- `detector.dfy` (`Detector`): the per-tool directory table, `normalizeToolId`, `detectRuntimes` over
  probe results, `detectExistingTools`, `readInstalledPlugins`, `scanAgentsFor` and
  `detectActiveOrchestration`.
- `registry.dfy` (`Registry`): the built-in catalogue, `discoverFiles`, the item-to-link mapping,
  `installProfile`, `installFromUrl`, the custom catalogue (`loadCustomRegistry`, `saveCustomEntry`,
  `removeCustomEntry`), `getRegistryWithStatus`, `uninstallProfile`, `isInstalled`.
- `usage.dfy` (`Usage`): the Claude Code and Codex CLI aggregations of `readClaudeUsage` and
  `readCodexUsage`.
- `i18n.dfy` (`I18n`): locale detection, the `initLocale` selection rule, `setLocale`, `getLocales`,
  `getLocaleLabel` and `t` with its fallback chain and `{key}` interpolation, with the module-level
  `currentLocale` as the field of a `Translator` class.

Operations that change the filesystem are methods on a `Disk` that are proved equal to a pure
specification function (`SymlinkCreated`, `Switched`, `Installed`, ...); the properties the code promises
are then lemmas about those functions. Loops that only compute (the usage aggregations, the search for
the last token event, candidate scoring) are methods with invariants, proved against functions whose
properties are lemmas in turn.

The home directory and working directory are an `Env` parameter; timestamps and the seven-day usage
cutoff are parameters; directory listing order (`readdirSync`) is an input sequence; the outcomes of
shell commands (`which`, `--version`, `git clone`) are inputs.

`switchProfile` takes no set of target tools and does not multiply links by tools, records
`activeTools` as `[]`, and does not treat plugin links specially; a manifest-level `installType` is
kept only when it is a non-empty string, whatever its value.

## Model

| member | source | states |
|---|---|---|
| Linker.ExpandPath | source/core/linker.ts:7-12 | `~` becomes the home directory, `~/rest` becomes home joined with `rest`, and every other path is returned unchanged |
| Linker.ExpandPathIdempotent | source/core/linker.ts:7-12 | expanding an already expanded path changes nothing (home not starting with `~`) |
| Linker.OwnedIff | source/core/linker.ts:62-63 | a link value counts as orchester's exactly when it contains `.orchester/profiles` (both spellings of the test coincide with `/` as separator) |
| Linker.IsOrchSymlinkIff | source/core/linker.ts:54-67 | `isOrchSymlink` holds exactly when lstat of the expanded target shows a symlink whose value contains `.orchester/profiles`; a missing target gives false |
| Linker.IsOrchSymlink | source/core/linker.ts:54-67 | `isOrchSymlink`; `Linker.IsOrchSymlinkIff` states exactly when it holds |
| Linker.Relink | source/core/linker.ts:26-36 | after removing whatever is at the target and creating the link, the target is a symlink to the source, nothing outside the target changed, and nothing of the old subtree survives |
| Linker.RelinkSame | source/core/linker.ts:26-36 | re-creating a link that is already in place leaves the disk as it was |
| Linker.SymlinkCreated | source/core/linker.ts:15-37 | a missing source fails with "Source does not exist" and changes nothing; success means the source existed, the target's parent was ensured and the target relinked |
| Linker.CreateSymlink | source/core/linker.ts:15-37 | the new disk and the thrown error are exactly those of `SymlinkCreated` |
| Linker.CreateSymlinkResult | source/core/linker.ts:15-37 | after success the target is a link to the expanded source, its old subtree is gone and every entry outside the target is kept unchanged |
| Linker.ParentOutside | source/core/linker.ts:24 | the parent of an absolute target is a strictly shorter path outside the target |
| Linker.CreateSymlinkParent | source/core/linker.ts:24 | after success the parent directory of the target exists as a directory |
| Linker.CreateSymlinkLeavesContext | source/core/linker.ts:19-24 | after success the source still exists and ensuring the parent again is a no-op |
| Linker.CreateSymlinkOnlyLink | source/core/linker.ts:27-36 | after success nothing but the link itself lies at or under the target |
| Linker.CreateSymlinkIdempotent | source/core/linker.ts:15-37 | calling `createSymlink` a second time with the same arguments succeeds and changes nothing |
| Linker.SymlinkRemoved | source/core/linker.ts:40-51 | only the entry at the target is removed, and only when it is a symlink; afterwards no symlink remains there; errors are swallowed |
| Linker.RemoveSymlink | source/core/linker.ts:40-51 | the new disk is exactly `SymlinkRemoved` of the old one |
| Linker.ActiveLinksExact | source/core/linker.ts:70-89 | the result lists, in target order, one `{source, target}` for exactly those targets that are orchester symlinks |
| Linker.ActiveLinksStep | source/core/linker.ts:73-86 | one loop iteration appends the link for the current target exactly when it is an orchester symlink |
| Linker.ActiveLinks | source/core/linker.ts:70-89 | `listActiveLinks`; `Linker.ActiveLinksExact` states exactly which links it lists and in what order |
| Linker.ListActiveLinks | source/core/linker.ts:70-89 | the loop returns `ActiveLinks` of the disk and targets |
| ManifestParse.LinkOf | source/core/manifest.ts:31-40 | `source` and `target` are stringified with `''` defaults; `installType`, `pluginCommand` and `pluginLabel` are present exactly when truthy in the entry |
| ManifestParse.LinksOf | source/core/manifest.ts:31-40 | maps every raw link entry, position by position, through `LinkOf` |
| ManifestParse.ParseLinks | source/core/manifest.ts:30-40 | a `null` entry throws the TypeError "Cannot read properties of null"; otherwise the result keeps, in order, the entries with non-empty source and target, each as many times as the manifest lists it, and no other entry |
| ManifestParse.FieldOr | source/core/manifest.ts:23-26 | `String(data[k] ?? dflt)`: a missing or null field gives the default, any other value its JavaScript string form |
| ManifestParse.TagsOf | source/core/manifest.ts:25 | an array `tags` is stringified item by item; anything else gives `[]` |
| ManifestParse.InstallTypeOf | source/core/manifest.ts:28 | the manifest-level `installType` is kept exactly when it is a non-empty string |
| ManifestParse.LinksField | source/core/manifest.ts:30 | a `links` field that is not an array yields no links |
| ManifestParse.ParseManifest | source/core/manifest.ts:9-43 | a missing `manifest.yaml` fails with "manifest.yaml not found"; every parsed link has non-empty source and target; success reads the document at `<dir>/manifest.yaml` |
| ManifestParse.ParseManifestFrame | source/core/manifest.ts:9-43 | the result depends only on what `<dir>/manifest.yaml` holds |
| ManifestParse.ParseOutcome | source/core/manifest.ts:17-40 | "Invalid manifest.yaml" exactly for an empty or non-object document; an object document parses exactly when its `links` array holds no `null` |
| ManifestParse.Dangling | source/core/manifest.ts:53-58 | reports a listed entry that does not exist (the stat that throws), and none exactly when every entry exists |
| ManifestParse.ListProfileDirs | source/core/manifest.ts:48-60 | a missing profiles root gives `[]` |
| ManifestParse.ListProfileDirsExact | source/core/manifest.ts:48-60 | the result is, in readdir order, root joined with exactly the entries that are directories holding a `manifest.yaml` |
| StateStore.LayoutNames | source/core/state.ts:56-66 | `profiles` and `vanilla` are direct children of `~/.orchester` |
| StateStore.LayoutDisjoint | source/core/state.ts:6-8 | the profiles and vanilla directories do not contain each other, and `state.json` lies in neither |
| StateStore.Loaded | source/core/state.ts:26-37 | a `state.json` holding an array is returned as that array; any other loaded state is an object with a truthy `activeTools`; a missing or unreadable file, or a document that is neither an object nor an array, gives the default state |
| StateStore.LoadedKeepsRecord | source/core/state.ts:28-31 | a stored record is returned field for field, except that a falsy `activeTools` becomes `[]` |
| StateStore.LoadState | source/core/state.ts:26-37 | returns `Loaded` of the disk |
| StateStore.ActiveProfile | source/core/state.ts:44-46 | `getActiveProfile()`: the `activeProfile` field of the loaded state; `StateStore.SetActiveProfileRecord` and `StateStore.SetActiveProfileOnArray` state what it reads after a switch |
| StateStore.SaveState | source/core/state.ts:39-42 | the new disk and the thrown error are exactly those of ensuring `~/.orchester` and writing the state to `state.json` |
| StateStore.SaveThenLoad | source/core/state.ts:26-42 | loading after a successful save returns the saved state (one with a truthy `activeTools`) |
| StateStore.SavedReadsBack | source/core/state.ts:39-42 | after a successful save `state.json` exists and reads back as the saved document |
| StateStore.Saved | source/core/state.ts:39-42 | `saveState`: ensure `~/.orchester`, then write the document; `StateStore.SaveThenLoad` and `StateStore.SavedReadsBack` state what it does |
| StateStore.ToolNames | source/core/state.ts:52 | the tool ids are written as their string names, in order |
| StateStore.SetActiveProfile | source/core/state.ts:48-54 | the new disk and the error are exactly those of loading, updating the three fields and saving |
| StateStore.SetActiveProfileRecord | source/core/state.ts:48-54 | when `state.json` does not hold an array, afterwards the stored state has the given profile name (or null), `lastSwitched` equal to the given time, `activeTools` equal to the given tools or `[]`, and every other field as loaded before |
| StateStore.SetActiveProfileOnArray | source/core/state.ts:48-54 | when `state.json` holds an array, the array is written back as it was: the state loads the same afterwards and names no active profile |
| StateStore.ProfileSet | source/core/state.ts:48-54 | `setActiveProfile`: load, set the three fields (an array is written back as it is), save; `StateStore.SetActiveProfileRecord` and `StateStore.SetActiveProfileOnArray` state what it does |
| StateStore.MigrateIfNeeded | source/core/state.ts:11-15 | the new disk is exactly `Migrated` of the old one |
| StateStore.MigrationMoves | source/core/state.ts:11-15 | nothing changes unless `~/.orch` exists and `~/.orchester` does not; then every entry under `~/.orch` reappears at the same place under `~/.orchester` and `~/.orch` is gone |
| StateStore.Migrated | source/core/state.ts:11-15 | `migrateIfNeeded`; `StateStore.MigrationMoves` states what it does |
| Vanilla.DetectionPaths | source/core/vanilla.ts:7-17 | four detection paths: `agents`, `skills` and `hooks` under `~/.claude`, and `CLAUDE.md` under the working directory |
| Vanilla.DetectionNames | source/core/vanilla.ts:7-17 | each detection path's basename is its snapshot slot name |
| Vanilla.ClaudeEntriesOutsideVanilla | source/core/vanilla.ts:7-17 | nothing under the three `~/.claude` paths lies inside `~/.orchester` or its vanilla directory |
| Vanilla.ClaudeOutsideOrch | source/core/vanilla.ts:8-14 | nothing under `~/.claude` lies inside `~/.orchester` |
| Vanilla.SlotNamesValid | source/core/vanilla.ts:43-44 | every slot name is a single valid path component |
| Vanilla.DetectConfigs | source/core/vanilla.ts:26-32 | four entries in detection order, each with its path and label and `exists` exactly when the path exists |
| Vanilla.CopyEntry | source/core/vanilla.ts:42-50 | a successful copy (directory copy or single file copy) keeps every existing entry and creates the destination; when the destination is not a link it holds a copy of the source: every entry at and below a directory rebased under it, or the node the file path leads to |
| Vanilla.PresentPathsIff | source/core/vanilla.ts:39 | the snapshot copies exactly the detection paths that exist |
| Vanilla.SnapshotCopies | source/core/vanilla.ts:41-51 | the copy loop leaves exactly the disk and error of `SnapshotFrom` |
| Vanilla.CreateVanillaSnapshot | source/core/vanilla.ts:35-52 | the new disk and the error are exactly those of `Snapshot` |
| Vanilla.SnapshotFromCopies | source/core/vanilla.ts:41-51 | after a successful loop every copied source has its slot in the vanilla directory and no earlier entry is lost |
| Vanilla.CopyEntryFrame | source/core/vanilla.ts:42-50 | copying into a destination that is not a symlink changes nothing outside the destination and adds only directories there |
| Vanilla.SlotsStayLinkFree | source/core/vanilla.ts:41-51 | filling one slot creates no symlink at any other slot |
| Vanilla.SnapshotStepFrame | source/core/vanilla.ts:41-51 | one loop iteration keeps everything outside the vanilla directory and creates no symlink at the remaining slots |
| Vanilla.SnapshotFromStep | source/core/vanilla.ts:41-51 | one iteration changes nothing outside the vanilla directory and leaves the remaining sources distinct, valid and link-free at their destinations |
| Vanilla.SnapshotFromFrame | source/core/vanilla.ts:41-51 | the whole copy loop changes nothing outside the vanilla directory |
| Vanilla.SlotNamesDistinct | source/core/vanilla.ts:7-17 | the four slot names are distinct |
| Vanilla.ConfigsDistinct | source/core/vanilla.ts:26-32 | the four detected configs are distinct |
| Vanilla.PresentIndex | source/core/vanilla.ts:39 | the k-th copied path is the path of some existing detection entry |
| Vanilla.PresentLabel | source/core/vanilla.ts:39-44 | the k-th copied path's basename is that entry's slot name |
| Vanilla.PresentLabels | source/core/vanilla.ts:39-44 | every copied path lands in the slot of the detection entry it came from |
| Vanilla.PresentSlots | source/core/vanilla.ts:39-44 | the copied paths' basenames are distinct slot names, so no copy overwrites another |
| Vanilla.VanillaDirShape | source/core/state.ts:64-66 | the vanilla directory has no trailing slash (looking it up uses it as it is), is longer than one character and contains a `/` |
| Vanilla.EnsureVanillaDir | source/core/vanilla.ts:37 | a successful `ensureDirSync` leaves the vanilla directory as a directory and only adds entries |
| Vanilla.SnapshotReady | source/core/vanilla.ts:36-39 | after ensuring the directory the copy loop's precondition holds |
| Vanilla.SnapshotKeepsOutside | source/core/vanilla.ts:35-52 | taking a snapshot changes nothing outside the vanilla directory |
| Vanilla.SnapshotKeepsSources | source/core/vanilla.ts:35-52 | the snapshot leaves the `~/.claude` sources it copies untouched |
| Vanilla.HasVanilla | source/core/vanilla.ts:79-82 | true exactly when the vanilla directory is a directory with at least one entry; a vanilla path that is a file makes `readdirSync` throw |
| Vanilla.SnapshotFillsSlot | source/core/vanilla.ts:35-52 | after a successful snapshot each existing detection path has its slot in the vanilla directory |
| Vanilla.SnapshotMakesVanilla | source/core/vanilla.ts:35-82 | after a successful snapshot of at least one existing path, `hasVanilla` returns true |
| Vanilla.MatchSlot | source/core/vanilla.ts:66 | an entry matches a detection path exactly when it is a slot name, and then it matches that slot's path |
| Vanilla.RestoreStep | source/core/vanilla.ts:65-75 | an entry matching no detection path is skipped |
| Vanilla.RestoreStepCopies | source/core/vanilla.ts:65-75 | a successful step keeps every entry and recreates the matching detection path; when that path is not a link it holds a copy of the slot |
| Vanilla.Restore | source/core/vanilla.ts:55-76 | without a vanilla directory nothing happens |
| Vanilla.RestoreCopies | source/core/vanilla.ts:64-76 | the restore loop leaves exactly the disk and error of `RestoreFrom` |
| Vanilla.RestoreVanilla | source/core/vanilla.ts:55-76 | the new disk and the error are exactly those of `Restore` |
| Vanilla.RestoreSkips | source/core/vanilla.ts:66-67 | entries that are not slot names have no effect on the restore |
| Vanilla.RestoreCopiesBack | source/core/vanilla.ts:64-76 | after a successful restore every matching entry's detection path exists and nothing was removed |
| Vanilla.SnapshotFromHolds | source/core/vanilla.ts:41-51 | after a copy loop that did not throw, over sources that are not links and lie apart from the vanilla directory, each source's slot holds a copy of it as the loop found it |
| Vanilla.SnapshotHolds | source/core/vanilla.ts:35-52 | after a snapshot that did not throw, the slot of each present config holds a copy of it: every entry at and below a directory rebased into the slot, or the file's node |
| Vanilla.RestoreRefusesLinkedSlot | source/core/vanilla.ts:69-71 | a snapshot directory restored onto a table path that holds a symlink makes `copySync` throw "Cannot overwrite non-directory" and leaves the disk unchanged |
| Vanilla.RestoreStepFrame | source/core/vanilla.ts:65-75 | one restore step changes nothing in the vanilla directory or in another table path and puts no link at a table path still to be restored |
| Vanilla.RestoreFromHolds | source/core/vanilla.ts:64-76 | after a restore loop that did not throw, each table path whose slot the entries name holds a copy of that slot as the loop found it |
| Vanilla.RestoreHolds | source/core/vanilla.ts:55-76 | after a `restoreVanilla` that did not throw, each table path whose slot the listing names holds a copy of that slot |
| Vanilla.SnapshotRestoreRoundTrip | source/core/vanilla.ts:35-76 | a snapshot followed by a restore, both completing, gives each present config back: every entry at and below a directory, or the same node at a file path |
| Vanilla.Snapshot | source/core/vanilla.ts:35-52 | `createVanillaSnapshot`: ensure the vanilla directory, then copy each present config into its slot; `Vanilla.SnapshotHolds` and `Vanilla.SnapshotKeepsOutside` state what it does |
| Vanilla.SnapshotFrom | source/core/vanilla.ts:41-51 | the snapshot copy loop, stopping at the first throw; `Vanilla.SnapshotFromHolds` and `Vanilla.SnapshotFromFrame` state what it does |
| Vanilla.RestoreFrom | source/core/vanilla.ts:64-76 | the restore loop over the listing, stopping at the first throw; `Vanilla.RestoreFromHolds` and `Vanilla.RestoreSkips` state what it does |
| Vanilla.RestoreOne | source/core/vanilla.ts:65-75 | one pass of the restore loop changes the disk exactly as `RestoreStep` does and throws its error |
| Switcher.ExpandVarsTilde | source/core/switcher.ts:10-15 | a leading `~` alone or before `/` becomes the home directory; any other leading text is left alone |
| Switcher.ExpandVarsHome | source/core/switcher.ts:12 | `$HOME` at the start of a path is replaced by the home directory |
| Switcher.ExpandVarsProject | source/core/switcher.ts:13 | `$PROJECT` at the start of a path is replaced by the working directory |
| Switcher.TildeAbsent | source/core/switcher.ts:14 | a path without `~` is unchanged by the tilde step |
| Switcher.ExpandVarsNoTilde | source/core/switcher.ts:10-15 | without any `~`, expansion is exactly every `$HOME` replaced, then every `$PROJECT` replaced, and leaves no `~` |
| Switcher.ExpandVars | source/core/switcher.ts:10-15 | `expandVars`: `~`, then every `$HOME`, then every `$PROJECT`; `Switcher.ExpandVarsTilde`, `Switcher.ExpandVarsHome`, `Switcher.ExpandVarsProject` and `Switcher.ExpandVarsNoTilde` state it |
| Switcher.ProfileDirPrefix | source/core/switcher.ts:17-24 | a profile's directory is `<home>/.orchester/profiles/<name>/` |
| Switcher.ResolveSourceShape | source/core/switcher.ts:22-25 | a link's source resolves to `<home>/.orchester/profiles/<name>/<source>` |
| Switcher.ResolveSourceOwned | source/core/switcher.ts:22-25 | a resolved source is always recognised as an orchester link value |
| Switcher.ResolveSource | source/core/switcher.ts:22-25 | `resolveSource`: the source joined to the profile directory; `Switcher.ResolveSourceShape` and `Switcher.ResolveSourceOwned` state it |
| Switcher.LoadProfileManifest | source/core/switcher.ts:17-20 | `loadProfileManifest`: `parseManifest` of the profile's directory; `ManifestParse.ParseOutcome` states when it throws and `Switcher.SwitchRejectsBrokenTarget` what the switch does then |
| Switcher.BuildDiffPreview | source/core/switcher.ts:28-64 | returns `DiffPreview` of the disk |
| Switcher.PushItems | source/core/switcher.ts:35-57 | the push loop appends one item of the given kind per link, in order |
| Switcher.DiffPreviewShape | source/core/switcher.ts:28-64 | the preview carries `from` and `to`, lists one `remove` per link of the old profile then one `add` per link of the new one, and is empty when neither name is set |
| Switcher.PreviewItems | source/core/switcher.ts:28-64 | the preview's `remove` items are exactly the links of the old profile and its `add` items exactly those of the new one, by source and target |
| Switcher.DiffPreview | source/core/switcher.ts:28-64 | `buildDiffPreview`: the `remove` items of `from`, then the `add` items of `to`; `Switcher.DiffPreviewShape` and `Switcher.PreviewItems` state it |
| Switcher.DiffPreviewSkipsBroken | source/core/switcher.ts:32-45 | an old profile whose manifest fails contributes nothing |
| Switcher.Deactivate | source/core/switcher.ts:80-87 | the removal loop leaves exactly the disk and count of `DeactivateFrom` |
| Switcher.DeactivateStep | source/core/switcher.ts:83-85 | removing an orchester symlink deletes exactly that one entry |
| Switcher.OnlyOwnedLinksGoneTrans | source/core/switcher.ts:80-87 | "only orchester links were removed" is preserved across steps |
| Switcher.DeactivateRemovesOwnedLinks | source/core/switcher.ts:78-91 | deactivation removes only orchester-owned symlinks and changes no other entry |
| Switcher.DeactivateCounts | source/core/switcher.ts:78-91 | `linksRemoved` equals the number of entries removed and never exceeds the number of links |
| Switcher.DeactivateRemovesListed | source/core/switcher.ts:78-91 | every entry deactivation deletes sits at the expanded target of one of the links |
| Switcher.DeactivateClears | source/core/switcher.ts:78-91 | after deactivation no target of the links holds an orchester link |
| Switcher.DeactivateFrom | source/core/switcher.ts:78-91 | the removal loop over the old profile's links; `Switcher.DeactivateRemovesOwnedLinks`, `Switcher.DeactivateRemovesListed`, `Switcher.DeactivateClears` and `Switcher.DeactivateCounts` state what it does |
| Switcher.Activate | source/core/switcher.ts:95-101 | the creation loop leaves exactly the disk and error of `ActivateFrom`, and on success counts one creation per link |
| Switcher.ActivateStepResult | source/core/switcher.ts:97-99 | each step leaves a link from the expanded target to the resolved source and changes nothing outside the target |
| Switcher.ActivatePlacesLinks | source/core/switcher.ts:94-102 | after successful activation of non-overlapping targets every link of the manifest is in place |
| Switcher.ActivateKeepsFirst | source/core/switcher.ts:96-101 | later links do not disturb a link already placed at a non-overlapping target |
| Switcher.ActivateKeeps | source/core/switcher.ts:96-101 | an entry covered by no target keeps its lstat through activation |
| Switcher.ActivateLinksOwned | source/core/switcher.ts:94-102 | every link placed by activation is recognised by `isOrchSymlink` afterwards |
| Switcher.SwitchPlacesAdds | source/core/switcher.ts:94-102 | an activation that did not throw, with non-overlapping targets, places a link at the target of each `add` item naming one of its links and leaves every entry away from all `add` targets alone |
| Switcher.ActivateFrom | source/core/switcher.ts:94-102 | the creation loop, stopping at the first throw; `Switcher.ActivatePlacesLinks`, `Switcher.ActivateKeeps` and `Switcher.ActivateLinksOwned` state what it does |
| Switcher.Failed | source/core/switcher.ts:111-126 | a failed switch reports no success, zero links created, the links removed so far and the fault's message as `Disk.Message` renders it; its disk is the one `Switcher.RolledBack` leaves |
| Switcher.Recorded | source/core/switcher.ts:102-110 | success exactly when there is no error; links created are reported only on success |
| Switcher.Engaged | source/core/switcher.ts:94-110 | success exactly when there is no error; nothing is reported created on failure or when no target profile is set |
| Switcher.Switched | source/core/switcher.ts:67-127 | success exactly when there is no error, and a failure never reports created links |
| Switcher.SwitchProfile | source/core/switcher.ts:67-127 | the new disk and the result are exactly those of `Switched` |
| Switcher.Engage | source/core/switcher.ts:94-110 | the new disk and result are exactly those of `Engaged` |
| Switcher.Record | source/core/switcher.ts:102-110 | the new disk and result are exactly those of `Recorded` |
| Switcher.RollBack | source/core/switcher.ts:111-126 | the new disk and result are exactly those of `Failed`: a restore that throws (as it does onto the old profile's links, `Vanilla.RestoreRefusesLinkedSlot`) skips recording no profile |
| Switcher.SwitchRejectsBrokenTarget | source/core/switcher.ts:73-126 | a target profile whose manifest fails is rejected before anything is deactivated; the disk is then what the rollback leaves (`Switcher.RolledBack`: the restore, and no profile recorded unless the restore itself completed), and the result reports no success, no links and that manifest's message |
| Switcher.SwitchReportsRemovals | source/core/switcher.ts:78-91 | the reported `linksRemoved` is the number of entries removed, at most the old profile's link count |
| Switcher.RecordedState | source/core/switcher.ts:102-106 | after a recorded switch on a state file that is not an array, the state file holds the profile name, the switch time and no tools |
| Switcher.EngagedRecorded | source/core/switcher.ts:94-110 | a successful phase 3 is the preparation (links or vanilla restore) followed by recording the state |
| Switcher.SwitchRecordsProfile | source/core/switcher.ts:67-110 | after a successful switch whose state file is not an array, the state file names the target profile (null for none), the switch time and no tools |
| Switcher.ManifestSurvivesDeactivation | source/core/switcher.ts:78-95 | deactivation cannot change what a profile's manifest file parses to |
| Switcher.SwitchFollowsPreview | source/core/switcher.ts:28-127 | with the target manifest a regular file, deactivation deletes only orchester links, each at the expanded target of a `remove` item, and leaves no `remove` target holding one; `linksRemoved` is at most the number of `remove` items; on success `linksCreated` is the number of `add` items, the state is recorded on the activated tree, and with non-overlapping targets every `add` target holds a link to its resolved source while every entry away from the `add` targets is as deactivation left it |
| Detector.DirsOf | source/core/detector.ts:8-15 | a tool's directory table is found exactly when the tool has a row |
| Detector.RawOf | source/core/detector.ts:8-15 | a directory kind is found exactly when the tool's row lists it |
| Detector.ToolConfigDirsCoverTools | source/core/detector.ts:8-15 | the table has one row per tool id, in the order claude, codex, gemini, cursor, antigravity, opencode |
| Detector.CursorDirsPartial | source/core/detector.ts:12 | cursor has no `agents` or `hooks` directory but has `rules` |
| Detector.OnlyClaudeHasPlugins | source/core/detector.ts:9-14 | only claude has a `plugins` directory |
| Detector.OthersHaveNoPlugins | source/core/detector.ts:10-14 | no row after claude lists `plugins` |
| Detector.DirsOfUnique | source/core/detector.ts:8-15 | with distinct tool ids, looking a row's tool up finds that row's directories |
| Detector.AliasOf | source/core/detector.ts:19-29 | a key has an alias exactly when it is one of the nine alias names |
| Detector.NormalizeToolId | source/core/detector.ts:18-31 | the lower-cased name maps through the alias table, and any other name gives `claude` |
| Detector.ToLowerPlain | source/core/detector.ts:30 | lower-casing a string without capitals changes nothing |
| Detector.NormalizeToolIdAliases | source/core/detector.ts:20-25 | `claude-code`, `codex-cli` and `gemini-cli` map to claude, codex and gemini |
| Detector.NormalizeToolIdCanonical | source/core/detector.ts:19-29 | every tool id's own name maps back to that id |
| Detector.NormalizeToolIdIgnoresCase | source/core/detector.ts:30 | names that agree after lower-casing normalise alike |
| Detector.NormalizeToolIdIdempotent | source/core/detector.ts:18-31 | normalising the name of a normalised id gives that id again |
| Detector.NormalizeToolIdAsWritten | source/core/detector.ts:30 | as written, a lower-cased name that is an `Object.prototype` member and no alias yields that inherited member instead of a tool id |
| Detector.NormalizeToolIdConstructor | source/core/detector.ts:30 | `"Constructor"` yields the inherited `constructor` as written, and `claude` in the corrected model |
| Detector.RuntimesCoverTools | source/core/detector.ts:71-120 | one runtime per tool id, in table order |
| Detector.Runtimes | source/core/detector.ts:71-120 | `detectRuntimes()` with `which` and `--version` as parameters; `Detector.RuntimesCoverTools` and `Detector.RuntimesInstalled` state it |
| Detector.RuntimesInstalled | source/core/detector.ts:71-120 | a binary on PATH means installed; a version is only probed for a binary on PATH; cursor and antigravity never have one; claude, codex and gemini are installed exactly when on PATH |
| Detector.DirOfHome | source/core/detector.ts:136-146 | `$HOME/rest/` expands to the home directory followed by `rest` without its trailing slash |
| Detector.ExpandHome | source/core/detector.ts:136-139 | `expandHome`: every `$HOME` replaced by the home directory; `Detector.DirOfHome` states the directory it gives for a table path |
| Detector.TableRelsPlain | source/core/detector.ts:8-15 | every directory in the table is a plain path under `$HOME` ending in `/` |
| Detector.ConfigDirsUnderHome | source/core/detector.ts:146 | every table directory expands to the home directory plus its suffix, without the trailing slash |
| Detector.EntriesOf | source/core/detector.ts:144-145 | one entry per directory of a tool, in table order, carrying the tool id, kind and raw path |
| Detector.FoundCell | source/core/detector.ts:146-158 | one table cell: a missing directory is skipped; an existing non-directory makes `readdirSync` throw; otherwise a tool is pushed exactly when the directory has visible entries, with their count |
| Detector.DetectExistingTools | source/core/detector.ts:141-163 | returns `Found` over the whole table |
| Detector.ScanTable | source/core/detector.ts:144-160 | the nested loops return `Found` over the flattened table |
| Detector.FoundSound | source/core/detector.ts:141-163 | every reported tool describes a table cell whose directory exists with that many visible entries |
| Detector.FoundComplete | source/core/detector.ts:141-163 | every table directory with visible entries is reported |
| Detector.FoundFails | source/core/detector.ts:141-163 | the scan throws exactly when some table path exists but is not a directory |
| Detector.Found | source/core/detector.ts:141-163 | `detectExistingTools` over the flattened table; `Detector.FoundSound`, `Detector.FoundComplete` and `Detector.FoundFails` state exactly what it reports |
| Detector.ReadInstalledPlugins | source/core/detector.ts:166-193 | returns `InstalledPlugins` of the disk |
| Detector.InstallRecordsExact | source/core/detector.ts:181-187 | a `null` install throws (the whole read gives `[]`); otherwise one record per install, in order |
| Detector.RecordsExact | source/core/detector.ts:178-188 | the loop throws exactly when some plugin's installs are broken; otherwise it yields one record per install, each named after its plugin key |
| Detector.InstalledPluginsWellFormed | source/core/detector.ts:166-193 | no plugins file gives `[]`; every plugin's name has no `@`, and version and path are never `null` |
| Detector.InstalledPlugins | source/core/detector.ts:166-193 | `readInstalledPlugins`; `Detector.InstalledPluginsWellFormed` and `Detector.RecordsExact` state what it returns |
| Detector.ScanAgentsForExact | source/core/detector.ts:196-207 | an entry is kept exactly when its lower-cased name contains one of the patterns, in readdir order |
| Detector.ScanAgentsForMissing | source/core/detector.ts:198 | a missing agents directory gives `[]` |
| Detector.ScanAgentsFor | source/core/detector.ts:196-207 | `scanAgentsFor`; `Detector.ScanAgentsForExact` and `Detector.ScanAgentsForMissing` state what it returns |
| Detector.CountFilesPositive | source/core/detector.ts:123-133 | a positive count means the directory exists and every visible entry was counted |
| Detector.CountFiles | source/core/detector.ts:123-133 | `countFiles`; `Detector.CountFilesPositive` states what a positive count means |
| Detector.Find | source/core/detector.ts:222-322 | `find` returns a plugin with one of the names, and none exactly when no plugin has one |
| Detector.Zip | source/core/detector.ts:210-328 | pairs each layer name with its evidence, position by position |
| Detector.DetectActiveOrchestration | source/core/detector.ts:210-346 | returns `Orchestration` of the disk and probes |
| Detector.ReportRest | source/core/detector.ts:331-343 | the fall-through loop returns `FallThrough` |
| Detector.ReportsFrom | source/core/detector.ts:230-328 | every reported layer comes from one of the signature checks with its evidence |
| Detector.ReportsDistinct | source/core/detector.ts:210-328 | reported layers have evidence and distinct names |
| Detector.ReportsPresent | source/core/detector.ts:230-328 | a layer is reported exactly when its evidence is non-empty |
| Detector.SignatureNamesDistinct | source/core/detector.ts:220-328 | there are six signature checks with distinct names |
| Detector.NamesDistinct | source/core/detector.ts:220-328 | bkit, omc, ecc, oh-my-codex, oh-my-opencode and wshobson-agents are distinct |
| Detector.SignaturesDistinct | source/core/detector.ts:220-328 | signature reports have evidence and distinct names |
| Detector.SignaturePresent | source/core/detector.ts:220-328 | each signature is reported exactly when it found evidence |
| Detector.EccRule | source/core/detector.ts:250-266 | ecc is reported exactly when its plugin is installed, `commands` has more than 5 files or `agents` more than 20 |
| Detector.OmxRule | source/core/detector.ts:268-295 | oh-my-codex is reported exactly when `~/.codex/.omx` exists, the binary is on PATH, config.toml mentions it, or `prompts` has at least 5 files |
| Detector.OmocRule | source/core/detector.ts:297-317 | oh-my-opencode is reported exactly when a matching opencode agent exists, the binary is on PATH, or `hooks` has at least 10 files |
| Detector.PluginRules | source/core/detector.ts:220-328 | bkit, omc and wshobson-agents are reported exactly when their plugin is installed or, for bkit and omc, a matching agent exists |
| Detector.FallThroughAppends | source/core/detector.ts:331-343 | the fall-through keeps the earlier reports as a prefix, adds only layers with evidence and keeps names distinct |
| Detector.FallThroughCovers | source/core/detector.ts:331-343 | afterwards every installed plugin has a layer of its name |
| Detector.FallThrough | source/core/detector.ts:331-343 | the plugin fall-through loop; `Detector.FallThroughAppends` and `Detector.FallThroughCovers` state what it does |
| Detector.OrchestrationReports | source/core/detector.ts:210-346 | the signature reports come first, every installed plugin is covered, every layer has evidence and names are distinct |
| Detector.Orchestration | source/core/detector.ts:210-346 | `detectActiveOrchestration`; `Detector.OrchestrationReports` states what it reports |
| Registry.BuiltInsConsistent | source/core/registry.ts:13-125 | each built-in entry's manifest repeats its name, description and tags, its profile directory is its name, and every link is a plain link |
| Registry.BuiltInNamesDistinct | source/core/registry.ts:13-125 | the six built-in entries have distinct names |
| Registry.LinkValues | source/core/registry.ts:258-267 | each link is dumped as a `{source, target}` object, in order |
| Registry.LinkValueReads | source/core/registry.ts:258-269 | a plain link written to the manifest parses back to itself |
| Registry.ManifestValueFields | source/core/registry.ts:258-264 | the written manifest has the entry's name, description, tags and tool, the given links and no `installType` |
| Registry.LinksRead | source/core/registry.ts:258-269 | written links with non-empty source and target parse back unchanged |
| Registry.ManifestValueReads | source/core/registry.ts:258-269 | the manifest document written on install parses back to the same manifest |
| Registry.FieldsRead | source/core/registry.ts:258-269 | a document carrying exactly those fields parses to that manifest |
| Registry.FieldGiven | source/core/registry.ts:258-269 | a string field reads back as itself |
| Registry.TagsRead | source/core/registry.ts:261 | written string tags read back unchanged |
| Registry.NameIs | source/core/registry.ts:307-326 | reading `name` of a `null` entry throws; otherwise the test is true exactly when the name is that string |
| Registry.FindByName | source/core/registry.ts:307 | `findIndex` gives the first entry with the name; it throws exactly when a `null` entry comes before any match; no index exactly when no entry matches |
| Registry.FindFrom | source/core/registry.ts:307 | the walk from any index on stops at the first entry from there that carries the name, past entries that are neither `null` nor named |
| Registry.FindFromFails | source/core/registry.ts:307 | the walk from any index throws exactly when a `null` entry comes before any entry with the name |
| Registry.FindFromNone | source/core/registry.ts:307 | the walk from any index finds nothing exactly when no later entry is `null` or carries the name |
| Registry.WithoutName | source/core/registry.ts:319 | `filter` throws exactly when an entry is `null`; otherwise it keeps, in order, exactly the entries not named `n` |
| Registry.LoadCustom | source/core/registry.ts:294-302 | a missing file gives `[]`; a non-empty result is exactly the stored array |
| Registry.UpsertPlaces | source/core/registry.ts:305-312 | the first entry with the same name is replaced in place; with none, the entry is appended |
| Registry.UpsertFails | source/core/registry.ts:307 | the update throws exactly when a `null` entry precedes any match |
| Registry.Upsert | source/core/registry.ts:305-312 | the `findIndex`/replace-or-push update; `Registry.UpsertPlaces`, `Registry.UpsertFails` and `Registry.UpsertContains` state what it does |
| Registry.SaveCustomEntry | source/core/registry.ts:305-315 | the new disk and error are exactly those of `Saved` |
| Registry.WrittenCatalogueLoads | source/core/registry.ts:294-314 | a written catalogue loads back unchanged |
| Registry.SaveThenLoad | source/core/registry.ts:294-315 | after a successful save, loading gives the old catalogue with the entry replaced or appended |
| Registry.RemoveCustomEntry | source/core/registry.ts:318-321 | the new disk and error are exactly those of `RemovedCustom` |
| Registry.RemoveThenLoad | source/core/registry.ts:318-321 | after removal the catalogue keeps, in order, exactly the entries with another name |
| Registry.RemovedCustom | source/core/registry.ts:318-321 | `removeCustomEntry`: the filtered catalogue written back; `Registry.RemoveThenLoad` states what it leaves |
| Registry.UninstallProfile | source/core/registry.ts:324-339 | the new disk, error and the two flags are exactly those of `Uninstall` |
| Registry.UninstallReports | source/core/registry.ts:324-339 | `removed` is true exactly when the profile directory existed; `wasCustom` exactly when the catalogue had the name, and then the name is gone from it |
| Registry.Uninstall | source/core/registry.ts:324-339 | `uninstallProfile`; `Registry.UninstallReports` states its two flags and what it removes |
| Registry.AnyNamedExact | source/core/registry.ts:326 | `some` is true exactly when an entry has the name |
| Registry.Flag | source/core/registry.ts:282-286 | each listed entry carries `installed` (its manifest exists) and `custom` (the custom catalogue has its name) |
| Registry.IsInstalled | source/core/registry.ts:128-131 | `isInstalled(name)`: the profile's `manifest.yaml` exists; `Registry.StatusOfExact` and `Registry.ListingOrder` state the flag it gives each listed entry |
| Registry.StatusOfFails | source/core/registry.ts:279-287 | the listing fails exactly when some entry has no readable name |
| Registry.StatusOfExact | source/core/registry.ts:279-287 | otherwise the listing flags every entry, in order |
| Registry.EntryValues | source/core/registry.ts:281 | built-in entries are listed as their JSON values, in order |
| Registry.EntryValueName | source/core/registry.ts:281 | an entry's JSON value carries its name |
| Registry.ListingFails | source/core/registry.ts:279-287 | the listing fails exactly when a custom entry is `null` or has no name |
| Registry.ListingOrder | source/core/registry.ts:279-287 | the built-ins come first, each with its installed flag, followed by the custom entries, each flagged custom |
| Registry.WithStatus | source/core/registry.ts:279-287 | `getRegistryWithStatus()` over the built-in catalogue and the custom one; `Registry.ListingFails` and `Registry.ListingOrder` state it |
| Registry.KnownItemsDistinct | source/core/registry.ts:141-142 | the nine searched names are distinct |
| Registry.PresentExact | source/core/registry.ts:177-182 | the found items are, in order, exactly the known directories and rule files that exist in the chosen directory |
| Registry.JoinAll | source/core/registry.ts:148 | package names are joined onto `packages/` in readdir order |
| Registry.BestFirstMax | source/core/registry.ts:158-174 | the chosen candidate has the highest score, and among equal scores the first; the root wins unless some candidate scores above 0 |
| Registry.CountIn | source/core/registry.ts:164-169 | the count is the number of names present |
| Registry.CollectIn | source/core/registry.ts:177-182 | the loop appends the present names in order |
| Registry.BestStep | source/core/registry.ts:170-173 | one loop iteration replaces the best only on a strictly higher count |
| Registry.ScoreSplit | source/core/registry.ts:162-169 | a candidate scores the number of present directories plus rule files, and 0 if it is not a directory |
| Registry.ListCandidates | source/core/registry.ts:145-155 | candidates are the root, then `packages/*` in readdir order, then the existing `src`, `.claude` and `config` |
| Registry.CountPresent | source/core/registry.ts:162-169 | returns the candidate's score |
| Registry.ChooseCandidate | source/core/registry.ts:158-174 | returns the best-scoring candidate |
| Registry.DiscoverFiles | source/core/registry.ts:137-185 | returns `Discover` of the disk |
| Registry.DiscoverFails | source/core/registry.ts:145-150 | discovery throws exactly when `packages` exists and is not a directory |
| Registry.DiscoverChoosesBest | source/core/registry.ts:137-185 | otherwise the root is the first candidate, the chosen directory is the first candidate of greatest score (the root when nothing scores), and the found items are exactly the known items present there, in the fixed order |
| Registry.Candidates | source/core/registry.ts:145-155 | the candidate directories: the root, the `packages` entries in listing order, then whichever of `src`, `.claude` and `config` exist; `Registry.DiscoverFails` and `Registry.DiscoverChoosesBest` state what discovery does with them |
| Registry.Discover | source/core/registry.ts:137-185 | `discoverFiles`; `Registry.DiscoverFails` and `Registry.DiscoverChoosesBest` state it |
| Registry.TargetMapKinds | source/core/registry.ts:237-244 | the target map covers exactly the six searched directories, each mapped to `$HOME/.claude/<kind>/` |
| Registry.ItemLink | source/core/registry.ts:234-253 | a link, when produced, is plain and its source starts with `files/<item>` |
| Registry.ItemLinks | source/core/registry.ts:234-253 | directories link to `$HOME/.claude/<kind>/`, `CLAUDE.md` as a file links to `$PROJECT/CLAUDE.md`, and nothing else links |
| Registry.CopyItemsLast | source/core/registry.ts:230-254 | the copy loop stops at the first error and otherwise takes one more step |
| Registry.CopyItemsHalts | source/core/registry.ts:230-254 | after an error, later items change nothing |
| Registry.CopyItems | source/core/registry.ts:230-254 | the item copy loop, stopping at the first throw; `Registry.CopyItemsLast`, `Registry.CopyItemsHalts` and `Registry.StagedLinks` state what it does |
| Registry.StagedLinks | source/core/registry.ts:230-254 | copying the items present in a directory records at most one link per item, each a plain link, and every item is a known one |
| Registry.CopyStepLinks | source/core/registry.ts:230-254 | each step adds at most one plain link for its item |
| Registry.CopiedLinks | source/core/registry.ts:228-254 | the loop yields at most one plain link per item, each sourced from one of the items |
| Registry.CopyFound | source/core/registry.ts:228-254 | the new disk, error and links are exactly those of `CopyItems` |
| Registry.StageFound | source/core/registry.ts:203-254 | a successful staging found at least one known item and yields at most one plain link per item |
| Registry.StageEmpty | source/core/registry.ts:216-220 | a clone with nothing to discover fails with "No agents/skills/hooks found" |
| Registry.PopulateFound | source/core/registry.ts:214-254 | after the clone, a staging that did not throw found at least one known item and recorded at most one plain link per item |
| Registry.Stage | source/core/registry.ts:203-254 | the staging steps of `installProfile`; `Registry.StageFound` and `Registry.StageEmpty` state what they do |
| Registry.Installed | source/core/registry.ts:194-276 | the temporary clone is always removed, and the error is that of the install steps |
| Registry.InstallReadsBack | source/core/registry.ts:256-269 | after a successful install the profile's `manifest.yaml` exists and parses to the entry's manifest with the discovered links (or the entry's own when none) |
| Registry.InstallWritten | source/core/registry.ts:203-270 | `installProfile` up to its `finally`: stage, then write `manifest.yaml`; `Registry.InstallReadsBack` states what it writes |
| Registry.BuiltInInstall | source/core/registry.ts:194-276 | after installing a built-in entry it counts as installed and its manifest parses back |
| Registry.InstallSurvivesCleanup | source/core/registry.ts:272-275 | removing the temporary clone does not change the installed manifest |
| Registry.StageProfile | source/core/registry.ts:203-254 | the new disk, items, links and error are exactly those of `Stage` |
| Registry.InstallProfile | source/core/registry.ts:194-276 | the new disk and error are exactly those of `Installed` |
| Registry.UrlName | source/core/registry.ts:350 | the name taken from a URL is never empty and contains no `/` |
| Registry.NoGitSuffix | source/core/registry.ts:350 | a slash followed by a name without `.git` does not end in `.git` |
| Registry.UrlNameOf | source/core/registry.ts:350 | `<base>/<n>` and `<base>/<n>.git` give `n`, and a trailing slash gives `custom` |
| Registry.UrlEntryTags | source/core/registry.ts:408-423 | the entry's name, profile directory and manifest name are the URL name; its tags are `custom` followed by the found agents, skills, hooks, plugins and commands, in order; its description ends in " (custom)" |
| Registry.UrlEntry | source/core/registry.ts:408-423 | the catalogue entry built from a URL; `Registry.UrlEntryTags` states its fields |
| Registry.UrlWritten | source/core/registry.ts:356-443 | an entry is returned exactly when nothing failed |
| Registry.InstalledFromUrl | source/core/registry.ts:345-447 | the temporary clone is always removed, and an entry is returned exactly when nothing failed |
| Registry.UpsertContains | source/core/registry.ts:305-312 | after a successful update the catalogue contains the entry |
| Registry.SavedContains | source/core/registry.ts:305-315 | after a successful save the stored catalogue contains the entry |
| Registry.Saved | source/core/registry.ts:305-315 | `saveCustomEntry`: the updated catalogue written under `~/.orchester`; `Registry.SavedContains` states what it leaves |
| Registry.UrlInstallSaves | source/core/registry.ts:407-443 | a URL install that succeeds returns the entry named after the URL and leaves it in the custom catalogue |
| Registry.InstallFromUrl | source/core/registry.ts:345-447 | the new disk, error and returned entry are exactly those of `InstalledFromUrl` |
| Usage.FindDate | source/core/usage.ts:124 | finds the first day with the given date, or reports that no day has it |
| Usage.InsertDescending | source/core/usage.ts:133 | inserting a day at the first place whose date is smaller keeps the days in descending date order |
| Usage.InsertByDate | source/core/usage.ts:133 | inserting into a descending list keeps it descending and adds exactly that day |
| Usage.SortByDateDesc | source/core/usage.ts:133 | the sorted days are in descending date order and are a permutation of the input |
| Usage.ModelsExact | source/core/usage.ts:87-96 | with distinct model keys, `models` has exactly one entry per key, holding that model's input and output with missing fields as 0 |
| Usage.SumModelUsage | source/core/usage.ts:86-98 | the loop yields the sums of input, output and cache (read plus creation) tokens over all models, with missing fields as 0, and the per-model map |
| Usage.DaysIndex | source/core/usage.ts:108-113 | each kept activity becomes one day with its date, zero tokens and its message and session counts |
| Usage.RecentExact | source/core/usage.ts:105-118 | every day kept is on or after the cutoff, has zero tokens and comes from an activity; every activity on or after the cutoff is kept |
| Usage.CollectActivity | source/core/usage.ts:105-118 | the loop yields exactly the recent days, and messages and sessions summed over those days only |
| Usage.FillOneStep | source/core/usage.ts:121-129 | one model-token record fills the first day of its date, when that date is on or after the cutoff, and changes nothing else |
| Usage.FilledExact | source/core/usage.ts:120-130 | after all records, the first day of each date carries the total of the last matching record on or after the cutoff; every other day is unchanged |
| Usage.FillTokens | source/core/usage.ts:120-130 | the loop returns `Filled` |
| Usage.ReadClaudeUsage | source/core/usage.ts:58-139 | a missing stats file gives an unavailable all-zero usage with note "stats-cache.json not found"; an unparsable one gives the note "Failed to parse stats-cache.json"; otherwise the token sums with total = input + output, the per-model map, the recent days with their message and session sums, sorted descending |
| Usage.ClaudeDaily | source/core/usage.ts:101-133 | every reported day is on or after the cutoff, matches an activity's date and counts, and has non-zero tokens only from the last matching model-token record |
| Usage.PadDigits | source/core/usage.ts:197 | padding a one- or two-digit string gives two digits ending in the original |
| Usage.DateLayout | source/core/usage.ts:197 | `y-p-q` with a 4-character year and 2-character parts has the `YYYY-MM-DD` layout |
| Usage.DateStrShape | source/core/usage.ts:182-197 | the date of a listed session file is `YYYY-MM-DD` with zero-padded month and day |
| Usage.LastTokensIsLast | source/core/usage.ts:231-245 | the backward search finds the cumulative usage of the last `token_count` event, and none exactly when the file has none |
| Usage.FindLastTokens | source/core/usage.ts:231-245 | the backward loop returns `LastTokens` |
| Usage.CountUserMessages | source/core/usage.ts:207-228 | the loop counts exactly the `user_message` events; malformed lines are skipped |
| Usage.DayStep | source/core/usage.ts:247-262 | one more file adds its input plus output tokens, and one session, to its own date only, and only when it has a token event |
| Usage.TallySkip | source/core/usage.ts:247 | a file without a token event leaves the daily map correct |
| Usage.AppendCounts | source/core/usage.ts:256-261 | a new date entry starts from the file's tokens and one session |
| Usage.AppendUntallied | source/core/usage.ts:256-261 | a new date entry adds no date without tokens |
| Usage.TallyNew | source/core/usage.ts:256-261 | adding a file with a new date keeps the daily map correct |
| Usage.BumpCounts | source/core/usage.ts:259-261 | adding to an existing date keeps every date's counts correct |
| Usage.BumpUntallied | source/core/usage.ts:259-261 | adding to an existing date introduces no new date |
| Usage.TallyOld | source/core/usage.ts:256-261 | adding a file with a known date keeps the daily map correct |
| Usage.DailyMapExact | source/core/usage.ts:256-261 | the daily map has one entry per date that has a session with tokens, with dates distinct, tokens summed over that date's files and sessions counting them |
| Usage.CountFile | source/core/usage.ts:200-262 | processing one more file keeps the totals equal to the sums over all files processed |
| Usage.WalkSessions | source/core/usage.ts:182-269 | the walk's totals are the sums over all listed session files |
| Usage.ReadCodexUsage | source/core/usage.ts:154-287 | no sessions directory gives an unavailable all-zero usage with note "No sessions directory"; otherwise sessions count every `.jsonl` file, messages every user message, tokens the last token event per file (output plus reasoning), total = input + output, days on or after the cutoff sorted descending, and one `gpt-5-codex` model entry |
| Usage.CodexDaily | source/core/usage.ts:256-278 | every reported day is on or after the cutoff, with that date's summed tokens and session count and zero messages |
| I18n.LocalesLabelled | source/core/i18n.ts:490-503 | the four locales are distinct, `en` comes first, and each has a distinct non-empty label |
| I18n.Locales | source/core/i18n.ts:489-491 | `getLocales()`; `I18n.LocalesLabelled` states that it lists four distinct locales, `en` first |
| I18n.LocaleLabel | source/core/i18n.ts:494-503 | `getLocaleLabel(locale)`; `I18n.LocalesLabelled` states that every label is non-empty and no two are equal |
| I18n.DetectSystemLocale | source/core/i18n.ts:442-449 | the result is a supported locale; `ko`, `ja` or `zh` exactly when the lower-cased setting starts with it; otherwise `en` |
| I18n.LocaleSettingOrder | source/core/i18n.ts:443 | the setting is the first non-empty of `LANG`, `LC_ALL` and `LC_MESSAGES`, else empty |
| I18n.InheritedLocaleAccepted | source/core/i18n.ts:456-457 | as written, a saved locale `"toString"` passes the `in messages` test and becomes the current locale although it is no locale |
| I18n.ArrayLocaleAccepted | source/core/i18n.ts:456-457 | as written, a saved locale `["ko"]` passes the `in messages` test as the key `"ko"`: the array becomes the current locale and `t` reads the Korean table through it, while the corrected rule falls back to detection |
| I18n.SavedValue | source/core/i18n.ts:454-456 | the value read is `config.locale` of the document, and only a truthy one |
| I18n.SavedLocale | source/core/i18n.ts:454-456 | a saved locale is a non-empty string exactly when the truthy `config.locale` is a string |
| I18n.SelectLocaleAsWritten | source/core/i18n.ts:452-466 | the current locale is either the detected one, or the truthy saved value itself (string or not) whose `String()` is a table key or an inherited name; such a saved value is always taken, and a saved string naming a table is taken as that string |
| I18n.SelectLocale | source/core/i18n.ts:452-466 | a saved locale that is one of the four is used; anything else (no file, unreadable file, missing or unknown locale) falls back to detection |
| I18n.SelectLocaleAgrees | source/core/i18n.ts:452-466 | the corrected rule agrees with the code as written whenever the saved value is absent, is a string that is no `Object.prototype` member, or converts to no table key and no inherited name |
| I18n.ConfigWithLocaleKeeps | source/core/i18n.ts:473-478 | writing the locale into an existing config object sets `locale` and keeps every other field |
| I18n.ConfigWithLocale | source/core/i18n.ts:473-478 | the document `setLocale` writes; `I18n.ConfigWithLocaleKeeps` states it |
| I18n.Translate | source/core/i18n.ts:507 | the current locale's message, else the English one, else the key itself |
| I18n.TranslateMissing | source/core/i18n.ts:507 | a key missing from both tables comes back as itself |
| I18n.Placeholder | source/core/i18n.ts:510 | a placeholder is non-empty and starts with `{` |
| I18n.InterpolatedPlain | source/core/i18n.ts:508-513 | a message without `{` is unchanged whatever the params |
| I18n.ReplaceAllAfter | source/core/i18n.ts:510 | text before the first character of the placeholder is left alone |
| I18n.InterpolatedOne | source/core/i18n.ts:508-513 | one `{name}` placeholder is replaced by its value and the surrounding text kept |
| I18n.Interpolated | source/core/i18n.ts:508-513 | the placeholder replacement of `t`; `I18n.InterpolatedPlain` and `I18n.InterpolatedOne` state it |
| I18n.Translator.constructor | source/core/i18n.ts:439 | the translator starts in `en` |
| I18n.Translator.InitLocale | source/core/i18n.ts:452-466 | the current locale becomes `SelectLocale` of the config and environment, and is returned |
| I18n.Translator.SetLocale | source/core/i18n.ts:469-482 | the current locale becomes the given one whatever happens to the config; the config written is `ConfigWithLocale` |
| I18n.Translator.Locale | source/core/i18n.ts:485-487 | the current locale is always one of the four |
| I18n.Translator.T | source/core/i18n.ts:506-514 | the message is the translation in the current locale with every param interpolated in order |
| Disk.Stat | source/core/linker.ts:19 | `existsSync`/`statSync` never report a symlink itself: an entry that is no link is reported as it is, and a missing entry as nothing |
| Disk.ReadFile | source/core/manifest.ts:16 | reading succeeds exactly when the path resolves to a file |
| Disk.EnsureDir | source/core/linker.ts:24 | `ensureDirSync` only adds directories, keeps every entry, leaves the path a directory and changes nothing when it already is one |
| Disk.EnsureDirSettled | source/core/linker.ts:24 | ensuring a directory twice is the same as once |
| Disk.RemoveTree | source/core/linker.ts:30 | `removeSync` removes exactly the path and everything under it |
| Disk.Unlink | source/core/linker.ts:46 | `unlinkSync` removes exactly the one entry |
| Disk.Move | source/core/state.ts:13 | `moveSync` relocates every entry under the source to the destination and keeps everything elsewhere |
| Disk.CopyTree | source/core/vanilla.ts:47 | `copySync` of a directory adds every source entry under the destination, keeps every entry outside it and adds nothing elsewhere |
| Disk.CopyFile | source/core/vanilla.ts:49 | a successful `copyFileSync` keeps every entry and the destination reads as the source's document; when the destination is not a link, its node is the one the source path leads to |
| Disk.CopyPath | source/core/vanilla.ts:71 | `copySync` first compares what `lstat` finds at both ends: a directory onto an existing non-directory (a link included), or a non-directory onto a directory, throws the matching "Cannot overwrite ..." error and changes nothing; a successful copy keeps every entry, creates the destination and holds every entry at and below the source, rebased under it |
| Disk.Lstat | source/core/linker.ts:58 | `lstatSync`: the node stored at the path with its trailing slashes dropped, with no link followed, or nothing when the path is absent; `Linker.IsOrchSymlinkIff` and `Switcher.ActivateKeeps` state what the core reads through it |
| Disk.WriteFile | source/core/state.ts:41 | a write succeeds exactly when the parent directory exists and the destination is no directory, and then it stores the document |
| Disk.WriteThenRead | source/core/state.ts:41 | a written document reads back unchanged |
| Text.ToLower | source/core/detector.ts:30 | `toLowerCase` on ASCII: same length, each capital letter lowered, every other character kept |
| Text.ToLowerIdempotent | source/core/detector.ts:30 | lower-casing twice is lower-casing once |
| Text.PadStart2 | source/core/usage.ts:197 | `padStart(2, '0')`: strings of length 2 or more are kept; shorter ones get leading zeros to length 2 |
| Text.ReplaceAllFirst | source/core/i18n.ts:510 | a global replace substitutes the first occurrence and continues after it |
| Text.ReplaceAllAbsent | source/core/i18n.ts:510 | replacing a pattern that does not occur changes nothing |
| Text.LessTotal | source/core/usage.ts:133 | code-point order on dates is total |
| Text.LessTransitive | source/core/usage.ts:133 | code-point order on dates is transitive |
| Values.Coalesce | source/core/manifest.ts:23 | `x ?? d` is `x` unless it is missing or `null`, and then `d` |
| Values.SetMember | source/core/i18n.ts:477 | setting a property makes it read back the new value and appends it when absent |
| Values.SetMemberOther | source/core/i18n.ts:477 | setting one property leaves every other property unchanged |

## Left out

- User interface, theme colours, menus and the splash screen: `source/core/theme.ts` holds only colour constants.
- Shell commands (`which`, `<tool> --version`, `git clone`): their results are parameters (`which`, `version`, `clone`); the version-string regex is not modelled.
- Parsing of YAML and JSON text: documents start as a parsed `Value`; `yaml.dump`/`yaml.load` and `writeJsonSync`/`readJsonSync` round trips are the identity on `Value`, and a file that does not parse is its own document kind.
- The clock: `new Date().toISOString()` in `setActiveProfile` and the seven-day cutoffs are parameters; the temporary directory name built from `Date.now()` is a parameter.
- `onProgress` callbacks of the installers: they only report text.
- Path semantics of the operating system: paths are `/`-separated strings, trailing slashes are dropped when a path is looked up, and `path.join` does not resolve `..` or `.`; lstat of a path with a trailing slash behaves as without it.
- `existsSync`/`statSync` follow one level of symlink; chains of symlinks are not modelled.
- Symlinks inside a path or at a listed directory: Node follows a link at any component of a path, and `readdirSync` of a link to a directory lists the target's entries. The model follows a link only at the last component (`Disk.Stat`) and lists only the entries stored under the path itself (`Disk.ChildNames`). While a profile is active its links sit at `~/.claude/agents` and the like. Such a directory lists as empty in the model, and no file below it exists or reads. The lines below name the members whose contracts are stated under this reading.
- Disk.Stat: a path whose earlier component is a symlink does not resolve; `statSync` and `existsSync` would find the entry through the link.
- Disk.Lstat: the same; `lstatSync` also follows links in every component except the last.
- Disk.ReadFile: a file below a linked directory does not read; `readFileSync` would read it through the link.
- Disk.ChildNames: a link to a directory has no entries; `readdirSync` lists its target. This listing also feeds `ManifestParse.ListProfileDirs`, `Registry.Candidates`, `Vanilla.HasVanilla` and `Vanilla.Restore`, which therefore see a linked profiles root, repository directory or vanilla directory as empty.
- Detector.Found: a tool directory that is a link to a directory counts as having no visible entries, so it is not reported; the source reports it with its target's entry count.
- Detector.FoundCell: the same for one cell of the table.
- Detector.FoundSound: the counts it states are those of the entries stored under the directory itself, not through a link.
- Detector.FoundComplete: a directory whose entries are reachable only through a link is not counted as having visible entries.
- Detector.DetectExistingTools: returns `Detector.Found`, with the same gap.
- Detector.ScanTable: the same as `Detector.DetectExistingTools`.
- Detector.CountFiles: a directory that is a link, or one below a linked directory, counts 0; the source counts its target's entries.
- Detector.CountFilesPositive: states the count of entries stored under the directory itself.
- Detector.InstalledPlugins: under a linked `~/.claude/plugins`, `installed_plugins.json` does not read and the result is `[]`.
- Detector.ReadInstalledPlugins: returns `Detector.InstalledPlugins`, with the same gap.
- Detector.InstalledPluginsWellFormed: "no plugins file" includes one that is only reachable through a linked directory.
- Detector.Orchestration: the plugin, file-count and directory evidence is read with the gaps of `Detector.InstalledPlugins`, `Detector.CountFiles` and `Disk.Stat`; a linked `~/.claude/commands` or `~/.claude/agents` contributes no files.
- Detector.DetectActiveOrchestration: returns `Detector.Orchestration`, with the same gaps.
- Detector.EccRule: the `commands` and `agents` counts are those of `Detector.CountFiles`, 0 when those directories are links.
- Detector.OmxRule: the `prompts` count and the `~/.codex/.omx` test have the gaps of `Detector.CountFiles` and `Disk.Stat`.
- Detector.OmocRule: the `hooks` count has the gap of `Detector.CountFiles`.
- Detector.PluginRules: the installed plugins are those of `Detector.InstalledPlugins`.
- Detector.OrchestrationReports: the reports are stated over the evidence as the model reads it, with the gaps above.
- Switcher.SwitchRejectsBrokenTarget: what the rollback leaves on disk (restored entries before a throw, or the state file naming no profile) is given by `Switcher.RolledBack`, not spelled out.
- Disk.Message: the texts for `Malformed` (a file that does not parse) and `Io` (an errno code and a path) are placeholders. The real messages are js-yaml's or `JSON.parse`'s parse error and Node's "<code>: <description>, <syscall> '<path>'", which the model does not reproduce. `Switcher.Failed` and `Switcher.SwitchRejectsBrokenTarget` carry these texts into `SwitchResult.error`; the other faults carry the texts that the source, fs-extra or the JavaScript engine produce.
- The JavaScript replacement-string patterns (`$&`, `$1`, ...) in `expandVars` and `expandHome`: lemmas about expansion assume no `$` in the home and working directories.
- Integer-like keys in `Object.entries` of `installed_plugins.json` (which JavaScript visits first) are not reordered.
- `formatTokens` and `miniBar`: floating-point formatting for display.
- The OpenCode, Gemini CLI, Antigravity and Cursor usage readers and `getAllUsage`: outside the aggregation logic this model covers (the last three return constant records).
- Usage inputs are records already parsed from `stats-cache.json` and the session `.jsonl` lines; a record of the wrong shape, which would throw halfway through a loop and leave partial sums behind, is not modelled.
- `readCodexUsage`: the year/month/day directory walk is given as one sequence of session files in walk order, with the name filters (`^\d{4}$`, `^\d{1,2}$`, `.jsonl`) applied by the model; an entry that fails `statSync` and the outer "Failed to read sessions" error are not modelled.
- Usage.SortByDateDesc: does not state that the sort is stable, and dates are compared in code-point order rather than by `localeCompare`; for `YYYY-MM-DD` strings both orders agree.
- Usage.ReadClaudeUsage: model keys of `modelUsage` are taken as distinct, as object keys are; token counts are unbounded integers with no floating-point rounding.
- `detectSystemLocale` lower-cases ASCII letters only; `toLowerCase` on other scripts is not modelled.
- The contents of the message tables: `messages` is an abstract map with exactly the four locales as keys; message keys are assumed not to be `Object.prototype` member names.
- `t`: each parameter name is matched literally as `{name}`; regular-expression metacharacters in a parameter name and `$` patterns in a value are not modelled.
- `config.json` I/O in `initLocale` and `setLocale`: the read is an input (`ConfigRead`) and the write is returned as the document to store; failures of `ensureDirSync`/`writeJsonSync` are swallowed by the code and are not modelled.
- StateStore.Loaded: a `state.json` holding an array is returned as the array itself; the non-index properties `loadState` sets on it in memory (`activeTools`) are not represented, and `writeJsonSync` drops them.
- Disk.CopyPath: of fs-extra's checks before a copy, only the kind comparison of the two ends is modelled; the "Source and destination must not be the same" and "Cannot copy ... to a subdirectory of itself" errors are not, and the copy is computed on the tree even in those cases.
- Disk.CopyFile: the destination's node is stated only when the destination is not a link; through a link the document is written to the path the link holds, as `copyFileSync` does, and the contract then states only that the destination reads as the source's document.
- Vanilla.SnapshotFromCopies: states that each slot exists; what each slot holds is stated by `Vanilla.SnapshotFromHolds`, for sources that are not links and lie apart from the vanilla directory.
- Vanilla.SnapshotFillsSlot: states that each slot exists; its contents are stated by `Vanilla.SnapshotHolds`.
- Vanilla.RestoreCopiesBack: states that each restored path exists; its contents are stated by `Vanilla.RestoreHolds`, and the snapshot-then-restore round trip by `Vanilla.SnapshotRestoreRoundTrip`.
- Vanilla.SnapshotHolds: proved when the four table paths are not links, the project's `CLAUDE.md` lies apart from `~/.claude` and `~/.orchester`, and no slot is a link; when a table path is a link (as it is while a profile is active) the snapshot holds the link itself, as `copySync` copies it, rather than a copy of what it leads to, and the statement is not made.
- Vanilla.RestoreHolds: proved under the same premises as `Vanilla.SnapshotHolds`, with a listing that does not repeat a name and slots that are not links.
- Vanilla.SnapshotRestoreRoundTrip: proved under the premises of `Vanilla.SnapshotHolds`, with the vanilla directory absent or a directory; a config that was a link, or a project `CLAUDE.md` inside `~/.claude`, is outside the statement.
- Switcher.SwitchFollowsPreview: the placed links and the untouched entries are stated on the activated tree, before `setActiveProfile` writes `state.json`, and only when no later link of the target profile is placed at or above an earlier one.
- Detector.Probe: the text of `~/.codex/config.toml` and the `readdirSync` listings of the claude and opencode agents directories, which `detectActiveOrchestration` reads itself (source/core/detector.ts:268-295), are inputs of the probe: the model does not tie them to the files in the disk tree. The `which` results are inputs as well.

## Findings

| source | as written | input that shows it | evidently intended | confidence | as-written member | corrected member |
|---|---|---|---|---|---|---|
| source/core/detector.ts:30 | `map[tool.toLowerCase()] ?? 'claude'` looks the name up in an object literal, which also finds inherited `Object.prototype` members | `normalizeToolId("Constructor")` returns the `Object` constructor function instead of a tool id | every name outside the alias table gives `claude` | not executed | Detector.NormalizeToolIdAsWritten, Detector.NormalizeToolIdConstructor | Detector.NormalizeToolId |
| source/core/i18n.ts:456-457 | `config.locale in messages` converts the saved value to a property key, so it also accepts inherited property names and non-string values whose `String()` is a locale | a `config.json` of `{"locale": "toString"}` sets the current locale to `"toString"`, which is none of `en`, `ko`, `ja`, `zh`; `{"locale": ["ko"]}` sets it to the array `["ko"]` | only the four locale strings are accepted; anything else falls back to the detected locale | not executed | I18n.InheritedLocaleAccepted, I18n.ArrayLocaleAccepted | I18n.SelectLocale |

=== FILE: detector.dfy ===
/**
 * What is already on the system: tool-id normalisation, the per-tool
 * directory table, the scan of those directories, the installed Claude
 * plugins and the evidence rules that name the active orchestration layers.
 */
module Detector {
  import opened Wrappers
  import opened Text
  import opened Values
  import opened Disk
  import opened Types
  import opened Seqs

  // ------------------------------------------------------------ the table

  /** One kind of configuration directory. Every path of the table is
      `$HOME` followed by `rel`; `raw` is the path as the table spells it. */
  datatype ConfigDir = ConfigDir(kind: string, rel: string) {
    function raw(): string {
      "$HOME" + rel
    }
  }

  /** The directories of one tool, in the order the table lists them. */
  datatype ToolDirs = ToolDirs(toolId: string, dirs: seq<ConfigDir>)

  const ClaudeDirs: seq<ConfigDir> := [
    ConfigDir("agents", "/.claude/agents/"),
    ConfigDir("skills", "/.claude/skills/"),
    ConfigDir("hooks", "/.claude/hooks/"),
    ConfigDir("plugins", "/.claude/plugins/"),
    ConfigDir("commands", "/.claude/commands/"),
    ConfigDir("prompts", "/.claude/prompts/")]

  const CodexDirs: seq<ConfigDir> := [
    ConfigDir("agents", "/.codex/agents/"),
    ConfigDir("skills", "/.codex/skills/"),
    ConfigDir("hooks", "/.codex/hooks/"),
    ConfigDir("commands", "/.codex/commands/"),
    ConfigDir("prompts", "/.codex/prompts/")]

  const GeminiDirs: seq<ConfigDir> := [
    ConfigDir("agents", "/.gemini/agents/"),
    ConfigDir("skills", "/.gemini/skills/"),
    ConfigDir("hooks", "/.gemini/hooks/"),
    ConfigDir("commands", "/.gemini/commands/")]

  const CursorDirs: seq<ConfigDir> := [
    ConfigDir("skills", "/.cursor/skills/"),
    ConfigDir("rules", "/.cursor/rules/"),
    ConfigDir("docs", "/.cursor/docs/")]

  const AntigravityDirs: seq<ConfigDir> := [
    ConfigDir("agents", "/.antigravity/agents/"),
    ConfigDir("skills", "/.gemini/antigravity/skills/"),
    ConfigDir("extensions", "/.antigravity/extensions/")]

  const OpencodeDirs: seq<ConfigDir> := [
    ConfigDir("agents", "/.config/opencode/agents/"),
    ConfigDir("skills", "/.config/opencode/skills/"),
    ConfigDir("hooks", "/.config/opencode/hooks/"),
    ConfigDir("commands", "/.config/opencode/commands/")]

  /** `TOOL_CONFIG_DIRS`, tools and kinds in insertion order. */
  const ToolConfigDirs: seq<ToolDirs> := [
    ToolDirs("claude", ClaudeDirs),
    ToolDirs("codex", CodexDirs),
    ToolDirs("gemini", GeminiDirs),
    ToolDirs("cursor", CursorDirs),
    ToolDirs("antigravity", AntigravityDirs),
    ToolDirs("opencode", OpencodeDirs)
  ]

  function DirsOf(table: seq<ToolDirs>, tool: string): (r: Option<seq<ConfigDir>>)
    ensures r.Some? <==> exists i :: 0 <= i < |table| && table[i].toolId == tool
  {
    if |table| == 0 then None
    else if table[0].toolId == tool then Some(table[0].dirs)
    else
      var r := DirsOf(table[1..], tool);
      assert forall i :: 1 <= i < |table| ==> table[i] == table[1..][i - 1];
      r
  }

  function RawOf(dirs: seq<ConfigDir>, kind: string): (r: Option<string>)
    ensures r.Some? <==> exists i :: 0 <= i < |dirs| && dirs[i].kind == kind
  {
    if |dirs| == 0 then None
    else if dirs[0].kind == kind then Some(dirs[0].raw())
    else
      var r := RawOf(dirs[1..], kind);
      assert forall i :: 1 <= i < |dirs| ==> dirs[i] == dirs[1..][i - 1];
      r
  }

  /** `TOOL_CONFIG_DIRS[tool]?.[kind]` */
  function ConfigDirOf(tool: string, kind: string): Option<string> {
    match DirsOf(ToolConfigDirs, tool)
    case None => None
    case Some(dirs) => RawOf(dirs, kind)
  }

  /** The table has one row per tool id, in `ALL_TOOL_IDS` order. */
  lemma ToolConfigDirsCoverTools()
    ensures |ToolConfigDirs| == |AllToolIds|
    ensures forall i :: 0 <= i < |AllToolIds| ==> ToolConfigDirs[i].toolId == ToolName(AllToolIds[i])
  {
  }

  /** The table is partial: cursor has no agents or hooks directory. */
  lemma CursorDirsPartial()
    ensures ConfigDirOf("cursor", "agents") == None
    ensures ConfigDirOf("cursor", "hooks") == None
    ensures ConfigDirOf("cursor", "rules").Some?
  {
    DirsOfUnique(ToolConfigDirs, 3);
  }

  /** Only claude has a plugins directory. */
  lemma OnlyClaudeHasPlugins(tool: string)
    ensures ConfigDirOf(tool, "plugins").Some? <==> tool == "claude"
  {
    var T := ToolConfigDirs;
    if DirsOf(T, tool).Some? {
      var i :| 0 <= i < |T| && T[i].toolId == tool;
      DirsOfUnique(T, i);
      if i == 0 {
        assert ClaudeDirs[3].kind == "plugins";
      } else {
        OthersHaveNoPlugins(i);
      }
    }
  }

  lemma OthersHaveNoPlugins(i: int)
    requires 1 <= i < |ToolConfigDirs|
    ensures RawOf(ToolConfigDirs[i].dirs, "plugins") == None
  {
    var dirs := ToolConfigDirs[i].dirs;
    forall k | 0 <= k < |dirs|
      ensures dirs[k].kind != "plugins"
    {
      if i == 1 {
        assert dirs[k].kind in {"agents", "skills", "hooks", "commands", "prompts"};
      } else if i == 2 {
        assert dirs[k].kind in {"agents", "skills", "hooks", "commands"};
      } else if i == 3 {
        assert dirs[k].kind in {"skills", "rules", "docs"};
      } else if i == 4 {
        assert dirs[k].kind in {"agents", "skills", "extensions"};
      } else {
        assert dirs[k].kind in {"agents", "skills", "hooks", "commands"};
      }
    }
  }

  lemma {:induction false} DirsOfUnique(table: seq<ToolDirs>, i: int)
    requires 0 <= i < |table|
    requires forall j, k :: 0 <= j < k < |table| ==> table[j].toolId != table[k].toolId
    ensures DirsOf(table, table[i].toolId) == Some(table[i].dirs)
  {
    if i > 0 {
      DirsOfUnique(table[1..], i - 1);
    }
  }

  // -------------------------------------------------------- tool ids

  /** The own property names of the alias object in `normalizeToolId`. */
  const AliasNames: set<string> := {
    "claude-code", "claude", "codex-cli", "codex", "gemini-cli", "gemini",
    "cursor", "antigravity", "opencode"
  }

  /** The alias object's own property `key`, if it has one. */
  function AliasOf(key: string): (r: Option<ToolId>)
    ensures r.Some? <==> key in AliasNames
  {
    if key == "claude-code" || key == "claude" then Some(Claude)
    else if key == "codex-cli" || key == "codex" then Some(Codex)
    else if key == "gemini-cli" || key == "gemini" then Some(Gemini)
    else if key == "cursor" then Some(Cursor)
    else if key == "antigravity" then Some(Antigravity)
    else if key == "opencode" then Some(Opencode)
    else None
  }

  /** `normalizeToolId` with the lookup restricted to the alias object's own
      properties: every input maps to a tool id. */
  function NormalizeToolId(tool: string): (r: ToolId)
    ensures ToLower(tool) in AliasNames ==> Some(r) == AliasOf(ToLower(tool))
    ensures ToLower(tool) !in AliasNames ==> r == Claude
  {
    match AliasOf(ToLower(tool))
    case Some(t) => t
    case None => Claude
  }

  /** Lower-case names read back as themselves. */
  lemma ToLowerPlain(s: string)
    requires forall i :: 0 <= i < |s| ==> !('A' <= s[i] <= 'Z')
    ensures ToLower(s) == s
  {
  }

  /** The documented aliases. */
  lemma NormalizeToolIdAliases()
    ensures NormalizeToolId("claude-code") == Claude
    ensures NormalizeToolId("codex-cli") == Codex
    ensures NormalizeToolId("gemini-cli") == Gemini
  {
    ToLowerPlain("claude-code");
    ToLowerPlain("codex-cli");
    ToLowerPlain("gemini-cli");
  }

  /** Each canonical name maps to its own id. */
  lemma NormalizeToolIdCanonical(t: ToolId)
    ensures NormalizeToolId(ToolName(t)) == t
  {
    ToLowerPlain(ToolName(t));
  }

  /** Case does not matter. */
  lemma NormalizeToolIdIgnoresCase(a: string, b: string)
    requires ToLower(a) == ToLower(b)
    ensures NormalizeToolId(a) == NormalizeToolId(b)
    ensures NormalizeToolId(a) == NormalizeToolId(ToLower(a))
  {
    ToLowerIdempotent(a);
  }

  /** Normalising a normalised id changes nothing. */
  lemma NormalizeToolIdIdempotent(tool: string)
    ensures NormalizeToolId(ToolName(NormalizeToolId(tool))) == NormalizeToolId(tool)
  {
    NormalizeToolIdCanonical(NormalizeToolId(tool));
  }

  /** What `map[key]` yields on an object literal: an own property, a member
      inherited from `Object.prototype`, or `undefined`. */
  datatype Normalized = Tool(id: ToolId) | InheritedMember(name: string)

  /** `map[tool.toLowerCase()] ?? 'claude'` exactly as written: the lookup also
      finds the inherited members of `Object.prototype`. */
  function NormalizeToolIdAsWritten(tool: string): (r: Normalized)
    ensures ToLower(tool) !in PrototypeNames ==> r == Tool(NormalizeToolId(tool))
    ensures ToLower(tool) in PrototypeNames && ToLower(tool) !in AliasNames ==> r == InheritedMember(ToLower(tool))
  {
    var key := ToLower(tool);
    match AliasOf(key)
    case Some(t) => Tool(t)
    case None => if key in PrototypeNames then InheritedMember(key) else Tool(Claude)
  }

  /** "Constructor" lower-cases to an inherited member name, so the code as
      written returns the `Object` function instead of a tool id. */
  lemma NormalizeToolIdConstructor()
    ensures NormalizeToolIdAsWritten("Constructor") == InheritedMember("constructor")
    ensures NormalizeToolId("Constructor") == Claude
  {
    assert ToLower("Constructor") == "constructor";
  }

  // ------------------------------------------------------------- runtimes

  /** One AI coding runtime and what was found of it. */
  datatype Runtime = Runtime(id: string, name: string, installed: bool, version: Option<string>, configDir: Path)

  /** The entry of `detectRuntimes` for a runtime found through `which` alone
      (`which` is what `whichSync` prints, `version` what `getVersion`
      extracts from `--version`). */
  function CliRuntime(id: string, name: string, dir: Path, which: Option<string>, version: Option<string>): Runtime {
    Runtime(id, name, which.Some?, if OnPath(which) then version else None, dir)
  }

  /** `detectRuntimes()`: `which` and `version` stand for the shell-outs. */
  function Runtimes(fs: Tree, env: Env, which: string -> Option<string>, version: string -> Option<string>): seq<Runtime> {
    [CliRuntime("claude", "Claude Code", Join(env.home, ".claude"), which("claude"), version("claude")),
     CliRuntime("codex", "Codex CLI", Join(env.home, ".codex"), which("codex"), version("codex")),
     CliRuntime("gemini", "Gemini CLI", Join(env.home, ".gemini"), which("gemini"), version("gemini")),
     Runtime("cursor", "Cursor", which("cursor").Some? || Exists(fs, Join(env.home, ".cursor")), None,
       Join(env.home, ".cursor")),
     Runtime("antigravity", "Antigravity", which("antigravity").Some? || Exists(fs, Join(env.home, ".antigravity")), None,
       Join(env.home, ".antigravity")),
     Runtime("opencode", "OpenCode", which("opencode").Some? || Exists(fs, Join(env.home, ".config/opencode")),
       if OnPath(which("opencode")) then version("opencode") else None,
       Join(env.home, ".config/opencode"))]
  }

  /** One runtime per tool id, in `ALL_TOOL_IDS` order. */
  lemma RuntimesCoverTools(fs: Tree, env: Env, which: string -> Option<string>, version: string -> Option<string>)
    ensures var r := Runtimes(fs, env, which, version);
      |r| == |AllToolIds| && forall i :: 0 <= i < |r| ==> r[i].id == ToolName(AllToolIds[i])
  {
    var r := Runtimes(fs, env, which, version);
    assert r[0].id == "claude" && r[1].id == "codex" && r[2].id == "gemini";
    assert r[3].id == "cursor" && r[4].id == "antigravity" && r[5].id == "opencode";
  }

  /** A runtime on the path is installed; a version is only reported for a
      runtime on the path, and cursor and antigravity never report one; the
      three CLIs count as installed only when `which` finds them. */
  lemma RuntimesInstalled(fs: Tree, env: Env, which: string -> Option<string>, version: string -> Option<string>)
    ensures var r := Runtimes(fs, env, which, version);
      && |r| == 6
      && (forall i :: 0 <= i < 6 ==> which(r[i].id).Some? ==> r[i].installed)
      && (forall i :: 0 <= i < 6 ==> r[i].version.Some? ==> OnPath(which(r[i].id)))
      && r[3].version.None? && r[4].version.None?
      && (forall i :: 0 <= i < 3 ==> (r[i].installed <==> which(r[i].id).Some?))
  {
    var r := Runtimes(fs, env, which, version);
    forall i | 0 <= i < 6
      ensures which(r[i].id).Some? ==> r[i].installed
      ensures r[i].version.Some? ==> OnPath(which(r[i].id))
    {
    }
  }

  // ------------------------------------------------ existing tool directories

  /** `expandHome(p)`: every `$HOME` replaced by the home directory. */
  function ExpandHome(env: Env, p: string): string {
    ReplaceAll(p, "$HOME", env.home)
  }

  /** The scanned directory of a table entry: `$HOME` expanded, one trailing
      `/` removed. */
  function DirOf(env: Env, raw: string): Path {
    var e := ExpandHome(env, raw);
    if |e| > 0 && e[|e| - 1] == '/' then e[..|e| - 1] else e
  }

  /** A raw path that is `$HOME` followed by plain text names the directory
      below the home directory, whatever the home directory contains. */
  lemma DirOfHome(env: Env, rest: string)
    requires '$' !in rest && |rest| > 0 && rest[|rest| - 1] == '/'
    ensures DirOf(env, "$HOME" + rest) == env.home + rest[..|rest| - 1]
  {
    ReplaceAllLeading("$HOME", rest, env.home);
    ReplaceAllUntouched(rest, "$HOME", env.home);
  }

  /** Plain text below `$HOME`: no further `$`, and a trailing `/`. */
  predicate PlainRel(rel: string) {
    '$' !in rel && |rel| > 0 && rel[|rel| - 1] == '/'
  }

  lemma ClaudeRelsPlain(k: int)
    requires 0 <= k < |ClaudeDirs|
    ensures PlainRel(ClaudeDirs[k].rel)
  {
    assert ClaudeDirs[k].rel in {"/.claude/agents/", "/.claude/skills/", "/.claude/hooks/", "/.claude/plugins/", "/.claude/commands/", "/.claude/prompts/"};
    ClaudeRels();
  }

  lemma ClaudeRels()
    ensures PlainRel("/.claude/agents/") && PlainRel("/.claude/skills/") && PlainRel("/.claude/hooks/") && PlainRel("/.claude/plugins/") && PlainRel("/.claude/commands/") && PlainRel("/.claude/prompts/")
  {
  }

  lemma CodexRelsPlain(k: int)
    requires 0 <= k < |CodexDirs|
    ensures PlainRel(CodexDirs[k].rel)
  {
    assert CodexDirs[k].rel in {"/.codex/agents/", "/.codex/skills/", "/.codex/hooks/", "/.codex/commands/", "/.codex/prompts/"};
    CodexRels();
  }

  lemma CodexRels()
    ensures PlainRel("/.codex/agents/") && PlainRel("/.codex/skills/") && PlainRel("/.codex/hooks/") && PlainRel("/.codex/commands/") && PlainRel("/.codex/prompts/")
  {
  }

  lemma GeminiRelsPlain(k: int)
    requires 0 <= k < |GeminiDirs|
    ensures PlainRel(GeminiDirs[k].rel)
  {
    assert GeminiDirs[k].rel in {"/.gemini/agents/", "/.gemini/skills/", "/.gemini/hooks/", "/.gemini/commands/"};
    GeminiRels();
  }

  lemma GeminiRels()
    ensures PlainRel("/.gemini/agents/") && PlainRel("/.gemini/skills/") && PlainRel("/.gemini/hooks/") && PlainRel("/.gemini/commands/")
  {
  }

  lemma CursorRelsPlain(k: int)
    requires 0 <= k < |CursorDirs|
    ensures PlainRel(CursorDirs[k].rel)
  {
    assert CursorDirs[k].rel in {"/.cursor/skills/", "/.cursor/rules/", "/.cursor/docs/"};
    CursorRels();
  }

  lemma CursorRels()
    ensures PlainRel("/.cursor/skills/") && PlainRel("/.cursor/rules/") && PlainRel("/.cursor/docs/")
  {
  }

  lemma AntigravityRelsPlain(k: int)
    requires 0 <= k < |AntigravityDirs|
    ensures PlainRel(AntigravityDirs[k].rel)
  {
    assert AntigravityDirs[k].rel in {"/.antigravity/agents/", "/.gemini/antigravity/skills/", "/.antigravity/extensions/"};
    AntigravityRels();
  }

  lemma AntigravityRels()
    ensures PlainRel("/.antigravity/agents/") && PlainRel("/.gemini/antigravity/skills/") && PlainRel("/.antigravity/extensions/")
  {
  }

  lemma OpencodeRelsPlain(k: int)
    requires 0 <= k < |OpencodeDirs|
    ensures PlainRel(OpencodeDirs[k].rel)
  {
    assert OpencodeDirs[k].rel in {"/.config/opencode/agents/", "/.config/opencode/skills/", "/.config/opencode/hooks/", "/.config/opencode/commands/"};
    OpencodeRels();
  }

  lemma OpencodeRels()
    ensures PlainRel("/.config/opencode/agents/") && PlainRel("/.config/opencode/skills/") && PlainRel("/.config/opencode/hooks/") && PlainRel("/.config/opencode/commands/")
  {
  }

  lemma TableRelsPlain(i: int, k: int)
    requires 0 <= i < |ToolConfigDirs| && 0 <= k < |ToolConfigDirs[i].dirs|
    ensures PlainRel(ToolConfigDirs[i].dirs[k].rel)
  {
    if i == 0 {
      ClaudeRelsPlain(k);
    } else if i == 1 {
      CodexRelsPlain(k);
    } else if i == 2 {
      GeminiRelsPlain(k);
    } else if i == 3 {
      CursorRelsPlain(k);
    } else if i == 4 {
      AntigravityRelsPlain(k);
    } else {
      OpencodeRelsPlain(k);
    }
  }

  /** Every table path names a directory below the home directory: `$HOME`
      is replaced and the trailing `/` dropped. */
  lemma ConfigDirsUnderHome(env: Env, i: int, k: int)
    requires 0 <= i < |ToolConfigDirs| && 0 <= k < |ToolConfigDirs[i].dirs|
    ensures var raw := ToolConfigDirs[i].dirs[k].raw();
      DirOf(env, raw) == env.home + raw[5..|raw| - 1]
  {
    var raw := ToolConfigDirs[i].dirs[k].raw();
    TableRelsPlain(i, k);
    DirOfHome(env, ToolConfigDirs[i].dirs[k].rel);
    assert ToolConfigDirs[i].dirs[k].rel == raw[5..];
  }

  /** One table cell, flattened: tool, kind and raw path. */
  datatype Entry = Entry(toolId: string, kind: string, raw: string)

  function EntriesOf(toolId: string, dirs: seq<ConfigDir>): (r: seq<Entry>)
    ensures |r| == |dirs|
    ensures forall k :: 0 <= k < |dirs| ==> r[k] == Entry(toolId, dirs[k].kind, dirs[k].raw())
  {
    seq(|dirs|, k requires 0 <= k < |dirs| => Entry(toolId, dirs[k].kind, dirs[k].raw()))
  }

  /** The table cells in the order the two nested loops visit them. */
  function Flatten(table: seq<ToolDirs>): seq<Entry>
    decreases |table|
  {
    if |table| == 0 then [] else EntriesOf(table[0].toolId, table[0].dirs) + Flatten(table[1..])
  }

  /** A tool directory found on disk. */
  datatype DetectedTool = DetectedTool(
    name: string, location: Path, kind: string, toolId: string, fileCount: nat)

  /** The entries of `dir` whose names do not start with a dot. */
  function Visible(fs: Tree, dir: Path): set<string> {
    set n | n in ChildNames(fs, dir) && !StartsWith(n, ".")
  }

  /** `prefix` followed by whatever `rest` found, unless it threw. */
  function Then<T>(prefix: seq<T>, rest: Result<seq<T>, Fault>): Result<seq<T>, Fault> {
    match rest
    case Ok(r) => Ok(prefix + r)
    case Err(e) => Err(e)
  }

  // Helpers for the loop invariant of `ScanTable`.

  lemma ThenNil<T>(x: Result<seq<T>, Fault>)
    ensures Then([], x) == x
  {
    if x.Ok? {
      assert [] + x.value == x.value;
    }
  }

  lemma ThenThen<T>(a: seq<T>, b: seq<T>, x: Result<seq<T>, Fault>)
    ensures Then(a, Then(b, x)) == Then(a + b, x)
  {
    if x.Ok? {
      assert a + (b + x.value) == (a + b) + x.value;
    }
  }

  /** What `detectExistingTools` reports for the cells `es`, in order. A
      missing directory is skipped; a path that exists but is not a
      directory makes `readdirSync` throw, and nothing catches it. */
  function Found(fs: Tree, env: Env, es: seq<Entry>): Result<seq<DetectedTool>, Fault>
    decreases |es|
  {
    if |es| == 0 then Ok([])
    else
      var dir := DirOf(env, es[0].raw);
      if !Exists(fs, dir) then Found(fs, env, es[1..])
      else if !IsDir(fs, dir) then Err(Io("ENOTDIR", Key(dir)))
      else
        var n := |Visible(fs, dir)|;
        Then(if n > 0 then [DetectedTool(es[0].kind, dir, es[0].kind, es[0].toolId, n)] else [],
             Found(fs, env, es[1..]))
  }

  /** One step of `Found`: the first cell of `cells + more`. */
  lemma FoundCell(fs: Tree, env: Env, e: Entry, cells: seq<Entry>, more: seq<Entry>)
    requires |cells| > 0 && cells[0] == e
    ensures var dir := DirOf(env, e.raw);
      Found(fs, env, cells + more)
      == if !Exists(fs, dir) then Found(fs, env, cells[1..] + more)
         else if !IsDir(fs, dir) then Err(Io("ENOTDIR", Key(dir)))
         else
           var n := |Visible(fs, dir)|;
           Then(if n > 0 then [DetectedTool(e.kind, dir, e.kind, e.toolId, n)] else [],
                Found(fs, env, cells[1..] + more))
  {
    assert (cells + more)[0] == e;
    assert (cells + more)[1..] == cells[1..] + more;
  }

  /** `detectExistingTools()` */
  method DetectExistingTools(d: Disk, env: Env) returns (r: Result<seq<DetectedTool>, Fault>)
    ensures r == Found(d.tree, env, Flatten(ToolConfigDirs))
  {
    r := ScanTable(d, env, ToolConfigDirs);
  }

  /** The two nested loops of `detectExistingTools`, over any table. */
  method ScanTable(d: Disk, env: Env, T: seq<ToolDirs>) returns (r: Result<seq<DetectedTool>, Fault>)
    ensures r == Found(d.tree, env, Flatten(T))
  {
    var tools: seq<DetectedTool> := [];
    var i := 0;
    assert T[0..] == T;
    ThenNil(Found(d.tree, env, Flatten(T)));
    while i < |T|
      invariant 0 <= i <= |T|
      invariant Found(d.tree, env, Flatten(T)) == Then(tools, Found(d.tree, env, Flatten(T[i..])))
    {
      var toolId := T[i].toolId;
      var dirs := T[i].dirs;
      assert T[i..][1..] == T[i + 1..];
      assert dirs[0..] == dirs;
      var j := 0;
      while j < |dirs|
        invariant 0 <= j <= |dirs|
        invariant Found(d.tree, env, Flatten(T))
               == Then(tools, Found(d.tree, env, EntriesOf(toolId, dirs[j..]) + Flatten(T[i + 1..])))
      {
        var dir := DirOf(env, dirs[j].raw());
        var rest := EntriesOf(toolId, dirs[j + 1..]) + Flatten(T[i + 1..]);
        FoundCell(d.tree, env, Entry(toolId, dirs[j].kind, dirs[j].raw()), EntriesOf(toolId, dirs[j..]), Flatten(T[i + 1..]));
        assert EntriesOf(toolId, dirs[j..])[1..] == EntriesOf(toolId, dirs[j + 1..]);
        if Exists(d.tree, dir) {
          if !IsDir(d.tree, dir) {
            return Err(Io("ENOTDIR", Key(dir)));
          }
          var n := |Visible(d.tree, dir)|;
          if n > 0 {
            var t := DetectedTool(dirs[j].kind, dir, dirs[j].kind, toolId, n);
            ThenThen(tools, [t], Found(d.tree, env, rest));
            tools := tools + [t];
          } else {
            ThenNil(Found(d.tree, env, rest));
          }
        }
        j := j + 1;
      }
      assert dirs[j..] == [];
      assert EntriesOf(toolId, dirs[j..]) + Flatten(T[i + 1..]) == Flatten(T[i + 1..]);
      i := i + 1;
    }
    assert Flatten(T[i..]) == [];
    assert tools + [] == tools;
    return Ok(tools);
  }

  /** `x` is a report that `Found` may make for one of the cells `es`. */
  ghost predicate Reported(fs: Tree, env: Env, es: seq<Entry>, x: DetectedTool) {
    && IsDir(fs, x.location)
    && x.fileCount == |Visible(fs, x.location)| > 0
    && x.name == x.kind
    && exists k :: 0 <= k < |es| && Describes(env, es[k], x)
  }

  /** `x` reports the cell `e`. */
  predicate Describes(env: Env, e: Entry, x: DetectedTool) {
    x.toolId == e.toolId && x.kind == e.kind && x.location == DirOf(env, e.raw)
  }

  /** Every report names an existing directory of the table with at least
      one visible entry, and counts exactly those entries. */
  lemma {:induction false} FoundSound(fs: Tree, env: Env, es: seq<Entry>)
    requires Found(fs, env, es).Ok?
    ensures forall x :: x in Found(fs, env, es).value ==> Reported(fs, env, es, x)
    decreases |es|
  {
    if |es| > 0 {
      FoundSound(fs, env, es[1..]);
      forall x | x in Found(fs, env, es[1..]).value
        ensures Reported(fs, env, es, x)
      {
        var k :| 0 <= k < |es[1..]| && Describes(env, es[1..][k], x);
        assert Describes(env, es[k + 1], x);
      }
      var dir := DirOf(env, es[0].raw);
      if IsDir(fs, dir) && |Visible(fs, dir)| > 0 {
        assert Describes(env, es[0], DetectedTool(es[0].kind, dir, es[0].kind, es[0].toolId, |Visible(fs, dir)|));
      }
    }
  }

  /** Every table directory that exists with at least one visible entry is
      reported. */
  lemma {:induction false} FoundComplete(fs: Tree, env: Env, es: seq<Entry>, k: int)
    requires Found(fs, env, es).Ok? && 0 <= k < |es|
    requires IsDir(fs, DirOf(env, es[k].raw)) && |Visible(fs, DirOf(env, es[k].raw))| > 0
    ensures exists x :: x in Found(fs, env, es).value && Describes(env, es[k], x)
    decreases |es|
  {
    FoundStep(fs, env, es);
    if k == 0 {
      var dir := DirOf(env, es[0].raw);
      var x := DetectedTool(es[0].kind, dir, es[0].kind, es[0].toolId, |Visible(fs, dir)|);
      assert x in Found(fs, env, es).value;
      assert Describes(env, es[0], x);
    } else {
      assert es[1..][k - 1] == es[k];
      FoundComplete(fs, env, es[1..], k - 1);
      var x :| x in Found(fs, env, es[1..]).value && Describes(env, es[k], x);
      assert x in Found(fs, env, es).value;
    }
  }

  /** One cell of the scan: the report for the first cell, if any, followed
      by the reports for the rest. */
  lemma FoundStep(fs: Tree, env: Env, es: seq<Entry>)
    requires |es| > 0 && Found(fs, env, es).Ok?
    ensures Found(fs, env, es[1..]).Ok?
    ensures var dir := DirOf(env, es[0].raw);
      Found(fs, env, es).value
        == (if IsDir(fs, dir) && |Visible(fs, dir)| > 0
            then [DetectedTool(es[0].kind, dir, es[0].kind, es[0].toolId, |Visible(fs, dir)|)]
            else [])
          + Found(fs, env, es[1..]).value
  {
    var dir := DirOf(env, es[0].raw);
    if !Exists(fs, dir) {
      assert !IsDir(fs, dir);
      assert [] + Found(fs, env, es[1..]).value == Found(fs, env, es[1..]).value;
    }
  }

  /** The scan throws exactly when some table path exists but is not a
      directory. */
  lemma {:induction false} FoundFails(fs: Tree, env: Env, es: seq<Entry>)
    ensures Found(fs, env, es).Err?
        <==> exists k :: 0 <= k < |es| && Blocked(fs, DirOf(env, es[k].raw))
    decreases |es|
  {
    if |es| > 0 {
      FoundFails(fs, env, es[1..]);
      if exists k :: 0 <= k < |es[1..]| && Blocked(fs, DirOf(env, es[1..][k].raw)) {
        var k :| 0 <= k < |es[1..]| && Blocked(fs, DirOf(env, es[1..][k].raw));
        assert es[1..][k] == es[k + 1];
      }
      if exists k :: 0 <= k < |es| && Blocked(fs, DirOf(env, es[k].raw)) {
        var k :| 0 <= k < |es| && Blocked(fs, DirOf(env, es[k].raw));
        if k > 0 {
          assert es[1..][k - 1] == es[k];
        }
      }
    }
  }

  /** `existsSync(p)` holds but `readdirSync(p)` throws. */
  predicate Blocked(fs: Tree, p: Path) {
    Exists(fs, p) && !IsDir(fs, p)
  }

  // ------------------------------------------------------ installed plugins

  /** One record of `readInstalledPlugins`; version and path keep whatever
      value the file holds, or their defaults. */
  datatype Plugin = Plugin(name: string, version: Value, installPath: Value)

  function PluginsFile(env: Env): Path {
    Join(env.home, ".claude/plugins/installed_plugins.json")
  }

  /** `Object.entries(v)`: the members of an object, the indexed elements of
      an array or the characters of a string, and nothing for the rest. */
  function Entries(v: Value): seq<Member> {
    match v
    case Obj(ms) => ms
    case Arr(items) => seq(|items|, i requires 0 <= i < |items| => Member(NatToString(i), items[i]))
    case Str(t) => seq(|t|, i requires 0 <= i < |t| => Member(NatToString(i), Str([t[i]])))
    case _ => []
  }

  /** `for (const x of v)`: arrays and strings are iterable; anything else
      throws a TypeError. */
  function Iterate(v: Value): Option<seq<Value>> {
    match v
    case Arr(items) => Some(items)
    case Str(t) => Some(seq(|t|, i requires 0 <= i < |t| => Str([t[i]])))
    case _ => None
  }

  /** Both parts, unless either threw. */
  function Cat(a: Option<seq<Plugin>>, b: Option<seq<Plugin>>): Option<seq<Plugin>> {
    if a.None? || b.None? then None else Some(a.value + b.value)
  }

  /** The record for one install; reading a property of `null` throws. */
  function InstallRecord(name: string, install: Value): Option<Plugin> {
    if install == Null then None
    else Some(Plugin(name,
      Coalesce(Get(install, "version"), Str("unknown")),
      Coalesce(Get(install, "installPath"), Str(""))))
  }

  /** The records of the installs of one plugin, in order. */
  function InstallRecords(name: string, installs: seq<Value>): Option<seq<Plugin>>
    decreases |installs|
  {
    if |installs| == 0 then Some([])
    else match InstallRecord(name, installs[0])
      case None => None
      case Some(p) => Cat(Some([p]), InstallRecords(name, installs[1..]))
  }

  /** The records of one `plugins` entry, named by the key's text before the
      first `@`. */
  function EntryRecords(e: Member): Option<seq<Plugin>> {
    match Iterate(e.val)
    case None => None
    case Some(installs) => InstallRecords(Before(e.key, '@'), installs)
  }

  /** The records of all entries, or `None` when any step throws. */
  function Records(es: seq<Member>): Option<seq<Plugin>>
    decreases |es|
  {
    if |es| == 0 then Some([]) else Cat(EntryRecords(es[0]), Records(es[1..]))
  }

  /** What `readInstalledPlugins` returns: every error gives `[]`. */
  function InstalledPlugins(fs: Tree, env: Env): seq<Plugin> {
    var f := PluginsFile(env);
    if !Exists(fs, f) then []
    else match ReadFile(fs, f)
      case Err(_) => []
      case Ok(doc) =>
        if !doc.Parsed? || doc.v == Null then []
        else
          var plugins := Get(doc.v, "plugins");
          if !Truthy(plugins) then []
          else match Records(Entries(plugins.value))
            case None => []
            case Some(r) => r
  }

  /** `readInstalledPlugins()`: the two nested loops. */
  method ReadInstalledPlugins(d: Disk, env: Env) returns (r: seq<Plugin>)
    ensures r == InstalledPlugins(d.tree, env)
  {
    var f := PluginsFile(env);
    if !Exists(d.tree, f) {
      return [];
    }
    var doc := ReadFile(d.tree, f);
    if doc.Err? || !doc.value.Parsed? || doc.value.v == Null {
      return [];
    }
    var plugins := Get(doc.value.v, "plugins");
    if !Truthy(plugins) {
      return [];
    }
    var es := Entries(plugins.value);
    var results: seq<Plugin> := [];
    assert es[0..] == es;
    CatLeftNil(Records(es));
    for i := 0 to |es|
      invariant Records(es) == Cat(Some(results), Records(es[i..]))
    {
      assert es[i..][1..] == es[i + 1..];
      var installs := Iterate(es[i].val);
      if installs.None? {
        return [];
      }
      var name := Before(es[i].key, '@');
      var items := installs.value;
      assert items[0..] == items;
      for j := 0 to |items|
        invariant Records(es) == Cat(Some(results), Cat(InstallRecords(name, items[j..]), Records(es[i + 1..])))
      {
        assert items[j..][1..] == items[j + 1..];
        var p := InstallRecord(name, items[j]);
        if p.None? {
          return [];
        }
        CatAssoc(results, [p.value], InstallRecords(name, items[j + 1..]), Records(es[i + 1..]));
        results := results + [p.value];
      }
      assert items[|items|..] == [];
      CatNil(results, Records(es[i + 1..]));
    }
    assert es[|es|..] == [];
    assert results + [] == results;
    r := results;
  }

  // Helpers for the loop invariant of `ReadInstalledPlugins`.

  lemma CatLeftNil(y: Option<seq<Plugin>>)
    ensures Cat(Some([]), y) == y
  {
    if y.Some? {
      assert [] + y.value == y.value;
    }
  }

  lemma CatAssoc(a: seq<Plugin>, b: seq<Plugin>, x: Option<seq<Plugin>>, y: Option<seq<Plugin>>)
    ensures Cat(Some(a), Cat(Cat(Some(b), x), y)) == Cat(Some(a + b), Cat(x, y))
  {
    if x.Some? && y.Some? {
      assert a + ((b + x.value) + y.value) == (a + b) + (x.value + y.value);
    }
  }

  lemma CatNil(a: seq<Plugin>, y: Option<seq<Plugin>>)
    ensures Cat(Some(a), Cat(Some([]), y)) == Cat(Some(a), y)
  {
    if y.Some? {
      assert [] + y.value == y.value;
    }
  }

  /** Iterating `e.val` throws, or one of its installs is `null`. */
  predicate Broken(e: Member) {
    Iterate(e.val).None? || Null in Iterate(e.val).value
  }

  /** How many installs the entries list. */
  function InstallCount(es: seq<Member>): nat
    decreases |es|
  {
    if |es| == 0 then 0
    else (if Iterate(es[0].val).Some? then |Iterate(es[0].val).value| else 0) + InstallCount(es[1..])
  }

  /** `p` is named after one of the keys and carries no missing value. */
  ghost predicate NamedAfter(es: seq<Member>, p: Plugin) {
    && '@' !in p.name
    && p.version != Null && p.installPath != Null
    && exists j :: 0 <= j < |es| && p.name == Before(es[j].key, '@')
  }

  lemma {:induction false} InstallRecordsExact(name: string, installs: seq<Value>)
    ensures InstallRecords(name, installs).None? <==> Null in installs
    ensures InstallRecords(name, installs).Some? ==>
      && |InstallRecords(name, installs).value| == |installs|
      && forall k :: 0 <= k < |installs| ==>
           InstallRecords(name, installs).value[k] == InstallRecord(name, installs[k]).value
    decreases |installs|
  {
    if |installs| > 0 {
      InstallRecordsExact(name, installs[1..]);
      assert installs == [installs[0]] + installs[1..];
    }
  }

  /** Reading the plugins throws exactly when some entry is broken; otherwise
      there is one record per install, named by the text before the key's
      first `@`, with `'unknown'` and `''` standing in for a missing version
      and install path. */
  lemma {:induction false} RecordsExact(es: seq<Member>)
    ensures Records(es).None? <==> exists j :: 0 <= j < |es| && Broken(es[j])
    ensures Records(es).Some? ==> |Records(es).value| == InstallCount(es)
    ensures Records(es).Some? ==> forall p :: p in Records(es).value ==> NamedAfter(es, p)
    decreases |es|
  {
    if |es| > 0 {
      RecordsExact(es[1..]);
      var head := EntryRecords(es[0]);
      if Iterate(es[0].val).Some? {
        InstallRecordsExact(Before(es[0].key, '@'), Iterate(es[0].val).value);
      }
      if exists j :: 0 <= j < |es[1..]| && Broken(es[1..][j]) {
        var j :| 0 <= j < |es[1..]| && Broken(es[1..][j]);
        assert es[1..][j] == es[j + 1];
      }
      if exists j :: 0 <= j < |es| && Broken(es[j]) {
        var j :| 0 <= j < |es| && Broken(es[j]);
        if j > 0 {
          assert es[1..][j - 1] == es[j];
        }
      }
      if Records(es).Some? {
        forall p | p in Records(es).value
          ensures NamedAfter(es, p)
        {
          if p in head.value {
            var k :| 0 <= k < |head.value| && head.value[k] == p;
            assert p.name == Before(es[0].key, '@');
          } else {
            assert p in Records(es[1..]).value;
            var j :| 0 <= j < |es[1..]| && p.name == Before(es[1..][j].key, '@');
            assert es[1..][j] == es[j + 1];
          }
        }
      }
    }
  }

  /** A missing file reads as no plugins; every record has a name without
      `@` and a version and install path that are never missing. */
  lemma InstalledPluginsWellFormed(fs: Tree, env: Env)
    ensures !Exists(fs, PluginsFile(env)) ==> InstalledPlugins(fs, env) == []
    ensures forall p :: p in InstalledPlugins(fs, env) ==>
      '@' !in p.name && p.version != Null && p.installPath != Null
  {
    var f := PluginsFile(env);
    if Exists(fs, f) && ReadFile(fs, f).Ok? {
      var doc := ReadFile(fs, f).value;
      if doc.Parsed? && doc.v != Null && Truthy(Get(doc.v, "plugins")) {
        RecordsExact(Entries(Get(doc.v, "plugins").value));
      }
    }
  }

  // ------------------------------------------------------------ agent scans

  /** Some pattern occurs in the lower-cased name. */
  predicate MatchesAny(name: string, patterns: seq<string>) {
    exists k :: 0 <= k < |patterns| && Contains(ToLower(name), patterns[k])
  }

  /** `scanAgentsFor(dir, patterns)`, where `listing` is what `readdirSync`
      returns: the matching names in listing order, or `[]` when the
      directory is missing or cannot be read. */
  function ScanAgentsFor(fs: Tree, dir: Path, listing: seq<string>, patterns: seq<string>): seq<string> {
    if !Exists(fs, dir) || !IsDir(fs, dir) then []
    else Filter((e: string) => MatchesAny(e, patterns), listing)
  }

  /** The scan keeps exactly the matching entries of the directory, in
      listing order. */
  lemma ScanAgentsForExact(fs: Tree, dir: Path, listing: seq<string>, patterns: seq<string>)
    requires IsDir(fs, dir) && IsListing(fs, dir, listing)
    ensures forall n ::
      n in ScanAgentsFor(fs, dir, listing, patterns) <==> n in ChildNames(fs, dir) && MatchesAny(n, patterns)
    ensures IsSubseq(ScanAgentsFor(fs, dir, listing, patterns), listing)
  {
    FilterSubseq((e: string) => MatchesAny(e, patterns), listing);
    forall n | n in listing
      ensures n in ChildNames(fs, dir)
    {
      var k :| 0 <= k < |listing| && listing[k] == n;
      ChildListed(fs, dir, n);
    }
  }

  /** A missing directory contributes no agents. */
  lemma ScanAgentsForMissing(fs: Tree, dir: Path, listing: seq<string>, patterns: seq<string>)
    requires !Exists(fs, dir)
    ensures ScanAgentsFor(fs, dir, listing, patterns) == []
  {
  }

  /** `countFiles(dir)`: the visible entries that stat as a file or a
      directory. A visible entry that does not stat (a dangling link) makes
      the filter throw, and the whole count falls back to 0. */
  function CountFiles(fs: Tree, dir: Path): nat {
    if !Exists(fs, dir) || !IsDir(fs, dir) then 0
    else if exists n :: n in Visible(fs, dir) && !Exists(fs, Join(dir, n)) then 0
    else |Visible(fs, dir)|
  }

  /** A positive count is the number of visible entries of a directory. */
  lemma CountFilesPositive(fs: Tree, dir: Path)
    requires CountFiles(fs, dir) > 0
    ensures IsDir(fs, dir) && CountFiles(fs, dir) == |Visible(fs, dir)|
    ensures forall n :: n in Visible(fs, dir) ==> Exists(fs, Join(dir, n))
  {
  }

  // ------------------------------------------------- orchestration layers

  /** One orchestration layer found on the system, with the evidence for it. */
  datatype Layer = Layer(name: string, evidence: seq<string>)

  /** What the shell and the text reader return, which the model does not
      derive from the tree: the listings `readdirSync` gives for the claude
      and opencode agents directories, the paths `which` prints (`None` when
      it fails or prints nothing) and the text of the codex `config.toml`. */
  datatype Probe = Probe(
    agents: seq<string>,
    opencodeAgents: seq<string>,
    omxBin: Option<string>,
    omocBin: Option<string>,
    codexConfig: string)

  function AgentsDir(env: Env): Path { Join(env.home, ".claude/agents") }
  function CommandsDir(env: Env): Path { Join(env.home, ".claude/commands") }
  function OmxDir(env: Env): Path { Join(env.home, ".codex/.omx") }
  function CodexConfig(env: Env): Path { Join(env.home, ".codex/config.toml") }
  function CodexPromptsDir(env: Env): Path { Join(env.home, ".codex/prompts") }
  function OpencodeAgentsDir(env: Env): Path { Join(env.home, ".config/opencode/agents") }
  function OpencodeHooksDir(env: Env): Path { Join(env.home, ".config/opencode/hooks") }

  /** `installedPlugins.find(p => names.has(p.name))` */
  function Find(ps: seq<Plugin>, names: set<string>): (r: Option<Plugin>)
    ensures r.Some? ==> r.value in ps && r.value.name in names
    ensures r.None? <==> forall k :: 0 <= k < |ps| ==> ps[k].name !in names
    decreases |ps|
  {
    if |ps| == 0 then None
    else if ps[0].name in names then Some(ps[0])
    else
      var r := Find(ps[1..], names);
      assert forall k :: 1 <= k < |ps| ==> ps[k] == ps[1..][k - 1];
      r
  }

  /** What `which` printed is truthy. */
  predicate OnPath(bin: Option<string>) {
    bin.Some? && bin.value != ""
  }

  /** `plugin: <name> v<version>` */
  function PluginLine(p: Plugin): string {
    "plugin: " + p.name + " v" + JsString(p.version)
  }

  function BkitEvidence(fs: Tree, env: Env, ps: seq<Plugin>, pr: Probe): seq<string> {
    var p := Find(ps, {"bkit"});
    var n := |ScanAgentsFor(fs, AgentsDir(env), pr.agents, ["bkit"])|;
    (if p.Some? then ["plugin: bkit v" + JsString(p.value.version) + " (" + JsString(p.value.installPath) + ")"] else [])
    + (if n > 0 then ["~/.claude/agents/ (" + NatToString(n) + " bkit agents)"] else [])
  }

  function OmcEvidence(fs: Tree, env: Env, ps: seq<Plugin>, pr: Probe): seq<string> {
    var p := Find(ps, {"omc", "oh-my-claudecode"});
    var n := |ScanAgentsFor(fs, AgentsDir(env), pr.agents, ["omc", "oh-my", "autopilot", "swarm"])|;
    (if p.Some? then [PluginLine(p.value)] else [])
    + (if n > 0 then ["~/.claude/agents/ (" + NatToString(n) + " omc-style agents)"] else [])
  }

  function EccEvidence(fs: Tree, env: Env, ps: seq<Plugin>): seq<string> {
    var p := Find(ps, {"ecc", "everything-claude-code"});
    var commands := CountFiles(fs, CommandsDir(env));
    var agents := CountFiles(fs, AgentsDir(env));
    (if p.Some? then [PluginLine(p.value)] else [])
    + (if Exists(fs, CommandsDir(env)) && commands > 5
       then ["~/.claude/commands/ (" + NatToString(commands) + " commands)"] else [])
    + (if Exists(fs, AgentsDir(env)) && agents > 20
       then ["~/.claude/agents/ (" + NatToString(agents) + " agents \U{2014} large collection)"] else [])
  }

  /** `config.toml` exists, reads as text and carries an omx marker; a read
      that throws is ignored. */
  predicate OmxConfigured(fs: Tree, env: Env, pr: Probe) {
    && Exists(fs, CodexConfig(env))
    && Stat(fs, CodexConfig(env)).value.File?
    && (Contains(pr.codexConfig, "oh-my-codex") || Contains(pr.codexConfig, "omx_state"))
  }

  function OmxEvidence(fs: Tree, env: Env, pr: Probe): seq<string> {
    var prompts := CountFiles(fs, CodexPromptsDir(env));
    (if Exists(fs, OmxDir(env)) then ["~/.codex/.omx/ directory"] else [])
    + (if OnPath(pr.omxBin) then ["binary: " + pr.omxBin.value] else [])
    + (if OmxConfigured(fs, env, pr) then ["config.toml contains omx config"] else [])
    + (if Exists(fs, CodexPromptsDir(env)) && prompts >= 5
       then ["~/.codex/prompts/ (" + NatToString(prompts) + " prompts)"] else [])
  }

  function OmocEvidence(fs: Tree, env: Env, pr: Probe): seq<string> {
    var n := |ScanAgentsFor(fs, OpencodeAgentsDir(env), pr.opencodeAgents, ["sisyphus", "prometheus", "metis", "oh-my"])|;
    var hooks := CountFiles(fs, OpencodeHooksDir(env));
    (if n > 0 then ["~/.config/opencode/agents/ (" + NatToString(n) + " omoc agents)"] else [])
    + (if OnPath(pr.omocBin) then ["binary: " + pr.omocBin.value] else [])
    + (if Exists(fs, OpencodeHooksDir(env)) && hooks >= 10
       then ["~/.config/opencode/hooks/ (" + NatToString(hooks) + " hooks)"] else [])
  }

  function WshobsonEvidence(ps: seq<Plugin>): seq<string> {
    var p := Find(ps, {"wshobson-agents", "agents"});
    if p.Some? then [PluginLine(p.value)] else []
  }

  /** `results.push({ name, evidence })` when there is any evidence. */
  function Report(name: string, evidence: seq<string>): seq<Layer> {
    if |evidence| > 0 then [Layer(name, evidence)] else []
  }

  /** One layer per check that found evidence, in the order the checks run. */
  function Reports(checks: seq<(string, seq<string>)>): seq<Layer>
    decreases |checks|
  {
    if |checks| == 0 then [] else Report(checks[0].0, checks[0].1) + Reports(checks[1..])
  }

  /** The names of the six signature checks, in the order they run. */
  const SignatureNames: seq<string> :=
    ["bkit", "omc", "ecc", "oh-my-codex", "oh-my-opencode", "wshobson-agents"]

  /** Pairs each name with its evidence. */
  function Zip(names: seq<string>, evs: seq<seq<string>>): (r: seq<(string, seq<string>)>)
    requires |names| == |evs|
    ensures |r| == |names| && forall i :: 0 <= i < |names| ==> r[i] == (names[i], evs[i])
  {
    seq(|names|, i requires 0 <= i < |names| => (names[i], evs[i]))
  }

  /** The six signature checks, in the order they run. */
  function SignatureChecks(fs: Tree, env: Env, ps: seq<Plugin>, pr: Probe): seq<(string, seq<string>)> {
    Zip(SignatureNames,
      [BkitEvidence(fs, env, ps, pr), OmcEvidence(fs, env, ps, pr), EccEvidence(fs, env, ps),
       OmxEvidence(fs, env, pr), OmocEvidence(fs, env, pr), WshobsonEvidence(ps)])
  }

  /** The layers the signature checks report. */
  function Signatures(fs: Tree, env: Env, ps: seq<Plugin>, pr: Probe): seq<Layer> {
    Reports(SignatureChecks(fs, env, ps, pr))
  }

  /** The check of the fall-through loop: some result already covers `p`. */
  predicate AlreadyDetected(results: seq<Layer>, p: Plugin) {
    exists k :: 0 <= k < |results| &&
      (results[k].name == p.name
       || (p.name == "bkit" && results[k].name == "bkit")
       || (p.name == "omc" && results[k].name == "omc"))
  }

  /** The fall-through loop over the remaining plugins `ps`. */
  function FallThrough(results: seq<Layer>, ps: seq<Plugin>): seq<Layer>
    decreases |ps|
  {
    if |ps| == 0 then results
    else if AlreadyDetected(results, ps[0]) then FallThrough(results, ps[1..])
    else FallThrough(results + [Layer(ps[0].name, [PluginLine(ps[0])])], ps[1..])
  }

  /** What `detectActiveOrchestration` returns. */
  function Orchestration(fs: Tree, env: Env, pr: Probe): seq<Layer> {
    var ps := InstalledPlugins(fs, env);
    FallThrough(Signatures(fs, env, ps, pr), ps)
  }

  /** `detectActiveOrchestration()` */
  method DetectActiveOrchestration(d: Disk, env: Env, pr: Probe) returns (results: seq<Layer>)
    ensures results == Orchestration(d.tree, env, pr)
  {
    var ps := ReadInstalledPlugins(d, env);
    results := Signatures(d.tree, env, ps, pr);
    results := ReportRest(results, ps);
  }

  /** The fall-through loop: a layer for each plugin nothing reported yet. */
  method ReportRest(fixed: seq<Layer>, ps: seq<Plugin>) returns (results: seq<Layer>)
    ensures results == FallThrough(fixed, ps)
  {
    results := fixed;
    assert ps[0..] == ps;
    for i := 0 to |ps|
      invariant FallThrough(fixed, ps) == FallThrough(results, ps[i..])
    {
      assert ps[i..][1..] == ps[i + 1..];
      var p := ps[i];
      var already := AlreadyDetected(results, p);
      if !already {
        results := results + [Layer(p.name, [PluginLine(p)])];
      }
    }
    assert ps[|ps|..] == [];
  }

  /** Some result carries the name `n`. */
  predicate HasLayer(ls: seq<Layer>, n: string) {
    exists k :: 0 <= k < |ls| && ls[k].name == n
  }

  /** No two results share a name. */
  predicate DistinctNames(ls: seq<Layer>) {
    forall j, k :: 0 <= j < k < |ls| ==> ls[j].name != ls[k].name
  }

  /** Every result has some evidence. */
  predicate Evidenced(ls: seq<Layer>) {
    forall k :: 0 <= k < |ls| ==> |ls[k].evidence| > 0
  }

  /** `l` is the layer of one of the checks, which found evidence. */
  ghost predicate FromCheck(checks: seq<(string, seq<string>)>, l: Layer) {
    exists i :: 0 <= i < |checks| && l == Layer(checks[i].0, checks[i].1) && |checks[i].1| > 0
  }

  lemma {:induction false} ReportsFrom(checks: seq<(string, seq<string>)>)
    ensures forall l :: l in Reports(checks) ==> FromCheck(checks, l)
    decreases |checks|
  {
    if |checks| > 0 {
      ReportsFrom(checks[1..]);
      forall l | l in Reports(checks[1..])
        ensures FromCheck(checks, l)
      {
        var i :| 0 <= i < |checks[1..]| && l == Layer(checks[1..][i].0, checks[1..][i].1) && |checks[1..][i].1| > 0;
        assert checks[1..][i] == checks[i + 1];
      }
    }
  }

  /** Checks with distinct names report distinct layers, each with evidence. */
  lemma {:induction false} ReportsDistinct(checks: seq<(string, seq<string>)>)
    requires forall j, k :: 0 <= j < k < |checks| ==> checks[j].0 != checks[k].0
    ensures Evidenced(Reports(checks)) && DistinctNames(Reports(checks))
    decreases |checks|
  {
    ReportsFrom(checks);
    if |checks| > 0 {
      var rest := checks[1..];
      ReportsDistinct(rest);
      ReportsFrom(rest);
      var head := Report(checks[0].0, checks[0].1);
      var r := Reports(checks);
      forall k | 0 <= k < |r|
        ensures |r[k].evidence| > 0
      {
        assert r[k] in r;
      }
      forall j, k | 0 <= j < k < |r|
        ensures r[j].name != r[k].name
      {
        if j < |head| {
          assert r[k] == Reports(rest)[k - |head|];
          assert r[k] in Reports(rest);
          var i :| 0 <= i < |rest| && r[k] == Layer(rest[i].0, rest[i].1) && |rest[i].1| > 0;
          assert rest[i] == checks[i + 1];
        } else {
          assert r[j] == Reports(rest)[j - |head|];
        }
      }
    }
  }

  /** With distinct names, a check's layer is present exactly when the check
      found evidence. */
  lemma {:induction false} ReportsPresent(checks: seq<(string, seq<string>)>, i: int)
    requires forall j, k :: 0 <= j < k < |checks| ==> checks[j].0 != checks[k].0
    requires 0 <= i < |checks|
    ensures HasLayer(Reports(checks), checks[i].0) <==> |checks[i].1| > 0
    decreases |checks|
  {
    var rest := checks[1..];
    var head := Report(checks[0].0, checks[0].1);
    var r := Reports(checks);
    if i == 0 {
      ReportsFrom(rest);
      forall l | l in Reports(rest)
        ensures l.name != checks[0].0
      {
        var m :| 0 <= m < |rest| && l == Layer(rest[m].0, rest[m].1) && |rest[m].1| > 0;
        assert rest[m] == checks[m + 1];
      }
      if |head| > 0 {
        assert r[0].name == checks[0].0;
      }
      if HasLayer(r, checks[0].0) {
        var k :| 0 <= k < |r| && r[k].name == checks[0].0;
        assert k < |head| || r[k] in Reports(rest);
      }
    } else {
      assert rest[i - 1] == checks[i];
      ReportsPresent(rest, i - 1);
      if HasLayer(Reports(rest), checks[i].0) {
        var k :| 0 <= k < |Reports(rest)| && Reports(rest)[k].name == checks[i].0;
        assert r[|head| + k].name == checks[i].0;
      }
      if HasLayer(r, checks[i].0) {
        var k :| 0 <= k < |r| && r[k].name == checks[i].0;
        if k >= |head| {
          assert Reports(rest)[k - |head|].name == checks[i].0;
        }
      }
    }
  }

  lemma SignatureNamesDistinct(fs: Tree, env: Env, ps: seq<Plugin>, pr: Probe)
    ensures var checks := SignatureChecks(fs, env, ps, pr);
      |checks| == 6 && forall j, k :: 0 <= j < k < |checks| ==> checks[j].0 != checks[k].0
  {
    var checks := SignatureChecks(fs, env, ps, pr);
    assert forall i :: 0 <= i < 6 ==> checks[i].0 == SignatureNames[i];
    NamesDistinct();
  }

  lemma NamesDistinct()
    ensures forall j, k :: 0 <= j < k < |SignatureNames| ==> SignatureNames[j] != SignatureNames[k]
  {
  }

  /** Every signature layer has evidence, and no name is reported twice. */
  lemma SignaturesDistinct(fs: Tree, env: Env, ps: seq<Plugin>, pr: Probe)
    ensures Evidenced(Signatures(fs, env, ps, pr)) && DistinctNames(Signatures(fs, env, ps, pr))
  {
    SignatureNamesDistinct(fs, env, ps, pr);
    ReportsDistinct(SignatureChecks(fs, env, ps, pr));
  }

  /** A signature layer is reported exactly when its check found evidence. */
  lemma SignaturePresent(fs: Tree, env: Env, ps: seq<Plugin>, pr: Probe, i: int)
    requires 0 <= i < 6
    ensures HasLayer(Signatures(fs, env, ps, pr), SignatureChecks(fs, env, ps, pr)[i].0)
        <==> |SignatureChecks(fs, env, ps, pr)[i].1| > 0
  {
    SignatureNamesDistinct(fs, env, ps, pr);
    ReportsPresent(SignatureChecks(fs, env, ps, pr), i);
  }

  /** ecc: an ecc plugin, more than 5 commands or more than 20 agents. */
  lemma EccRule(fs: Tree, env: Env, ps: seq<Plugin>, pr: Probe)
    ensures HasLayer(Signatures(fs, env, ps, pr), "ecc") <==>
      Find(ps, {"ecc", "everything-claude-code"}).Some?
      || CountFiles(fs, CommandsDir(env)) > 5 || CountFiles(fs, AgentsDir(env)) > 20
  {
    SignaturePresent(fs, env, ps, pr, 2);
  }

  /** oh-my-codex: the `.omx` directory, the binary, a marked `config.toml`
      or at least 5 prompts. */
  lemma OmxRule(fs: Tree, env: Env, ps: seq<Plugin>, pr: Probe)
    ensures HasLayer(Signatures(fs, env, ps, pr), "oh-my-codex") <==>
      Exists(fs, OmxDir(env)) || OnPath(pr.omxBin) || OmxConfigured(fs, env, pr)
      || CountFiles(fs, CodexPromptsDir(env)) >= 5
  {
    SignaturePresent(fs, env, ps, pr, 3);
  }

  /** oh-my-opencode: a matching opencode agent, the binary or at least 10
      hooks. */
  lemma OmocRule(fs: Tree, env: Env, ps: seq<Plugin>, pr: Probe)
    ensures HasLayer(Signatures(fs, env, ps, pr), "oh-my-opencode") <==>
      |ScanAgentsFor(fs, OpencodeAgentsDir(env), pr.opencodeAgents, ["sisyphus", "prometheus", "metis", "oh-my"])| > 0
      || OnPath(pr.omocBin) || CountFiles(fs, OpencodeHooksDir(env)) >= 10
  {
    SignaturePresent(fs, env, ps, pr, 4);
  }

  /** bkit and omc: their plugin, or a matching claude agent; wshobson: its
      plugin. */
  lemma PluginRules(fs: Tree, env: Env, ps: seq<Plugin>, pr: Probe)
    ensures HasLayer(Signatures(fs, env, ps, pr), "bkit") <==>
      Find(ps, {"bkit"}).Some? || |ScanAgentsFor(fs, AgentsDir(env), pr.agents, ["bkit"])| > 0
    ensures HasLayer(Signatures(fs, env, ps, pr), "omc") <==>
      Find(ps, {"omc", "oh-my-claudecode"}).Some?
      || |ScanAgentsFor(fs, AgentsDir(env), pr.agents, ["omc", "oh-my", "autopilot", "swarm"])| > 0
    ensures HasLayer(Signatures(fs, env, ps, pr), "wshobson-agents") <==>
      Find(ps, {"wshobson-agents", "agents"}).Some?
  {
    SignaturePresent(fs, env, ps, pr, 0);
    SignaturePresent(fs, env, ps, pr, 1);
    SignaturePresent(fs, env, ps, pr, 5);
  }

  /** The loop only appends, one layer per plugin whose name nothing
      reported yet, and keeps evidence and distinct names. */
  lemma {:induction false} FallThroughAppends(rs: seq<Layer>, ps: seq<Plugin>)
    ensures var r := FallThrough(rs, ps);
      && |rs| <= |r| && r[..|rs|] == rs
      && (forall k :: |rs| <= k < |r| ==> |r[k].evidence| > 0)
      && (DistinctNames(rs) ==> DistinctNames(r))
    decreases |ps|
  {
    if |ps| > 0 {
      var p := ps[0];
      if AlreadyDetected(rs, p) {
        FallThroughAppends(rs, ps[1..]);
      } else {
        var next := rs + [Layer(p.name, [PluginLine(p)])];
        FallThroughAppends(next, ps[1..]);
        var r := FallThrough(rs, ps);
        assert r[..|next|][..|rs|] == r[..|rs|];
        if DistinctNames(rs) {
          forall j, k | 0 <= j < k < |next|
            ensures next[j].name != next[k].name
          {
            if k == |rs| {
              assert !(rs[j].name == p.name);
            }
          }
        }
      }
    }
  }

  /** Every plugin's name ends up among the result names. */
  lemma {:induction false} FallThroughCovers(rs: seq<Layer>, ps: seq<Plugin>)
    ensures forall k :: 0 <= k < |ps| ==> HasLayer(FallThrough(rs, ps), ps[k].name)
    decreases |ps|
  {
    if |ps| > 0 {
      var p := ps[0];
      var next := if AlreadyDetected(rs, p) then rs else rs + [Layer(p.name, [PluginLine(p)])];
      assert FallThrough(rs, ps) == FallThrough(next, ps[1..]);
      FallThroughCovers(next, ps[1..]);
      FallThroughAppends(next, ps[1..]);
      var r := FallThrough(next, ps[1..]);
      var m: int;
      if AlreadyDetected(rs, p) {
        var k :| 0 <= k < |rs| && (rs[k].name == p.name
          || (p.name == "bkit" && rs[k].name == "bkit") || (p.name == "omc" && rs[k].name == "omc"));
        m := k;
      } else {
        m := |rs|;
      }
      assert next[m].name == p.name;
      assert r[m] == r[..|next|][m];
      forall k | 0 <= k < |ps|
        ensures HasLayer(r, ps[k].name)
      {
        if k > 0 {
          assert ps[k] == ps[1..][k - 1];
        }
      }
    }
  }

  /** `detectActiveOrchestration` reports every installed plugin by name,
      keeps the signature layers first, and reports each name once with
      some evidence. */
  lemma OrchestrationReports(fs: Tree, env: Env, pr: Probe)
    ensures var ps := InstalledPlugins(fs, env);
      var sig := Signatures(fs, env, ps, pr);
      var r := Orchestration(fs, env, pr);
      && (forall k :: 0 <= k < |ps| ==> HasLayer(r, ps[k].name))
      && |sig| <= |r| && r[..|sig|] == sig
      && Evidenced(r) && DistinctNames(r)
  {
    var ps := InstalledPlugins(fs, env);
    var sig := Signatures(fs, env, ps, pr);
    SignaturesDistinct(fs, env, ps, pr);
    FallThroughCovers(sig, ps);
    FallThroughAppends(sig, ps);
    var r := Orchestration(fs, env, pr);
    forall k | 0 <= k < |r|
      ensures |r[k].evidence| > 0
    {
      if k < |sig| {
        assert r[k] == r[..|sig|][k];
      }
    }
  }
}

=== FILE: disk.dfy ===
/**
 * The filesystem as the core sees it through fs-extra: a flat map from
 * paths to nodes (a path is looked up with its trailing slashes dropped by
 * `Key`, and nothing else is normalised), the path helpers of `node:path`
 * (POSIX flavour), and the primitive operations the core calls
 * (lstat, stat, exists, mkdir -p, rm -rf, unlink, copy, write).
 */
module Disk {
  import opened Wrappers
  import opened Text
  import opened Values

  type Path = string

  /** File contents as the YAML/JSON readers see them: a parsed value, an
      empty document, or text that does not parse. */
  datatype Doc = Parsed(v: Value) | Blank | Unparsable

  datatype Node = File(doc: Doc) | Dir | Symlink(value: string)

  type Tree = map<Path, Node>

  /** `os.homedir()` and `process.cwd()`. */
  datatype Env = Env(home: Path, cwd: Path)

  /** What a failing fs or parse step throws. */
  datatype Fault =
    | ManifestNotFound(dir: Path)
    | ManifestInvalid(dir: Path)
    | SourceMissing(path: Path)
    | NoItemsFound(repo: string)
    | TypeError(what: string)
    | Malformed(path: Path)
    | Io(code: string, path: Path)
    | KindClash(dst: Path, src: Path, dirOntoOther: bool)

  /** `err.message` */
  function Message(f: Fault): string {
    match f
    case ManifestNotFound(dir) => "manifest.yaml not found in " + dir
    case ManifestInvalid(dir) => "Invalid manifest.yaml in " + dir
    case SourceMissing(p) => "Source does not exist: " + p
    case NoItemsFound(repo) => "No agents/skills/hooks found in " + repo
    case TypeError(what) => what
    case Malformed(p) => "Failed to parse " + p
    case Io(code, p) => code + ": " + p
    case KindClash(dst, src, dirOntoOther) =>
      if dirOntoOther then "Cannot overwrite non-directory '" + dst + "' with directory '" + src + "'."
      else "Cannot overwrite directory '" + dst + "' with non-directory '" + src + "'."
  }

  /** The tree after an operation, and the fault if the operation threw. */
  datatype Effect = Effect(tree: Tree, fault: Option<Fault>)

  /** The filesystem: the one piece of shared mutable state. */
  class Disk {
    var tree: Tree

    constructor (t: Tree)
      ensures tree == t
    {
      tree := t;
    }
  }

  // ---------------------------------------------------------------- paths

  /** The key a path is stored under: trailing slashes stripped ("/" stays). */
  function Key(p: Path): (k: Path)
    ensures |k| <= |p| && StartsWith(p, k)
    ensures |k| > 1 ==> k[|k| - 1] != '/'
    ensures |p| > 0 ==> |k| > 0
    decreases |p|
  {
    if |p| > 1 && p[|p| - 1] == '/' then Key(p[..|p| - 1]) else p
  }

  lemma KeyIdempotent(p: Path)
    ensures Key(Key(p)) == Key(p)
  {
  }

  /** A directory path with exactly one trailing slash. */
  function Prefix(d: Path): (r: Path)
    ensures |r| > 0 && r[|r| - 1] == '/'
  {
    var k := Key(d);
    if |k| > 0 && k[|k| - 1] == '/' then k else k + "/"
  }

  /** `path.join(a, b)` */
  function Join(a: Path, b: string): Path {
    Prefix(a) + b
  }

  /** A name `readdir` can return. */
  predicate ValidName(n: string) {
    n != "" && '/' !in n
  }

  /** `path.basename(p)` */
  function Basename(p: Path): string {
    AfterLast(Key(p), '/')
  }

  /** `path.dirname(p)` */
  function Dirname(p: Path): (r: Path)
    ensures '/' in Key(p) && |Key(p)| > 1 ==> |r| < |Key(p)|
  {
    var k := Key(p);
    var n := |AfterLast(k, '/')|;
    if n == |k| then "."
    else if n + 1 == |k| then "/"
    else k[..|k| - n - 1]
  }

  /** `q` is `d` itself or lies inside it. */
  predicate Under(q: Path, d: Path) {
    q == Key(d) || (|q| > |Prefix(d)| && StartsWith(q, Prefix(d)))
  }

  /** `q` is a direct child of `d`. */
  predicate IsChildOf(q: Path, d: Path) {
    |q| > |Prefix(d)| && StartsWith(q, Prefix(d)) && '/' !in q[|Prefix(d)|..]
  }

  lemma {:induction false} AfterLastAppend(x: string, b: string, c: char)
    requires |x| > 0 && x[|x| - 1] == c && c !in b
    ensures AfterLast(x + b, c) == b
    decreases |b|
  {
    if |b| > 0 {
      var y := x + b;
      assert y[..|y| - 1] == x + b[..|b| - 1];
      AfterLastAppend(x, b[..|b| - 1], c);
      assert b == b[..|b| - 1] + [b[|b| - 1]];
    } else {
      assert x + b == x;
    }
  }

  /** Joining a plain name gives a path whose key is itself and whose basename is the name. */
  lemma JoinName(a: Path, n: string)
    requires ValidName(n)
    ensures Key(Join(a, n)) == Join(a, n)
    ensures Basename(Join(a, n)) == n
    ensures IsChildOf(Join(a, n), a)
  {
    var j := Join(a, n);
    assert j[|j| - 1] == n[|n| - 1];
    assert n[|n| - 1] in n;
    AfterLastAppend(Prefix(a), n, '/');
    assert j[|Prefix(a)|..] == n;
  }

  lemma JoinBasename(a: Path, n: string)
    requires ValidName(n)
    ensures Basename(Join(a, n)) == n
  {
    JoinName(a, n);
  }

  /** Two different names joined to the same directory are disjoint subtrees. */
  lemma SiblingsDisjoint(a: Path, n: string, m: string)
    requires ValidName(n) && ValidName(m) && n != m
    ensures !Under(Join(a, n), Join(a, m))
  {
    JoinName(a, n);
    JoinName(a, m);
    var p := Prefix(a);
    var q := Join(a, m) + "/";
    assert Prefix(Join(a, m)) == q;
    assert Join(a, n) != Join(a, m) by {
      assert Join(a, n)[|p|..] == n && Join(a, m)[|p|..] == m;
    }
  }

  /** What lies in a child lies in the parent. */
  lemma UnderChild(q: Path, d: Path, n: string)
    requires ValidName(n) && Under(q, Join(d, n))
    ensures Under(q, d)
  {
    JoinName(d, n);
    var p := Prefix(d);
    var j := Join(d, n);
    assert Prefix(j) == j + "/";
    assert q[..|p|] == j[..|p|] == p;
  }

  lemma ChildInside(d: Path, n: string)
    requires ValidName(n)
    ensures forall q :: Under(q, Join(d, n)) ==> Under(q, d)
  {
    forall q | Under(q, Join(d, n))
      ensures Under(q, d)
    {
      UnderChild(q, d, n);
    }
  }

  /** A directory does not lie inside one of its children. */
  lemma ParentOutsideChild(d: Path, n: string)
    requires ValidName(n)
    ensures !Under(Key(d), Join(d, n))
  {
    JoinName(d, n);
    assert |Key(d)| <= |Prefix(d)| < |Join(d, n)|;
  }

  /** Nothing lies inside two differently named children of one directory. */
  lemma SiblingSubtrees(q: Path, a: Path, n: string, m: string)
    requires ValidName(n) && ValidName(m) && n != m && Under(q, Join(a, n))
    ensures !Under(q, Join(a, m))
  {
    JoinName(a, n);
    JoinName(a, m);
    var p := Prefix(a);
    assert Prefix(Join(a, n)) == p + n + "/";
    assert Prefix(Join(a, m)) == p + m + "/";
    NameAfterPrefix(q, p, n);
    NameAfterPrefix(q, p, m);
    if |n| < |m| {
      assert m[|n|] in m;
    } else if |m| < |n| {
      assert n[|m|] in n;
    }
  }

  /** What follows the prefix `p` in a path at or below `p + n`. */
  lemma NameAfterPrefix(q: Path, p: Path, n: string)
    ensures q == p + n || (|q| > |p + n + "/"| && StartsWith(q, p + n + "/")) ==>
      var u := q[|p|..];
      u == n || (|u| > |n| && u[..|n|] == n && u[|n|] == '/')
  {
    var w := p + n + "/";
    if q != p + n && |q| > |w| && StartsWith(q, w) {
      var u := q[|p|..];
      assert q[..|w|] == w;
      assert u[..|n|] == q[|p|..|p| + |n|] == w[|p|..|p| + |n|] == n;
      assert u[|n|] == q[|p| + |n|] == w[|p| + |n|];
    }
  }

  // ------------------------------------------------------------ inspection

  /** `fs.lstatSync(p)`: the node at `p` itself, or `None` (it throws). */
  function Lstat(fs: Tree, p: Path): Option<Node> {
    if Key(p) in fs then Some(fs[Key(p)]) else None
  }

  /** `fs.statSync(p)`: follows a symbolic link one level; a link to a
      missing path or to another link gives `None`. */
  function Stat(fs: Tree, p: Path): (r: Option<Node>)
    ensures r.Some? ==> !r.value.Symlink?
    ensures Lstat(fs, p).Some? && !Lstat(fs, p).value.Symlink? ==> r == Lstat(fs, p)
    ensures Lstat(fs, p).None? ==> r.None?
  {
    match Lstat(fs, p)
    case None => None
    case Some(n) =>
      if n.Symlink? then
        (match Lstat(fs, n.value)
         case Some(m) => if m.Symlink? then None else Some(m)
         case None => None)
      else Some(n)
  }

  /** `fs.existsSync(p)` */
  predicate Exists(fs: Tree, p: Path) {
    Stat(fs, p).Some?
  }

  predicate IsDir(fs: Tree, p: Path) {
    Stat(fs, p) == Some(Dir)
  }

  /** The names `readdir(d)` finds. */
  function ChildNames(fs: Tree, d: Path): set<string> {
    set q | q in fs && IsChildOf(q, d) :: q[|Prefix(d)|..]
  }

  /** `names` is an order `fs.readdirSync(d)` may return: each child once. */
  predicate IsListing(fs: Tree, d: Path, names: seq<string>) {
    && (forall i :: 0 <= i < |names| ==> ValidName(names[i]) && Join(d, names[i]) in fs)
    && (forall i, j :: 0 <= i < j < |names| ==> names[i] != names[j])
    && (forall n :: n in ChildNames(fs, d) ==> n in names)
  }

  /** A child stored under its joined path is listed by `readdir`. */
  lemma ChildListed(fs: Tree, d: Path, n: string)
    requires ValidName(n) && Join(d, n) in fs
    ensures n in ChildNames(fs, d)
  {
    JoinName(d, n);
    assert Join(d, n)[|Prefix(d)|..] == n;
  }

  /** `b` holds every entry of `a` unchanged. */
  ghost predicate Extends(a: Tree, b: Tree) {
    forall q :: q in a ==> q in b && b[q] == a[q]
  }

  /** Adding entries never makes an existing path disappear. */
  lemma ExistsExtends(a: Tree, b: Tree, p: Path)
    requires Extends(a, b) && Exists(a, p)
    ensures Exists(b, p) && Stat(b, p) == Stat(a, p)
  {
    var k := Key(p);
    if a[k].Symlink? {
      assert Lstat(b, p) == Lstat(a, p);
    }
  }

  /** `fs.readFileSync(p)` followed by a parser. */
  function ReadFile(fs: Tree, p: Path): (r: Result<Doc, Fault>)
    ensures r.Ok? <==> Stat(fs, p).Some? && Stat(fs, p).value.File?
  {
    match Stat(fs, p)
    case None => Err(Io("ENOENT", Key(p)))
    case Some(n) => if n.File? then Ok(n.doc) else Err(Io("EISDIR", Key(p)))
  }

  // -------------------------------------------------------------- mutation

  /** `fs.ensureDirSync(d)` (mkdir -p): create `d` and its missing ancestors;
      fails when something other than a directory is in the way. */
  function EnsureDir(fs: Tree, d: Path): (r: Result<Tree, Fault>)
    ensures r.Ok? ==> fs.Keys <= r.value.Keys
    ensures r.Ok? ==> forall q :: q in fs ==> r.value[q] == fs[q]
    ensures r.Ok? ==> forall q :: q in r.value && q !in fs ==> r.value[q] == Dir && |q| <= |Key(d)|
    ensures r.Ok? && |Key(d)| > 1 && '/' in Key(d) ==> IsDir(r.value, d)
    ensures IsDir(fs, d) ==> r == Ok(fs)
    decreases |Key(d)|
  {
    var k := Key(d);
    KeyIdempotent(d);
    assert Stat(fs, k) == Stat(fs, d) && Lstat(fs, k) == Lstat(fs, d);
    if Stat(fs, k) == Some(Dir) then Ok(fs)
    else if Lstat(fs, k).Some? then Err(Io("EEXIST", k))
    else if |k| <= 1 || '/' !in k then Ok(fs)
    else
      match EnsureDir(fs, Dirname(k))
      case Err(e) => Err(e)
      case Ok(fs1) =>
        var r := fs1[k := Dir];
        assert Key(k) == k;
        assert Stat(r, d) == Some(Dir);
        Ok(r)
  }

  /** A second `ensureDir` of the same directory changes nothing. */
  lemma EnsureDirSettled(fs: Tree, d: Path)
    requires EnsureDir(fs, d).Ok?
    ensures EnsureDir(EnsureDir(fs, d).value, d) == EnsureDir(fs, d)
  {
    var k := Key(d);
    KeyIdempotent(d);
    if !(|k| > 1 && '/' in k) {
      assert EnsureDir(fs, d) == Ok(fs);
    }
  }

  /** `ensureDir` has nothing to do in a tree that looks the same at `d`
      as one where it had nothing to do. */
  lemma EnsureDirStable(a: Tree, b: Tree, d: Path)
    requires EnsureDir(a, d) == Ok(a)
    requires Lstat(a, d) == Lstat(b, d) && Stat(a, d) == Stat(b, d)
    ensures EnsureDir(b, d) == Ok(b)
  {
    KeyIdempotent(d);
  }

  /** `rm -rf p`: the node at `p` and everything below it. */
  function RemoveTree(fs: Tree, p: Path): (r: Tree)
    ensures r.Keys <= fs.Keys
    ensures forall q :: q in r ==> r[q] == fs[q]
    ensures forall q :: q in fs ==> (q in r <==> !Under(q, p))
  {
    map q | q in fs && !Under(q, p) :: fs[q]
  }

  /** `fs.unlinkSync(p)` */
  function Unlink(fs: Tree, p: Path): (r: Tree)
    ensures r == fs - {Key(p)}
  {
    fs - {Key(p)}
  }

  /** `fs.removeSync(p)`: the node at `p` with everything below it. */
  function Remove(fs: Tree, p: Path): (r: Tree)
    ensures r.Keys <= fs.Keys
    ensures forall q :: q in fs ==> (q in r <==> !Under(q, p))
    ensures forall q :: q in r ==> r[q] == fs[q]
  {
    RemoveTree(fs, p)
  }

  /** No symbolic link in `fs` points at or into `p`. */
  predicate NoLinkInto(fs: Tree, p: Path) {
    forall q :: q in fs && fs[q].Symlink? ==> !Under(Key(fs[q].value), p)
  }

  /** `a` and `b` agree outside `x`. */
  ghost predicate AgreeOutside(a: Tree, b: Tree, x: Path) {
    forall q :: !Under(q, x) ==> (q in a <==> q in b) && (q in a ==> a[q] == b[q])
  }

  /** What `lstat` and `stat` see at a path outside `x` does not depend on
      what lies inside `x`, when no link leads into `x`. */
  lemma StatFrame(a: Tree, b: Tree, p: Path, x: Path)
    requires AgreeOutside(a, b, x) && !Under(Key(p), x) && NoLinkInto(a, x)
    ensures Lstat(a, p) == Lstat(b, p) && Stat(a, p) == Stat(b, p)
  {
    if Key(p) in a && a[Key(p)].Symlink? {
      KeyIdempotent(a[Key(p)].value);
    }
  }

  /** Where a copy of `q` (inside `src`) lands under `dst`. */
  function Rebase(q: Path, src: Path, dst: Path): Path
    requires Under(q, src)
  {
    if q == Key(src) then Key(dst) else Prefix(dst) + q[|Prefix(src)|..]
  }

  lemma RebaseInjective(src: Path, dst: Path)
    ensures forall q1, q2 :: Under(q1, src) && Under(q2, src) && Rebase(q1, src, dst) == Rebase(q2, src, dst) ==> q1 == q2
  {
    var ps, pd := Prefix(src), Prefix(dst);
    forall q1, q2 | Under(q1, src) && Under(q2, src) && Rebase(q1, src, dst) == Rebase(q2, src, dst)
      ensures q1 == q2
    {
      if q1 != Key(src) && q2 != Key(src) {
        var t1, t2 := pd + q1[|ps|..], pd + q2[|ps|..];
        assert q1[|ps|..] == t1[|pd|..] == t2[|pd|..] == q2[|ps|..];
        assert q1 == ps + q1[|ps|..] && q2 == ps + q2[|ps|..];
      }
    }
  }

  /** The entries at and below `src`, rebased onto `dst`. */
  function Relocated(fs: Tree, src: Path, dst: Path): (r: Tree)
    ensures forall q :: q in fs && Under(q, src) ==> Rebase(q, src, dst) in r && r[Rebase(q, src, dst)] == fs[q]
    ensures forall q :: q in r ==> Under(q, dst)
  {
    RebaseInjective(src, dst);
    map q | q in fs && Under(q, src) :: Rebase(q, src, dst) := fs[q]
  }

  /** Overlay a copy of everything at and below `src` onto `dst` (both keys). */
  function CopyTree(fs: Tree, src: Path, dst: Path): (r: Tree)
    ensures fs.Keys <= r.Keys
    ensures forall q :: q in fs && Under(q, src) ==> Rebase(q, src, dst) in r && r[Rebase(q, src, dst)] == fs[q]
    ensures forall q :: q in fs && !Under(q, dst) ==> r[q] == fs[q]
    ensures forall q :: q in r && q !in fs ==> Under(q, dst)
  {
    fs + Relocated(fs, src, dst)
  }

  /** `fs.moveSync(src, dst)`: the subtree at `src` now lives at `dst`. */
  function Move(fs: Tree, src: Path, dst: Path): (r: Tree)
    ensures forall q :: q in fs && Under(q, src) ==> Rebase(q, src, dst) in r && r[Rebase(q, src, dst)] == fs[q]
    ensures forall q :: q in fs && !Under(q, src) && !Under(q, dst) ==> q in r && r[q] == fs[q]
    ensures forall q :: q in r && !Under(q, dst) ==> q in fs && !Under(q, src)
  {
    RemoveTree(fs, src) + Relocated(fs, src, dst)
  }

  /** Whether `lstat` finds a directory at `p` (a link is not one). */
  predicate LDir(fs: Tree, p: Path) {
    Lstat(fs, p) == Some(Dir)
  }

  /** `fs.copySync(src, dst)`: `lstat` of both ends first; a directory onto
      anything else, or anything else onto a directory, throws. Then parents
      of `dst` are created and the source subtree (a link as a link) is
      overlaid on `dst`, replacing what is there and following no link. */
  function CopyPath(fs: Tree, src: Path, dst: Path): (r: Effect)
    ensures r.fault.None? ==> fs.Keys <= r.tree.Keys && Key(dst) in r.tree
    ensures r.fault.None? ==> SubtreeCopied(fs, Key(src), r.tree, Key(dst))
    ensures r.fault.None? ==> Lstat(fs, dst).None? || LDir(fs, src) == LDir(fs, dst)
    ensures Lstat(fs, src).Some? && Lstat(fs, dst).Some? && LDir(fs, src) != LDir(fs, dst)
      ==> r == Effect(fs, Some(KindClash(dst, src, LDir(fs, src))))
  {
    if Lstat(fs, src).None? then Effect(fs, Some(Io("ENOENT", Key(src))))
    else if Lstat(fs, dst).Some? && LDir(fs, src) != LDir(fs, dst) then
      Effect(fs, Some(KindClash(dst, src, LDir(fs, src))))
    else
      match EnsureDir(fs, Dirname(dst))
      case Err(e) => Effect(fs, Some(e))
      case Ok(fs1) => Effect(CopyTree(fs1, Key(src), Key(dst)), None)
  }

  /** No symbolic link sits at `p`. */
  predicate Plain(fs: Tree, p: Path) {
    Lstat(fs, p).None? || !Lstat(fs, p).value.Symlink?
  }

  /** `t` holds, rebased onto `dst`, every entry `fs` holds at or below `src`. */
  ghost predicate SubtreeCopied(fs: Tree, src: Path, t: Tree, dst: Path) {
    forall q :: q in fs && Under(q, src) ==> Rebase(q, src, dst) in t && t[Rebase(q, src, dst)] == fs[q]
  }

  /** `t` holds at `dst` a copy of what `fs` holds at `src`: the whole
      subtree when `stat` finds a directory there, otherwise the node `stat`
      finds (a regular file, a link's target read through it). */
  ghost predicate HoldsCopy(fs: Tree, src: Path, t: Tree, dst: Path) {
    && Stat(fs, src).Some?
    && if Stat(fs, src) == Some(Dir) then SubtreeCopied(fs, Key(src), t, Key(dst))
       else Lstat(t, dst) == Stat(fs, src)
  }

  /** Every entry of `a` at or below `x` is in `b`, unchanged. */
  ghost predicate KeptUnder(a: Tree, b: Tree, x: Path) {
    forall q :: q in a && Under(q, x) ==> q in b && b[q] == a[q]
  }

  /** A rebased path lies under the destination, and rebasing it back gives
      the path it came from. */
  lemma RebaseBack(q: Path, src: Path, dst: Path)
    requires Under(q, src)
    ensures Under(Rebase(q, src, dst), dst)
    ensures Rebase(Rebase(q, src, dst), dst, src) == q
  {
    if q != Key(src) {
      var pd, ps := Prefix(dst), Prefix(src);
      var tail := q[|ps|..];
      var r := pd + tail;
      assert Rebase(q, src, dst) == r;
      assert r[..|pd|] == pd && |Key(dst)| <= |pd| < |r|;
      assert r[|pd|..] == tail;
      assert ps + tail == q;
    }
  }

  /** A copy stays held while nothing at or below its destination changes. */
  lemma HoldsCopyKept(fs: Tree, src: Path, t: Tree, t2: Tree, dst: Path)
    requires HoldsCopy(fs, src, t, dst) && KeptUnder(t, t2, dst)
    ensures HoldsCopy(fs, src, t2, dst)
  {
    KeyIdempotent(dst);
    KeyIdempotent(src);
    if Stat(fs, src) == Some(Dir) {
      forall q | q in fs && Under(q, Key(src))
        ensures Rebase(q, Key(src), Key(dst)) in t2 && t2[Rebase(q, Key(src), Key(dst))] == fs[q]
      {
        RebaseBack(q, Key(src), Key(dst));
      }
    }
  }

  /** A copy of `src` taken from `b` is a copy of `src` in `a` too when `b`
      kept the subtree of `a` at `src`, and no link sits there. */
  lemma HoldsCopyFrom(a: Tree, b: Tree, src: Path, t: Tree, dst: Path)
    requires Key(src) in a && !a[Key(src)].Symlink?
    requires KeptUnder(a, b, src) && HoldsCopy(b, src, t, dst)
    ensures HoldsCopy(a, src, t, dst)
  {
    KeyIdempotent(src);
    assert Stat(b, src) == Stat(a, src);
  }

  /** A copy taken after entries were only added is a copy of the original. */
  lemma HoldsCopyExtends(a: Tree, b: Tree, src: Path, t: Tree, dst: Path)
    requires Extends(a, b) && Exists(a, src) && HoldsCopy(b, src, t, dst)
    ensures HoldsCopy(a, src, t, dst)
  {
    ExistsExtends(a, b, src);
  }

  /** Outside `x`, every entry of `b` that `a` lacks is a directory. */
  ghost predicate NewOutsideAreDirs(a: Tree, b: Tree, x: Path) {
    forall q :: q in b && q !in a && !Under(q, x) ==> b[q] == Dir
  }

  /** A copy changes nothing outside `dst` and adds only the missing parent
      directories there. */
  lemma CopyPathFrame(fs: Tree, src: Path, dst: Path)
    ensures var r := CopyPath(fs, src, dst);
      forall q :: q in fs && !Under(q, dst) ==> q in r.tree && r.tree[q] == fs[q]
    ensures NewOutsideAreDirs(fs, CopyPath(fs, src, dst).tree, dst)
  {
    KeyIdempotent(dst);
    var clash := Lstat(fs, dst).Some? && LDir(fs, src) != LDir(fs, dst);
    if Lstat(fs, src).Some? && !clash && EnsureDir(fs, Dirname(dst)).Ok? {
      var fs1 := EnsureDir(fs, Dirname(dst)).value;
      var r := CopyTree(fs1, Key(src), Key(dst));
      assert CopyPath(fs, src, dst).tree == r;
      assert Prefix(Key(dst)) == Prefix(dst);
      forall q | q in fs && !Under(q, dst)
        ensures q in r && r[q] == fs[q]
      {
        assert !Under(q, Key(dst));
      }
      forall q | q in r && q !in fs && !Under(q, dst)
        ensures r[q] == Dir
      {
        assert !Under(q, Key(dst));
      }
    }
  }

  /** Where a write to `p` lands: through a symbolic link at `p`. */
  function WriteDestination(fs: Tree, p: Path): Path {
    match Lstat(fs, p)
    case Some(Symlink(v)) => Key(v)
    case _ => Key(p)
  }

  /** `fs.writeFileSync(p, doc)`: the parent must be a directory and `p` not one. */
  function WriteFile(fs: Tree, p: Path, doc: Doc): (r: Result<Tree, Fault>)
    ensures r.Ok? ==> r.value == fs[WriteDestination(fs, p) := File(doc)]
    ensures r.Ok? <==> IsDir(fs, Dirname(p)) && Lstat(fs, WriteDestination(fs, p)) != Some(Dir)
  {
    var e := WriteDestination(fs, p);
    if !IsDir(fs, Dirname(p)) then Err(Io("ENOENT", Key(p)))
    else if Lstat(fs, e) == Some(Dir) then Err(Io("EISDIR", e))
    else Ok(fs[e := File(doc)])
  }

  /** What was written is what is read back. */
  lemma WriteThenRead(fs: Tree, p: Path, doc: Doc)
    requires WriteFile(fs, p, doc).Ok?
    ensures Exists(WriteFile(fs, p, doc).value, p)
    ensures ReadFile(WriteFile(fs, p, doc).value, p) == Ok(doc)
  {
    var e := WriteDestination(fs, p);
    var t := fs[e := File(doc)];
    assert WriteFile(fs, p, doc).value == t;
    if Key(p) == e {
      assert Lstat(t, p) == Some(File(doc));
    } else {
      var v := fs[Key(p)].value;
      assert Lstat(fs, p) == Some(Symlink(v)) && e == Key(v);
      assert Lstat(t, p) == Some(Symlink(v));
      assert Lstat(t, v) == Some(File(doc));
    }
    assert Stat(t, p) == Some(File(doc));
  }

  /** Without a link at `dst`, a file copy changes nothing outside `dst`. */
  lemma CopyFileFrame(fs: Tree, src: Path, dst: Path)
    requires Lstat(fs, dst).None? || !Lstat(fs, dst).value.Symlink?
    ensures var r := CopyFile(fs, src, dst);
      forall q :: q in fs && !Under(q, dst) ==> q in r.tree && r.tree[q] == fs[q]
    ensures NewOutsideAreDirs(fs, CopyFile(fs, src, dst).tree, dst)
  {
  }

  /** `fs.copyFileSync(src, dst)`: a regular file's contents, written through a link at `dst`. */
  function CopyFile(fs: Tree, src: Path, dst: Path): (r: Effect)
    ensures r.fault.None? ==> fs.Keys <= r.tree.Keys && Key(dst) in r.tree
    ensures r.fault.None? ==> ReadFile(r.tree, dst) == ReadFile(fs, src)
    ensures r.fault.None? && Plain(fs, dst) ==> Lstat(r.tree, dst) == Stat(fs, src)
  {
    match ReadFile(fs, src)
    case Err(e) => Effect(fs, Some(e))
    case Ok(doc) =>
      match WriteFile(fs, dst, doc)
      case Err(e) => Effect(fs, Some(e))
      case Ok(fs1) =>
        WriteThenRead(fs, dst, doc);
        Effect(fs1, None)
  }
}

=== FILE: i18n.dfy ===
/**
 * Interface language: the list of locales and their labels, detection of the
 * system locale from the environment, the choice between the locale saved in
 * `config.json` and the detected one, and `t`, which looks a key up in the
 * current locale's table, falls back to English and then to the key itself,
 * and fills `{name}` placeholders.
 *
 * The message tables are a parameter (their contents are not modelled);
 * the environment is a map of variable names to values; reading and writing
 * `config.json` is represented by what was read (`ConfigRead`) and by the
 * document that would be written.
 */
module I18n {
  import opened Wrappers
  import opened Text
  import opened Values

  /** `getLocales()` */
  function Locales(): seq<string> {
    ["en", "ko", "ja", "zh"]
  }

  /** One locale's messages, key to text. */
  type Table = map<string, string>

  /** The tables are keyed by exactly the supported locales. */
  predicate Tables(messages: map<string, Table>) {
    messages.Keys == {"en", "ko", "ja", "zh"}
  }

  /** `getLocaleLabel(locale)`: each locale's name in its own language. */
  function LocaleLabel(locale: string): (r: string)
    requires locale in Locales()
  {
    if locale == "en" then "English"
    else if locale == "ko" then "\U{D55C}\U{AD6D}\U{C5B4}"
    else if locale == "ja" then "\U{65E5}\U{672C}\U{8A9E}"
    else "\U{4E2D}\U{6587}"
  }

  /** Four distinct locales, English first, each with its own non-empty label. */
  lemma LocalesLabelled()
    ensures |Locales()| == 4 && Locales()[0] == "en"
    ensures forall i, j :: 0 <= i < j < |Locales()| ==> Locales()[i] != Locales()[j]
    ensures forall l :: l in Locales() ==> LocaleLabel(l) != ""
    ensures forall i, j :: 0 <= i < j < |Locales()| ==> LocaleLabel(Locales()[i]) != LocaleLabel(Locales()[j])
  {
    assert LocaleLabel("en")[0] == 'E';
    assert LocaleLabel("ko")[0] == '\U{D55C}';
    assert LocaleLabel("ja")[0] == '\U{65E5}';
    assert LocaleLabel("zh")[0] == '\U{4E2D}';
  }

  // ---------------------------------------------------------------------
  // Detection

  /** `env[name] || rest`: an unset or empty variable falls through. */
  function EnvOr(env: map<string, string>, name: string, rest: string): string {
    if name in env && env[name] != "" then env[name] else rest
  }

  /** `LANG || LC_ALL || LC_MESSAGES || ''` */
  function LocaleSetting(env: map<string, string>): string {
    EnvOr(env, "LANG", EnvOr(env, "LC_ALL", EnvOr(env, "LC_MESSAGES", "")))
  }

  /** `detectSystemLocale`: the locale whose code prefixes the lower-cased setting, else English. */
  function DetectSystemLocale(env: map<string, string>): (r: string)
    ensures r in Locales()
    ensures r != "en" ==> StartsWith(ToLower(LocaleSetting(env)), r)
    ensures r == "en" <==> (!StartsWith(ToLower(LocaleSetting(env)), "ko")
      && !StartsWith(ToLower(LocaleSetting(env)), "ja") && !StartsWith(ToLower(LocaleSetting(env)), "zh"))
  {
    var lower := ToLower(LocaleSetting(env));
    if StartsWith(lower, "ko") then "ko"
    else if StartsWith(lower, "ja") then "ja"
    else if StartsWith(lower, "zh") then "zh"
    else "en"
  }

  /** The first set, non-empty variable of `LANG`, `LC_ALL`, `LC_MESSAGES` decides. */
  lemma LocaleSettingOrder(env: map<string, string>)
    ensures "LANG" in env && env["LANG"] != "" ==> LocaleSetting(env) == env["LANG"]
    ensures ("LANG" !in env || env["LANG"] == "") && "LC_ALL" in env && env["LC_ALL"] != ""
      ==> LocaleSetting(env) == env["LC_ALL"]
    ensures ("LANG" !in env || env["LANG"] == "") && ("LC_ALL" !in env || env["LC_ALL"] == "")
      ==> LocaleSetting(env) == (if "LC_MESSAGES" in env then env["LC_MESSAGES"] else "")
  {
  }

  // ---------------------------------------------------------------------
  // Selection between the saved and the detected locale

  /** What reading `config.json` gave: no file, a read or parse failure, or the document. */
  datatype ConfigRead = NoConfig | ConfigFailed | ConfigDoc(doc: Value)

  /** `config.locale` when it is truthy; a document that is not an object has none. */
  function SavedValue(c: ConfigRead): (v: Option<Value>)
    ensures v.Some? ==> c.ConfigDoc? && Get(c.doc, "locale") == v && Truthy(v)
  {
    if c.ConfigDoc? && Truthy(Get(c.doc, "locale")) then Get(c.doc, "locale") else None
  }

  /** `config.locale` when it is a non-empty string. */
  function SavedLocale(c: ConfigRead): (r: Option<string>)
    ensures r.Some? <==> SavedValue(c).Some? && SavedValue(c).value.Str?
    ensures r.Some? ==> SavedValue(c) == Some(Str(r.value)) && r.value != ""
  {
    match SavedValue(c)
    case Some(Str(s)) => Some(s)
    case _ => None
  }

  /** `key in messages` for a property key: an own key of the table object, or a name every object inherits. */
  predicate InMessagesAsWritten(messages: map<string, Table>, key: string) {
    key in messages || key in PrototypeNames
  }

  /** `initLocale`'s choice as written: `config.locale in messages` tests the
      property key `String(config.locale)`, and on success the saved value
      itself, string or not, becomes the current locale. */
  function SelectLocaleAsWritten(messages: map<string, Table>, c: ConfigRead, env: map<string, string>): (r: Value)
    ensures r == Str(DetectSystemLocale(env)) || (SavedValue(c) == Some(r) && InMessagesAsWritten(messages, JsString(r)))
    ensures SavedValue(c).Some? && InMessagesAsWritten(messages, JsString(SavedValue(c).value)) ==> r == SavedValue(c).value
    ensures SavedLocale(c).Some? && SavedLocale(c).value in messages ==> r == Str(SavedLocale(c).value)
  {
    var saved := SavedValue(c);
    if saved.Some? && InMessagesAsWritten(messages, JsString(saved.value)) then saved.value
    else Str(DetectSystemLocale(env))
  }

  /** A saved locale `"toString"` passes the `in` test and becomes the current locale. */
  lemma InheritedLocaleAccepted(messages: map<string, Table>, env: map<string, string>)
    requires Tables(messages)
    ensures var c := ConfigDoc(Obj([Member("locale", Str("toString"))]));
      SelectLocaleAsWritten(messages, c, env) == Str("toString") && "toString" !in Locales()
  {
    var c := ConfigDoc(Obj([Member("locale", Str("toString"))]));
    assert Get(c.doc, "locale") == Some(Str("toString"));
    assert "toString" in PrototypeNames;
  }

  /** A saved locale `["ko"]` passes the `in` test as the key `"ko"`: the
      array becomes the current locale and `t` reads the Korean table through
      it, while the corrected rule falls back to detection. */
  lemma ArrayLocaleAccepted(messages: map<string, Table>, env: map<string, string>, key: string)
    requires Tables(messages)
    ensures var c := ConfigDoc(Obj([Member("locale", Arr([Str("ko")]))]));
      var r := SelectLocaleAsWritten(messages, c, env);
      && r == Arr([Str("ko")])
      && Translate(messages, JsString(r), key) == Translate(messages, "ko", key)
      && SelectLocale(messages, c, env) == DetectSystemLocale(env)
  {
    var c := ConfigDoc(Obj([Member("locale", Arr([Str("ko")]))]));
    assert Get(c.doc, "locale") == Some(Arr([Str("ko")]));
    assert JsString(Arr([Str("ko")])) == "ko";
  }

  /** `initLocale`'s choice, accepting only the table's own locales. */
  function SelectLocale(messages: map<string, Table>, c: ConfigRead, env: map<string, string>): (r: string)
    requires Tables(messages)
    ensures r in Locales()
    ensures SavedLocale(c).Some? && SavedLocale(c).value in Locales() ==> r == SavedLocale(c).value
    ensures !(SavedLocale(c).Some? && SavedLocale(c).value in Locales()) ==> r == DetectSystemLocale(env)
  {
    var saved := SavedLocale(c);
    if saved.Some? && saved.value in messages then saved.value else DetectSystemLocale(env)
  }

  /** The two choices agree except where the `in` test's key conversion
      lets through something that is not a locale: an inherited name, or a
      non-string value whose `String()` names a table. */
  lemma SelectLocaleAgrees(messages: map<string, Table>, c: ConfigRead, env: map<string, string>)
    requires Tables(messages)
    requires SavedValue(c).None? || !InMessagesAsWritten(messages, JsString(SavedValue(c).value))
      || (SavedValue(c).value.Str? && SavedValue(c).value.s !in PrototypeNames)
    ensures SelectLocaleAsWritten(messages, c, env) == Str(SelectLocale(messages, c, env))
  {
  }

  /** The document `setLocale` writes back: the old one with `locale` set, or `{locale}` when there was none. */
  function ConfigWithLocale(c: ConfigRead, locale: string): Option<Value> {
    match c
    case NoConfig => Some(Obj([Member("locale", Str(locale))]))
    case ConfigFailed => None
    case ConfigDoc(doc) =>
      match doc
      case Obj(ms) => Some(Obj(SetMember(ms, "locale", Str(locale))))
      // an array takes the property, but JSON output drops it
      case Arr(items) => Some(Arr(items))
      // a property assignment on null or a primitive throws
      case _ => None
  }

  /** The written document records the locale and keeps every other setting. */
  lemma ConfigWithLocaleKeeps(c: ConfigRead, locale: string, k: string)
    requires c.ConfigDoc? && c.doc.Obj? && k != "locale"
    ensures ConfigWithLocale(c, locale).Some?
    ensures Get(ConfigWithLocale(c, locale).value, "locale") == Some(Str(locale))
    ensures Get(ConfigWithLocale(c, locale).value, k) == Get(c.doc, k)
  {
    SetMemberOther(c.doc.members, "locale", Str(locale), k);
  }

  // ---------------------------------------------------------------------
  // Translation

  /** `messages[locale]?.[key] ?? messages.en[key] ?? key` */
  function Translate(messages: map<string, Table>, locale: string, key: string): (r: string)
    ensures locale in messages && key in messages[locale] ==> r == messages[locale][key]
    ensures !(locale in messages && key in messages[locale]) && "en" in messages && key in messages["en"]
      ==> r == messages["en"][key]
    ensures r == key || (exists l :: l in messages && key in messages[l] && r == messages[l][key])
  {
    if locale in messages && key in messages[locale] then messages[locale][key]
    else if "en" in messages && key in messages["en"] then messages["en"][key]
    else key
  }

  /** A key missing from both the current and the English table comes back as it is. */
  lemma TranslateMissing(messages: map<string, Table>, locale: string, key: string)
    requires locale !in messages || key !in messages[locale]
    requires "en" !in messages || key !in messages["en"]
    ensures Translate(messages, locale, key) == key
  {
  }

  /** The placeholder `{name}`. */
  function Placeholder(name: string): (p: string)
    ensures |p| > 0 && p[0] == '{'
  {
    "{" + name + "}"
  }

  /** Each parameter's placeholders replaced by its value, parameters taken in order. */
  function Interpolated(msg: string, params: seq<(string, string)>): string
    decreases |params|
  {
    if |params| == 0 then msg
    else
      var (k, v) := params[|params| - 1];
      ReplaceAll(Interpolated(msg, params[..|params| - 1]), Placeholder(k), v)
  }

  /** A message without any `{` is returned unchanged, whatever the parameters. */
  lemma {:induction false} InterpolatedPlain(msg: string, params: seq<(string, string)>)
    requires '{' !in msg
    ensures Interpolated(msg, params) == msg
    decreases |params|
  {
    if |params| > 0 {
      var n := |params| - 1;
      InterpolatedPlain(msg, params[..n]);
      ReplaceAllUntouched(msg, Placeholder(params[n].0), params[n].1);
    }
  }

  /** Text free of the pattern's first character is copied before the scan goes on. */
  lemma {:induction false} ReplaceAllAfter(a: string, rest: string, p: string, r: string)
    requires |p| > 0 && p[0] !in a
    ensures ReplaceAll(a + rest, p, r) == a + ReplaceAll(rest, p, r)
    decreases |a|
  {
    if |a| > 0 {
      assert (a + rest)[0] == a[0];
      assert !StartsWith(a + rest, p);
      assert (a + rest)[1..] == a[1..] + rest;
      ReplaceAllAfter(a[1..], rest, p, r);
      assert a == [a[0]] + a[1..];
    } else {
      assert a + rest == rest;
    }
  }

  /** One placeholder in otherwise plain text is replaced by the value, the rest kept. */
  lemma InterpolatedOne(a: string, name: string, v: string, b: string)
    requires '{' !in a && '{' !in b
    ensures Interpolated(a + Placeholder(name) + b, [(name, v)]) == a + v + b
  {
    var p := Placeholder(name);
    assert [(name, v)][..0] == [];
    assert a + p + b == a + (p + b);
    ReplaceAllAfter(a, p + b, p, v);
    ReplaceAllLeading(p, b, v);
    ReplaceAllUntouched(b, p, v);
  }

  /** The module's current locale and the tables `t` reads. */
  class Translator {
    const messages: map<string, Table>
    var currentLocale: string

    ghost predicate Valid()
      reads this
    {
      Tables(messages) && currentLocale in Locales()
    }

    constructor(messages: map<string, Table>)
      requires Tables(messages)
      ensures Valid()
      ensures this.messages == messages && currentLocale == "en"
    {
      this.messages := messages;
      currentLocale := "en";
    }

    /** `initLocale`: the saved locale when it names a table, else the detected one. */
    method InitLocale(config: ConfigRead, env: map<string, string>) returns (r: string)
      requires Valid()
      modifies this
      ensures Valid() && r == currentLocale
      ensures currentLocale == SelectLocale(messages, config, env)
    {
      var saved := SavedLocale(config);
      if saved.Some? && saved.value in messages {
        currentLocale := saved.value;
        return currentLocale;
      }
      currentLocale := DetectSystemLocale(env);
      return currentLocale;
    }

    /** `setLocale`: the current locale changes whether or not the setting can be saved. */
    method SetLocale(locale: string, existing: ConfigRead) returns (written: Option<Value>)
      requires Valid() && locale in Locales()
      modifies this
      ensures Valid() && currentLocale == locale
      ensures written == ConfigWithLocale(existing, locale)
    {
      currentLocale := locale;
      written := ConfigWithLocale(existing, locale);
    }

    /** `getLocale()` */
    function Locale(): (r: string)
      reads this
      requires Valid()
      ensures r in Locales()
    {
      currentLocale
    }

    /** `t(key, params)` */
    method T(key: string, params: seq<(string, string)>) returns (msg: string)
      ensures msg == Interpolated(Translate(messages, currentLocale, key), params)
    {
      msg := Translate(messages, currentLocale, key);
      for i := 0 to |params|
        invariant msg == Interpolated(Translate(messages, currentLocale, key), params[..i])
      {
        var (k, v) := params[i];
        msg := ReplaceAll(msg, Placeholder(k), v);
        assert params[..i + 1][..i] == params[..i];
      }
      assert params[..|params|] == params;
    }
  }
}

=== FILE: linker.dfy ===
/**
 * The only code that creates, removes or inspects symbolic links.
 * Ownership is a substring test on the stored link value.
 */
module Linker {
  import opened Wrappers
  import opened Text
  import opened Seqs
  import opened Disk
  import opened Types

  /** `expandPath(p)`: a leading `~` (alone or before `/`) becomes the home directory. */
  function ExpandPath(env: Env, p: string): (r: Path)
    ensures p == "~" ==> r == env.home
    ensures StartsWith(p, "~/") ==> r == Join(env.home, p[2..])
    ensures !(p == "~" || StartsWith(p, "~/")) ==> r == p
  {
    if p == "~" then env.home
    else if StartsWith(p, "~/") then Join(env.home, p[2..])
    else p
  }

  /** With a home directory that does not itself start with `~`, expanding twice is expanding once. */
  lemma ExpandPathIdempotent(env: Env, p: string)
    requires !StartsWith(env.home, "~")
    ensures ExpandPath(env, ExpandPath(env, p)) == ExpandPath(env, p)
  {
    var r := ExpandPath(env, p);
    if StartsWith(p, "~/") && p != "~" {
      var k := Key(env.home);
      var pre := Prefix(env.home);
      assert r == pre + p[2..];
      if |k| > 0 {
        assert pre[0] == k[0] == env.home[0];
      } else {
        assert pre == "/";
      }
      assert r[0] == pre[0] != '~';
      assert r != "~" && !StartsWith(r, "~/");
    }
  }

  /** The marker an orchester-managed link value carries (with `path.sep` = `/`). */
  predicate Owned(value: string) {
    Contains(value, ".orchester/profiles/") || Contains(value, ".orchester" + "/" + "profiles")
  }

  /** The two markers collapse into one: the second is a prefix of the first. */
  lemma OwnedIff(value: string)
    ensures Owned(value) <==> Contains(value, ".orchester/profiles")
  {
    assert ".orchester/profiles/" == ".orchester/profiles" + "/";
    assert ".orchester" + "/" + "profiles" == ".orchester/profiles";
    if Contains(value, ".orchester/profiles/") {
      ContainsPrefixOf(value, ".orchester/profiles", "/");
    }
  }

  /** `isOrchSymlink(target)`: never throws. */
  predicate IsOrchSymlink(fs: Tree, env: Env, target: string) {
    match Lstat(fs, ExpandPath(env, target))
    case Some(Symlink(v)) => Owned(v)
    case _ => false
  }

  /** True exactly for a link whose stored value contains `.orchester/profiles`. */
  lemma IsOrchSymlinkIff(fs: Tree, env: Env, target: string)
    ensures IsOrchSymlink(fs, env, target) <==>
      exists v :: Lstat(fs, ExpandPath(env, target)) == Some(Symlink(v)) && Contains(v, ".orchester/profiles")
  {
    if Lstat(fs, ExpandPath(env, target)).Some? && Lstat(fs, ExpandPath(env, target)).value.Symlink? {
      OwnedIff(Lstat(fs, ExpandPath(env, target)).value.value);
    }
  }

  /** The last two steps of `createSymlink`: clear the target, then link it. */
  function Relink(fs: Tree, es: Path, et: Path): (t: Tree)
    ensures Lstat(t, et) == Some(Symlink(es))
    ensures AgreeOutside(fs, t, et)
    ensures Lstat(fs, et).Some? ==> forall q :: q in t && Under(q, et) ==> q == Key(et)
  {
    var cleared := if Lstat(fs, et).Some? then Remove(fs, et) else fs;
    cleared[Key(et) := Symlink(es)]
  }

  /** Relinking a target that holds only the same link changes nothing. */
  lemma RelinkSame(t: Tree, es: Path, et: Path)
    requires Lstat(t, et) == Some(Symlink(es))
    requires forall q :: q in t && Under(q, et) ==> q == Key(et)
    ensures Relink(t, es, et) == t
  {
    assert Remove(t, et)[Key(et) := Symlink(es)] == t;
  }

  /** `createSymlink(source, target)` */
  function SymlinkCreated(fs: Tree, env: Env, source: string, target: string): (r: Effect)
    ensures var es := ExpandPath(env, source);
      !Exists(fs, es) ==> r == Effect(fs, Some(SourceMissing(es)))
    ensures r.fault.None? ==>
      && Exists(fs, ExpandPath(env, source))
      && EnsureDir(fs, Dirname(ExpandPath(env, target))).Ok?
      && r.tree == Relink(EnsureDir(fs, Dirname(ExpandPath(env, target))).value, ExpandPath(env, source), ExpandPath(env, target))
  {
    var es, et := ExpandPath(env, source), ExpandPath(env, target);
    if !Exists(fs, es) then Effect(fs, Some(SourceMissing(es)))
    else
      match EnsureDir(fs, Dirname(et))
      case Err(e) => Effect(fs, Some(e))
      case Ok(fs1) => Effect(Relink(fs1, es, et), None)
  }

  method CreateSymlink(d: Disk, env: Env, source: string, target: string) returns (fault: Option<Fault>)
    modifies d
    ensures Effect(d.tree, fault) == SymlinkCreated(old(d.tree), env, source, target)
  {
    var es := ExpandPath(env, source);
    var et := ExpandPath(env, target);
    if !Exists(d.tree, es) {
      return Some(SourceMissing(es));
    }
    var made := EnsureDir(d.tree, Dirname(et));
    if made.Err? {
      return Some(made.error);
    }
    d.tree := made.value;
    if Lstat(d.tree, et).Some? {
      d.tree := Remove(d.tree, et);
    }
    d.tree := d.tree[Key(et) := Symlink(es)];
    fault := None;
  }

  /** After a successful call the target is a link holding the expanded
      source, whatever was there before is gone, and nothing outside the
      target changed. */
  lemma CreateSymlinkResult(fs: Tree, env: Env, source: string, target: string)
    requires SymlinkCreated(fs, env, source, target).fault.None?
    ensures var es, et, t := ExpandPath(env, source), ExpandPath(env, target), SymlinkCreated(fs, env, source, target).tree;
      && Lstat(t, et) == Some(Symlink(es))
      && (Lstat(fs, et).Some? ==> forall q :: q in t && Under(q, et) ==> q == Key(et))
      && (forall q :: q in fs && !Under(q, et) ==> q in t && t[q] == fs[q])
  {
    var et := ExpandPath(env, target);
    var fs1 := EnsureDir(fs, Dirname(et)).value;
    assert Lstat(fs, et).Some? ==> Lstat(fs1, et).Some?;
  }

  /** An absolute path other than the root. */
  predicate Absolute(p: Path) {
    |Key(p)| > 1 && Key(p)[0] == '/'
  }

  /** The parent of an absolute path lies outside it. */
  lemma ParentOutside(et: Path)
    requires Absolute(et)
    ensures '/' in Key(et) && |Key(Dirname(et))| < |Key(et)| && !Under(Key(Dirname(et)), et)
  {
    assert Key(et)[0] in Key(et);
  }

  /** After a successful call the target's parent is a directory (no link
      may lead into the target: a parent cannot live inside its child). */
  lemma CreateSymlinkParent(fs: Tree, env: Env, source: string, target: string)
    requires SymlinkCreated(fs, env, source, target).fault.None?
    requires Absolute(ExpandPath(env, target)) && NoLinkInto(fs, ExpandPath(env, target))
    ensures var dd := Dirname(ExpandPath(env, target));
      |Key(dd)| > 1 && '/' in Key(dd) ==> IsDir(SymlinkCreated(fs, env, source, target).tree, dd)
  {
    var et := ExpandPath(env, target);
    var dd := Dirname(et);
    ParentOutside(et);
    var fs1 := EnsureDir(fs, dd).value;
    assert NoLinkInto(fs1, et);
    StatFrame(fs1, SymlinkCreated(fs, env, source, target).tree, dd, et);
  }

  /** The facts the second call relies on: the source still exists and the
      target's parent needs no `mkdir`. */
  lemma CreateSymlinkLeavesContext(fs: Tree, env: Env, source: string, target: string)
    requires SymlinkCreated(fs, env, source, target).fault.None?
    requires Absolute(ExpandPath(env, target))
    requires !Under(Key(ExpandPath(env, source)), ExpandPath(env, target))
    requires NoLinkInto(fs, ExpandPath(env, target))
    ensures var t := SymlinkCreated(fs, env, source, target).tree;
      Exists(t, ExpandPath(env, source)) && EnsureDir(t, Dirname(ExpandPath(env, target))) == Ok(t)
  {
    var es, et := ExpandPath(env, source), ExpandPath(env, target);
    var dd := Dirname(et);
    ParentOutside(et);
    var fs1 := EnsureDir(fs, dd).value;
    assert NoLinkInto(fs1, et);
    var t := SymlinkCreated(fs, env, source, target).tree;
    StatFrame(fs1, t, es, et);
    StatFrame(fs1, t, dd, et);
    EnsureDirSettled(fs, dd);
    EnsureDirStable(fs1, t, dd);
  }

  /** In a tree where nothing lies below a missing target, the new link is
      the only entry at or below the target. */
  lemma CreateSymlinkOnlyLink(fs: Tree, env: Env, source: string, target: string)
    requires SymlinkCreated(fs, env, source, target).fault.None?
    requires Absolute(ExpandPath(env, target))
    requires Lstat(fs, ExpandPath(env, target)).Some? || forall q :: q in fs ==> !Under(q, ExpandPath(env, target))
    ensures var t, et := SymlinkCreated(fs, env, source, target).tree, ExpandPath(env, target);
      forall q :: q in t && Under(q, et) ==> q == Key(et)
  {
    var et := ExpandPath(env, target);
    var dd := Dirname(et);
    ParentOutside(et);
    var fs1 := EnsureDir(fs, dd).value;
    var t := SymlinkCreated(fs, env, source, target).tree;
    if Lstat(fs1, et).None? {
      assert forall q :: q in fs1 && q !in fs ==> !Under(q, et);
      assert forall q :: q in fs1 ==> !Under(q, et);
      assert forall q :: q in t && Under(q, et) ==> q == Key(et);
    }
  }

  /** Calling `createSymlink` again with the same arguments succeeds and
      changes nothing: one link with the same value. */
  lemma CreateSymlinkIdempotent(fs: Tree, env: Env, source: string, target: string)
    requires SymlinkCreated(fs, env, source, target).fault.None?
    requires Absolute(ExpandPath(env, target))
    requires !Under(Key(ExpandPath(env, source)), ExpandPath(env, target))
    requires NoLinkInto(fs, ExpandPath(env, target))
    requires Lstat(fs, ExpandPath(env, target)).Some? || forall q :: q in fs ==> !Under(q, ExpandPath(env, target))
    ensures var t := SymlinkCreated(fs, env, source, target).tree;
      SymlinkCreated(t, env, source, target) == Effect(t, None)
  {
    var es, et := ExpandPath(env, source), ExpandPath(env, target);
    var t := SymlinkCreated(fs, env, source, target).tree;
    CreateSymlinkLeavesContext(fs, env, source, target);
    CreateSymlinkOnlyLink(fs, env, source, target);
    RelinkSame(t, es, et);
    assert SymlinkCreated(t, env, source, target) == Effect(Relink(t, es, et), None);
  }

  /** `removeSymlink(target)` */
  function SymlinkRemoved(fs: Tree, env: Env, target: string): (r: Tree)
    ensures r.Keys <= fs.Keys && forall q :: q in r ==> r[q] == fs[q]
    ensures forall q :: q in fs && q !in r ==> fs[q].Symlink? && q == Key(ExpandPath(env, target))
    ensures Lstat(r, ExpandPath(env, target)).None? || !Lstat(r, ExpandPath(env, target)).value.Symlink?
  {
    var et := ExpandPath(env, target);
    match Lstat(fs, et)
    case Some(Symlink(_)) => Unlink(fs, et)
    case _ => fs
  }

  method RemoveSymlink(d: Disk, env: Env, target: string)
    modifies d
    ensures d.tree == SymlinkRemoved(old(d.tree), env, target)
  {
    var et := ExpandPath(env, target);
    var node := Lstat(d.tree, et);
    if node.Some? && node.value.Symlink? {
      d.tree := Unlink(d.tree, et);
    }
  }

  /** The link found at an owned target. */
  function LinkAt(fs: Tree, env: Env, target: string): Link
    requires IsOrchSymlink(fs, env, target)
  {
    Link(Lstat(fs, ExpandPath(env, target)).value.value, ExpandPath(env, target))
  }

  function OwnedTarget(fs: Tree, env: Env): string -> bool {
    (t: string) => IsOrchSymlink(fs, env, t)
  }

  /** `listActiveLinks(targets)` */
  function ActiveLinks(fs: Tree, env: Env, targets: seq<string>): (r: seq<Link>) {
    var owned := Filter(OwnedTarget(fs, env), targets);
    assert forall i :: 0 <= i < |owned| ==> owned[i] in owned;
    seq(|owned|, i requires 0 <= i < |owned| => LinkAt(fs, env, owned[i]))
  }

  /** The result holds, in input order, exactly one link per owned target,
      and nothing for a file, directory, missing path or foreign link. */
  lemma ActiveLinksExact(fs: Tree, env: Env, targets: seq<string>)
    ensures var owned := Filter(OwnedTarget(fs, env), targets);
      && IsSubseq(owned, targets)
      && (forall t :: t in targets ==> (t in owned <==> IsOrchSymlink(fs, env, t)))
      && |ActiveLinks(fs, env, targets)| == |owned|
      && forall i :: 0 <= i < |owned| ==> ActiveLinks(fs, env, targets)[i] == LinkAt(fs, env, owned[i])
  {
  }

  /** One more target appends at most its own link. */
  lemma ActiveLinksStep(fs: Tree, env: Env, targets: seq<string>, i: nat)
    requires i < |targets|
    ensures ActiveLinks(fs, env, targets[..i + 1]) ==
      ActiveLinks(fs, env, targets[..i]) + (if IsOrchSymlink(fs, env, targets[i]) then [LinkAt(fs, env, targets[i])] else [])
  {
    var f := OwnedTarget(fs, env);
    assert targets[..i + 1] == targets[..i] + [targets[i]];
    FilterAppend(f, targets[..i], [targets[i]]);
    assert [targets[i]][1..] == [];
    assert Filter(f, [targets[i]]) == if f(targets[i]) then [targets[i]] else [];
  }

  method ListActiveLinks(d: Disk, env: Env, targets: seq<string>) returns (links: seq<Link>)
    ensures links == ActiveLinks(d.tree, env, targets)
  {
    var fs := d.tree;
    links := [];
    for i := 0 to |targets|
      invariant links == ActiveLinks(fs, env, targets[..i])
    {
      ActiveLinksStep(fs, env, targets, i);
      var et := ExpandPath(env, targets[i]);
      var node := Lstat(fs, et);
      if node.Some? && node.value.Symlink? {
        var source := node.value.value;
        if Owned(source) {
          links := links + [Link(source, et)];
        }
      }
    }
    assert targets[..|targets|] == targets;
  }
}

=== FILE: manifest.dfy ===
/**
 * `parseManifest`: a lossy, defaulting reading of a profile's parsed
 * `manifest.yaml` into a `Manifest`, and `listProfileDirs`.
 */
module ManifestParse {
  import opened Wrappers
  import opened Text
  import opened Values
  import opened Seqs
  import opened Disk
  import opened Types

  function ManifestPath(dir: Path): Path { Join(dir, "manifest.yaml") }

  /** The message `link['source']` throws on a `null` entry. */
  const NullLinkMessage: string := "Cannot read properties of null (reading 'source')"

  /** One raw `links` entry as a `LinkDef` (a `null` entry throws first). */
  function LinkOf(l: Value): (r: LinkDef)
    requires l != Null
    ensures r.installType.Some? <==> Truthy(Get(l, "installType"))
    ensures r.pluginCommand.Some? <==> Truthy(Get(l, "pluginCommand"))
    ensures r.pluginLabel.Some? <==> Truthy(Get(l, "pluginLabel"))
    ensures r.installType.Some? ==> Get(l, "installType") == r.installType
  {
    LinkDef(
      JsString(Coalesce(Get(l, "source"), Str(""))),
      JsString(Coalesce(Get(l, "target"), Str(""))),
      if Truthy(Get(l, "installType")) then Get(l, "installType") else None,
      if Truthy(Get(l, "pluginCommand")) then Some(JsString(Get(l, "pluginCommand").value)) else None,
      if Truthy(Get(l, "pluginLabel")) then Some(JsString(Get(l, "pluginLabel").value)) else None)
  }

  /** The filter: both paths non-empty. */
  predicate Kept(l: LinkDef) {
    l.source != "" && l.target != ""
  }

  /** The raw entries mapped one to one. */
  function LinksOf(raw: seq<Value>): (r: seq<LinkDef>)
    requires Null !in raw
    ensures |r| == |raw| && forall i :: 0 <= i < |raw| ==> r[i] == LinkOf(raw[i])
  {
    seq(|raw|, i requires 0 <= i < |raw| => LinkOf(raw[i]))
  }

  /** `rawLinks.map(...).filter(l => l.source && l.target)` */
  function ParseLinks(raw: seq<Value>): (r: Result<seq<LinkDef>, Fault>)
    ensures r.Ok? <==> Null !in raw
    ensures r.Err? ==> r.error == TypeError(NullLinkMessage)
    ensures r.Ok? ==> IsSubseq(r.value, LinksOf(raw))
    ensures r.Ok? ==> forall l :: l in r.value ==> l.source != "" && l.target != ""
    ensures r.Ok? ==> forall i :: 0 <= i < |raw| && Kept(LinkOf(raw[i])) ==> LinkOf(raw[i]) in r.value
    ensures r.Ok? ==> forall l :: multiset(r.value)[l] == if Kept(l) then multiset(LinksOf(raw))[l] else 0
  {
    if Null in raw then Err(TypeError(NullLinkMessage))
    else
      var links := LinksOf(raw);
      assert forall i :: 0 <= i < |raw| ==> links[i] in links;
      FilterSubseq(Kept, links);
      forall l ensures multiset(Filter(Kept, links))[l] == if Kept(l) then multiset(links)[l] else 0 {
        FilterMultiset(Kept, links, l);
      }
      Ok(Filter(Kept, links))
  }

  /** `String(data[k] ?? dflt)`: the default replaces a missing or `null` field. */
  function FieldOr(data: Value, k: string, dflt: string): (r: string)
    ensures Get(data, k).None? || Get(data, k) == Some(Null) ==> r == dflt
    ensures Get(data, k).Some? && Get(data, k) != Some(Null) ==> r == JsString(Get(data, k).value)
  {
    JsString(Coalesce(Get(data, k), Str(dflt)))
  }

  /** `tags`: an array's elements stringified, anything else empty. */
  function TagsOf(data: Value): (r: seq<string>)
    ensures !(Get(data, "tags").Some? && Get(data, "tags").value.Arr?) ==> r == []
    ensures Get(data, "tags").Some? && Get(data, "tags").value.Arr? ==>
      |r| == |Get(data, "tags").value.items| &&
      forall i :: 0 <= i < |r| ==> r[i] == JsString(Get(data, "tags").value.items[i])
  {
    match Get(data, "tags")
    case Some(Arr(items)) => seq(|items|, i requires 0 <= i < |items| => JsString(items[i]))
    case _ => []
  }

  /** The manifest-level `installType`, kept only when a non-empty string. */
  function InstallTypeOf(data: Value): (r: Option<string>)
    ensures r.Some? <==> exists s :: s != "" && Get(data, "installType") == Some(Str(s))
    ensures r.Some? ==> Get(data, "installType") == Some(Str(r.value))
  {
    match Get(data, "installType")
    case Some(Str(s)) => if s != "" then Some(s) else None
    case _ => None
  }

  /** `links`: parsed when an array, empty otherwise. */
  function LinksField(data: Value): (r: Result<seq<LinkDef>, Fault>)
    ensures !(Get(data, "links").Some? && Get(data, "links").value.Arr?) ==> r == Ok([])
  {
    match Get(data, "links")
    case Some(Arr(items)) => ParseLinks(items)
    case _ => Ok([])
  }

  /** The manifest read from an object (or array) `data`. */
  function FromData(data: Value, dir: Path): Result<Manifest, Fault> {
    match LinksField(data)
    case Err(e) => Err(e)
    case Ok(links) =>
      Ok(Manifest(
        FieldOr(data, "name", Basename(dir)),
        FieldOr(data, "description", ""),
        TagsOf(data),
        FieldOr(data, "tool", "claude-code"),
        links,
        InstallTypeOf(data)))
  }

  /** The parsed document of `dir`'s manifest, when there is one. */
  function Document(fs: Tree, dir: Path): Option<Value> {
    if Exists(fs, ManifestPath(dir)) && ReadFile(fs, ManifestPath(dir)).Ok? && ReadFile(fs, ManifestPath(dir)).value.Parsed?
    then Some(ReadFile(fs, ManifestPath(dir)).value.v)
    else None
  }

  /** `parseManifest(dir)` */
  function ParseManifest(fs: Tree, dir: Path): (r: Result<Manifest, Fault>)
    ensures !Exists(fs, ManifestPath(dir)) ==> r == Err(ManifestNotFound(dir))
    ensures r.Ok? ==> forall l :: l in r.value.links ==> l.source != "" && l.target != ""
    ensures r.Ok? ==> Document(fs, dir).Some? && r == FromData(Document(fs, dir).value, dir)
  {
    var p := ManifestPath(dir);
    if !Exists(fs, p) then Err(ManifestNotFound(dir))
    else
      match ReadFile(fs, p)
      case Err(e) => Err(e)
      case Ok(Unparsable) => Err(Malformed(p))
      case Ok(Blank) => Err(ManifestInvalid(dir))
      case Ok(Parsed(v)) =>
        if v.Obj? || v.Arr? then FromData(v, dir) else Err(ManifestInvalid(dir))
  }

  /** `parseManifest` only looks at what `stat` finds at `manifest.yaml`. */
  lemma ParseManifestFrame(a: Tree, b: Tree, dir: Path)
    requires Stat(a, ManifestPath(dir)) == Stat(b, ManifestPath(dir))
    ensures ParseManifest(a, dir) == ParseManifest(b, dir)
  {
  }

  /** Parsing fails with "Invalid manifest.yaml" exactly for an empty or
      falsy or non-object document, and succeeds for an object whose `links`
      hold no `null`. */
  lemma ParseOutcome(fs: Tree, dir: Path)
    requires Exists(fs, ManifestPath(dir)) && ReadFile(fs, ManifestPath(dir)).Ok?
    ensures var doc := ReadFile(fs, ManifestPath(dir)).value;
      ParseManifest(fs, dir) == Err(ManifestInvalid(dir)) <==>
        doc.Blank? || (doc.Parsed? && !(doc.v.Obj? || doc.v.Arr?))
    ensures Document(fs, dir).Some? && Document(fs, dir).value.Obj? ==>
      (ParseManifest(fs, dir).Ok? <==>
        match Get(Document(fs, dir).value, "links")
        case Some(Arr(items)) => Null !in items
        case _ => true)
  {
  }

  /** A directory entry `listProfileDirs` keeps. Statting a dangling link throws. */
  predicate IsProfileEntry(fs: Tree, root: Path, e: string) {
    IsDir(fs, Join(root, e)) && Exists(fs, ManifestPath(Join(root, e)))
  }

  /** The first entry whose `statSync` throws, if any. */
  function Dangling(fs: Tree, root: Path, listing: seq<string>): (r: Option<string>)
    ensures r.None? <==> forall i :: 0 <= i < |listing| ==> Exists(fs, Join(root, listing[i]))
    ensures r.Some? ==> r.value in listing && !Exists(fs, Join(root, r.value))
  {
    if |listing| == 0 then None
    else if !Exists(fs, Join(root, listing[0])) then Some(listing[0])
    else
      var r := Dangling(fs, root, listing[1..]);
      assert forall i :: 1 <= i < |listing| ==> listing[i] == listing[1..][i - 1];
      r
  }

  /** `listProfileDirs(root)`, `listing` being what `readdirSync(root)` returned. */
  function ListProfileDirs(fs: Tree, root: Path, listing: seq<string>): (r: Result<seq<Path>, Fault>)
    ensures !Exists(fs, root) ==> r == Ok([])
  {
    if !Exists(fs, root) then Ok([])
    else if !IsDir(fs, root) then Err(Io("ENOTDIR", Key(root)))
    else
      match Dangling(fs, root, listing)
      case Some(e) => Err(Io("ENOENT", Key(Join(root, e))))
      case None =>
        var kept := Filter((e: string) => IsProfileEntry(fs, root, e), listing);
        Ok(seq(|kept|, i requires 0 <= i < |kept| => Join(root, kept[i])))
  }

  /** For a true listing, the result names exactly the child directories that
      hold a `manifest.yaml`, each joined to the root, in listing order. */
  lemma ListProfileDirsExact(fs: Tree, root: Path, listing: seq<string>, n: string)
    requires IsDir(fs, root) && IsListing(fs, root, listing)
    requires ListProfileDirs(fs, root, listing).Ok?
    ensures var ds := ListProfileDirs(fs, root, listing).value;
      Join(root, n) in ds <==> ValidName(n) && n in ChildNames(fs, root) && IsProfileEntry(fs, root, n)
    ensures var kept := Filter((e: string) => IsProfileEntry(fs, root, e), listing);
      IsSubseq(kept, listing) && ListProfileDirs(fs, root, listing).value == seq(|kept|, i requires 0 <= i < |kept| => Join(root, kept[i]))
  {
    var kept := Filter((e: string) => IsProfileEntry(fs, root, e), listing);
    FilterSubseq((e: string) => IsProfileEntry(fs, root, e), listing);
    var ds := ListProfileDirs(fs, root, listing).value;
    assert ds == seq(|kept|, i requires 0 <= i < |kept| => Join(root, kept[i]));
    if Join(root, n) in ds {
      var i :| 0 <= i < |kept| && ds[i] == Join(root, n);
      KeptEntryName(fs, root, listing, kept[i], n);
    }
    if ValidName(n) && n in ChildNames(fs, root) && IsProfileEntry(fs, root, n) {
      assert n in kept;
      JoinedIn(root, kept, n);
    }
  }

  /** Joining every kept name to the root joins each one of them. */
  lemma JoinedIn(root: Path, kept: seq<string>, n: string)
    requires n in kept
    ensures Join(root, n) in seq(|kept|, i requires 0 <= i < |kept| => Join(root, kept[i]))
  {
    var ds := seq(|kept|, i requires 0 <= i < |kept| => Join(root, kept[i]));
    var i :| 0 <= i < |kept| && kept[i] == n;
    assert ds[i] == Join(root, n);
  }

  /** A listed profile entry whose joined path is that of `n` is `n`, a
      valid child name of the root. */
  lemma KeptEntryName(fs: Tree, root: Path, listing: seq<string>, e: string, n: string)
    requires IsListing(fs, root, listing) && e in listing
    requires IsProfileEntry(fs, root, e) && Join(root, e) == Join(root, n)
    ensures ValidName(n) && n in ChildNames(fs, root) && IsProfileEntry(fs, root, n)
  {
    var j :| 0 <= j < |listing| && listing[j] == e;
    assert ValidName(e);
    assert Join(root, e)[|Prefix(root)|..] == e && Join(root, n)[|Prefix(root)|..] == n;
    JoinName(root, e);
    assert e in ChildNames(fs, root);
  }
}

=== FILE: registry.dfy ===
/**
 * The profile registry: the built-in catalogue, the user's custom catalogue
 * in `~/.orchester/custom-registry.json`, installing a profile from a
 * cloned repository (choosing the directory that holds the configuration,
 * copying it and writing `manifest.yaml`), and uninstalling one.
 */
module Registry {
  import opened Wrappers
  import opened Text
  import opened Values
  import opened Seqs
  import opened Disk
  import opened Types
  import opened StateStore
  import opened ManifestParse

  // ------------------------------------------------------------- entries

  /** The manifest part of a catalogue entry. */
  datatype EntryManifest = EntryManifest(
    name: string,
    description: string,
    tags: seq<string>,
    tool: string,
    links: seq<LinkDef>)

  /** `RegistryEntry` */
  datatype Entry = Entry(
    name: string,
    description: string,
    repo: string,
    tags: seq<string>,
    stars: string,
    profileDir: string,
    manifest: EntryManifest)

  /** A link with only `source` and `target`, as the catalogue and the installer write them. */
  function Plain(source: string, target: string): LinkDef {
    LinkDef(source, target, None, None, None)
  }

  const Omc: Entry := Entry(
    "omc", "5 modes, 32 agents, 31+ skills, HUD",
    "https://github.com/anthropics/claude-code-tooling",
    ["agents", "orchestration", "multi-mode"], "2.1K", "omc",
    EntryManifest("omc", "5 modes, 32 agents, 31+ skills, HUD",
      ["agents", "orchestration", "multi-mode"], "claude-code",
      [Plain("files/agents/", "$HOME/.claude/agents/"),
       Plain("files/skills/", "$HOME/.claude/skills/"),
       Plain("files/hooks/", "$HOME/.claude/hooks/")]))

  const Ecc: Entry := Entry(
    "ecc", "agents + skills + hooks + commands comprehensive starter kit",
    "https://github.com/anthropics/claude-code-tooling",
    ["starter-kit", "comprehensive", "production-ready"], "44.7K", "ecc",
    EntryManifest("ecc", "agents + skills + hooks + commands comprehensive starter kit",
      ["starter-kit", "comprehensive", "production-ready"], "claude-code",
      [Plain("files/agents/", "$HOME/.claude/agents/"),
       Plain("files/skills/", "$HOME/.claude/skills/"),
       Plain("files/hooks/", "$HOME/.claude/hooks/")]))

  const Bkit: Entry := Entry(
    "bkit", "PDCA-based AI native development workflow",
    "https://github.com/anthropics/claude-code-tooling",
    ["pdca", "workflow", "development"], "-", "bkit",
    EntryManifest("bkit", "PDCA-based AI native development workflow",
      ["pdca", "workflow", "development"], "claude-code",
      [Plain("files/agents/", "$HOME/.claude/agents/"),
       Plain("files/skills/", "$HOME/.claude/skills/"),
       Plain("files/plugins/", "$HOME/.claude/plugins/")]))

  const Wshobson: Entry := Entry(
    "wshobson-agents", "73 plugins, 112 agents, plugin marketplace",
    "https://github.com/wshobson/agents",
    ["plugins", "marketplace", "agents"], "28.7K", "wshobson-agents",
    EntryManifest("wshobson-agents", "73 plugins, 112 agents, plugin marketplace",
      ["plugins", "marketplace", "agents"], "claude-code",
      [Plain("files/agents/", "$HOME/.claude/agents/"),
       Plain("files/skills/", "$HOME/.claude/skills/")]))

  const OhMyOpencode: Entry := Entry(
    "oh-my-opencode", "Sisyphus orchestrator, 25+ hooks, multi-agent workflows",
    "https://github.com/code-yeongyu/oh-my-opencode",
    ["opencode", "orchestration", "multi-agent"], "-", "oh-my-opencode",
    EntryManifest("oh-my-opencode", "Sisyphus orchestrator, 25+ hooks, multi-agent workflows",
      ["opencode", "orchestration", "multi-agent"], "opencode",
      [Plain("files/agents/", "$HOME/.config/opencode/agents/"),
       Plain("files/hooks/", "$HOME/.config/opencode/hooks/"),
       Plain("files/skills/", "$HOME/.config/opencode/skills/")]))

  const ClaudeOrchestra: Entry := Entry(
    "claude-orchestra", "40+ agents organizational chart structure",
    "https://github.com/mgesteban/claude-code-agents-orchestra",
    ["agents", "org-chart", "structure"], "37", "claude-orchestra",
    EntryManifest("claude-orchestra", "40+ agents organizational chart structure",
      ["agents", "org-chart", "structure"], "claude-code",
      [Plain("files/agents/", "$HOME/.claude/agents/")]))

  /** `REGISTRY`, in catalogue order. */
  const BuiltIns: seq<Entry> := [Omc, Ecc, Bkit, Wshobson, OhMyOpencode, ClaudeOrchestra]

  /** An entry the installer can install under its own name and read back:
      the profile directory is the entry's name, the manifest repeats the
      entry's name, description and tags, and every link names both ends. */
  predicate SelfConsistent(e: Entry) {
    && e.profileDir == e.name
    && e.manifest.name == e.name
    && e.manifest.description == e.description
    && e.manifest.tags == e.tags
    && forall l :: l in e.manifest.links ==> PlainLink(l)
  }

  /** Every built-in entry is self-consistent. */
  lemma BuiltInsConsistent()
    ensures forall e :: e in BuiltIns ==> SelfConsistent(e)
  {
  }

  /** The built-in names differ. */
  lemma BuiltInNamesDistinct()
    ensures forall i, j :: 0 <= i < j < |BuiltIns| ==> BuiltIns[i].name != BuiltIns[j].name
  {
    var names := ["omc", "ecc", "bkit", "wshobson-agents", "oh-my-opencode", "claude-orchestra"];
    assert forall i :: 0 <= i < |BuiltIns| ==> BuiltIns[i].name == names[i];
  }

  // ----------------------------------------------------------- as written

  /** A link object as `yaml.dump` and `JSON.stringify` write it: the
      optional fields only when present. */
  function LinkValue(l: LinkDef): Value {
    Obj([Member("source", Str(l.source)), Member("target", Str(l.target))]
      + (if l.installType.Some? then [Member("installType", l.installType.value)] else [])
      + (if l.pluginCommand.Some? then [Member("pluginCommand", Str(l.pluginCommand.value))] else [])
      + (if l.pluginLabel.Some? then [Member("pluginLabel", Str(l.pluginLabel.value))] else []))
  }

  function LinkValues(ls: seq<LinkDef>): (r: seq<Value>)
    ensures |r| == |ls| && forall i :: 0 <= i < |ls| ==> r[i] == LinkValue(ls[i])
  {
    seq(|ls|, i requires 0 <= i < |ls| => LinkValue(ls[i]))
  }

  /** The object `installProfile` dumps to `manifest.yaml`. */
  function ManifestValue(m: EntryManifest, links: seq<LinkDef>): Value {
    Obj([
      Member("name", Str(m.name)),
      Member("description", Str(m.description)),
      Member("tags", Arr(Strings(m.tags))),
      Member("tool", Str(m.tool)),
      Member("links", Arr(LinkValues(links)))])
  }

  /** An entry as `writeJsonSync` stores it in the custom catalogue. */
  function EntryValue(e: Entry): Value {
    Obj([
      Member("name", Str(e.name)),
      Member("description", Str(e.description)),
      Member("repo", Str(e.repo)),
      Member("tags", Arr(Strings(e.tags))),
      Member("stars", Str(e.stars)),
      Member("profileDir", Str(e.profileDir)),
      Member("manifest", Obj([
        Member("name", Str(e.manifest.name)),
        Member("description", Str(e.manifest.description)),
        Member("tags", Arr(Strings(e.manifest.tags))),
        Member("tool", Str(e.manifest.tool)),
        Member("links", Arr(LinkValues(e.manifest.links)))]))])
  }

  /** What `parseManifest` makes of a link the installer wrote. */
  lemma LinkValueReads(l: LinkDef)
    requires l.installType.None? && l.pluginCommand.None? && l.pluginLabel.None?
    ensures LinkOf(LinkValue(l)) == l
  {
    var ms := [Member("source", Str(l.source)), Member("target", Str(l.target))];
    assert LinkValue(l) == Obj(ms);
    assert Lookup(ms, "source") == Some(Str(l.source));
    assert Lookup(ms, "target") == Some(Str(l.target));
    assert Lookup(ms, "installType") == None;
    assert Lookup(ms, "pluginCommand") == None;
    assert Lookup(ms, "pluginLabel") == None;
  }

  lemma {:induction false} FilterKeepsAll<T>(f: T -> bool, xs: seq<T>)
    requires forall i :: 0 <= i < |xs| ==> f(xs[i])
    ensures Filter(f, xs) == xs
    decreases |xs|
  {
    if |xs| > 0 {
      FilterKeepsAll(f, xs[1..]);
      assert [xs[0]] + xs[1..] == xs;
    }
  }

  /** The fields `parseManifest` reads off the dumped manifest. */
  lemma ManifestValueFields(m: EntryManifest, links: seq<LinkDef>)
    ensures var v := ManifestValue(m, links);
      && Get(v, "name") == Some(Str(m.name))
      && Get(v, "description") == Some(Str(m.description))
      && Get(v, "tags") == Some(Arr(Strings(m.tags)))
      && Get(v, "tool") == Some(Str(m.tool))
      && Get(v, "links") == Some(Arr(LinkValues(links)))
      && Get(v, "installType") == None
  {
    var ms := ManifestValue(m, links).members;
    assert ms[1..][1..] == ms[2..] && ms[2..][1..] == ms[3..] && ms[3..][1..] == ms[4..];
    LookupPast(ms, "description");
    LookupPast(ms, "tags");
    LookupPast(ms[1..], "tags");
    LookupPast(ms, "tool");
    LookupPast(ms[1..], "tool");
    LookupPast(ms[2..], "tool");
    LookupPast(ms, "links");
    LookupPast(ms[1..], "links");
    LookupPast(ms[2..], "links");
    LookupPast(ms[3..], "links");
    assert Lookup(ms[4..], "installType") == None;
    LookupPast(ms, "installType");
    LookupPast(ms[1..], "installType");
    LookupPast(ms[2..], "installType");
    LookupPast(ms[3..], "installType");
  }

  /** Plain links with both ends named survive `parseManifest`'s reading unchanged. */
  lemma {:induction false} LinksRead(links: seq<LinkDef>)
    requires forall l :: l in links ==> l.source != "" && l.target != ""
    requires forall l :: l in links ==> l.installType.None? && l.pluginCommand.None? && l.pluginLabel.None?
    ensures ParseLinks(LinkValues(links)) == Ok(links)
  {
    var raw := LinkValues(links);
    assert Null !in raw;
    forall i | 0 <= i < |links| ensures LinkOf(raw[i]) == links[i] {
      LinkValueReads(links[i]);
    }
    assert LinksOf(raw) == links;
    FilterKeepsAll(Kept, links);
  }

  /** The manifest `installProfile` writes is read back by `parseManifest`
      as the same name, description, tags, tool and links. */
  lemma ManifestValueReads(m: EntryManifest, links: seq<LinkDef>, dir: Path)
    requires forall l :: l in links ==> l.source != "" && l.target != ""
    requires forall l :: l in links ==> l.installType.None? && l.pluginCommand.None? && l.pluginLabel.None?
    ensures FromData(ManifestValue(m, links), dir) == Ok(Manifest(m.name, m.description, m.tags, m.tool, links, None))
  {
    ManifestValueFields(m, links);
    LinksRead(links);
    FieldsRead(ManifestValue(m, links), m, links, dir);
  }

  lemma FieldsRead(v: Value, m: EntryManifest, links: seq<LinkDef>, dir: Path)
    requires Get(v, "name") == Some(Str(m.name))
    requires Get(v, "description") == Some(Str(m.description))
    requires Get(v, "tags") == Some(Arr(Strings(m.tags)))
    requires Get(v, "tool") == Some(Str(m.tool))
    requires Get(v, "links") == Some(Arr(LinkValues(links)))
    requires Get(v, "installType") == None
    requires ParseLinks(LinkValues(links)) == Ok(links)
    ensures FromData(v, dir) == Ok(Manifest(m.name, m.description, m.tags, m.tool, links, None))
  {
    TagsRead(v, m.tags);
    assert LinksField(v) == Ok(links);
    FieldGiven(v, "name", Basename(dir), m.name);
    FieldGiven(v, "description", "", m.description);
    FieldGiven(v, "tool", "claude-code", m.tool);
    assert InstallTypeOf(v) == None;
  }

  lemma FieldGiven(v: Value, k: string, dflt: string, s: string)
    requires Get(v, k) == Some(Str(s))
    ensures FieldOr(v, k, dflt) == s
  {
  }

  /** A string array is read back as the same tags. */
  lemma TagsRead(v: Value, tags: seq<string>)
    requires Get(v, "tags") == Some(Arr(Strings(tags)))
    ensures TagsOf(v) == tags
  {
    assert forall i :: 0 <= i < |tags| ==> JsString(Strings(tags)[i]) == tags[i];
  }

  // ----------------------------------------------------- custom catalogue

  /** `CUSTOM_REGISTRY_PATH` */
  function CustomRegistryPath(env: Env): Path {
    Join(OrchDir(env), "custom-registry.json")
  }

  /** The message reading `.name` off a `null` entry throws. */
  const NullNameMessage: string := "Cannot read properties of null (reading 'name')"

  /** The message `path.join` throws for a name that is not a string. */
  const PathTypeMessage: string := "The \"path\" argument must be of type string"

  /** `e.name === n` for a stored entry (only `null` has no properties to read). */
  function NameIs(v: Value, n: string): (r: Result<bool, Fault>)
    ensures r.Err? <==> v == Null
    ensures r.Ok? ==> (r.value <==> Get(v, "name") == Some(Str(n)))
  {
    if v == Null then Err(TypeError(NullNameMessage)) else Ok(Get(v, "name") == Some(Str(n)))
  }

  predicate Named(v: Value, n: string) {
    Get(v, "name") == Some(Str(n))
  }

  /** `entries.findIndex(e => e.name === n)`: stops at the first match, and
      throws at a `null` met before it. */
  function FindByName(vs: seq<Value>, n: string): (r: Result<Option<nat>, Fault>)
    ensures r.Err? <==> exists i :: 0 <= i < |vs| && vs[i] == Null && forall j :: 0 <= j < i ==> !Named(vs[j], n)
    ensures r.Ok? && r.value.Some? ==> var i := r.value.value;
      i < |vs| && Named(vs[i], n) && forall j :: 0 <= j < i ==> vs[j] != Null && !Named(vs[j], n)
    ensures r == Ok(None) <==> forall j :: 0 <= j < |vs| ==> vs[j] != Null && !Named(vs[j], n)
  {
    FindFromFails(vs, n, 0);
    FindFromNone(vs, n, 0);
    FindFrom(vs, n, 0)
  }

  /** The search from index `k` on, as `findIndex` walks the array. */
  function FindFrom(vs: seq<Value>, n: string, k: nat): (r: Result<Option<nat>, Fault>)
    requires k <= |vs|
    ensures r.Ok? && r.value.Some? ==> var i := r.value.value;
      k <= i < |vs| && Named(vs[i], n) && forall j :: k <= j < i ==> vs[j] != Null && !Named(vs[j], n)
    decreases |vs| - k
  {
    if k == |vs| then Ok(None)
    else
      match NameIs(vs[k], n)
      case Err(e) => Err(e)
      case Ok(true) => Ok(Some(k))
      case Ok(false) => FindFrom(vs, n, k + 1)
  }

  /** The walk throws exactly when a `null` entry comes before any entry with
      the name. */
  lemma {:induction false} FindFromFails(vs: seq<Value>, n: string, k: nat)
    requires k <= |vs|
    ensures FindFrom(vs, n, k).Err? <==>
      exists i :: k <= i < |vs| && vs[i] == Null && forall j :: k <= j < i ==> !Named(vs[j], n)
    decreases |vs| - k
  {
    if k < |vs| && vs[k] != Null && !Named(vs[k], n) {
      FindFromFails(vs, n, k + 1);
      if FindFrom(vs, n, k + 1).Err? {
        var i :| k + 1 <= i < |vs| && vs[i] == Null && forall j :: k + 1 <= j < i ==> !Named(vs[j], n);
        assert k <= i;
      }
    }
  }

  /** The walk finds nothing exactly when no entry from `k` on is `null` or
      carries the name. */
  lemma {:induction false} FindFromNone(vs: seq<Value>, n: string, k: nat)
    requires k <= |vs|
    ensures FindFrom(vs, n, k) == Ok(None) <==> forall j :: k <= j < |vs| ==> vs[j] != Null && !Named(vs[j], n)
    decreases |vs| - k
  {
    if k < |vs| && vs[k] != Null && !Named(vs[k], n) {
      FindFromNone(vs, n, k + 1);
    }
  }

  /** `entries.some(e => e.name === n)`: the same walk as `findIndex`. */
  function AnyNamed(vs: seq<Value>, n: string): Result<bool, Fault> {
    match FindByName(vs, n)
    case Err(e) => Err(e)
    case Ok(i) => Ok(i.Some?)
  }

  /** `entries.filter(e => e.name !== n)`: visits every entry. */
  function WithoutName(vs: seq<Value>, n: string): (r: Result<seq<Value>, Fault>)
    ensures r.Err? <==> Null in vs
    ensures r.Ok? ==> IsSubseq(r.value, vs)
    ensures r.Ok? ==> forall v :: v in r.value <==> v in vs && !Named(v, n)
  {
    if Null in vs then Err(TypeError(NullNameMessage))
    else
      FilterSubseq((v: Value) => !Named(v, n), vs);
      Ok(Filter((v: Value) => !Named(v, n), vs))
  }

  /** `loadCustomRegistry()`: the stored array, or `[]` when the file is
      missing, unreadable, unparsable or holds anything but an array. */
  function LoadCustom(fs: Tree, env: Env): (r: seq<Value>)
    ensures !Exists(fs, CustomRegistryPath(env)) ==> r == []
    ensures r != [] ==> ReadFile(fs, CustomRegistryPath(env)) == Ok(Parsed(Arr(r)))
  {
    var p := CustomRegistryPath(env);
    if !Exists(fs, p) then []
    else
      match ReadFile(fs, p)
      case Ok(Parsed(Arr(items))) => items
      case _ => []
  }

  /** `findIndex` then replace in place, or push. */
  function Upsert(vs: seq<Value>, e: Entry): Result<seq<Value>, Fault> {
    match FindByName(vs, e.name)
    case Err(f) => Err(f)
    case Ok(Some(i)) => Ok(vs[i := EntryValue(e)])
    case Ok(None) => Ok(vs + [EntryValue(e)])
  }

  /** An existing entry with the same name is replaced in place (the first
      one), otherwise the entry is appended; every other entry stays, in order. */
  lemma UpsertPlaces(vs: seq<Value>, e: Entry)
    requires Upsert(vs, e).Ok?
    ensures var ws := Upsert(vs, e).value;
      if exists j :: 0 <= j < |vs| && Named(vs[j], e.name) then
        exists i :: 0 <= i < |vs| && Named(vs[i], e.name) && ws == vs[i := EntryValue(e)] &&
          forall j :: 0 <= j < i ==> !Named(vs[j], e.name)
      else ws == vs + [EntryValue(e)]
  {
  }

  /** `saveCustomEntry` fails exactly when a `null` entry comes before any
      entry of that name. */
  lemma UpsertFails(vs: seq<Value>, e: Entry)
    ensures Upsert(vs, e).Err? <==>
      exists i :: 0 <= i < |vs| && vs[i] == Null && forall j :: 0 <= j < i ==> !Named(vs[j], e.name)
  {
  }

  /** `saveCustomEntry(entry)`: the upserted array, written under `~/.orchester`. */
  function Saved(fs: Tree, env: Env, e: Entry): Effect {
    match Upsert(LoadCustom(fs, env), e)
    case Err(f) => Effect(fs, Some(f))
    case Ok(ws) =>
      match EnsureDir(fs, OrchDir(env))
      case Err(f) => Effect(fs, Some(f))
      case Ok(fs1) =>
        match WriteFile(fs1, CustomRegistryPath(env), Parsed(Arr(ws)))
        case Err(f) => Effect(fs1, Some(f))
        case Ok(fs2) => Effect(fs2, None)
  }

  method SaveCustomEntry(d: Disk, env: Env, e: Entry) returns (fault: Option<Fault>)
    modifies d
    ensures d.tree == Saved(old(d.tree), env, e).tree && fault == Saved(old(d.tree), env, e).fault
  {
    var entries := LoadCustom(d.tree, env);
    ghost var upserted := Upsert(entries, e);
    var existing := FindByName(entries, e.name);
    if existing.Err? {
      return Some(existing.error);
    }
    if existing.value.Some? {
      entries := entries[existing.value.value := EntryValue(e)];
    } else {
      entries := entries + [EntryValue(e)];
    }
    assert upserted == Ok(entries);
    var made := EnsureDir(d.tree, OrchDir(env));
    if made.Err? {
      return Some(made.error);
    }
    d.tree := made.value;
    var written := WriteFile(d.tree, CustomRegistryPath(env), Parsed(Arr(entries)));
    if written.Err? {
      return Some(written.error);
    }
    d.tree := written.value;
    fault := None;
  }

  /** A catalogue written whole is loaded back whole. */
  lemma WrittenCatalogueLoads(fs: Tree, env: Env, ws: seq<Value>)
    requires WriteFile(fs, CustomRegistryPath(env), Parsed(Arr(ws))).Ok?
    ensures LoadCustom(WriteFile(fs, CustomRegistryPath(env), Parsed(Arr(ws))).value, env) == ws
  {
    WriteThenRead(fs, CustomRegistryPath(env), Parsed(Arr(ws)));
  }

  /** After a successful save, loading the catalogue gives the upserted array. */
  lemma SaveThenLoad(fs: Tree, env: Env, e: Entry)
    requires Saved(fs, env, e).fault.None?
    ensures LoadCustom(Saved(fs, env, e).tree, env) == Upsert(LoadCustom(fs, env), e).value
  {
    var ws := Upsert(LoadCustom(fs, env), e).value;
    WrittenCatalogueLoads(EnsureDir(fs, OrchDir(env)).value, env, ws);
  }

  /** `removeCustomEntry(name)`: the filtered array written back (its directory is not created). */
  function RemovedCustom(fs: Tree, env: Env, name: string): Effect {
    match WithoutName(LoadCustom(fs, env), name)
    case Err(f) => Effect(fs, Some(f))
    case Ok(ws) =>
      match WriteFile(fs, CustomRegistryPath(env), Parsed(Arr(ws)))
      case Err(f) => Effect(fs, Some(f))
      case Ok(fs1) => Effect(fs1, None)
  }

  method RemoveCustomEntry(d: Disk, env: Env, name: string) returns (fault: Option<Fault>)
    modifies d
    ensures d.tree == RemovedCustom(old(d.tree), env, name).tree && fault == RemovedCustom(old(d.tree), env, name).fault
  {
    var entries := WithoutName(LoadCustom(d.tree, env), name);
    if entries.Err? {
      return Some(entries.error);
    }
    var written := WriteFile(d.tree, CustomRegistryPath(env), Parsed(Arr(entries.value)));
    if written.Err? {
      return Some(written.error);
    }
    d.tree := written.value;
    fault := None;
  }

  /** After a successful removal the catalogue holds no entry of that name,
      and every other entry is kept, in order. */
  lemma RemoveThenLoad(fs: Tree, env: Env, name: string)
    requires RemovedCustom(fs, env, name).fault.None?
    ensures var before := LoadCustom(fs, env);
      var after := LoadCustom(RemovedCustom(fs, env, name).tree, env);
      IsSubseq(after, before) && forall v :: v in after <==> v in before && !Named(v, name)
  {
    var ws := WithoutName(LoadCustom(fs, env), name).value;
    WrittenCatalogueLoads(fs, env, ws);
  }

  /** `isInstalled(name)`: the profile directory holds a `manifest.yaml`. */
  predicate IsInstalled(fs: Tree, env: Env, name: string) {
    Exists(fs, ManifestPath(Join(ProfilesDir(env), name)))
  }

  /** What `uninstallProfile` returns, with the disk after it. */
  datatype Uninstalled = Uninstalled(effect: Effect, removed: bool, wasCustom: bool)

  /** `uninstallProfile(name)` */
  function Uninstall(fs: Tree, env: Env, name: string): Uninstalled {
    var profileDir := Join(ProfilesDir(env), name);
    match AnyNamed(LoadCustom(fs, env), name)
    case Err(f) => Uninstalled(Effect(fs, Some(f)), false, false)
    case Ok(wasCustom) =>
      var removed := Exists(fs, profileDir);
      var fs1 := if removed then Remove(fs, profileDir) else fs;
      if wasCustom then Uninstalled(RemovedCustom(fs1, env, name), removed, wasCustom)
      else Uninstalled(Effect(fs1, None), removed, wasCustom)
  }

  method UninstallProfile(d: Disk, env: Env, name: string) returns (removed: bool, wasCustom: bool, fault: Option<Fault>)
    modifies d
    ensures var u := Uninstall(old(d.tree), env, name);
      d.tree == u.effect.tree && fault == u.effect.fault && removed == u.removed && wasCustom == u.wasCustom
  {
    var profileDir := Join(ProfilesDir(env), name);
    var custom := AnyNamed(LoadCustom(d.tree, env), name);
    if custom.Err? {
      return false, false, Some(custom.error);
    }
    wasCustom := custom.value;
    removed := false;
    if Exists(d.tree, profileDir) {
      d.tree := Remove(d.tree, profileDir);
      removed := true;
    }
    fault := None;
    if wasCustom {
      fault := RemoveCustomEntry(d, env, name);
    }
  }

  /** `removed` says the profile directory existed and is now gone;
      `wasCustom` says the catalogue named it, and then no longer does. */
  lemma UninstallReports(fs: Tree, env: Env, name: string)
    requires Uninstall(fs, env, name).effect.fault.None?
    ensures var u := Uninstall(fs, env, name);
      && (u.removed <==> Exists(fs, Join(ProfilesDir(env), name)))
      && (u.wasCustom <==> exists v :: v in LoadCustom(fs, env) && Named(v, name))
      && (u.wasCustom ==> forall v :: v in LoadCustom(u.effect.tree, env) ==> !Named(v, name))
  {
    var u := Uninstall(fs, env, name);
    var vs := LoadCustom(fs, env);
    var profileDir := Join(ProfilesDir(env), name);
    var fs1 := if u.removed then Remove(fs, profileDir) else fs;
    if u.wasCustom {
      RemoveThenLoad(fs1, env, name);
      var i := FindByName(vs, name).value.value;
      assert vs[i] in vs;
    } else {
      assert forall j :: 0 <= j < |vs| ==> !Named(vs[j], name);
    }
  }

  /** An entry of `getRegistryWithStatus()`: the entry with its two flags. */
  datatype Listed = Listed(entry: Value, installed: bool, custom: bool)

  /** The name an entry's `name` field holds, when it is a string. */
  function NameOf(v: Value): Option<string> {
    match Get(v, "name")
    case Some(Str(n)) => Some(n)
    case _ => None
  }

  /** `some` answers whether the catalogue names `n`. */
  lemma AnyNamedExact(vs: seq<Value>, n: string)
    requires AnyNamed(vs, n).Ok?
    ensures AnyNamed(vs, n).value <==> exists c :: c in vs && Named(c, n)
  {
    match FindByName(vs, n)
    case Ok(Some(j)) =>
      assert vs[j] in vs;
    case Ok(None) =>
  }

  /** An entry `map` can flag without throwing. */
  predicate Flaggable(v: Value, custom: seq<Value>) {
    v != Null && NameOf(v).Some? && AnyNamed(custom, NameOf(v).value).Ok?
  }

  /** `({...entry, installed: isInstalled(entry.name), custom: custom.some(...)})` */
  function Flag(fs: Tree, env: Env, v: Value, custom: seq<Value>): (r: Result<Listed, Fault>)
    ensures r.Ok? <==> Flaggable(v, custom)
    ensures r.Ok? ==> r.value.entry == v && r.value.installed == IsInstalled(fs, env, NameOf(v).value)
    ensures r.Ok? ==> (r.value.custom <==> exists c :: c in custom && Named(c, NameOf(v).value))
  {
    if v == Null then Err(TypeError(NullNameMessage))
    else
      match NameOf(v)
      case None => Err(TypeError(PathTypeMessage))
      case Some(n) =>
        match AnyNamed(custom, n)
        case Err(f) => Err(f)
        case Ok(c) => AnyNamedExact(custom, n); Ok(Listed(v, IsInstalled(fs, env, n), c))
  }

  /** `all.map(entry => ({...entry, installed, custom}))` */
  function StatusOf(fs: Tree, env: Env, all: seq<Value>, custom: seq<Value>): Result<seq<Listed>, Fault>
    decreases |all|
  {
    if |all| == 0 then Ok([])
    else
      match Flag(fs, env, all[0], custom)
      case Err(f) => Err(f)
      case Ok(l) =>
        match StatusOf(fs, env, all[1..], custom)
        case Err(f) => Err(f)
        case Ok(rest) => Ok([l] + rest)
  }

  /** The listing fails exactly when some entry cannot be flagged. */
  lemma StatusOfFails(fs: Tree, env: Env, all: seq<Value>, custom: seq<Value>)
    ensures StatusOf(fs, env, all, custom).Ok? <==> forall i :: 0 <= i < |all| ==> Flaggable(all[i], custom)
  {
    StatusOfAll(fs, env, all, custom);
    AllIff(v => Flaggable(v, custom), all);
  }

  lemma {:induction false} StatusOfAll(fs: Tree, env: Env, all: seq<Value>, custom: seq<Value>)
    ensures StatusOf(fs, env, all, custom).Ok? <==> All(v => Flaggable(v, custom), all)
    decreases |all|
  {
    if |all| > 0 {
      StatusOfAll(fs, env, all[1..], custom);
      StatusOfStep(fs, env, all, custom);
    }
  }

  /** When every entry can be flagged, the listing is the entries flagged one by one, in order. */
  lemma {:induction false} StatusOfExact(fs: Tree, env: Env, all: seq<Value>, custom: seq<Value>)
    requires forall i :: 0 <= i < |all| ==> Flaggable(all[i], custom)
    ensures StatusOf(fs, env, all, custom).Ok?
    ensures var r := StatusOf(fs, env, all, custom).value;
      |r| == |all| && forall i :: 0 <= i < |all| ==> Flag(fs, env, all[i], custom) == Ok(r[i])
    decreases |all|
  {
    if |all| > 0 {
      var tail := all[1..];
      forall i | 0 <= i < |tail| ensures Flaggable(tail[i], custom) {
        assert tail[i] == all[i + 1];
      }
      StatusOfExact(fs, env, tail, custom);
      StatusOfCons(fs, env, all, custom);
      var r := StatusOf(fs, env, all, custom).value;
      var rest := StatusOf(fs, env, tail, custom).value;
      forall i | 0 <= i < |all| ensures Flag(fs, env, all[i], custom) == Ok(r[i]) {
        if i > 0 {
          assert all[i] == tail[i - 1] && r[i] == rest[i - 1];
        }
      }
    }
  }

  /** The listing succeeds when its first entry can be flagged and the rest can be listed. */
  lemma StatusOfStep(fs: Tree, env: Env, all: seq<Value>, custom: seq<Value>)
    requires |all| > 0
    ensures StatusOf(fs, env, all, custom).Ok?
      <==> Flaggable(all[0], custom) && StatusOf(fs, env, all[1..], custom).Ok?
  {
  }

  /** The listing of a flaggable first entry and a listable rest. */
  lemma StatusOfCons(fs: Tree, env: Env, all: seq<Value>, custom: seq<Value>)
    requires |all| > 0 && Flaggable(all[0], custom) && StatusOf(fs, env, all[1..], custom).Ok?
    ensures StatusOf(fs, env, all, custom)
      == Ok([Flag(fs, env, all[0], custom).value] + StatusOf(fs, env, all[1..], custom).value)
  {
  }

  /** The catalogue entries as stored values. */
  function EntryValues(es: seq<Entry>): (r: seq<Value>)
    ensures |r| == |es| && forall i :: 0 <= i < |es| ==> r[i] == EntryValue(es[i])
  {
    seq(|es|, i requires 0 <= i < |es| => EntryValue(es[i]))
  }

  /** The catalogue `es` followed by the custom one, each entry flagged. */
  function Listing(fs: Tree, env: Env, es: seq<Entry>): Result<seq<Listed>, Fault> {
    var custom := LoadCustom(fs, env);
    StatusOf(fs, env, EntryValues(es) + custom, custom)
  }

  /** `getRegistryWithStatus()` */
  function WithStatus(fs: Tree, env: Env): Result<seq<Listed>, Fault> {
    Listing(fs, env, BuiltIns)
  }

  /** Without a `null` entry, the search by name never throws. */
  lemma NoNullFinds(vs: seq<Value>, n: string)
    requires forall c :: c in vs ==> c != Null
    ensures AnyNamed(vs, n).Ok?
  {
    forall i | 0 <= i < |vs| ensures vs[i] != Null {
      assert vs[i] in vs;
    }
  }

  /** A built-in entry's stored name is its name. */
  lemma EntryValueName(e: Entry)
    ensures NameOf(EntryValue(e)) == Some(e.name)
  {
  }

  /** The listing (for `getRegistryWithStatus()`, of the built-in catalogue)
      fails exactly when a custom entry is `null` or has no string name. */
  lemma ListingFails(fs: Tree, env: Env, es: seq<Entry>)
    ensures Listing(fs, env, es).Ok? <==> forall c :: c in LoadCustom(fs, env) ==> c != Null && NameOf(c).Some?
  {
    var custom := LoadCustom(fs, env);
    var named := EntryValues(es);
    forall i | 0 <= i < |named| ensures named[i] != Null && NameOf(named[i]).Some? {
      EntryValueName(es[i]);
    }
    StatusOfAppendFails(fs, env, named, custom);
  }

  /** Named entries followed by the custom ones list exactly when every custom
      entry is a value other than `null` with a string name. */
  lemma StatusOfAppendFails(fs: Tree, env: Env, named: seq<Value>, custom: seq<Value>)
    requires forall i :: 0 <= i < |named| ==> named[i] != Null && NameOf(named[i]).Some?
    ensures StatusOf(fs, env, named + custom, custom).Ok?
      <==> forall c :: c in custom ==> c != Null && NameOf(c).Some?
  {
    var all := named + custom;
    StatusOfFails(fs, env, all, custom);
    if forall c :: c in custom ==> c != Null && NameOf(c).Some? {
      forall i | 0 <= i < |all| ensures Flaggable(all[i], custom) {
        if i >= |named| {
          assert all[i] == custom[i - |named|];
          assert all[i] in custom;
        }
        NoNullFinds(custom, NameOf(all[i]).value);
      }
    } else {
      var c :| c in custom && !(c != Null && NameOf(c).Some?);
      var k :| 0 <= k < |custom| && custom[k] == c;
      assert all[|named| + k] == c;
    }
  }

  /** The listing holds the catalogue entries, in order and flagged by their
      own profile directories, then the custom entries, each flagged custom. */
  lemma ListingOrder(fs: Tree, env: Env, es: seq<Entry>)
    requires Listing(fs, env, es).Ok?
    ensures var r := Listing(fs, env, es).value;
      var custom := LoadCustom(fs, env);
      && |r| == |es| + |custom|
      && (forall i :: 0 <= i < |es| ==> r[i].entry == EntryValue(es[i]) && r[i].installed == IsInstalled(fs, env, es[i].name))
      && (forall k :: 0 <= k < |custom| ==> r[|es| + k].entry == custom[k] && r[|es| + k].custom)
  {
    var custom := LoadCustom(fs, env);
    var all := EntryValues(es) + custom;
    StatusOfFails(fs, env, all, custom);
    StatusOfExact(fs, env, all, custom);
    var r := StatusOf(fs, env, all, custom).value;
    forall i | 0 <= i < |es|
      ensures r[i].entry == EntryValue(es[i]) && r[i].installed == IsInstalled(fs, env, es[i].name)
    {
      EntryValueName(es[i]);
      assert Flag(fs, env, all[i], custom) == Ok(r[i]);
    }
    forall k | 0 <= k < |custom| ensures r[|es| + k].entry == custom[k] && r[|es| + k].custom {
      assert all[|es| + k] == custom[k];
      assert Flag(fs, env, all[|es| + k], custom) == Ok(r[|es| + k]);
      assert Named(custom[k], NameOf(custom[k]).value);
    }
  }

  // ----------------------------------------------------------- discovery

  /** The directories `discoverFiles` looks for, in order. */
  const SearchDirs: seq<string> := ["agents", "skills", "hooks", "plugins", "commands", "prompts"]

  /** The rule files `discoverFiles` looks for, in order. */
  const RuleFiles: seq<string> := ["CLAUDE.md", "AGENTS.md", "rules.md"]

  /** The nine names, directories first. */
  function KnownItems(): seq<string> { SearchDirs + RuleFiles }

  /** `fs.existsSync(path.join(dir, name))` */
  function InDir(fs: Tree, dir: Path): string -> bool {
    n => Exists(fs, Join(dir, n))
  }

  /** The known items present in `dir`: directories, then rule files. */
  function Present(fs: Tree, dir: Path): seq<string> {
    Filter(InDir(fs, dir), SearchDirs) + Filter(InDir(fs, dir), RuleFiles)
  }

  lemma KnownItemsDistinct()
    ensures Distinct(KnownItems())
  {
  }

  /** `found` lists the known items present in `dir`, in the fixed order,
      without repeats. */
  lemma PresentExact(fs: Tree, dir: Path)
    ensures Present(fs, dir) == Filter(InDir(fs, dir), KnownItems())
    ensures IsSubseq(Present(fs, dir), KnownItems()) && Distinct(Present(fs, dir))
    ensures forall n :: n in Present(fs, dir) <==> n in KnownItems() && Exists(fs, Join(dir, n))
  {
    FilterAppend(InDir(fs, dir), SearchDirs, RuleFiles);
    KnownItemsDistinct();
    FilterDistinct(InDir(fs, dir), KnownItems());
    FilterSubseq(InDir(fs, dir), KnownItems());
  }

  /** A candidate's score: the known items it holds, or 0 when it is not a directory (skipped). */
  function Score(fs: Tree, c: Path): nat {
    if IsDir(fs, c) then |Present(fs, c)| else 0
  }

  /** Each entry of a listing joined to its directory. */
  function JoinAll(d: Path, names: seq<string>): (r: seq<Path>)
    ensures |r| == |names| && forall i :: 0 <= i < |names| ==> r[i] == Join(d, names[i])
  {
    seq(|names|, i requires 0 <= i < |names| => Join(d, names[i]))
  }

  /** `src`, `.claude` and `config` under the root. */
  function SubDirs(root: Path): seq<Path> {
    [Join(root, "src"), Join(root, ".claude"), Join(root, "config")]
  }

  function Existing(fs: Tree): Path -> bool {
    p => Exists(fs, p)
  }

  /** The candidate directories: the root, each entry of `packages` in the
      order `readdirSync` gave (`packages`), then whichever of `src`,
      `.claude` and `config` exist. Listing a `packages` that is not a
      directory throws. */
  function Candidates(fs: Tree, root: Path, packages: seq<string>): Result<seq<Path>, Fault> {
    var pk := Join(root, "packages");
    var subs := Filter(Existing(fs), SubDirs(root));
    if !Exists(fs, pk) then Ok([root] + subs)
    else if !IsDir(fs, pk) then Err(Io("ENOTDIR", Key(pk)))
    else Ok([root] + JoinAll(pk, packages) + subs)
  }

  /** The best directory so far and its score. */
  datatype Choice = Choice(dir: Path, count: nat)

  /** The `for (const candidate of candidates)` scan: a candidate replaces
      the best only with a strictly greater score. */
  function Best(score: Path -> nat, cs: seq<Path>, best: Choice): Choice
    decreases |cs|
  {
    if |cs| == 0 then best
    else if score(cs[0]) > best.count then Best(score, cs[1..], Choice(cs[0], score(cs[0])))
    else Best(score, cs[1..], best)
  }

  /** `Score` as a function value. */
  function Scores(fs: Tree): Path -> nat {
    c => Score(fs, c)
  }

  /** The directory the scan settles on, starting from the root with score 0. */
  function Choose(fs: Tree, root: Path, cs: seq<Path>): Path {
    Best(Scores(fs), cs, Choice(root, 0)).dir
  }

  /** What `discoverFiles` returns. */
  datatype Discovery = Discovery(dir: Path, found: seq<string>)

  /** `discoverFiles(root)` */
  function Discover(fs: Tree, root: Path, packages: seq<string>): Result<Discovery, Fault> {
    match Candidates(fs, root, packages)
    case Err(f) => Err(f)
    case Ok(cs) =>
      var dir := Choose(fs, root, cs);
      Ok(Discovery(dir, Present(fs, dir)))
  }

  /** The scan keeps the first candidate of strictly greatest score: every
      candidate scores at most the final count, the final choice is the
      starting one when nothing beats it, and otherwise it is a candidate
      scoring exactly that count, with every earlier candidate scoring less. */
  lemma {:induction false} BestFirstMax(score: Path -> nat, cs: seq<Path>, best: Choice)
    ensures var r := Best(score, cs, best);
      && r.count >= best.count
      && (forall i :: 0 <= i < |cs| ==> score(cs[i]) <= r.count)
      && (r == best ||
          exists i :: 0 <= i < |cs| && r == Choice(cs[i], score(cs[i])) && r.count > best.count &&
            forall j :: 0 <= j < i ==> score(cs[j]) < r.count)
    decreases |cs|
  {
    if |cs| > 0 {
      var next := if score(cs[0]) > best.count then Choice(cs[0], score(cs[0])) else best;
      BestFirstMax(score, cs[1..], next);
      var r := Best(score, cs, best);
      assert r == Best(score, cs[1..], next);
      assert forall i :: 1 <= i < |cs| ==> cs[i] == cs[1..][i - 1];
      if r != next {
        var i :| 0 <= i < |cs[1..]| && r == Choice(cs[1..][i], score(cs[1..][i])) && r.count > next.count &&
          forall j :: 0 <= j < i ==> score(cs[1..][j]) < r.count;
        assert r == Choice(cs[i + 1], score(cs[i + 1]));
      } else if next != best {
        assert r == Choice(cs[0], score(cs[0]));
      }
    }
  }

  /** `discoverFiles` throws exactly when `packages` exists and is not a
      directory. */
  lemma DiscoverFails(fs: Tree, root: Path, packages: seq<string>)
    ensures Discover(fs, root, packages).Err? <==> Exists(fs, Join(root, "packages")) && !IsDir(fs, Join(root, "packages"))
  {
  }

  /** Otherwise the root is the first candidate, and the scan settles on the
      first candidate of greatest score (the root when nothing scores). It
      reports the known items present there, in the fixed order. */
  lemma DiscoverChoosesBest(fs: Tree, root: Path, packages: seq<string>)
    requires Candidates(fs, root, packages).Ok?
    ensures var cs, r := Candidates(fs, root, packages).value, Discover(fs, root, packages);
      && r.Ok? && |cs| > 0 && cs[0] == root
      && (forall c :: c in cs ==> Score(fs, c) <= Score(fs, r.value.dir))
      && (exists i :: 0 <= i < |cs| && cs[i] == r.value.dir && forall j :: 0 <= j < i ==> Score(fs, cs[j]) < Score(fs, r.value.dir))
      && r.value.found == Filter(InDir(fs, r.value.dir), KnownItems())
  {
    var cs := Candidates(fs, root, packages).value;
    CandidatesStartAtRoot(fs, root, packages);
    var dir := Best(Scores(fs), cs, Choice(cs[0], 0)).dir;
    assert Discover(fs, root, packages) == Ok(Discovery(dir, Present(fs, dir)));
    ChooseFirstMax(Scores(fs), cs);
    PresentExact(fs, dir);
    var i :| 0 <= i < |cs| && cs[i] == dir && forall j :: 0 <= j < i ==> Scores(fs)(cs[j]) < Scores(fs)(dir);
    assert forall j :: 0 <= j < i ==> Score(fs, cs[j]) < Score(fs, dir);
  }

  lemma CandidatesStartAtRoot(fs: Tree, root: Path, packages: seq<string>)
    requires Candidates(fs, root, packages).Ok?
    ensures var cs := Candidates(fs, root, packages).value; |cs| > 0 && cs[0] == root
  {
  }

  /** Scanning from the first candidate with count 0 ends on the first
      candidate of greatest score. */
  lemma ChooseFirstMax(score: Path -> nat, cs: seq<Path>)
    requires |cs| > 0
    ensures var r := Best(score, cs, Choice(cs[0], 0));
      && r.dir in cs
      && (forall c :: c in cs ==> score(c) <= score(r.dir))
      && (exists i :: 0 <= i < |cs| && cs[i] == r.dir && forall j :: 0 <= j < i ==> score(cs[j]) < score(r.dir))
  {
    var r := Best(score, cs, Choice(cs[0], 0));
    BestFirstMax(score, cs, Choice(cs[0], 0));
    assert score(cs[0]) <= r.count;
    if r == Choice(cs[0], 0) {
      assert score(cs[0]) == 0;
    }
    forall c | c in cs
      ensures score(c) <= score(r.dir)
    {
      var i :| 0 <= i < |cs| && cs[i] == c;
    }
  }

  /** One `for (const dir of ...)` counting loop: how many of `names` pass
      `present`, the `existsSync` test of the candidate (`InDir`). */
  method CountIn(present: string -> bool, names: seq<string>) returns (count: nat)
    ensures count == |Filter(present, names)|
  {
    count := 0;
    var i := 0;
    while i < |names|
      invariant 0 <= i <= |names|
      invariant count == |Filter(present, names[..i])|
    {
      FilterSnoc(present, names, i);
      if present(names[i]) {
        count := count + 1;
      }
      i := i + 1;
    }
    assert names[..i] == names;
  }

  /** A loop pushing, in order, the `names` that pass `present` (the
      `found.push` loops, and the `src`/`.claude`/`config` candidates). */
  method CollectIn(present: string -> bool, names: seq<string>, found0: seq<string>) returns (found: seq<string>)
    ensures found == found0 + Filter(present, names)
  {
    found := found0;
    var i := 0;
    while i < |names|
      invariant 0 <= i <= |names|
      invariant found == found0 + Filter(present, names[..i])
    {
      FilterSnoc(present, names, i);
      if present(names[i]) {
        found := found + [names[i]];
      }
      i := i + 1;
    }
    assert names[..i] == names;
  }

  /** One step of the scan, for a candidate scoring `count`. */
  lemma BestStep(score: Path -> nat, cs: seq<Path>, k: nat, best: Choice, count: nat)
    requires k < |cs| && count == score(cs[k])
    ensures Best(score, cs[k..], best) ==
      Best(score, cs[k + 1..], if count > best.count then Choice(cs[k], count) else best)
  {
    assert cs[k..][1..] == cs[k + 1..];
  }

  /** The two counting loops add up to the candidate's score. */
  lemma ScoreSplit(fs: Tree, c: Path)
    ensures Scores(fs)(c) ==
      if Exists(fs, c) && IsDir(fs, c) then |Filter(InDir(fs, c), SearchDirs)| + |Filter(InDir(fs, c), RuleFiles)| else 0
  {
  }

  /** The first half of `discoverFiles`: the candidate directories. */
  method ListCandidates(d: Disk, root: Path, packages: seq<string>) returns (r: Result<seq<Path>, Fault>)
    ensures r == Candidates(d.tree, root, packages)
  {
    var fs := d.tree;
    var candidates := [root];
    var packagesDir := Join(root, "packages");
    if Exists(fs, packagesDir) {
      if !IsDir(fs, packagesDir) {
        return Err(Io("ENOTDIR", Key(packagesDir)));
      }
      candidates := candidates + JoinAll(packagesDir, packages);
    }
    candidates := CollectIn(Existing(fs), SubDirs(root), candidates);
    return Ok(candidates);
  }

  /** The two counting loops for one candidate, skipped (score 0) unless it
      is an existing directory. */
  method CountPresent(fs: Tree, candidate: Path) returns (count: nat)
    ensures count == Score(fs, candidate)
  {
    ScoreSplit(fs, candidate);
    if !Exists(fs, candidate) || !IsDir(fs, candidate) {
      return 0;
    }
    count := CountIn(InDir(fs, candidate), SearchDirs);
    var more := CountIn(InDir(fs, candidate), RuleFiles);
    count := count + more;
  }

  /** The `bestDir`/`bestCount` scan over the candidates. */
  method ChooseCandidate(d: Disk, root: Path, candidates: seq<Path>) returns (bestDir: Path)
    ensures bestDir == Choose(d.tree, root, candidates)
  {
    var fs := d.tree;
    bestDir := root;
    var bestCount: nat := 0;
    var k := 0;
    while k < |candidates|
      invariant 0 <= k <= |candidates|
      invariant Best(Scores(fs), candidates[k..], Choice(bestDir, bestCount)) == Best(Scores(fs), candidates, Choice(root, 0))
    {
      var candidate := candidates[k];
      var count := CountPresent(fs, candidate);
      BestStep(Scores(fs), candidates, k, Choice(bestDir, bestCount), count);
      if count > bestCount {
        bestDir, bestCount := candidate, count;
      }
      k := k + 1;
    }
    assert candidates[k..] == [];
  }

  /** `discoverFiles(root)`, with the `packages` listing in `readdirSync` order. */
  method DiscoverFiles(d: Disk, root: Path, packages: seq<string>) returns (r: Result<Discovery, Fault>)
    ensures r == Discover(d.tree, root, packages)
  {
    var candidates := ListCandidates(d, root, packages);
    if candidates.Err? {
      return Err(candidates.error);
    }
    var bestDir := ChooseCandidate(d, root, candidates.value);
    var found := CollectIn(InDir(d.tree, bestDir), SearchDirs, []);
    assert found == Filter(InDir(d.tree, bestDir), SearchDirs);
    found := CollectIn(InDir(d.tree, bestDir), RuleFiles, found);
    assert found == Present(d.tree, bestDir);
    return Ok(Discovery(bestDir, found));
  }

  // ----------------------------------------------------------- copying

  /** `targetMap`: where each known directory is linked. */
  const TargetMap: map<string, string> := map[
    "agents" := "$HOME/.claude/agents/",
    "skills" := "$HOME/.claude/skills/",
    "hooks" := "$HOME/.claude/hooks/",
    "plugins" := "$HOME/.claude/plugins/",
    "commands" := "$HOME/.claude/commands/",
    "prompts" := "$HOME/.claude/prompts/"]

  /** Every searched directory, and nothing else, is linked to the
      directory of the same name under `~/.claude`. */
  lemma TargetMapKinds()
    ensures forall k :: k in TargetMap <==> k in SearchDirs
    ensures forall k :: k in TargetMap ==> TargetMap[k] == "$HOME/.claude/" + k + "/"
  {
  }

  /** A link as the installer writes it: both ends set, no optional field. */
  predicate PlainLink(l: LinkDef) {
    l.source != "" && l.target != "" && l == Plain(l.source, l.target)
  }

  /** The link recorded for a copied item: a mapped directory to its
      target, a `CLAUDE.md` file to the project's, anything else none. */
  function ItemLink(isDir: bool, item: string): (r: Option<LinkDef>)
    ensures r.Some? ==> PlainLink(r.value) && StartsWith(r.value.source, "files/" + item)
  {
    if isDir then
      if item in TargetMap then Some(Plain("files/" + item + "/", TargetMap[item])) else None
    else if item == "CLAUDE.md" then Some(Plain("files/" + item, "$PROJECT/CLAUDE.md"))
    else None
  }

  /** Which found items get a link: the six directories, and `CLAUDE.md`
      only as a file; `AGENTS.md` and `rules.md` are copied without one. */
  lemma ItemLinks(isDir: bool)
    ensures forall k :: k in SearchDirs ==>
      ItemLink(true, k) == Some(Plain("files/" + k + "/", "$HOME/.claude/" + k + "/"))
    ensures ItemLink(false, "CLAUDE.md") == Some(Plain("files/CLAUDE.md", "$PROJECT/CLAUDE.md"))
    ensures ItemLink(true, "CLAUDE.md") == None
    ensures ItemLink(isDir, "AGENTS.md") == None && ItemLink(isDir, "rules.md") == None
    ensures forall k :: k in SearchDirs ==> ItemLink(false, k) == None
  {
    TargetMapKinds();
    assert "files/" + "CLAUDE.md" == "files/CLAUDE.md";
  }

  /** The tree, the fault if the loop threw, and the links recorded so far. */
  datatype Copied = Copied(tree: Tree, fault: Option<Fault>, links: seq<LinkDef>)

  /** One pass of the item loop: `statSync` the item (throwing when it is
      missing), `copySync` it under `files/`, and record its link. */
  function CopyStep(c: Copied, sourceRoot: Path, filesDir: Path, item: string): Copied {
    var src := Join(sourceRoot, item);
    match Stat(c.tree, src)
    case None => Copied(c.tree, Some(Io("ENOENT", Key(src))), c.links)
    case Some(n) =>
      var e := CopyPath(c.tree, src, Join(filesDir, item));
      Copied(e.tree, e.fault, c.links + StepLinks(e.fault, n, item))
  }

  /** The link a copy of `item` records: none when the copy threw. */
  function StepLinks(fault: Option<Fault>, n: Node, item: string): (r: seq<LinkDef>)
    ensures |r| <= 1 && forall l :: l in r ==> PlainLink(l) && StartsWith(l.source, "files/" + item)
  {
    if fault.Some? then []
    else
      match ItemLink(n == Dir, item)
      case None => []
      case Some(l) => [l]
  }

  /** The item loop over `items`, which stops at the first throw. */
  function CopyItems(fs: Tree, sourceRoot: Path, filesDir: Path, items: seq<string>): Copied
    decreases |items|
  {
    if |items| == 0 then Copied(fs, None, [])
    else
      var c := CopyItems(fs, sourceRoot, filesDir, items[..|items| - 1]);
      if c.fault.Some? then c else CopyStep(c, sourceRoot, filesDir, items[|items| - 1])
  }

  /** The loop after `i + 1` items is one more step after `i` items. */
  lemma CopyItemsLast(fs: Tree, sourceRoot: Path, filesDir: Path, items: seq<string>, i: nat)
    requires i < |items|
    ensures var c := CopyItems(fs, sourceRoot, filesDir, items[..i]);
      CopyItems(fs, sourceRoot, filesDir, items[..i + 1]) ==
        if c.fault.Some? then c else CopyStep(c, sourceRoot, filesDir, items[i])
  {
    assert items[..i + 1][..i] == items[..i];
  }

  /** Once an item throws, the later items are not touched. */
  lemma {:induction false} CopyItemsHalts(fs: Tree, sourceRoot: Path, filesDir: Path, items: seq<string>, later: seq<string>)
    requires CopyItems(fs, sourceRoot, filesDir, items).fault.Some?
    ensures CopyItems(fs, sourceRoot, filesDir, items + later) == CopyItems(fs, sourceRoot, filesDir, items)
    decreases |later|
  {
    if |later| > 0 {
      var front := later[..|later| - 1];
      CopyItemsHalts(fs, sourceRoot, filesDir, items, front);
      assert (items + later)[..|items + later| - 1] == items + front;
    } else {
      assert items + later == items;
    }
  }

  /** One more step of a loop that has not thrown. */
  lemma CopyItemsNext(fs: Tree, sourceRoot: Path, filesDir: Path, items: seq<string>, i: nat, c: Copied, next: Copied)
    requires i < |items| && CopyItems(fs, sourceRoot, filesDir, items[..i]) == c && c.fault.None?
    requires next == CopyStep(c, sourceRoot, filesDir, items[i])
    ensures CopyItems(fs, sourceRoot, filesDir, items[..i + 1]) == next
  {
    CopyItemsLast(fs, sourceRoot, filesDir, items, i);
  }

  /** A loop that throws within the first `n` items ends there. */
  lemma CopyItemsStopsAt(fs: Tree, sourceRoot: Path, filesDir: Path, items: seq<string>, n: nat)
    requires n <= |items| && CopyItems(fs, sourceRoot, filesDir, items[..n]).fault.Some?
    ensures CopyItems(fs, sourceRoot, filesDir, items) == CopyItems(fs, sourceRoot, filesDir, items[..n])
  {
    var front, later := items[..n], items[n..];
    assert front + later == items;
    CopyItemsHalts(fs, sourceRoot, filesDir, front, later);
  }

  /** A step keeps the links, or adds one plain link for its item. */
  lemma CopyStepLinks(c: Copied, sourceRoot: Path, filesDir: Path, item: string)
    ensures var r := CopyStep(c, sourceRoot, filesDir, item);
      && |c.links| <= |r.links| <= |c.links| + 1
      && r.links[..|c.links|] == c.links
      && forall l :: l in r.links[|c.links|..] ==> PlainLink(l) && StartsWith(l.source, "files/" + item)
  {
    var r := CopyStep(c, sourceRoot, filesDir, item);
    var src := Join(sourceRoot, item);
    var extra := if Stat(c.tree, src).None? then []
      else StepLinks(CopyPath(c.tree, src, Join(filesDir, item)).fault, Stat(c.tree, src).value, item);
    assert r.links == c.links + extra;
    AppendParts(c.links, extra);
  }

  lemma AppendParts(a: seq<LinkDef>, b: seq<LinkDef>)
    ensures (a + b)[..|a|] == a && (a + b)[|a|..] == b
  {
  }

  /** Every link of `links` is plain and sourced from `files/<item>` for one of `items`. */
  ghost predicate LinksFrom(links: seq<LinkDef>, items: seq<string>) {
    forall l :: l in links ==> PlainLink(l) && exists i :: 0 <= i < |items| && StartsWith(l.source, "files/" + items[i])
  }

  /** A step that keeps `prev` and adds at most one link for `item` keeps
      `LinksFrom` and the bound of one link per item. */
  lemma LinksFromStep(prev: seq<LinkDef>, next: seq<LinkDef>, front: seq<string>, item: string)
    requires |prev| <= |front| && LinksFrom(prev, front)
    requires |prev| <= |next| <= |prev| + 1 && next[..|prev|] == prev
    requires forall l :: l in next[|prev|..] ==> PlainLink(l) && StartsWith(l.source, "files/" + item)
    ensures |next| <= |front| + 1 && LinksFrom(next, front + [item])
  {
    assert next == prev + next[|prev|..];
    LinksFromGrow(prev, front, item, next[|prev|..]);
  }

  /** Links for one more item keep `LinksFrom`. */
  lemma LinksFromGrow(links: seq<LinkDef>, front: seq<string>, item: string, extra: seq<LinkDef>)
    requires LinksFrom(links, front)
    requires forall l :: l in extra ==> PlainLink(l) && StartsWith(l.source, "files/" + item)
    ensures LinksFrom(links + extra, front + [item])
  {
    var items := front + [item];
    forall l | l in links + extra
      ensures PlainLink(l) && exists i :: 0 <= i < |items| && StartsWith(l.source, "files/" + items[i])
    {
      if l in links {
        var i :| 0 <= i < |front| && StartsWith(l.source, "files/" + front[i]);
        assert items[i] == front[i];
      } else {
        assert items[|front|] == item;
      }
    }
  }

  /** Every recorded link is plain, at most one per item, and comes from
      one of the items (its source is `files/<item>`). */
  lemma {:induction false} CopiedLinks(fs: Tree, sourceRoot: Path, filesDir: Path, items: seq<string>)
    ensures var c := CopyItems(fs, sourceRoot, filesDir, items);
      |c.links| <= |items| && LinksFrom(c.links, items)
    decreases |items|
  {
    if |items| > 0 {
      var n := |items| - 1;
      var front := items[..n];
      CopiedLinks(fs, sourceRoot, filesDir, front);
      var c := CopyItems(fs, sourceRoot, filesDir, front);
      CopyItemsSnoc(fs, sourceRoot, filesDir, items);
      Snoc(items);
      if c.fault.None? {
        CopyStepLinks(c, sourceRoot, filesDir, items[n]);
        LinksFromStep(c.links, CopyStep(c, sourceRoot, filesDir, items[n]).links, front, items[n]);
      } else {
        LinksFromStep(c.links, c.links, front, items[n]);
      }
    }
  }

  /** The loop over `items` is the loop over all but the last, then one more step. */
  lemma CopyItemsSnoc(fs: Tree, sourceRoot: Path, filesDir: Path, items: seq<string>)
    requires |items| > 0
    ensures var c := CopyItems(fs, sourceRoot, filesDir, items[..|items| - 1]);
      CopyItems(fs, sourceRoot, filesDir, items)
        == if c.fault.Some? then c else CopyStep(c, sourceRoot, filesDir, items[|items| - 1])
  {
  }

  /** One pass of the `for (const item of found)` loop. */
  method CopyOne(d: Disk, sourceRoot: Path, filesDir: Path, item: string, links: seq<LinkDef>)
    returns (links': seq<LinkDef>, fault: Option<Fault>)
    modifies d
    ensures Copied(d.tree, fault, links') == CopyStep(Copied(old(d.tree), None, links), sourceRoot, filesDir, item)
  {
    var src := Join(sourceRoot, item);
    var node := Stat(d.tree, src);
    if node.None? {
      return links, Some(Io("ENOENT", Key(src)));
    }
    var copied := CopyPath(d.tree, src, Join(filesDir, item));
    d.tree := copied.tree;
    links' := links + StepLinks(copied.fault, node.value, item);
    fault := copied.fault;
  }

  /** The `for (const item of found)` loop. */
  method CopyFound(d: Disk, sourceRoot: Path, filesDir: Path, found: seq<string>) returns (links: seq<LinkDef>, fault: Option<Fault>)
    modifies d
    ensures var c := CopyItems(old(d.tree), sourceRoot, filesDir, found);
      d.tree == c.tree && fault == c.fault && links == c.links
  {
    ghost var start := d.tree;
    links := [];
    var i := 0;
    while i < |found|
      invariant 0 <= i <= |found|
      invariant CopyItems(start, sourceRoot, filesDir, found[..i]) == Copied(d.tree, None, links)
    {
      ghost var before := Copied(d.tree, None, links);
      var more, thrown := CopyOne(d, sourceRoot, filesDir, found[i], links);
      CopyItemsNext(start, sourceRoot, filesDir, found, i, before, Copied(d.tree, thrown, more));
      if thrown.Some? {
        CopyItemsStopsAt(start, sourceRoot, filesDir, found, i + 1);
        return more, thrown;
      }
      links := more;
      i := i + 1;
    }
    assert found[..i] == found;
    fault := None;
  }


  // ------------------------------------------------------------ install

  /** What the shared first half of an install leaves: the tree, the fault
      if it threw, the items found and the links recorded for them. */
  datatype Staged = Staged(tree: Tree, fault: Option<Fault>, found: seq<string>, links: seq<LinkDef>)

  /** Create the profiles directory, clone into `tmp` (`clone`, standing
      for `git clone`), discover, refuse an empty find, create `files/` and
      copy the found items. `packages` is the `readdirSync` order of
      `<tmp>/packages`. */
  function Stage(fs: Tree, env: Env, profileDir: Path, repo: string, tmp: Path,
                 clone: Tree -> Result<Tree, Fault>, packages: seq<string>): Staged
  {
    match EnsureDir(fs, ProfilesDir(env))
    case Err(f) => Staged(fs, Some(f), [], [])
    case Ok(fs1) =>
      match clone(fs1)
      case Err(f) => Staged(fs1, Some(f), [], [])
      case Ok(fs2) => Populate(fs2, profileDir, repo, tmp, packages)
  }

  /** The part of the stage after the clone: discover the items, make the
      profile's `files` directory and copy them into it. */
  function Populate(fs: Tree, profileDir: Path, repo: string, tmp: Path, packages: seq<string>): Staged
  {
    match Discover(fs, tmp, packages)
    case Err(f) => Staged(fs, Some(f), [], [])
    case Ok(disc) =>
      if |disc.found| == 0 then Staged(fs, Some(NoItemsFound(repo)), [], [])
      else
        match EnsureDir(fs, Join(profileDir, "files"))
        case Err(f) => Staged(fs, Some(f), disc.found, [])
        case Ok(fs3) =>
          var c := CopyItems(fs3, disc.dir, Join(profileDir, "files"), disc.found);
          Staged(c.tree, c.fault, disc.found, c.links)
  }

  /** A stage that does not throw found known items, and recorded only
      plain links, each for one of them. */
  lemma StageFound(fs: Tree, env: Env, profileDir: Path, repo: string, tmp: Path,
                   clone: Tree -> Result<Tree, Fault>, packages: seq<string>)
    requires Stage(fs, env, profileDir, repo, tmp, clone, packages).fault.None?
    ensures var s := Stage(fs, env, profileDir, repo, tmp, clone, packages);
      && |s.found| > 0
      && (forall n :: n in s.found ==> n in KnownItems())
      && |s.links| <= |s.found|
      && forall l :: l in s.links ==> PlainLink(l)
  {
    var fs1 := EnsureDir(fs, ProfilesDir(env)).value;
    var fs2 := clone(fs1).value;
    PopulateFound(fs2, profileDir, repo, tmp, packages);
  }

  /** The same for the part after the clone. */
  lemma PopulateFound(fs: Tree, profileDir: Path, repo: string, tmp: Path, packages: seq<string>)
    requires Populate(fs, profileDir, repo, tmp, packages).fault.None?
    ensures var s := Populate(fs, profileDir, repo, tmp, packages);
      && |s.found| > 0
      && (forall n :: n in s.found ==> n in KnownItems())
      && |s.links| <= |s.found|
      && forall l :: l in s.links ==> PlainLink(l)
  {
    var disc := Discover(fs, tmp, packages).value;
    var fs3 := EnsureDir(fs, Join(profileDir, "files")).value;
    var c := CopyItems(fs3, disc.dir, Join(profileDir, "files"), disc.found);
    assert Populate(fs, profileDir, repo, tmp, packages) == Staged(c.tree, c.fault, disc.found, c.links);
    assert |disc.found| > 0 && disc.found == Present(fs, disc.dir);
    StagedLinks(fs, disc.dir, fs3, Join(profileDir, "files"));
  }

  /** Copying the items present in `dir` records only plain links, at most
      one per item, and every one of those items is a known one. */
  lemma StagedLinks(fs: Tree, dir: Path, fs3: Tree, filesDir: Path)
    ensures var found := Present(fs, dir);
      var c := CopyItems(fs3, dir, filesDir, found);
      && (forall n :: n in found ==> n in KnownItems())
      && |c.links| <= |found|
      && forall l :: l in c.links ==> PlainLink(l)
  {
    PresentExact(fs, dir);
    CopiedLinks(fs3, dir, filesDir, Present(fs, dir));
  }

  /** A clone in which discovery finds nothing fails the install with
      "No agents/skills/hooks found in <repo>". */
  lemma StageEmpty(fs: Tree, env: Env, profileDir: Path, repo: string, tmp: Path,
                   clone: Tree -> Result<Tree, Fault>, packages: seq<string>, fs1: Tree, fs2: Tree, dir: Path)
    requires EnsureDir(fs, ProfilesDir(env)) == Ok(fs1) && clone(fs1) == Ok(fs2)
    requires Discover(fs2, tmp, packages) == Ok(Discovery(dir, []))
    ensures Stage(fs, env, profileDir, repo, tmp, clone, packages).fault == Some(NoItemsFound(repo))
  {
  }

  /** `installProfile(entry)` up to its `finally`: stage, then write
      `manifest.yaml` with the recorded links, or the entry's own links when
      none were recorded. */
  function InstallWritten(fs: Tree, env: Env, e: Entry, tmp: Path,
                          clone: Tree -> Result<Tree, Fault>, packages: seq<string>): Effect
  {
    var profileDir := Join(ProfilesDir(env), e.profileDir);
    var s := Stage(fs, env, profileDir, e.repo, tmp, clone, packages);
    if s.fault.Some? then Effect(s.tree, s.fault)
    else
      var links := if |s.links| > 0 then s.links else e.manifest.links;
      match WriteFile(s.tree, ManifestPath(profileDir), Parsed(ManifestValue(e.manifest, links)))
      case Err(f) => Effect(s.tree, Some(f))
      case Ok(t) => Effect(t, None)
  }

  /** `installProfile(entry)`: the `finally` removes the clone whatever happened. */
  function Installed(fs: Tree, env: Env, e: Entry, tmp: Path,
                     clone: Tree -> Result<Tree, Fault>, packages: seq<string>): (r: Effect)
    ensures forall q :: q in r.tree ==> !Under(q, tmp)
    ensures r.fault == InstallWritten(fs, env, e, tmp, clone, packages).fault
  {
    var w := InstallWritten(fs, env, e, tmp, clone, packages);
    Effect(RemoveTree(w.tree, tmp), w.fault)
  }

  /** The links an install writes: the recorded ones, else the entry's. */
  function InstallLinks(fs: Tree, env: Env, e: Entry, tmp: Path,
                        clone: Tree -> Result<Tree, Fault>, packages: seq<string>): seq<LinkDef>
  {
    var s := Stage(fs, env, Join(ProfilesDir(env), e.profileDir), e.repo, tmp, clone, packages);
    if |s.links| > 0 then s.links else e.manifest.links
  }

  /** After a successful install (before the clone is removed) the profile
      parses back as the entry's manifest with the links written. */
  lemma InstallReadsBack(fs: Tree, env: Env, e: Entry, tmp: Path,
                         clone: Tree -> Result<Tree, Fault>, packages: seq<string>)
    requires InstallWritten(fs, env, e, tmp, clone, packages).fault.None?
    requires forall l :: l in e.manifest.links ==> PlainLink(l)
    ensures var t := InstallWritten(fs, env, e, tmp, clone, packages).tree;
      var m := e.manifest;
      && Exists(t, ManifestPath(Join(ProfilesDir(env), e.profileDir)))
      && ParseManifest(t, Join(ProfilesDir(env), e.profileDir)) ==
           Ok(Manifest(m.name, m.description, m.tags, m.tool, InstallLinks(fs, env, e, tmp, clone, packages), None))
  {
    var profileDir := Join(ProfilesDir(env), e.profileDir);
    var s := Stage(fs, env, profileDir, e.repo, tmp, clone, packages);
    StageFound(fs, env, profileDir, e.repo, tmp, clone, packages);
    var links := InstallLinks(fs, env, e, tmp, clone, packages);
    var doc := Parsed(ManifestValue(e.manifest, links));
    WriteThenRead(s.tree, ManifestPath(profileDir), doc);
    ManifestValueReads(e.manifest, links, profileDir);
  }

  /** Installing a built-in entry leaves it installed, its manifest naming
      it with its own description and tags. */
  lemma BuiltInInstall(fs: Tree, env: Env, e: Entry, tmp: Path,
                       clone: Tree -> Result<Tree, Fault>, packages: seq<string>)
    requires e in BuiltIns
    requires InstallWritten(fs, env, e, tmp, clone, packages).fault.None?
    ensures var t := InstallWritten(fs, env, e, tmp, clone, packages).tree;
      && IsInstalled(t, env, e.name)
      && ParseManifest(t, Join(ProfilesDir(env), e.name)) ==
           Ok(Manifest(e.name, e.description, e.tags, e.manifest.tool, InstallLinks(fs, env, e, tmp, clone, packages), None))
  {
    BuiltInsConsistent();
    InstallReadsBack(fs, env, e, tmp, clone, packages);
  }

  /** Removing the clone keeps the manifest when it lies outside the clone
      and was written as a file of its own (not through a link). */
  lemma InstallSurvivesCleanup(fs: Tree, env: Env, e: Entry, tmp: Path,
                               clone: Tree -> Result<Tree, Fault>, packages: seq<string>)
    requires var w := InstallWritten(fs, env, e, tmp, clone, packages);
      var mp := ManifestPath(Join(ProfilesDir(env), e.profileDir));
      && Lstat(w.tree, mp).Some? && Lstat(w.tree, mp).value.File?
      && !Under(Key(mp), tmp)
    ensures var dir := Join(ProfilesDir(env), e.profileDir);
      ParseManifest(Installed(fs, env, e, tmp, clone, packages).tree, dir) ==
        ParseManifest(InstallWritten(fs, env, e, tmp, clone, packages).tree, dir)
  {
    var dir := Join(ProfilesDir(env), e.profileDir);
    var w := InstallWritten(fs, env, e, tmp, clone, packages).tree;
    assert Installed(fs, env, e, tmp, clone, packages).tree == RemoveTree(w, tmp);
    CleanupKeepsManifest(w, tmp, dir);
  }

  /** Removing the clone keeps a manifest file that lies outside it. */
  lemma CleanupKeepsManifest(w: Tree, tmp: Path, dir: Path)
    requires Lstat(w, ManifestPath(dir)).Some? && Lstat(w, ManifestPath(dir)).value.File?
    requires !Under(Key(ManifestPath(dir)), tmp)
    ensures ParseManifest(RemoveTree(w, tmp), dir) == ParseManifest(w, dir)
  {
    var r := RemoveTree(w, tmp);
    assert Lstat(r, ManifestPath(dir)) == Lstat(w, ManifestPath(dir));
    ParseManifestFrame(w, r, dir);
  }

  /** The first half of `installProfile` and `installFromUrl`. */
  method StageProfile(d: Disk, env: Env, profileDir: Path, repo: string, tmp: Path,
                      clone: Tree -> Result<Tree, Fault>, packages: seq<string>)
    returns (found: seq<string>, links: seq<LinkDef>, fault: Option<Fault>)
    modifies d
    ensures var s := Stage(old(d.tree), env, profileDir, repo, tmp, clone, packages);
      d.tree == s.tree && fault == s.fault && found == s.found && links == s.links
  {
    var made := EnsureDir(d.tree, ProfilesDir(env));
    if made.Err? {
      return [], [], Some(made.error);
    }
    d.tree := made.value;
    var cloned := clone(d.tree);
    if cloned.Err? {
      return [], [], Some(cloned.error);
    }
    d.tree := cloned.value;
    var discovered := DiscoverFiles(d, tmp, packages);
    if discovered.Err? {
      return [], [], Some(discovered.error);
    }
    found := discovered.value.found;
    if |found| == 0 {
      return [], [], Some(NoItemsFound(repo));
    }
    var filesDir := Join(profileDir, "files");
    var filesMade := EnsureDir(d.tree, filesDir);
    if filesMade.Err? {
      return found, [], Some(filesMade.error);
    }
    d.tree := filesMade.value;
    links, fault := CopyFound(d, discovered.value.dir, filesDir, found);
  }

  /** `installProfile(entry)`, with the clone directory `tmp` given. */
  method InstallProfile(d: Disk, env: Env, e: Entry, tmp: Path,
                        clone: Tree -> Result<Tree, Fault>, packages: seq<string>) returns (fault: Option<Fault>)
    modifies d
    ensures var r := Installed(old(d.tree), env, e, tmp, clone, packages);
      d.tree == r.tree && fault == r.fault
  {
    ghost var w := InstallWritten(d.tree, env, e, tmp, clone, packages);
    var profileDir := Join(ProfilesDir(env), e.profileDir);
    var found, links;
    found, links, fault := StageProfile(d, env, profileDir, e.repo, tmp, clone, packages);
    if fault.None? {
      var written := WriteFile(d.tree, ManifestPath(profileDir),
        Parsed(ManifestValue(e.manifest, if |links| > 0 then links else e.manifest.links)));
      if written.Err? {
        fault := Some(written.error);
      } else {
        d.tree := written.value;
      }
    }
    assert d.tree == w.tree && fault == w.fault;
    d.tree := RemoveTree(d.tree, tmp);
  }

  // ---------------------------------------------------- install from URL

  /** `repoUrl.replace(/\.git$/, '').split('/').pop() || 'custom'` */
  function UrlName(url: string): (r: string)
    ensures r != "" && '/' !in r
  {
    var stripped := if EndsWith(url, ".git") then url[..|url| - 4] else url;
    var last := AfterLast(stripped, '/');
    if last == "" then "custom" else last
  }

  /** A name after a `/` that does not itself end in `.git` does not make
      the whole text end in `.git`. */
  lemma NoGitSuffix(x: string, n: string)
    requires |x| > 0 && x[|x| - 1] == '/' && !EndsWith(n, ".git")
    ensures !EndsWith(x + n, ".git")
  {
    var y := x + n;
    if |y| >= 4 {
      if |n| >= 4 {
        assert y[|y| - 4..] == n[|n| - 4..];
      } else {
        var j := 3 - |n|;
        assert y[|y| - 4..][j] == '/';
      }
    }
  }

  /** The last path segment of a repository URL names the profile, with
      one trailing `.git` dropped; an empty segment gives `custom`. */
  lemma UrlNameOf(base: string, n: string)
    requires n != "" && '/' !in n && !EndsWith(n, ".git")
    ensures UrlName(base + "/" + n) == n
    ensures UrlName(base + "/" + n + ".git") == n
    ensures UrlName(base + "/") == "custom"
  {
    var x := base + "/";
    AfterLastAppend(x, n, '/');
    NoGitSuffix(x, n);
    assert base + "/" + n == x + n;
    var u := base + "/" + n + ".git";
    assert u == (x + n) + ".git";
    assert u[|u| - 4..] == ".git";
    assert u[..|u| - 4] == x + n;
    NoGitSuffix(x, "");
    assert x + "" == x;
  }

  /** The directories that become tags of a URL-installed entry. */
  const TagKinds: seq<string> := ["agents", "skills", "hooks", "plugins", "commands"]

  function IsTagKind(n: string): bool { n in TagKinds }

  /** The catalogue entry `installFromUrl` builds from what it found. */
  function UrlEntry(url: string, found: seq<string>, links: seq<LinkDef>): Entry {
    var name := UrlName(url);
    var description := JoinWith(found, ", ") + " (custom)";
    Entry(name, description, url, ["custom"] + Filter(IsTagKind, found), "-", name,
      EntryManifest(name, description, ["custom"], "claude-code", links))
  }

  /** The built entry is tagged `custom` and then with the found directories
      other than `prompts`, in order; its description lists what was found. */
  lemma UrlEntryTags(url: string, found: seq<string>, links: seq<LinkDef>)
    ensures var e := UrlEntry(url, found, links);
      && e.name == e.profileDir == e.manifest.name == UrlName(url)
      && |e.tags| > 0 && e.tags[0] == "custom"
      && IsSubseq(e.tags[1..], found)
      && (forall t :: t in e.tags[1..] <==> t in found && t in SearchDirs && t != "prompts")
      && EndsWith(e.description, " (custom)")
  {
    var e := UrlEntry(url, found, links);
    var tags := Filter(IsTagKind, found);
    assert e.tags[1..] == tags;
    FilterSubseq(IsTagKind, found);
    forall t ensures t in tags <==> t in found && t in SearchDirs && t != "prompts" {
      TagKindIff(t);
    }
    var d := JoinWith(found, ", ");
    assert (d + " (custom)")[|d|..] == " (custom)";
  }

  /** The tag kinds are the searched directories other than `prompts`. */
  lemma TagKindIff(t: string)
    ensures IsTagKind(t) <==> t in SearchDirs && t != "prompts"
  {
  }

  /** What `installFromUrl` leaves, and the entry it returns when it does not throw. */
  datatype UrlInstall = UrlInstall(effect: Effect, entry: Option<Entry>)

  /** `installFromUrl(repoUrl)` up to its `finally`: stage under the URL's
      name, write `manifest.yaml` with the recorded links, then save the
      entry in the custom catalogue. */
  function UrlWritten(fs: Tree, env: Env, url: string, tmp: Path,
                      clone: Tree -> Result<Tree, Fault>, packages: seq<string>): (r: UrlInstall)
    ensures r.entry.Some? <==> r.effect.fault.None?
  {
    var profileDir := Join(ProfilesDir(env), UrlName(url));
    var s := Stage(fs, env, profileDir, url, tmp, clone, packages);
    if s.fault.Some? then UrlInstall(Effect(s.tree, s.fault), None)
    else
      var e := UrlEntry(url, s.found, s.links);
      match WriteFile(s.tree, ManifestPath(profileDir), Parsed(ManifestValue(e.manifest, e.manifest.links)))
      case Err(f) => UrlInstall(Effect(s.tree, Some(f)), None)
      case Ok(t) =>
        var saved := Saved(t, env, e);
        UrlInstall(saved, if saved.fault.None? then Some(e) else None)
  }

  /** `installFromUrl(repoUrl)`: the `finally` removes the clone. */
  function InstalledFromUrl(fs: Tree, env: Env, url: string, tmp: Path,
                            clone: Tree -> Result<Tree, Fault>, packages: seq<string>): (r: UrlInstall)
    ensures forall q :: q in r.effect.tree ==> !Under(q, tmp)
    ensures r.entry.Some? <==> r.effect.fault.None?
  {
    var w := UrlWritten(fs, env, url, tmp, clone, packages);
    UrlInstall(Effect(RemoveTree(w.effect.tree, tmp), w.effect.fault), w.entry)
  }

  /** The upserted array holds the entry. */
  lemma UpsertContains(vs: seq<Value>, e: Entry)
    requires Upsert(vs, e).Ok?
    ensures EntryValue(e) in Upsert(vs, e).value
  {
    UpsertPlaces(vs, e);
    var ws := Upsert(vs, e).value;
    var named := exists j :: 0 <= j < |vs| && Named(vs[j], e.name);
    if named {
      var i :| 0 <= i < |vs| && Named(vs[i], e.name) && ws == vs[i := EntryValue(e)];
      assert ws[i] == EntryValue(e);
    } else {
      assert ws[|vs|] == EntryValue(e);
    }
  }

  /** A save that does not throw leaves the entry in the catalogue. */
  lemma SavedContains(fs: Tree, env: Env, e: Entry)
    requires Saved(fs, env, e).fault.None?
    ensures EntryValue(e) in LoadCustom(Saved(fs, env, e).tree, env)
  {
    SaveThenLoad(fs, env, e);
    UpsertContains(LoadCustom(fs, env), e);
  }

  /** A URL install that returns an entry has stored it in the custom
      catalogue, under the URL's name. */
  lemma UrlInstallSaves(fs: Tree, env: Env, url: string, tmp: Path,
                        clone: Tree -> Result<Tree, Fault>, packages: seq<string>)
    requires UrlWritten(fs, env, url, tmp, clone, packages).entry.Some?
    ensures var w := UrlWritten(fs, env, url, tmp, clone, packages);
      && w.entry.value.name == UrlName(url)
      && EntryValue(w.entry.value) in LoadCustom(w.effect.tree, env)
  {
    var profileDir := Join(ProfilesDir(env), UrlName(url));
    var s := Stage(fs, env, profileDir, url, tmp, clone, packages);
    var e := UrlEntry(url, s.found, s.links);
    var t := WriteFile(s.tree, ManifestPath(profileDir), Parsed(ManifestValue(e.manifest, e.manifest.links))).value;
    assert UrlWritten(fs, env, url, tmp, clone, packages) == UrlInstall(Saved(t, env, e), Some(e));
    SavedContains(t, env, e);
  }

  /** `installFromUrl(repoUrl)`, with the clone directory `tmp` given. */
  method InstallFromUrl(d: Disk, env: Env, url: string, tmp: Path,
                        clone: Tree -> Result<Tree, Fault>, packages: seq<string>)
    returns (entry: Option<Entry>, fault: Option<Fault>)
    modifies d
    ensures var r := InstalledFromUrl(old(d.tree), env, url, tmp, clone, packages);
      d.tree == r.effect.tree && fault == r.effect.fault && entry == r.entry
  {
    ghost var w := UrlWritten(d.tree, env, url, tmp, clone, packages);
    var name := UrlName(url);
    var profileDir := Join(ProfilesDir(env), name);
    var found, links;
    found, links, fault := StageProfile(d, env, profileDir, url, tmp, clone, packages);
    entry := None;
    if fault.None? {
      var e := UrlEntry(url, found, links);
      var written := WriteFile(d.tree, ManifestPath(profileDir), Parsed(ManifestValue(e.manifest, e.manifest.links)));
      if written.Err? {
        fault := Some(written.error);
      } else {
        d.tree := written.value;
        fault := SaveCustomEntry(d, env, e);
        if fault.None? {
          entry := Some(e);
        }
      }
    }
    assert d.tree == w.effect.tree && fault == w.effect.fault && entry == w.entry;
    d.tree := RemoveTree(d.tree, tmp);
  }
}

=== FILE: seqs.dfy ===
/** `Array.prototype.filter` and the subsequence relation it produces. */
module Seqs {
  import opened Wrappers

  /** `xs` is `ys` with some elements dropped, order kept. */
  predicate IsSubseq<T(==)>(xs: seq<T>, ys: seq<T>)
    decreases |ys|
  {
    if |ys| == 0 then |xs| == 0
    else (|xs| > 0 && xs[0] == ys[0] && IsSubseq(xs[1..], ys[1..])) || IsSubseq(xs, ys[1..])
  }

  /** `xs.filter(f)` */
  function Filter<T(==)>(f: T -> bool, xs: seq<T>): (r: seq<T>)
    ensures |r| <= |xs|
    ensures forall x :: x in r ==> x in xs && f(x)
    ensures forall x :: x in xs && f(x) ==> x in r
    decreases |xs|
  {
    if |xs| == 0 then []
    else
      var rest := Filter(f, xs[1..]);
      assert forall x :: x in xs ==> x == xs[0] || x in xs[1..];
      if f(xs[0]) then
        var r := [xs[0]] + rest;
        assert r[1..] == rest;
        r
      else rest
  }

  /** Every element satisfies `f`, checked front to back. */
  predicate All<T>(f: T -> bool, xs: seq<T>)
    decreases |xs|
  {
    |xs| == 0 || (f(xs[0]) && All(f, xs[1..]))
  }

  lemma {:induction false} AllIff<T>(f: T -> bool, xs: seq<T>)
    ensures All(f, xs) <==> forall i :: 0 <= i < |xs| ==> f(xs[i])
    decreases |xs|
  {
    if |xs| > 0 {
      AllIff(f, xs[1..]);
      assert forall i :: 1 <= i < |xs| ==> xs[i] == xs[1..][i - 1];
    }
  }

  /** A non-empty sequence is its front followed by its last element. */
  lemma Snoc<T>(xs: seq<T>)
    requires |xs| > 0
    ensures xs == xs[..|xs| - 1] + [xs[|xs| - 1]]
  {
  }

  /** The filtered sequence keeps the order of the original. */
  lemma {:induction false} FilterSubseq<T>(f: T -> bool, xs: seq<T>)
    ensures IsSubseq(Filter(f, xs), xs)
    decreases |xs|
  {
    if |xs| > 0 {
      FilterSubseq(f, xs[1..]);
      if f(xs[0]) {
        assert ([xs[0]] + Filter(f, xs[1..]))[1..] == Filter(f, xs[1..]);
      }
    }
  }

  lemma {:induction false} FilterAppend<T>(f: T -> bool, xs: seq<T>, ys: seq<T>)
    ensures Filter(f, xs + ys) == Filter(f, xs) + Filter(f, ys)
    decreases |xs|
  {
    if |xs| == 0 {
      assert xs + ys == ys;
    } else {
      assert (xs + ys)[1..] == xs[1..] + ys;
      FilterAppend(f, xs[1..], ys);
    }
  }

  /** Filtering keeps every occurrence of an element that passes and none of one that fails. */
  lemma {:induction false} FilterMultiset<T>(f: T -> bool, xs: seq<T>, x: T)
    ensures multiset(Filter(f, xs))[x] == if f(x) then multiset(xs)[x] else 0
    decreases |xs|
  {
    if |xs| > 0 {
      FilterMultiset(f, xs[1..], x);
      assert xs == [xs[0]] + xs[1..];
    }
  }

  /** Filtering one element further along, as a loop over a prefix does. */
  lemma FilterSnoc<T>(f: T -> bool, xs: seq<T>, i: nat)
    requires i < |xs|
    ensures Filter(f, xs[..i + 1]) == Filter(f, xs[..i]) + (if f(xs[i]) then [xs[i]] else [])
  {
    assert xs[..i + 1] == xs[..i] + [xs[i]];
    FilterAppend(f, xs[..i], [xs[i]]);
    assert [xs[i]][1..] == [];
  }

  /** Elements of `xs` that fail `f` contribute nothing. */
  lemma {:induction false} FilterNone<T>(f: T -> bool, xs: seq<T>)
    requires forall i :: 0 <= i < |xs| ==> !f(xs[i])
    ensures Filter(f, xs) == []
    decreases |xs|
  {
    if |xs| > 0 {
      FilterNone(f, xs[1..]);
    }
  }

  /** No element occurs twice. */
  predicate Distinct<T(==)>(xs: seq<T>) {
    forall i, j :: 0 <= i < j < |xs| ==> xs[i] != xs[j]
  }

  /** Filtering a sequence without repeats gives one without repeats. */
  lemma {:induction false} FilterDistinct<T>(f: T -> bool, xs: seq<T>)
    requires Distinct(xs)
    ensures Distinct(Filter(f, xs))
    decreases |xs|
  {
    if |xs| > 0 {
      var rest := Filter(f, xs[1..]);
      FilterDistinct(f, xs[1..]);
      if f(xs[0]) {
        var r := [xs[0]] + rest;
        assert xs[0] !in xs[1..];
        assert Filter(f, xs) == r;
        forall i, j | 0 <= i < j < |r| ensures r[i] != r[j] {
          if i > 0 {
            assert r[i] == rest[i - 1] && r[j] == rest[j - 1];
          } else {
            assert r[j] in rest;
          }
        }
      }
    }
  }

  /** Labels taken from a table without repeats, one per element of a
      sequence of distinct table rows, do not repeat. */
  lemma DistinctLabels<A, B>(xs: seq<A>, ls: seq<B>, rows: seq<A>, labels: seq<B>)
    requires Distinct(xs) && Distinct(labels) && |rows| == |labels| && |ls| == |xs|
    requires forall k :: 0 <= k < |xs| ==> exists a :: 0 <= a < |rows| && xs[k] == rows[a] && ls[k] == labels[a]
    ensures Distinct(ls)
  {
    forall i, j | 0 <= i < j < |ls|
      ensures ls[i] != ls[j]
    {
      var a :| 0 <= a < |rows| && xs[i] == rows[a] && ls[i] == labels[a];
      var b :| 0 <= b < |rows| && xs[j] == rows[b] && ls[j] == labels[b];
      assert a != b;
    }
  }

  /** `xs.findIndex(y => y === x)`, as an option: the first position holding `x`. */
  function FirstIndex<T(==)>(xs: seq<T>, x: T): (r: Option<nat>)
    ensures r.Some? ==> r.value < |xs| && xs[r.value] == x && forall b :: 0 <= b < r.value ==> xs[b] != x
    ensures r.None? <==> x !in xs
    decreases |xs|
  {
    if |xs| == 0 then None
    else if xs[0] == x then Some(0)
    else
      match FirstIndex(xs[1..], x)
      case None => None
      case Some(i) => Some(i + 1)
  }

  /** In a sequence without repeats, the first index of an element is its only one. */
  lemma FirstIndexDistinct<T>(xs: seq<T>, a: nat)
    requires Distinct(xs) && a < |xs|
    ensures FirstIndex(xs, xs[a]) == Some(a)
  {
  }

  /** Taking one more element out before a removal counts it once. */
  lemma RemovedOneMore<T>(a: set<T>, k: T, c: set<T>)
    requires k in a && k !in c
    ensures |a - c| == 1 + |(a - {k}) - c|
  {
    assert a - c == {k} + ((a - {k}) - c);
  }
}

=== FILE: state.dfy ===
/**
 * The persisted state record `~/.orchester/state.json`
 * (`{activeProfile, lastSwitched, activeTools}`), read with
 * default-on-corruption and written back whole, plus the fixed
 * directories under `~/.orchester` and the one-time move from `~/.orch`.
 */
module StateStore {
  import opened Wrappers
  import opened Values
  import opened Disk
  import opened Types

  function OrchDir(env: Env): Path { Join(env.home, ".orchester") }
  function LegacyDir(env: Env): Path { Join(env.home, ".orch") }
  function StatePath(env: Env): Path { Join(OrchDir(env), "state.json") }
  function ProfilesDir(env: Env): Path { Join(OrchDir(env), "profiles") }
  function VanillaDir(env: Env): Path { Join(OrchDir(env), "vanilla") }

  /** The profiles and vanilla directories are children of `~/.orchester` named as such. */
  lemma LayoutNames(env: Env)
    ensures IsChildOf(ProfilesDir(env), OrchDir(env)) && Basename(ProfilesDir(env)) == "profiles"
    ensures IsChildOf(VanillaDir(env), OrchDir(env)) && Basename(VanillaDir(env)) == "vanilla"
  {
    JoinName(OrchDir(env), "profiles");
    JoinName(OrchDir(env), "vanilla");
  }

  /** The profiles and vanilla directories and the state file are distinct,
      none inside another. */
  lemma LayoutDisjoint(env: Env)
    ensures !Under(ProfilesDir(env), VanillaDir(env)) && !Under(VanillaDir(env), ProfilesDir(env))
    ensures !Under(StatePath(env), ProfilesDir(env)) && !Under(StatePath(env), VanillaDir(env))
  {
    LayoutNamesValid();
    SiblingsDisjoint(OrchDir(env), "profiles", "vanilla");
    SiblingsDisjoint(OrchDir(env), "vanilla", "profiles");
    SiblingsDisjoint(OrchDir(env), "state.json", "profiles");
    SiblingsDisjoint(OrchDir(env), "state.json", "vanilla");
  }

  /** The three entries of `~/.orchester` have valid, distinct names. */
  lemma LayoutNamesValid()
    ensures ValidName("profiles") && ValidName("vanilla") && ValidName("state.json")
    ensures "state.json" != "profiles" && "state.json" != "vanilla" && "profiles" != "vanilla"
  {
    assert "state.json"[0] != "profiles"[0] && "state.json"[0] != "vanilla"[0] && "profiles"[0] != "vanilla"[0];
  }

  /** `DEFAULT_STATE` */
  const DefaultState: Value :=
    Obj([Member("activeProfile", Null), Member("lastSwitched", Null), Member("activeTools", Arr([]))])

  /** The object `state.json` holds, when it exists and parses to an object. */
  function StoredRecord(fs: Tree, env: Env): Option<seq<Member>> {
    if !Exists(fs, StatePath(env)) then None
    else
      match ReadFile(fs, StatePath(env))
      case Ok(Parsed(Obj(ms))) => Some(ms)
      case _ => None
  }

  /** The items of `state.json`, when it exists and parses to an array. */
  function StoredArray(fs: Tree, env: Env): Option<seq<Value>> {
    if !Exists(fs, StatePath(env)) then None
    else
      match ReadFile(fs, StatePath(env))
      case Ok(Parsed(Arr(items))) => Some(items)
      case _ => None
  }

  /** `loadState()`: the stored object with a falsy `activeTools` replaced by
      `[]`; a stored array as it is (the `activeTools` patch lands on a
      non-index property, which an array value here does not carry); the
      default record when the file is missing, unreadable or neither (a
      `null` or primitive document throws while being patched). */
  function Loaded(fs: Tree, env: Env): (s: Value)
    ensures s.Obj? || s.Arr?
    ensures s.Obj? ==> Truthy(Get(s, "activeTools"))
    ensures s.Arr? <==> StoredArray(fs, env).Some?
    ensures StoredArray(fs, env).Some? ==> s == Arr(StoredArray(fs, env).value)
    ensures StoredRecord(fs, env).None? && StoredArray(fs, env).None? ==> s == DefaultState
  {
    match StoredRecord(fs, env)
    case Some(ms) =>
      if Truthy(Lookup(ms, "activeTools")) then Obj(ms)
      else Obj(SetMember(ms, "activeTools", Arr([])))
    case None =>
      match StoredArray(fs, env)
      case Some(items) => Arr(items)
      case None => DefaultState
  }

  /** A stored record is returned as stored, except that `activeTools` becomes `[]` when falsy. */
  lemma LoadedKeepsRecord(fs: Tree, env: Env, k: string)
    requires StoredRecord(fs, env).Some?
    ensures k != "activeTools" ==> Get(Loaded(fs, env), k) == Lookup(StoredRecord(fs, env).value, k)
    ensures var stored := Lookup(StoredRecord(fs, env).value, "activeTools");
      Get(Loaded(fs, env), "activeTools") == if Truthy(stored) then stored else Some(Arr([]))
  {
    var ms := StoredRecord(fs, env).value;
    if k != "activeTools" && !Truthy(Lookup(ms, "activeTools")) {
      SetMemberOther(ms, "activeTools", Arr([]), k);
    }
  }

  method LoadState(d: Disk, env: Env) returns (s: Value)
    ensures s == Loaded(d.tree, env)
  {
    s := DefaultState;
    var p := StatePath(env);
    if Exists(d.tree, p) {
      var r := ReadFile(d.tree, p);
      if r.Ok? && r.value.Parsed? && r.value.v.Obj? {
        var ms := r.value.v.members;
        if !Truthy(Lookup(ms, "activeTools")) {
          ms := SetMember(ms, "activeTools", Arr([]));
        }
        s := Obj(ms);
      } else if r.Ok? && r.value.Parsed? && r.value.v.Arr? {
        s := r.value.v;
      }
    }
  }

  /** `saveState(s)`: create `~/.orchester`, then write `s` as JSON. */
  function Saved(fs: Tree, env: Env, s: Value): Effect {
    match EnsureDir(fs, OrchDir(env))
    case Err(e) => Effect(fs, Some(e))
    case Ok(fs1) =>
      match WriteFile(fs1, StatePath(env), Parsed(s))
      case Err(e) => Effect(fs1, Some(e))
      case Ok(fs2) => Effect(fs2, None)
  }

  method SaveState(d: Disk, env: Env, s: Value) returns (fault: Option<Fault>)
    modifies d
    ensures Effect(d.tree, fault) == Saved(old(d.tree), env, s)
  {
    var r := EnsureDir(d.tree, OrchDir(env));
    if r.Err? {
      return Some(r.error);
    }
    d.tree := r.value;
    var w := WriteFile(d.tree, StatePath(env), Parsed(s));
    if w.Err? {
      return Some(w.error);
    }
    d.tree := w.value;
    fault := None;
  }

  /** A saved record that carries a truthy `activeTools` loads back unchanged. */
  lemma SaveThenLoad(fs: Tree, env: Env, s: Value)
    requires s.Obj? && Truthy(Get(s, "activeTools"))
    requires Saved(fs, env, s).fault.None?
    ensures Loaded(Saved(fs, env, s).tree, env) == s
  {
    SavedReadsBack(fs, env, s);
  }

  /** After a save that did not throw, `state.json` holds the saved document. */
  lemma SavedReadsBack(fs: Tree, env: Env, s: Value)
    requires Saved(fs, env, s).fault.None?
    ensures Exists(Saved(fs, env, s).tree, StatePath(env))
    ensures ReadFile(Saved(fs, env, s).tree, StatePath(env)) == Ok(Parsed(s))
  {
    var fs1 := EnsureDir(fs, OrchDir(env)).value;
    WriteThenRead(fs1, StatePath(env), Parsed(s));
  }

  /** `getActiveProfile()` */
  function ActiveProfile(fs: Tree, env: Env): Option<Value> {
    Get(Loaded(fs, env), "activeProfile")
  }

  function ProfileValue(name: Option<string>): Value {
    if name.Some? then Str(name.value) else Null
  }

  function ToolNames(tools: seq<ToolId>): (r: seq<string>)
    ensures |r| == |tools| && forall i :: 0 <= i < |tools| ==> r[i] == ToolName(tools[i])
  {
    seq(|tools|, i requires 0 <= i < |tools| => ToolName(tools[i]))
  }

  /** The record `setActiveProfile` writes: `s` with the three fields overwritten. */
  function WithProfile(ms: seq<Member>, name: Option<string>, tools: Option<seq<ToolId>>, now: string): seq<Member> {
    var ts := if tools.Some? then tools.value else [];
    var a := SetMember(ms, "activeProfile", ProfileValue(name));
    var b := SetMember(a, "lastSwitched", Str(now));
    SetMember(b, "activeTools", Arr(Strings(ToolNames(ts))))
  }

  /** `setActiveProfile(name, tools)` at time `now` (an ISO timestamp). On
      a stored array the three assignments set non-index properties, which
      JSON serialisation drops, so the array is written back as it was. */
  function ProfileSet(fs: Tree, env: Env, name: Option<string>, tools: Option<seq<ToolId>>, now: string): Effect {
    var state := Loaded(fs, env);
    if state.Arr? then Saved(fs, env, state)
    else Saved(fs, env, Obj(WithProfile(state.members, name, tools, now)))
  }

  method SetActiveProfile(d: Disk, env: Env, name: Option<string>, tools: Option<seq<ToolId>>, now: string)
    returns (fault: Option<Fault>)
    modifies d
    ensures Effect(d.tree, fault) == ProfileSet(old(d.tree), env, name, tools, now)
  {
    var state := LoadState(d, env);
    if state.Arr? {
      fault := SaveState(d, env, state);
      return;
    }
    var ms := SetMember(state.members, "activeProfile", ProfileValue(name));
    ms := SetMember(ms, "lastSwitched", Str(now));
    var ts := if tools.Some? then tools.value else [];
    ms := SetMember(ms, "activeTools", Arr(Strings(ToolNames(ts))));
    fault := SaveState(d, env, Obj(ms));
  }

  /** After `setActiveProfile(name, tools)` succeeds on a state that is not
      an array, the state reads back with the new profile, timestamp and
      tools (`[]` when omitted), and every other field as it was loaded before. */
  lemma SetActiveProfileRecord(fs: Tree, env: Env, name: Option<string>, tools: Option<seq<ToolId>>, now: string, k: string)
    requires ProfileSet(fs, env, name, tools, now).fault.None?
    requires StoredArray(fs, env).None?
    ensures var s := Loaded(ProfileSet(fs, env, name, tools, now).tree, env);
      && Get(s, "activeProfile") == Some(ProfileValue(name))
      && Get(s, "lastSwitched") == Some(Str(now))
      && Get(s, "activeTools") == Some(Arr(Strings(ToolNames(if tools.Some? then tools.value else []))))
      && (k != "activeProfile" && k != "lastSwitched" && k != "activeTools" ==> Get(s, k) == Get(Loaded(fs, env), k))
  {
    var ms := Loaded(fs, env).members;
    var ts := if tools.Some? then tools.value else [];
    var a := SetMember(ms, "activeProfile", ProfileValue(name));
    var b := SetMember(a, "lastSwitched", Str(now));
    var c := SetMember(b, "activeTools", Arr(Strings(ToolNames(ts))));
    SetMemberOther(a, "lastSwitched", Str(now), "activeProfile");
    SetMemberOther(b, "activeTools", Arr(Strings(ToolNames(ts))), "activeProfile");
    SetMemberOther(b, "activeTools", Arr(Strings(ToolNames(ts))), "lastSwitched");
    if k != "activeProfile" && k != "lastSwitched" && k != "activeTools" {
      SetMemberOther(ms, "activeProfile", ProfileValue(name), k);
      SetMemberOther(a, "lastSwitched", Str(now), k);
      SetMemberOther(b, "activeTools", Arr(Strings(ToolNames(ts))), k);
    }
    SaveThenLoad(fs, env, Obj(c));
  }

  /** On a stored array `setActiveProfile` changes nothing that reads back:
      the same array loads again and `getActiveProfile()` stays undefined. */
  lemma SetActiveProfileOnArray(fs: Tree, env: Env, name: Option<string>, tools: Option<seq<ToolId>>, now: string)
    requires ProfileSet(fs, env, name, tools, now).fault.None?
    requires StoredArray(fs, env).Some?
    ensures var t := ProfileSet(fs, env, name, tools, now).tree;
      Loaded(t, env) == Loaded(fs, env) && ActiveProfile(t, env).None?
  {
    SavedReadsBack(fs, env, Loaded(fs, env));
  }

  /** `migrateIfNeeded()`, run once when the module loads. */
  function Migrated(fs: Tree, env: Env): Tree {
    if Exists(fs, LegacyDir(env)) && !Exists(fs, OrchDir(env)) then Move(fs, LegacyDir(env), OrchDir(env))
    else fs
  }

  method MigrateIfNeeded(d: Disk, env: Env)
    modifies d
    ensures d.tree == Migrated(old(d.tree), env)
  {
    if Exists(d.tree, LegacyDir(env)) && !Exists(d.tree, OrchDir(env)) {
      d.tree := Move(d.tree, LegacyDir(env), OrchDir(env));
    }
  }

  /** The move happens exactly when `~/.orch` exists and `~/.orchester` does
      not; then every legacy entry reappears under `~/.orchester` and
      `~/.orch` is gone. */
  lemma MigrationMoves(fs: Tree, env: Env)
    ensures !(Exists(fs, LegacyDir(env)) && !Exists(fs, OrchDir(env))) ==> Migrated(fs, env) == fs
    ensures Exists(fs, LegacyDir(env)) && !Exists(fs, OrchDir(env)) ==>
      && (forall q :: q in fs && Under(q, LegacyDir(env)) ==>
            Migrated(fs, env)[Rebase(q, LegacyDir(env), OrchDir(env))] == fs[q])
      && Lstat(Migrated(fs, env), LegacyDir(env)).None?
  {
    if Exists(fs, LegacyDir(env)) && !Exists(fs, OrchDir(env)) {
      SiblingsDisjoint(env.home, ".orch", ".orchester");
    }
  }
}

=== FILE: switcher.dfy ===
/**
 * The profile switch: validate the target profile, remove the links the
 * current profile owns, create the target's links (or restore the vanilla
 * snapshot when no profile is selected), record the result, and roll back
 * on any failure. `buildDiffPreview` is the read-only half of the same walk.
 */
module Switcher {
  import opened Wrappers
  import opened Text
  import opened Values
  import opened Seqs
  import opened Disk
  import opened Types
  import opened Linker
  import opened ManifestParse
  import opened StateStore
  import opened Vanilla

  /** JavaScript truthiness of a `string | null` profile argument. */
  predicate Named(p: Option<string>) {
    p.Some? && p.value != ""
  }

  // ------------------------------------------------------------ expandVars

  /** The last step of `expandVars`: `/^~(?=\/|$)/` replaced by the home directory. */
  function ExpandTilde(s: string, home: Path): string {
    if s == "~" || StartsWith(s, "~/") then home + s[1..] else s
  }

  /** `expandVars(p)`: every `$HOME`, then every `$PROJECT`, then a leading `~`. */
  function ExpandVars(env: Env, p: string): string {
    var a := ReplaceAll(p, "$HOME", env.home);
    var b := ReplaceAll(a, "$PROJECT", env.cwd);
    ExpandTilde(b, env.home)
  }

  /** Without variables, only a `~` at the very start, standing alone or
      before `/`, is rewritten; any other text comes back unchanged. */
  lemma ExpandVarsTilde(env: Env, s: string)
    requires '$' !in s
    ensures s == "~" ==> ExpandVars(env, s) == env.home
    ensures StartsWith(s, "~/") ==> ExpandVars(env, s) == env.home + s[1..]
    ensures !(s == "~" || StartsWith(s, "~/")) ==> ExpandVars(env, s) == s
  {
    ReplaceAllUntouched(s, "$HOME", env.home);
    ReplaceAllUntouched(s, "$PROJECT", env.cwd);
  }

  /** A leading `$HOME` becomes the home directory (which holds neither `$` nor `~`). */
  lemma ExpandVarsHome(env: Env, s: string)
    requires '$' !in s && '~' !in s && '$' !in env.home && '~' !in env.home
    ensures ExpandVars(env, "$HOME" + s) == env.home + s
  {
    ReplaceAllLeading("$HOME", s, env.home);
    ReplaceAllUntouched(s, "$HOME", env.home);
    ReplaceAllUntouched(env.home + s, "$PROJECT", env.cwd);
    TildeAbsent(env.home + s, env.home);
  }

  /** A leading `$PROJECT` becomes the working directory (which holds neither `$` nor `~`). */
  lemma ExpandVarsProject(env: Env, s: string)
    requires '$' !in s && '~' !in s && '$' !in env.cwd && '~' !in env.cwd
    ensures ExpandVars(env, "$PROJECT" + s) == env.cwd + s
  {
    var p := "$PROJECT" + s;
    assert !StartsWith(p, "$HOME") by {
      assert p[1] == 'P';
    }
    assert p[1..] == "PROJECT" + s;
    ReplaceAllUntouched(p[1..], "$HOME", env.home);
    assert ReplaceAll(p, "$HOME", env.home) == p;
    ReplaceAllLeading("$PROJECT", s, env.cwd);
    ReplaceAllUntouched(s, "$PROJECT", env.cwd);
    TildeAbsent(env.cwd + s, env.home);
  }

  /** Text without `~` passes the last step untouched. */
  lemma TildeAbsent(s: string, home: Path)
    requires '~' !in s
    ensures ExpandTilde(s, home) == s
  {
    if |s| > 0 {
      assert s[0] in s;
    }
  }

  /** The three steps: with neither `$` nor `~` in the home and working
      directories, the result holds no `~` unless the input does. */
  lemma ExpandVarsNoTilde(env: Env, p: string)
    requires '~' !in p && '~' !in env.home && '~' !in env.cwd
    ensures '~' !in ExpandVars(env, p)
    ensures ExpandVars(env, p) == ReplaceAll(ReplaceAll(p, "$HOME", env.home), "$PROJECT", env.cwd)
  {
    ReplaceAllKeepsOut(p, "$HOME", env.home, '~');
    var a := ReplaceAll(p, "$HOME", env.home);
    ReplaceAllKeepsOut(a, "$PROJECT", env.cwd, '~');
    TildeAbsent(ReplaceAll(a, "$PROJECT", env.cwd), env.home);
  }

  // -------------------------------------------------------- profile paths

  /** `path.join(getProfilesDir(), profileName)` */
  function ProfileDir(env: Env, name: string): Path {
    Join(ProfilesDir(env), name)
  }

  /** `loadProfileManifest(profileName)` */
  function LoadProfileManifest(fs: Tree, env: Env, name: string): Result<Manifest, Fault> {
    ParseManifest(fs, ProfileDir(env, name))
  }

  /** `resolveSource(profileName, source)` */
  function ResolveSource(env: Env, name: string, source: string): Path {
    Join(ProfileDir(env, name), source)
  }

  /** A path not ending in `/` gets one appended. */
  lemma PrefixOfPlain(x: Path)
    requires |x| > 0 && x[|x| - 1] != '/'
    ensures Prefix(x) == x + "/"
  {
  }

  /** `~/.orchester/profiles/<name>/`, spelled out. */
  lemma ProfileDirPrefix(env: Env, name: string)
    requires ValidName(name)
    ensures Prefix(ProfileDir(env, name)) == Prefix(env.home) + ".orchester/profiles/" + name + "/"
  {
    var h := Prefix(env.home);
    PrefixOfPlain(OrchDir(env));
    assert ProfilesDir(env) == h + ".orchester/profiles";
    PrefixOfPlain(ProfilesDir(env));
    var pd := ProfileDir(env, name);
    assert pd == h + ".orchester/profiles/" + name;
    assert pd[|pd| - 1] == name[|name| - 1];
    PrefixOfPlain(pd);
  }

  /** A resolved source is the home directory's prefix, then
      `.orchester/profiles/`, then the name and the source. */
  lemma ResolveSourceShape(env: Env, name: string, source: string)
    requires ValidName(name)
    ensures ResolveSource(env, name, source) == Prefix(env.home) + ".orchester/profiles/" + (name + "/" + source)
  {
    ProfileDirPrefix(env, name);
  }

  /** The link `switchProfile` creates for a profile's entry holds a value
      `isOrchSymlink` recognises, so the next switch removes it. */
  lemma ResolveSourceOwned(env: Env, name: string, source: string)
    requires ValidName(name) && !StartsWith(env.home, "~")
    ensures Owned(ExpandPath(env, ResolveSource(env, name, source)))
  {
    var h := Prefix(env.home);
    var r := ResolveSource(env, name, source);
    ResolveSourceShape(env, name, source);
    ContainsInfix(h, ".orchester/profiles/", name + "/" + source);
    assert r[0] == h[0];
    if |Key(env.home)| > 0 {
      assert h[0] == Key(env.home)[0] == env.home[0];
    }
    assert r[0] != '~';
    assert ExpandPath(env, r) == r;
  }

  /** The links a profile argument stands for: none for a null or empty
      name or an unloadable manifest (the preview and the deactivation
      both swallow that error). */
  function ProfileLinks(fs: Tree, env: Env, name: Option<string>): seq<LinkDef> {
    if !Named(name) then []
    else
      match LoadProfileManifest(fs, env, name.value)
      case Ok(m) => m.links
      case Err(_) => []
  }

  // ------------------------------------------------------ buildDiffPreview

  /** One preview item per link, with the manifest's unexpanded paths. */
  function Items(change: Change, links: seq<LinkDef>): seq<DiffItem> {
    seq(|links|, i requires 0 <= i < |links| => DiffItem(change, links[i].source, links[i].target))
  }

  /** `buildDiffPreview(from, to)` */
  function DiffPreview(fs: Tree, env: Env, from: Option<string>, to: Option<string>): DiffData {
    DiffData(from, to, Items(ToRemove, ProfileLinks(fs, env, from)) + Items(ToAdd, ProfileLinks(fs, env, to)))
  }

  method BuildDiffPreview(d: Disk, env: Env, from: Option<string>, to: Option<string>) returns (diff: DiffData)
    ensures diff == DiffPreview(d.tree, env, from, to)
  {
    var items := PushItems([], ToRemove, ProfileLinks(d.tree, env, from));
    assert items == Items(ToRemove, ProfileLinks(d.tree, env, from));
    items := PushItems(items, ToAdd, ProfileLinks(d.tree, env, to));
    diff := DiffData(from, to, items);
  }

  /** The `for (const link of ...) items.push(...)` loop. */
  method PushItems(items: seq<DiffItem>, change: Change, links: seq<LinkDef>) returns (r: seq<DiffItem>)
    ensures r == items + Items(change, links)
  {
    r := items;
    for i := 0 to |links|
      invariant r == items + Items(change, links[..i])
    {
      r := r + [DiffItem(change, links[i].source, links[i].target)];
    }
    assert links[..|links|] == links;
  }

  /** The preview lists a `remove` item per link of `from`, then an `add`
      item per link of `to`, each in declaration order with the manifest's
      own unexpanded paths; `from` and `to` are echoed back, and two null
      sides give no items. */
  lemma DiffPreviewShape(fs: Tree, env: Env, from: Option<string>, to: Option<string>)
    ensures var p, f, t := DiffPreview(fs, env, from, to), ProfileLinks(fs, env, from), ProfileLinks(fs, env, to);
      && p.from == from && p.to == to
      && |p.items| == |f| + |t|
      && (forall i :: 0 <= i < |f| ==> p.items[i] == DiffItem(ToRemove, f[i].source, f[i].target))
      && (forall j :: 0 <= j < |t| ==> p.items[|f| + j] == DiffItem(ToAdd, t[j].source, t[j].target))
    ensures !Named(from) && !Named(to) ==> DiffPreview(fs, env, from, to).items == []
  {
    PreviewShape(ProfileLinks(fs, env, from), ProfileLinks(fs, env, to));
  }

  lemma PreviewShape(f: seq<LinkDef>, t: seq<LinkDef>)
    ensures var items := Items(ToRemove, f) + Items(ToAdd, t);
      && |items| == |f| + |t|
      && (forall i :: 0 <= i < |f| ==> items[i] == DiffItem(ToRemove, f[i].source, f[i].target))
      && (forall j :: 0 <= j < |t| ==> items[|f| + j] == DiffItem(ToAdd, t[j].source, t[j].target))
  {
    var a, b := Items(ToRemove, f), Items(ToAdd, t);
    assert forall j :: 0 <= j < |b| ==> (a + b)[|a| + j] == b[j];
  }

  /** A side whose manifest does not load contributes no items. */
  lemma DiffPreviewSkipsBroken(fs: Tree, env: Env, from: Option<string>, to: Option<string>)
    requires Named(from) && LoadProfileManifest(fs, env, from.value).Err?
    ensures DiffPreview(fs, env, from, to).items == Items(ToAdd, ProfileLinks(fs, env, to))
  {
    assert Items(ToRemove, []) == [];
  }

  /** The preview's `remove` items are exactly the links of `from` and its
      `add` items exactly the links of `to`, by source and target. */
  lemma PreviewItems(fs: Tree, env: Env, from: Option<string>, to: Option<string>)
    ensures var p, f, t := DiffPreview(fs, env, from, to), ProfileLinks(fs, env, from), ProfileLinks(fs, env, to);
      && (forall it :: it in p.items && it.change == ToRemove ==> exists l :: l in f && it == DiffItem(ToRemove, l.source, l.target))
      && (forall l :: l in f ==> DiffItem(ToRemove, l.source, l.target) in p.items)
      && (forall it :: it in p.items && it.change == ToAdd ==> exists l :: l in t && it == DiffItem(ToAdd, l.source, l.target))
      && (forall l :: l in t ==> DiffItem(ToAdd, l.source, l.target) in p.items)
  {
    PreviewMembers(ProfileLinks(fs, env, from), ProfileLinks(fs, env, to));
  }

  lemma PreviewMembers(f: seq<LinkDef>, t: seq<LinkDef>)
    ensures var items := Items(ToRemove, f) + Items(ToAdd, t);
      && (forall it :: it in items && it.change == ToRemove ==> exists l :: l in f && it == DiffItem(ToRemove, l.source, l.target))
      && (forall l :: l in f ==> DiffItem(ToRemove, l.source, l.target) in items)
      && (forall it :: it in items && it.change == ToAdd ==> exists l :: l in t && it == DiffItem(ToAdd, l.source, l.target))
      && (forall l :: l in t ==> DiffItem(ToAdd, l.source, l.target) in items)
  {
    ItemsOf(ToRemove, f);
    ItemsOf(ToAdd, t);
    var a, b := Items(ToRemove, f), Items(ToAdd, t);
    assert forall it :: it in a + b <==> it in a || it in b;
  }

  /** `Items(change, links)` holds, with that change, one item per link and nothing else. */
  lemma ItemsOf(change: Change, links: seq<LinkDef>)
    ensures forall it :: it in Items(change, links) ==> exists l :: l in links && it == DiffItem(change, l.source, l.target)
    ensures forall l :: l in links ==> DiffItem(change, l.source, l.target) in Items(change, links)
  {
    var items := Items(change, links);
    forall it | it in items
      ensures exists l :: l in links && it == DiffItem(change, l.source, l.target)
    {
      var i :| 0 <= i < |items| && items[i] == it;
      assert links[i] in links;
    }
    forall l | l in links
      ensures DiffItem(change, l.source, l.target) in items
    {
      var i :| 0 <= i < |links| && links[i] == l;
      assert items[i] == DiffItem(change, l.source, l.target);
    }
  }

  // ------------------------------------------------------------ deactivate

  /** The tree after a sweep and the number of links it removed. */
  datatype Sweep = Sweep(tree: Tree, removed: nat)

  /** Phase 2's loop: remove each link target that holds an orchester link. */
  function DeactivateFrom(fs: Tree, env: Env, links: seq<LinkDef>): Sweep
    decreases |links|
  {
    if |links| == 0 then Sweep(fs, 0)
    else
      var target := ExpandVars(env, links[0].target);
      var step := if IsOrchSymlink(fs, env, target) then Sweep(SymlinkRemoved(fs, env, target), 1) else Sweep(fs, 0);
      var rest := DeactivateFrom(step.tree, env, links[1..]);
      Sweep(rest.tree, step.removed + rest.removed)
  }

  method Deactivate(d: Disk, env: Env, links: seq<LinkDef>) returns (removed: nat)
    modifies d
    ensures Sweep(d.tree, removed) == DeactivateFrom(old(d.tree), env, links)
  {
    removed := 0;
    assert links[0..] == links;
    for i := 0 to |links|
      invariant var rest := DeactivateFrom(d.tree, env, links[i..]);
        DeactivateFrom(old(d.tree), env, links) == Sweep(rest.tree, removed + rest.removed)
    {
      ghost var before := d.tree;
      assert links[i..][0] == links[i] && links[i..][1..] == links[i + 1..];
      DeactivateFromCons(before, env, links[i..]);
      var target := ExpandVars(env, links[i].target);
      if IsOrchSymlink(d.tree, env, target) {
        RemoveSymlink(d, env, target);
        removed := removed + 1;
      }
    }
    assert links[|links|..] == [];
  }

  /** The first pass of the sweep, followed by the rest. */
  lemma DeactivateFromCons(fs: Tree, env: Env, links: seq<LinkDef>)
    requires |links| > 0
    ensures var target := ExpandVars(env, links[0].target);
      var owned := IsOrchSymlink(fs, env, target);
      var rest := DeactivateFrom(if owned then SymlinkRemoved(fs, env, target) else fs, env, links[1..]);
      DeactivateFrom(fs, env, links) == Sweep(rest.tree, (if owned then 1 else 0) + rest.removed)
  {
  }

  /** One step of the sweep removes at most the owned link at the target. */
  lemma DeactivateStep(fs: Tree, env: Env, target: string)
    requires IsOrchSymlink(fs, env, target)
    ensures var k := Key(ExpandPath(env, target));
      && k in fs && fs[k].Symlink? && Owned(fs[k].value)
      && SymlinkRemoved(fs, env, target) == fs - {k}
  {
  }

  /** `b` is `a` with some orchester-owned links deleted and nothing else changed. */
  ghost predicate OnlyOwnedLinksGone(a: Tree, b: Tree) {
    && b.Keys <= a.Keys
    && (forall q :: q in b ==> b[q] == a[q])
    && (forall q :: q in a && q !in b ==> a[q].Symlink? && Owned(a[q].value))
  }

  lemma OnlyOwnedLinksGoneTrans(a: Tree, b: Tree, c: Tree)
    requires OnlyOwnedLinksGone(a, b) && OnlyOwnedLinksGone(b, c)
    ensures OnlyOwnedLinksGone(a, c)
  {
  }

  /** The sweep deletes nothing but orchester-owned links and changes no
      entry it keeps. */
  lemma {:induction false} DeactivateRemovesOwnedLinks(fs: Tree, env: Env, links: seq<LinkDef>)
    ensures OnlyOwnedLinksGone(fs, DeactivateFrom(fs, env, links).tree)
    decreases |links|
  {
    if |links| > 0 {
      var target := ExpandVars(env, links[0].target);
      var t := if IsOrchSymlink(fs, env, target) then SymlinkRemoved(fs, env, target) else fs;
      if IsOrchSymlink(fs, env, target) {
        DeactivateStep(fs, env, target);
      }
      assert OnlyOwnedLinksGone(fs, t);
      DeactivateRemovesOwnedLinks(t, env, links[1..]);
      OnlyOwnedLinksGoneTrans(fs, t, DeactivateFrom(t, env, links[1..]).tree);
    }
  }

  /** `linksRemoved` counts exactly the entries the sweep deleted, at most
      one per link. */
  lemma {:induction false} DeactivateCounts(fs: Tree, env: Env, links: seq<LinkDef>)
    ensures var r := DeactivateFrom(fs, env, links);
      r.removed == |fs.Keys - r.tree.Keys| && r.removed <= |links|
    decreases |links|
  {
    if |links| > 0 {
      var target := ExpandVars(env, links[0].target);
      DeactivateCounts(if IsOrchSymlink(fs, env, target) then SymlinkRemoved(fs, env, target) else fs, env, links[1..]);
      if IsOrchSymlink(fs, env, target) {
        DeactivateStep(fs, env, target);
        var k := Key(ExpandPath(env, target));
        var s := fs - {k};
        DeactivateRemovesOwnedLinks(s, env, links[1..]);
        var r := DeactivateFrom(s, env, links[1..]);
        assert s.Keys == fs.Keys - {k};
        RemovedOneMore(fs.Keys, k, r.tree.Keys);
      }
    }
  }

  /** Every entry the sweep deleted sat where one of `links` is placed. */
  lemma {:induction false} DeactivateRemovesListed(fs: Tree, env: Env, links: seq<LinkDef>)
    ensures var r := DeactivateFrom(fs, env, links).tree;
      forall k :: k in fs && k !in r ==> exists l :: l in links && k == Key(Placed(env, l))
    decreases |links|
  {
    if |links| > 0 {
      var target := ExpandVars(env, links[0].target);
      var t := if IsOrchSymlink(fs, env, target) then SymlinkRemoved(fs, env, target) else fs;
      if IsOrchSymlink(fs, env, target) {
        DeactivateStep(fs, env, target);
      }
      DeactivateRemovesListed(t, env, links[1..]);
      var r := DeactivateFrom(fs, env, links).tree;
      forall k | k in fs && k !in r
        ensures exists l :: l in links && k == Key(Placed(env, l))
      {
        if k in t {
          var l :| l in links[1..] && k == Key(Placed(env, l));
          assert l in links;
        } else {
          assert links[0] in links;
        }
      }
    }
  }

  /** After the sweep no target of `links` holds an orchester link. */
  lemma {:induction false} DeactivateClears(fs: Tree, env: Env, links: seq<LinkDef>)
    ensures var r := DeactivateFrom(fs, env, links).tree;
      forall l :: l in links ==> !IsOrchSymlink(r, env, ExpandVars(env, l.target))
    decreases |links|
  {
    if |links| > 0 {
      var target := ExpandVars(env, links[0].target);
      var t := if IsOrchSymlink(fs, env, target) then SymlinkRemoved(fs, env, target) else fs;
      if IsOrchSymlink(fs, env, target) {
        DeactivateStep(fs, env, target);
      }
      assert !IsOrchSymlink(t, env, target);
      DeactivateClears(t, env, links[1..]);
      DeactivateRemovesOwnedLinks(t, env, links[1..]);
      var r := DeactivateFrom(fs, env, links).tree;
      forall l | l in links
        ensures !IsOrchSymlink(r, env, ExpandVars(env, l.target))
      {
        if l != links[0] {
          assert l in links[1..];
        }
      }
    }
  }

  // -------------------------------------------------------------- activate

  /** Phase 3's loop: one `createSymlink(resolveSource(name, source),
      expandVars(target))` per link, in order, stopping at the first throw. */
  function ActivateFrom(fs: Tree, env: Env, name: string, links: seq<LinkDef>): Effect
    decreases |links|
  {
    if |links| == 0 then Effect(fs, None)
    else
      var step := ActivateStep(fs, env, name, links[0]);
      if step.fault.Some? then step else ActivateFrom(step.tree, env, name, links[1..])
  }

  method Activate(d: Disk, env: Env, name: string, links: seq<LinkDef>) returns (created: nat, fault: Option<Fault>)
    modifies d
    ensures Effect(d.tree, fault) == ActivateFrom(old(d.tree), env, name, links)
    ensures fault.None? ==> created == |links|
  {
    created := 0;
    for i := 0 to |links|
      invariant ActivateFrom(old(d.tree), env, name, links) == ActivateFrom(d.tree, env, name, links[i..])
      invariant created == i
    {
      assert links[i..][1..] == links[i + 1..];
      var source := ResolveSource(env, name, links[i].source);
      var target := ExpandVars(env, links[i].target);
      fault := CreateSymlink(d, env, source, target);
      if fault.Some? {
        return;
      }
      created := created + 1;
    }
    fault := None;
  }

  /** Where a link is placed, and the value it holds. */
  function Placed(env: Env, l: LinkDef): Path {
    ExpandPath(env, ExpandVars(env, l.target))
  }

  function Held(env: Env, name: string, l: LinkDef): Path {
    ExpandPath(env, ResolveSource(env, name, l.source))
  }

  /** One `createSymlink` call of the activation loop. */
  function ActivateStep(fs: Tree, env: Env, name: string, l: LinkDef): Effect {
    SymlinkCreated(fs, env, ResolveSource(env, name, l.source), ExpandVars(env, l.target))
  }

  /** No later link is placed at or above an earlier one. */
  ghost predicate Independent(env: Env, links: seq<LinkDef>) {
    forall i :: 0 <= i < |links| ==> Uncovered(env, Placed(env, links[i]), links[i + 1..])
  }

  /** None of `links` is placed at or above `p`. */
  ghost predicate Uncovered(env: Env, p: Path, links: seq<LinkDef>) {
    forall l :: l in links ==> !Under(Key(p), Placed(env, l))
  }

  /** A successful call places its link and keeps every entry outside its target. */
  lemma ActivateStepResult(fs: Tree, env: Env, name: string, l: LinkDef)
    requires ActivateStep(fs, env, name, l).fault.None?
    ensures var t := ActivateStep(fs, env, name, l).tree;
      && Lstat(t, Placed(env, l)) == Some(Symlink(Held(env, name, l)))
      && forall q :: q in fs && !Under(q, Placed(env, l)) ==> q in t && t[q] == fs[q]
  {
    CreateSymlinkResult(fs, env, ResolveSource(env, name, l.source), ExpandVars(env, l.target));
  }

  /** After an activation that did not throw, with independent targets,
      every link target holds a link to its profile's source. */
  lemma {:induction false} ActivatePlacesLinks(fs: Tree, env: Env, name: string, links: seq<LinkDef>)
    requires ActivateFrom(fs, env, name, links).fault.None?
    requires Independent(env, links)
    ensures forall l :: l in links ==>
      Lstat(ActivateFrom(fs, env, name, links).tree, Placed(env, l)) == Some(Symlink(Held(env, name, l)))
    decreases |links|
  {
    if |links| > 0 {
      var step := ActivateStep(fs, env, name, links[0]);
      ActivateStepResult(fs, env, name, links[0]);
      var rest := links[1..];
      assert Independent(env, rest) by {
        forall i | 0 <= i < |rest|
          ensures Uncovered(env, Placed(env, rest[i]), rest[i + 1..])
        {
          assert rest[i] == links[i + 1] && rest[i + 1..] == links[i + 2..];
        }
      }
      ActivatePlacesLinks(step.tree, env, name, rest);
      ActivateKeepsFirst(step.tree, env, name, links);
    }
  }

  /** The first link survives the later ones when none covers it. */
  lemma ActivateKeepsFirst(t: Tree, env: Env, name: string, links: seq<LinkDef>)
    requires |links| > 0 && Independent(env, links)
    requires Lstat(t, Placed(env, links[0])) == Some(Symlink(Held(env, name, links[0])))
    requires ActivateFrom(t, env, name, links[1..]).fault.None?
    ensures Lstat(ActivateFrom(t, env, name, links[1..]).tree, Placed(env, links[0])) == Some(Symlink(Held(env, name, links[0])))
  {
    assert Uncovered(env, Placed(env, links[0]), links[1..]);
    ActivateKeeps(t, env, name, links[1..], Placed(env, links[0]));
  }

  /** Later links leave an entry alone that none of their targets covers. */
  lemma {:induction false} ActivateKeeps(fs: Tree, env: Env, name: string, links: seq<LinkDef>, p: Path)
    requires ActivateFrom(fs, env, name, links).fault.None?
    requires Key(p) in fs
    requires Uncovered(env, p, links)
    ensures Lstat(ActivateFrom(fs, env, name, links).tree, p) == Lstat(fs, p)
    decreases |links|
  {
    if |links| > 0 {
      var step := ActivateStep(fs, env, name, links[0]);
      ActivateStepResult(fs, env, name, links[0]);
      assert links[0] in links;
      assert forall l :: l in links[1..] ==> l in links;
      ActivateKeeps(step.tree, env, name, links[1..], p);
    }
  }

  /** Every link an activation placed is one `isOrchSymlink` recognises, so
      switching away from the profile removes it. */
  lemma ActivateLinksOwned(fs: Tree, env: Env, name: string, links: seq<LinkDef>, l: LinkDef)
    requires ActivateFrom(fs, env, name, links).fault.None?
    requires Independent(env, links) && l in links
    requires ValidName(name) && !StartsWith(env.home, "~")
    ensures IsOrchSymlink(ActivateFrom(fs, env, name, links).tree, env, ExpandVars(env, l.target))
  {
    ActivatePlacesLinks(fs, env, name, links);
    ResolveSourceOwned(env, name, l.source);
  }

  // ---------------------------------------------------------- switchProfile

  /** The tree after a switch and the `SwitchResult` it reports. */
  datatype Outcome = Outcome(tree: Tree, result: SwitchResult)

  /** The catch block's `restoreVanilla(); setActiveProfile(null)`, with
      any throw of its own swallowed. */
  function RolledBack(fs: Tree, env: Env, listing: seq<string>, now: string): Tree {
    var back := Restore(fs, env, listing);
    if back.fault.Some? then back.tree else ProfileSet(back.tree, env, None, None, now).tree
  }

  /** A switch that threw `e` after removing `removed` links. */
  function Failed(fs: Tree, env: Env, listing: seq<string>, now: string, removed: nat, e: Fault): (o: Outcome)
    ensures !o.result.success && o.result.linksCreated == 0 && o.result.linksRemoved == removed
    ensures o.result.error == Some(Message(e))
  {
    Outcome(RolledBack(fs, env, listing, now), SwitchResult(false, 0, removed, Some(Message(e))))
  }

  /** `setActiveProfile(name)` and the final report. */
  function Recorded(fs: Tree, env: Env, listing: seq<string>, now: string, name: Option<string>, created: nat, removed: nat): (o: Outcome)
    ensures o.result.linksRemoved == removed
    ensures o.result.success <==> o.result.error.None?
    ensures o.result.linksCreated == if o.result.success then created else 0
  {
    var saved := ProfileSet(fs, env, name, None, now);
    if saved.fault.Some? then Failed(saved.tree, env, listing, now, removed, saved.fault.value)
    else Outcome(saved.tree, SwitchResult(true, created, removed, None))
  }

  /** Phases 3 and 4, from the tree deactivation left: create the target's
      links and record it, or restore the vanilla snapshot and record no
      profile. */
  function Engaged(fs: Tree, env: Env, listing: seq<string>, now: string, to: Option<string>, removed: nat): (o: Outcome)
    ensures o.result.linksRemoved == removed
    ensures o.result.success <==> o.result.error.None?
    ensures !o.result.success || !Named(to) ==> o.result.linksCreated == 0
  {
    if Named(to) then
      match LoadProfileManifest(fs, env, to.value)
      case Err(e) => Failed(fs, env, listing, now, removed, e)
      case Ok(m) =>
        var on := ActivateFrom(fs, env, to.value, m.links);
        if on.fault.Some? then Failed(on.tree, env, listing, now, removed, on.fault.value)
        else Recorded(on.tree, env, listing, now, to, |m.links|, removed)
    else
      var back := Restore(fs, env, listing);
      if back.fault.Some? then Failed(back.tree, env, listing, now, removed, back.fault.value)
      else Recorded(back.tree, env, listing, now, None, 0, removed)
  }

  /** `switchProfile(from, to)`; `listing` is the order in which the vanilla
      directory is read, `now` the time stamped into the state. */
  function Switched(fs: Tree, env: Env, listing: seq<string>, now: string, from: Option<string>, to: Option<string>): (o: Outcome)
    ensures o.result.success <==> o.result.error.None?
    ensures !o.result.success ==> o.result.linksCreated == 0
  {
    if Named(to) && LoadProfileManifest(fs, env, to.value).Err? then
      Failed(fs, env, listing, now, 0, LoadProfileManifest(fs, env, to.value).error)
    else
      var off := DeactivateFrom(fs, env, ProfileLinks(fs, env, from));
      Engaged(off.tree, env, listing, now, to, off.removed)
  }

  method SwitchProfile(d: Disk, env: Env, listing: seq<string>, now: string, from: Option<string>, to: Option<string>)
    returns (result: SwitchResult)
    modifies d
    ensures Outcome(d.tree, result) == Switched(old(d.tree), env, listing, now, from, to)
  {
    // Phase 1: validate
    if Named(to) {
      var m := LoadProfileManifest(d.tree, env, to.value);
      if m.Err? {
        result := RollBack(d, env, listing, now, 0, m.error);
        return;
      }
    }
    // Phase 2: deactivate the current profile
    var removed := Deactivate(d, env, ProfileLinks(d.tree, env, from));
    // Phases 3 and 4
    result := Engage(d, env, listing, now, to, removed);
  }

  method Engage(d: Disk, env: Env, listing: seq<string>, now: string, to: Option<string>, removed: nat)
    returns (result: SwitchResult)
    modifies d
    ensures Outcome(d.tree, result) == Engaged(old(d.tree), env, listing, now, to, removed)
  {
    if Named(to) {
      var m := LoadProfileManifest(d.tree, env, to.value);
      if m.Err? {
        result := RollBack(d, env, listing, now, removed, m.error);
        return;
      }
      var created, fault := Activate(d, env, to.value, m.value.links);
      if fault.Some? {
        result := RollBack(d, env, listing, now, removed, fault.value);
        return;
      }
      result := Record(d, env, listing, now, to, created, removed);
    } else {
      var fault := RestoreVanilla(d, env, listing);
      if fault.Some? {
        result := RollBack(d, env, listing, now, removed, fault.value);
        return;
      }
      result := Record(d, env, listing, now, None, 0, removed);
    }
  }

  method Record(d: Disk, env: Env, listing: seq<string>, now: string, name: Option<string>, created: nat, removed: nat)
    returns (result: SwitchResult)
    modifies d
    ensures Outcome(d.tree, result) == Recorded(old(d.tree), env, listing, now, name, created, removed)
  {
    var fault := SetActiveProfile(d, env, name, None, now);
    if fault.Some? {
      result := RollBack(d, env, listing, now, removed, fault.value);
    } else {
      result := SwitchResult(true, created, removed, None);
    }
  }

  /** The catch block. */
  method RollBack(d: Disk, env: Env, listing: seq<string>, now: string, removed: nat, e: Fault)
    returns (result: SwitchResult)
    modifies d
    ensures Outcome(d.tree, result) == Failed(old(d.tree), env, listing, now, removed, e)
  {
    var back := RestoreVanilla(d, env, listing);
    if back.None? {
      var ignored := SetActiveProfile(d, env, None, None, now);
    }
    result := SwitchResult(false, 0, removed, Some(Message(e)));
  }

  // ------------------------------------------------------ switch properties

  /** A target profile whose manifest does not load stops the switch before
      any link is removed or created: only the rollback runs, on the tree as
      it was, and both counters are 0. */
  lemma SwitchRejectsBrokenTarget(fs: Tree, env: Env, listing: seq<string>, now: string, from: Option<string>, to: Option<string>)
    requires Named(to) && LoadProfileManifest(fs, env, to.value).Err?
    ensures var o := Switched(fs, env, listing, now, from, to);
      && o.tree == RolledBack(fs, env, listing, now)
      && o.result == SwitchResult(false, 0, 0, Some(Message(LoadProfileManifest(fs, env, to.value).error)))
  {
  }

  /** `linksRemoved` is the number of `from` links that were removed, kept
      whether or not the switch then fails. */
  lemma SwitchReportsRemovals(fs: Tree, env: Env, listing: seq<string>, now: string, from: Option<string>, to: Option<string>)
    requires !Named(to) || LoadProfileManifest(fs, env, to.value).Ok?
    ensures var off := DeactivateFrom(fs, env, ProfileLinks(fs, env, from));
      && Switched(fs, env, listing, now, from, to).result.linksRemoved == off.removed
      && off.removed == |fs.Keys - off.tree.Keys|
      && off.removed <= |ProfileLinks(fs, env, from)|
  {
    DeactivateCounts(fs, env, ProfileLinks(fs, env, from));
  }

  /** A successful `setActiveProfile(name)` on a state that is not an array
      leaves the state naming the profile, carrying the time, with no active
      tools. */
  lemma RecordedState(fs: Tree, env: Env, listing: seq<string>, now: string, name: Option<string>, created: nat, removed: nat)
    requires Recorded(fs, env, listing, now, name, created, removed).result.success
    requires StoredArray(fs, env).None?
    ensures var s := Loaded(Recorded(fs, env, listing, now, name, created, removed).tree, env);
      && Get(s, "activeProfile") == Some(ProfileValue(name))
      && Get(s, "lastSwitched") == Some(Str(now))
      && Get(s, "activeTools") == Some(Arr([]))
  {
    SetActiveProfileRecord(fs, env, name, None, now, "activeProfile");
    assert Strings(ToolNames([])) == [];
  }

  /** The tree phase 3 hands to `setActiveProfile`. */
  function Prepared(fs: Tree, env: Env, listing: seq<string>, to: Option<string>): Tree {
    if Named(to) then
      match LoadProfileManifest(fs, env, to.value)
      case Ok(m) => ActivateFrom(fs, env, to.value, m.links).tree
      case Err(_) => fs
    else Restore(fs, env, listing).tree
  }

  /** A phase 3 that succeeds ends by recording the target on the prepared tree. */
  lemma EngagedRecorded(fs: Tree, env: Env, listing: seq<string>, now: string, to: Option<string>, removed: nat)
    requires Engaged(fs, env, listing, now, to, removed).result.success
    ensures var o := Engaged(fs, env, listing, now, to, removed);
      o == Recorded(Prepared(fs, env, listing, to), env, listing, now, if Named(to) then to else None, o.result.linksCreated, removed)
  {
    if Named(to) {
      var m := LoadProfileManifest(fs, env, to.value);
      assert m.Ok?;
      assert ActivateFrom(fs, env, to.value, m.value.links).fault.None?;
    } else {
      assert Restore(fs, env, listing).fault.None?;
    }
  }

  /** The tree `setActiveProfile` reads when a switch records its target. */
  function RecordingTree(fs: Tree, env: Env, listing: seq<string>, from: Option<string>, to: Option<string>): Tree {
    Prepared(DeactivateFrom(fs, env, ProfileLinks(fs, env, from)).tree, env, listing, to)
  }

  /** After a successful switch the state names the target profile (or no
      profile when `to` is null or empty), carries the switch time, and has
      no active tools, provided the state file it recorded into was not an
      array (an array is written back unchanged, `SetActiveProfileOnArray`). */
  lemma SwitchRecordsProfile(fs: Tree, env: Env, listing: seq<string>, now: string, from: Option<string>, to: Option<string>)
    requires Switched(fs, env, listing, now, from, to).result.success
    requires StoredArray(RecordingTree(fs, env, listing, from, to), env).None?
    ensures var s := Loaded(Switched(fs, env, listing, now, from, to).tree, env);
      && Get(s, "activeProfile") == Some(ProfileValue(if Named(to) then to else None))
      && Get(s, "lastSwitched") == Some(Str(now))
      && Get(s, "activeTools") == Some(Arr([]))
  {
    var off := DeactivateFrom(fs, env, ProfileLinks(fs, env, from));
    var o := Engaged(off.tree, env, listing, now, to, off.removed);
    assert Switched(fs, env, listing, now, from, to) == o;
    EngagedRecorded(off.tree, env, listing, now, to, off.removed);
    RecordedState(Prepared(off.tree, env, listing, to), env, listing, now, if Named(to) then to else None, o.result.linksCreated, off.removed);
  }

  /** Deactivation only removes links, so a target manifest that is a
      regular file loads the same before and after it. */
  lemma ManifestSurvivesDeactivation(fs: Tree, env: Env, from: Option<string>, name: string)
    requires var p := ManifestPath(ProfileDir(env, name)); Lstat(fs, p).Some? && Lstat(fs, p).value.File?
    ensures var off := DeactivateFrom(fs, env, ProfileLinks(fs, env, from));
      LoadProfileManifest(off.tree, env, name) == LoadProfileManifest(fs, env, name)
  {
    var off := DeactivateFrom(fs, env, ProfileLinks(fs, env, from));
    var p := ManifestPath(ProfileDir(env, name));
    DeactivateRemovesOwnedLinks(fs, env, ProfileLinks(fs, env, from));
    assert Lstat(off.tree, p) == Lstat(fs, p);
    ParseManifestFrame(fs, off.tree, ProfileDir(env, name));
  }

  /** No `add` item of `items` is placed at or above `p`. */
  ghost predicate AwayFromAdds(env: Env, p: Path, items: seq<DiffItem>) {
    forall it :: it in items && it.change == ToAdd ==> !Under(Key(p), ExpandPath(env, ExpandVars(env, it.target)))
  }

  /** With the target's manifest a regular file, deactivation cannot disturb
      it, so the switch does what the preview announces. Deactivation
      deletes only orchester links, each at the target of a `remove` item,
      and leaves no `remove` target holding one; `linksRemoved` is at most
      the number of `remove` items. On success `linksCreated` is the number
      of `add` items, the state is recorded on the activated tree, and, when
      no later link is placed at or above an earlier one, each `add` target
      holds a link to its resolved source while every entry away from the
      `add` targets is as deactivation left it. */
  lemma SwitchFollowsPreview(fs: Tree, env: Env, listing: seq<string>, now: string, from: Option<string>, to: Option<string>)
    requires Named(to) && LoadProfileManifest(fs, env, to.value).Ok?
    requires var p := ManifestPath(ProfileDir(env, to.value)); Lstat(fs, p).Some? && Lstat(fs, p).value.File?
    ensures var o, pv := Switched(fs, env, listing, now, from, to), DiffPreview(fs, env, from, to);
      var off := DeactivateFrom(fs, env, ProfileLinks(fs, env, from)).tree;
      && OnlyOwnedLinksGone(fs, off)
      && (forall k :: k in fs && k !in off ==>
            exists it :: it in pv.items && it.change == ToRemove && k == Key(ExpandPath(env, ExpandVars(env, it.target))))
      && (forall it :: it in pv.items && it.change == ToRemove ==> !IsOrchSymlink(off, env, ExpandVars(env, it.target)))
      && o.result.linksRemoved <= |Items(ToRemove, ProfileLinks(fs, env, from))|
    ensures var o, pv := Switched(fs, env, listing, now, from, to), DiffPreview(fs, env, from, to);
      var off, on := DeactivateFrom(fs, env, ProfileLinks(fs, env, from)).tree, RecordingTree(fs, env, listing, from, to);
      o.result.success ==>
        && o.result.linksCreated == |Items(ToAdd, ProfileLinks(fs, env, to))|
        && o.tree == ProfileSet(on, env, to, None, now).tree
        && (Independent(env, ProfileLinks(fs, env, to)) ==>
              && (forall it :: it in pv.items && it.change == ToAdd ==>
                    Lstat(on, ExpandPath(env, ExpandVars(env, it.target))) == Some(Symlink(ExpandPath(env, ResolveSource(env, to.value, it.source)))))
              && (forall p :: Key(p) in off && AwayFromAdds(env, p, pv.items) ==> Lstat(on, p) == Lstat(off, p)))
  {
    var f, t := ProfileLinks(fs, env, from), ProfileLinks(fs, env, to);
    var pv := DiffPreview(fs, env, from, to);
    var sweep := DeactivateFrom(fs, env, f);
    var off := sweep.tree;
    ManifestSurvivesDeactivation(fs, env, from, to.value);
    SwitchReportsRemovals(fs, env, listing, now, from, to);
    PreviewItems(fs, env, from, to);
    DeactivateRemovesOwnedLinks(fs, env, f);
    DeactivateRemovesListed(fs, env, f);
    DeactivateClears(fs, env, f);
    forall k | k in fs && k !in off
      ensures exists it :: it in pv.items && it.change == ToRemove && k == Key(ExpandPath(env, ExpandVars(env, it.target)))
    {
      var l :| l in f && k == Key(Placed(env, l));
      assert DiffItem(ToRemove, l.source, l.target) in pv.items;
    }
    forall it | it in pv.items && it.change == ToRemove
      ensures !IsOrchSymlink(off, env, ExpandVars(env, it.target))
    {
      var l :| l in f && it == DiffItem(ToRemove, l.source, l.target);
    }
    var o := Switched(fs, env, listing, now, from, to);
    if o.result.success {
      assert o == Engaged(off, env, listing, now, to, sweep.removed);
      EngagedRecorded(off, env, listing, now, to, sweep.removed);
      var on := RecordingTree(fs, env, listing, from, to);
      assert ActivateFrom(off, env, to.value, t).fault.None?;
      assert on == ActivateFrom(off, env, to.value, t).tree;
      if Independent(env, t) {
        SwitchPlacesAdds(off, env, to.value, t, pv.items);
      }
    }
  }

  /** An activation of `links` that did not throw, with independent targets,
      places every `add` item that names one of them and leaves the entries
      away from all `add` items alone. */
  lemma SwitchPlacesAdds(off: Tree, env: Env, name: string, links: seq<LinkDef>, items: seq<DiffItem>)
    requires ActivateFrom(off, env, name, links).fault.None? && Independent(env, links)
    requires forall it :: it in items && it.change == ToAdd ==> exists l :: l in links && it == DiffItem(ToAdd, l.source, l.target)
    requires forall l :: l in links ==> DiffItem(ToAdd, l.source, l.target) in items
    ensures var on := ActivateFrom(off, env, name, links).tree;
      && (forall it :: it in items && it.change == ToAdd ==>
            Lstat(on, ExpandPath(env, ExpandVars(env, it.target))) == Some(Symlink(ExpandPath(env, ResolveSource(env, name, it.source)))))
      && (forall p :: Key(p) in off && AwayFromAdds(env, p, items) ==> Lstat(on, p) == Lstat(off, p))
  {
    ActivatePlacesLinks(off, env, name, links);
    forall it | it in items && it.change == ToAdd
      ensures Lstat(ActivateFrom(off, env, name, links).tree, ExpandPath(env, ExpandVars(env, it.target)))
        == Some(Symlink(ExpandPath(env, ResolveSource(env, name, it.source))))
    {
      var l :| l in links && it == DiffItem(ToAdd, l.source, l.target);
      assert Placed(env, l) == ExpandPath(env, ExpandVars(env, it.target));
    }
    forall p | Key(p) in off && AwayFromAdds(env, p, items)
      ensures Lstat(ActivateFrom(off, env, name, links).tree, p) == Lstat(off, p)
    {
      forall l | l in links
        ensures !Under(Key(p), Placed(env, l))
      {
        assert DiffItem(ToAdd, l.source, l.target) in items;
      }
      ActivateKeeps(off, env, name, links, p);
    }
  }
}

=== FILE: text.dfy ===
/**
 * String helpers with JavaScript semantics: prefix and substring tests,
 * global replacement (`s.replace(/p/g, r)` for a literal pattern), ASCII
 * lower-casing, decimal rendering of integers and code-unit string order.
 */
module Text {

  predicate StartsWith(s: string, p: string) {
    |p| <= |s| && s[..|p|] == p
  }

  predicate EndsWith(s: string, p: string) {
    |p| <= |s| && s[|s| - |p|..] == p
  }

  /** `s.includes(p)` */
  predicate Contains(s: string, p: string)
    decreases |s|
  {
    StartsWith(s, p) || (|s| > 0 && Contains(s[1..], p))
  }

  /** `p` occurs in `s` at index `i`. */
  predicate OccursAt(s: string, p: string, i: nat) {
    i + |p| <= |s| && s[i..i + |p|] == p
  }

  lemma {:induction false} ContainsIff(s: string, p: string)
    ensures Contains(s, p) <==> exists i: nat :: OccursAt(s, p, i)
    decreases |s|
  {
    if StartsWith(s, p) {
      assert OccursAt(s, p, 0);
    } else if |s| > 0 {
      ContainsIff(s[1..], p);
      if Contains(s[1..], p) {
        var i: nat :| OccursAt(s[1..], p, i);
        assert s[1..][i..i + |p|] == s[i + 1..i + 1 + |p|];
        assert OccursAt(s, p, i + 1);
      }
      if exists i: nat :: OccursAt(s, p, i) {
        var i: nat :| OccursAt(s, p, i);
        assert i != 0;
        assert s[1..][i - 1..i - 1 + |p|] == s[i..i + |p|];
        assert OccursAt(s[1..], p, i - 1);
      }
    }
  }

  /** A string that contains `p + q` contains `p`. */
  lemma {:induction false} ContainsPrefixOf(s: string, p: string, q: string)
    requires Contains(s, p + q)
    ensures Contains(s, p)
    decreases |s|
  {
    if StartsWith(s, p + q) {
      assert s[..|p|] == (p + q)[..|p|] == p;
    } else {
      ContainsPrefixOf(s[1..], p, q);
    }
  }

  /** `s.replace(new RegExp(p, 'g'), r)` for a literal, non-empty pattern `p`:
      a left-to-right scan replacing non-overlapping occurrences. */
  function ReplaceAll(s: string, p: string, r: string): string
    requires |p| > 0
    decreases |s|
  {
    if |s| == 0 then ""
    else if StartsWith(s, p) then r + ReplaceAll(s[|p|..], p, r)
    else [s[0]] + ReplaceAll(s[1..], p, r)
  }

  /** An occurrence of `p` starts with `p`'s first character. */
  lemma {:induction false} ContainsHead(s: string, p: string)
    requires |p| > 0 && Contains(s, p)
    ensures p[0] in s
    decreases |s|
  {
    if StartsWith(s, p) {
      assert s[0] == p[0];
    } else {
      ContainsHead(s[1..], p);
    }
  }

  /** A text lacking the pattern's first character is left as it is. */
  lemma ReplaceAllUntouched(s: string, p: string, r: string)
    requires |p| > 0 && p[0] !in s
    ensures ReplaceAll(s, p, r) == s
  {
    if Contains(s, p) {
      ContainsHead(s, p);
    }
    ReplaceAllAbsent(s, p, r);
  }

  /** A text that starts with the pattern has it replaced first. */
  lemma ReplaceAllLeading(p: string, s: string, r: string)
    requires |p| > 0
    ensures ReplaceAll(p + s, p, r) == r + ReplaceAll(s, p, r)
  {
    assert (p + s)[..|p|] == p;
    assert (p + s)[|p|..] == s;
  }

  /** A character neither in the text nor in the replacement is not in the result. */
  lemma {:induction false} ReplaceAllKeepsOut(s: string, p: string, r: string, c: char)
    requires |p| > 0 && c !in s && c !in r
    ensures c !in ReplaceAll(s, p, r)
    decreases |s|
  {
    if |s| > 0 {
      if StartsWith(s, p) {
        ReplaceAllKeepsOut(s[|p|..], p, r, c);
      } else {
        ReplaceAllKeepsOut(s[1..], p, r, c);
      }
    }
  }

  /** A string contains each of its infixes. */
  lemma {:induction false} ContainsInfix(a: string, m: string, b: string)
    ensures Contains(a + m + b, m)
    decreases |a|
  {
    if |a| == 0 {
      assert a + m + b == m + b;
      assert (m + b)[..|m|] == m;
    } else {
      ContainsInfix(a[1..], m, b);
      assert (a + m + b)[1..] == a[1..] + m + b;
    }
  }

  /** `i` is the first index at which `p` occurs in `s`. */
  predicate FirstOccurrence(s: string, p: string, i: nat) {
    OccursAt(s, p, i) && forall j: nat :: j < i ==> !OccursAt(s, p, j)
  }

  /** Without an occurrence of the pattern, replacement changes nothing. */
  lemma {:induction false} ReplaceAllAbsent(s: string, p: string, r: string)
    requires |p| > 0 && !Contains(s, p)
    ensures ReplaceAll(s, p, r) == s
    decreases |s|
  {
    if |s| > 0 {
      ReplaceAllAbsent(s[1..], p, r);
    }
  }

  /** The scan copies the text before the first occurrence, emits `r` for
      it, and continues after it: every occurrence is replaced, in order. */
  lemma {:induction false} ReplaceAllFirst(s: string, p: string, r: string, i: nat)
    requires |p| > 0 && FirstOccurrence(s, p, i)
    ensures ReplaceAll(s, p, r) == s[..i] + r + ReplaceAll(s[i + |p|..], p, r)
    decreases i
  {
    if i == 0 {
      assert s[..|p|] == s[0..0 + |p|];
      assert StartsWith(s, p);
    } else {
      assert !OccursAt(s, p, 0);
      assert s[..|p|] == s[0..0 + |p|];
      var t := s[1..];
      ReplaceAllSkip(s, p, r);
      FirstOccurrenceTail(s, p, i);
      ReplaceAllFirst(t, p, r, i - 1);
      assert t[i - 1 + |p|..] == s[i + |p|..];
      var x := ReplaceAll(s[i + |p|..], p, r);
      assert ReplaceAll(t, p, r) == t[..i - 1] + r + x;
      ConsSplit(s, i, r, x);
    }
  }

  /** A text that does not start with the pattern keeps its first character. */
  lemma ReplaceAllSkip(s: string, p: string, r: string)
    requires |p| > 0 && |s| > 0 && !StartsWith(s, p)
    ensures ReplaceAll(s, p, r) == [s[0]] + ReplaceAll(s[1..], p, r)
  {
  }

  /** Re-associating the first character of a prefix. */
  lemma ConsSplit(s: string, i: nat, r: string, x: string)
    requires 0 < i <= |s|
    ensures [s[0]] + (s[1..][..i - 1] + r + x) == s[..i] + r + x
  {
    assert s[..i] == [s[0]] + s[1..][..i - 1];
  }

  /** A first occurrence at `i > 0` is a first occurrence at `i - 1` of the tail. */
  lemma FirstOccurrenceTail(s: string, p: string, i: nat)
    requires |p| > 0 && i > 0 && FirstOccurrence(s, p, i)
    ensures FirstOccurrence(s[1..], p, i - 1)
  {
    var t := s[1..];
    forall j: nat | j < i - 1 ensures !OccursAt(t, p, j) {
      assert !OccursAt(s, p, j + 1);
      if j + |p| <= |t| {
        assert t[j..j + |p|] == s[j + 1..j + 1 + |p|];
      }
    }
    assert t[i - 1..i - 1 + |p|] == s[i..i + |p|];
  }

  /** Replacing a pattern by itself is the identity. */
  lemma {:induction false} ReplaceAllSelf(s: string, p: string)
    requires |p| > 0
    ensures ReplaceAll(s, p, p) == s
    decreases |s|
  {
    if |s| > 0 {
      if StartsWith(s, p) {
        ReplaceAllSelf(s[|p|..], p);
        assert s == s[..|p|] + s[|p|..];
      } else {
        ReplaceAllSelf(s[1..], p);
        assert s == [s[0]] + s[1..];
      }
    }
  }

  /** ASCII `toLowerCase`. */
  function LowerChar(c: char): (l: char)
    ensures !('A' <= l <= 'Z')
    ensures 'a' <= c <= 'z' || !('A' <= c <= 'Z') ==> l == c
  {
    if 'A' <= c <= 'Z' then (c as int - 'A' as int + 'a' as int) as char else c
  }

  function ToLower(s: string): (r: string)
    ensures |r| == |s|
    ensures forall i :: 0 <= i < |s| ==> r[i] == LowerChar(s[i])
  {
    seq(|s|, i requires 0 <= i < |s| => LowerChar(s[i]))
  }

  lemma ToLowerIdempotent(s: string)
    ensures ToLower(ToLower(s)) == ToLower(s)
  {
  }

  /** Decimal digits of a natural number, as `String(n)` renders it. */
  function NatToString(n: nat): (r: string)
    ensures |r| > 0
    ensures forall i :: 0 <= i < |r| ==> '0' <= r[i] <= '9'
    decreases n
  {
    var d := ['0' + (n % 10) as char];
    if n < 10 then d else NatToString(n / 10) + d
  }

  /** `String(n)` for an integer. */
  function IntToString(n: int): string {
    if n < 0 then "-" + NatToString(-n) else NatToString(n)
  }

  /** `s.padStart(2, '0')` */
  function PadStart2(s: string): (r: string)
    ensures |s| >= 2 ==> r == s
    ensures |s| < 2 ==> |r| == 2 && EndsWith(r, s) && r[0] == '0'
  {
    if |s| == 0 then "00" else if |s| == 1 then "0" + s else s
  }

  /** Text before the first `c`, or all of `s` (`s.split(c)[0]`). */
  function Before(s: string, c: char): (r: string)
    ensures StartsWith(s, r) && c !in r
    ensures |r| < |s| ==> s[|r|] == c
  {
    if |s| == 0 then "" else if s[0] == c then "" else [s[0]] + Before(s[1..], c)
  }

  /** Text after the last `c`, or all of `s` (`s.split(c).pop()`). */
  function AfterLast(s: string, c: char): (r: string)
    ensures EndsWith(s, r) && c !in r
    ensures |r| < |s| ==> s[|s| - |r| - 1] == c
  {
    if |s| == 0 then "" else if s[|s| - 1] == c then "" else AfterLast(s[..|s| - 1], c) + [s[|s| - 1]]
  }

  /** `xs.join(sep)` */
  function JoinWith(xs: seq<string>, sep: string): (r: string)
    ensures |xs| == 1 ==> r == xs[0]
    decreases |xs|
  {
    if |xs| == 0 then ""
    else if |xs| == 1 then xs[0]
    else xs[0] + sep + JoinWith(xs[1..], sep)
  }

  /** JavaScript's `a < b` on strings: code-unit lexicographic order. */
  predicate Less(a: string, b: string) {
    if |a| == 0 then |b| > 0
    else if |b| == 0 then false
    else if a[0] != b[0] then a[0] < b[0]
    else Less(a[1..], b[1..])
  }

  /** `a <= b` on strings. */
  predicate AtMost(a: string, b: string) {
    a == b || Less(a, b)
  }

  lemma {:induction false} LessIrreflexive(a: string)
    ensures !Less(a, a)
  {
    if |a| > 0 { LessIrreflexive(a[1..]); }
  }

  lemma {:induction false} LessTotal(a: string, b: string)
    ensures a == b || Less(a, b) || Less(b, a)
  {
    if |a| > 0 && |b| > 0 && a[0] == b[0] {
      LessTotal(a[1..], b[1..]);
      if a[1..] == b[1..] {
        assert a == [a[0]] + a[1..] && b == [b[0]] + b[1..];
      }
    }
  }

  lemma {:induction false} LessAsymmetric(a: string, b: string)
    ensures Less(a, b) ==> !Less(b, a)
  {
    if |a| > 0 && |b| > 0 && a[0] == b[0] { LessAsymmetric(a[1..], b[1..]); }
  }

  lemma {:induction false} LessTransitive(a: string, b: string, c: string)
    requires Less(a, b) && Less(b, c)
    ensures Less(a, c)
  {
    if |a| > 0 && a[0] == b[0] && b[0] == c[0] {
      LessTransitive(a[1..], b[1..], c[1..]);
    }
  }
}

=== FILE: types.dfy ===
/**
 * The records the core passes around: tool ids, manifest links, the
 * manifest itself, diff previews and switch results.
 */
module Types {
  import opened Wrappers
  import opened Values

  /** The six tools orchester knows. */
  datatype ToolId = Claude | Codex | Gemini | Cursor | Antigravity | Opencode

  function ToolName(t: ToolId): string {
    match t
    case Claude => "claude"
    case Codex => "codex"
    case Gemini => "gemini"
    case Cursor => "cursor"
    case Antigravity => "antigravity"
    case Opencode => "opencode"
  }

  /** `ALL_TOOL_IDS`, in display order. */
  const AllToolIds: seq<ToolId> := [Claude, Codex, Gemini, Cursor, Antigravity, Opencode]

  /** One entry of a manifest's `links`. `installType` is kept as the raw
      value the manifest holds; the optional fields are `None` when absent. */
  datatype LinkDef = LinkDef(
    source: string,
    target: string,
    installType: Option<Value>,
    pluginCommand: Option<string>,
    pluginLabel: Option<string>)

  datatype Manifest = Manifest(
    name: string,
    description: string,
    tags: seq<string>,
    tool: string,
    links: seq<LinkDef>,
    installType: Option<string>)

  /** A symbolic link orchester manages: its stored value and where it sits. */
  datatype Link = Link(source: string, target: string)

  datatype Change = ToAdd | ToRemove

  datatype DiffItem = DiffItem(change: Change, source: string, target: string)

  datatype DiffData = DiffData(from: Option<string>, to: Option<string>, items: seq<DiffItem>)

  datatype SwitchResult = SwitchResult(
    success: bool,
    linksCreated: nat,
    linksRemoved: nat,
    error: Option<string>)
}

=== FILE: usage.dfy ===
/**
 * Runtime usage aggregation: the Claude Code statistics cache and the Codex
 * CLI session logs, each summed into one `RuntimeUsage` record with totals,
 * a per-day breakdown (days at or after a cutoff date, newest first) and a
 * per-model breakdown.
 *
 * The statistics cache arrives already parsed (`StatsFile`); the Codex
 * session tree arrives as the sequence of session files in walk order, each
 * carrying the names of its year, month and day directories and its lines,
 * already parsed. The cutoff date (seven days before "now") is a parameter.
 */
module Usage {
  import opened Wrappers
  import opened Text
  import opened Seqs

  datatype DailyUsage = DailyUsage(date: string, tokens: int, messages: int, sessions: int)

  datatype ModelTotals = ModelTotals(inputTokens: int, outputTokens: int)

  datatype RuntimeUsage = RuntimeUsage(
    id: string,
    name: string,
    available: bool,
    totalTokens: int,
    inputTokens: int,
    outputTokens: int,
    cacheTokens: int,
    sessions: int,
    messages: int,
    daily: seq<DailyUsage>,
    models: map<string, ModelTotals>,
    note: Option<string>)

  /** The record both readers start from: nothing available, every counter 0. */
  function Blank(id: string, name: string): RuntimeUsage {
    RuntimeUsage(id, name, false, 0, 0, 0, 0, 0, 0, [], map[], None)
  }

  /** `x ?? 0` */
  function OrZero(x: Option<int>): int {
    if x.Some? then x.value else 0
  }

  /** An optional array, absent counting as empty (`if (data.xs) for (...)`). */
  function OrEmpty<T>(xs: Option<seq<T>>): seq<T> {
    if xs.Some? then xs.value else []
  }

  // ---------------------------------------------------------------------
  // Sums, accumulated left to right as the loops do

  function Sum<T>(f: T -> int, xs: seq<T>): int
    decreases |xs|
  {
    if |xs| == 0 then 0 else Sum(f, xs[..|xs| - 1]) + f(xs[|xs| - 1])
  }

  lemma SumPush<T>(f: T -> int, xs: seq<T>, x: T)
    ensures Sum(f, xs + [x]) == Sum(f, xs) + f(x)
  {
    assert (xs + [x])[..|xs|] == xs;
  }

  /** Summing one element further along a prefix. */
  lemma SumPrefix<T>(f: T -> int, xs: seq<T>, i: nat)
    requires i < |xs|
    ensures Sum(f, xs[..i + 1]) == Sum(f, xs[..i]) + f(xs[i])
  {
    assert xs[..i + 1][..i] == xs[..i];
  }

  function Id(x: int): int { x }

  /** `Object.values(o).reduce((a, b) => a + b, 0)` */
  function Total(values: seq<int>): int {
    Sum(Id, values)
  }

  // ---------------------------------------------------------------------
  // Days

  function TokensOf(d: DailyUsage): int { d.tokens }
  function MessagesOf(d: DailyUsage): int { d.messages }
  function SessionsOf(d: DailyUsage): int { d.sessions }

  /** `d.date >= cutoff` */
  function DaySince(cutoff: string): DailyUsage -> bool {
    (d: DailyUsage) => AtMost(cutoff, d.date)
  }

  /** Index of the first day dated `date` (`daily.find(d => d.date === date)`, `Map.get`). */
  function FindDate(ds: seq<DailyUsage>, date: string): (r: Option<nat>)
    ensures r.Some? ==> r.value < |ds| && ds[r.value].date == date
    ensures r.Some? ==> forall b :: 0 <= b < r.value ==> ds[b].date != date
    ensures r.None? ==> forall b :: 0 <= b < |ds| ==> ds[b].date != date
    decreases |ds|
  {
    if |ds| == 0 then None
    else if ds[0].date == date then Some(0)
    else
      match FindDate(ds[1..], date)
      case None => None
      case Some(i) => Some(i + 1)
  }

  /** No earlier day has the date of day `j`. */
  predicate FirstOfDate(ds: seq<DailyUsage>, j: nat)
    requires j < |ds|
  {
    forall b :: 0 <= b < j ==> ds[b].date != ds[j].date
  }

  /** Newest first: `daily.sort((a, b) => b.date.localeCompare(a.date))`. */
  predicate Descending(ds: seq<DailyUsage>) {
    forall i, j :: 0 <= i < j < |ds| ==> AtMost(ds[j].date, ds[i].date)
  }

  lemma AtMostTransitive(a: string, b: string, c: string)
    requires AtMost(a, b) && AtMost(b, c)
    ensures AtMost(a, c)
  {
    if Less(a, b) && Less(b, c) { LessTransitive(a, b, c); }
  }

  /** The insertion point of `x` is after every day not older than it. */
  lemma InsertDescending(r: seq<DailyUsage>, k: nat, x: DailyUsage)
    requires Descending(r) && k <= |r|
    requires forall b :: 0 <= b < k ==> AtMost(x.date, r[b].date)
    requires k < |r| ==> Less(r[k].date, x.date)
    ensures Descending(r[..k] + [x] + r[k..])
  {
    var s := r[..k] + [x] + r[k..];
    forall i, j | 0 <= i < j < |s|
      ensures AtMost(s[j].date, s[i].date)
    {
      if i < k && j == k {
      } else if i == k && j > k {
        assert s[j] == r[j - 1];
        assert AtMost(r[j - 1].date, r[k].date);
        AtMostTransitive(r[j - 1].date, r[k].date, x.date);
      } else if i < k && j > k {
        assert s[j] == r[j - 1];
      } else if i > k {
        assert s[i] == r[i - 1] && s[j] == r[j - 1];
      }
    }
  }

  /** Inserts `x` into days sorted newest first, after the days not older than it. */
  method InsertByDate(r: seq<DailyUsage>, x: DailyUsage) returns (s: seq<DailyUsage>)
    requires Descending(r)
    ensures Descending(s)
    ensures multiset(s) == multiset(r) + multiset{x}
  {
    var k := 0;
    while k < |r| && !Less(r[k].date, x.date)
      invariant k <= |r|
      invariant forall b :: 0 <= b < k ==> AtMost(x.date, r[b].date)
    {
      LessTotal(r[k].date, x.date);
      k := k + 1;
    }
    InsertDescending(r, k, x);
    s := r[..k] + [x] + r[k..];
    assert r == r[..k] + r[k..];
  }

  /** Sorts days by date, newest first. */
  method SortByDateDesc(xs: seq<DailyUsage>) returns (r: seq<DailyUsage>)
    ensures Descending(r)
    ensures multiset(r) == multiset(xs)
  {
    r := [];
    for i := 0 to |xs|
      invariant Descending(r)
      invariant multiset(r) == multiset(xs[..i])
    {
      r := InsertByDate(r, xs[i]);
      assert xs[..i + 1] == xs[..i] + [xs[i]];
    }
    assert xs[..|xs|] == xs;
  }

  // ---------------------------------------------------------------------
  // Claude Code: ~/.claude/stats-cache.json

  datatype ModelUsage = ModelUsage(
    inputTokens: Option<int>,
    outputTokens: Option<int>,
    cacheReadInputTokens: Option<int>,
    cacheCreationInputTokens: Option<int>)

  datatype Activity = Activity(date: string, messageCount: int, sessionCount: int)

  datatype ModelTokens = ModelTokens(date: string, tokensByModel: seq<int>)

  /** The statistics cache; `modelUsage` is the object's entries in order. */
  datatype StatsCache = StatsCache(
    dailyActivity: Option<seq<Activity>>,
    dailyModelTokens: Option<seq<ModelTokens>>,
    modelUsage: Option<seq<(string, ModelUsage)>>)

  /** What reading the cache file yields: absent, not JSON, or the cache. */
  datatype StatsFile = NotFound | Unparsable | Found(cache: StatsCache)

  function InputOf(e: (string, ModelUsage)): int { OrZero(e.1.inputTokens) }
  function OutputOf(e: (string, ModelUsage)): int { OrZero(e.1.outputTokens) }
  function CacheOf(e: (string, ModelUsage)): int {
    OrZero(e.1.cacheReadInputTokens) + OrZero(e.1.cacheCreationInputTokens)
  }

  /** `usage.models[model] = {...}` for each entry in turn. */
  function ModelsOf(es: seq<(string, ModelUsage)>): map<string, ModelTotals>
    decreases |es|
  {
    if |es| == 0 then map[]
    else
      var e := es[|es| - 1];
      ModelsOf(es[..|es| - 1])[e.0 := ModelTotals(InputOf(e), OutputOf(e))]
  }

  /** Object entries have distinct keys: one model entry per key, holding that key's counts. */
  lemma {:induction false} ModelsExact(es: seq<(string, ModelUsage)>)
    requires forall i, j :: 0 <= i < j < |es| ==> es[i].0 != es[j].0
    ensures forall m :: m in ModelsOf(es) <==> exists i :: 0 <= i < |es| && es[i].0 == m
    ensures forall i :: 0 <= i < |es| ==> ModelsOf(es)[es[i].0] == ModelTotals(InputOf(es[i]), OutputOf(es[i]))
    decreases |es|
  {
    if |es| > 0 {
      var n := |es| - 1;
      var p := es[..n];
      ModelsExact(p);
      assert forall i :: 0 <= i < n ==> p[i] == es[i];
      forall m | m in ModelsOf(es)
        ensures exists i :: 0 <= i < |es| && es[i].0 == m
      {
        if m != es[n].0 {
          var i :| 0 <= i < n && p[i].0 == m;
          assert es[i].0 == m;
        }
      }
    }
  }

  /** The `modelUsage` loop. */
  method SumModelUsage(es: seq<(string, ModelUsage)>)
    returns (input: int, output: int, cache: int, models: map<string, ModelTotals>)
    ensures input == Sum(InputOf, es) && output == Sum(OutputOf, es) && cache == Sum(CacheOf, es)
    ensures models == ModelsOf(es)
  {
    input, output, cache, models := 0, 0, 0, map[];
    for i := 0 to |es|
      invariant input == Sum(InputOf, es[..i]) && output == Sum(OutputOf, es[..i])
      invariant cache == Sum(CacheOf, es[..i])
      invariant models == ModelsOf(es[..i])
    {
      var model, mu := es[i].0, es[i].1;
      var inp := OrZero(mu.inputTokens);
      var out := OrZero(mu.outputTokens);
      var cacheRead := OrZero(mu.cacheReadInputTokens);
      var cacheCreate := OrZero(mu.cacheCreationInputTokens);
      input := input + inp;
      output := output + out;
      cache := cache + cacheRead + cacheCreate;
      models := models[model := ModelTotals(inp, out)];
      SumPrefix(InputOf, es, i);
      SumPrefix(OutputOf, es, i);
      SumPrefix(CacheOf, es, i);
      assert es[..i + 1][..i] == es[..i];
    }
    assert es[..|es|] == es;
  }

  /** `day.date >= cutoff` */
  function ActiveSince(cutoff: string): Activity -> bool {
    (a: Activity) => AtMost(cutoff, a.date)
  }

  /** The day record pushed for an activity day; tokens are filled later. */
  function Fresh(a: Activity): DailyUsage {
    DailyUsage(a.date, 0, a.messageCount, a.sessionCount)
  }

  function Days(acts: seq<Activity>): seq<DailyUsage>
    decreases |acts|
  {
    if |acts| == 0 then [] else Days(acts[..|acts| - 1]) + [Fresh(acts[|acts| - 1])]
  }

  lemma {:induction false} DaysIndex(acts: seq<Activity>)
    ensures |Days(acts)| == |acts|
    ensures forall i :: 0 <= i < |acts| ==> Days(acts)[i] == Fresh(acts[i])
    decreases |acts|
  {
    if |acts| > 0 {
      DaysIndex(acts[..|acts| - 1]);
    }
  }

  /** The activity days at or after the cutoff, in input order. */
  function Recent(acts: seq<Activity>, cutoff: string): seq<DailyUsage> {
    Days(Filter(ActiveSince(cutoff), acts))
  }

  /** Only days at or after the cutoff are kept, every such day is, and none has tokens yet. */
  lemma RecentExact(acts: seq<Activity>, cutoff: string)
    ensures forall d :: d in Recent(acts, cutoff) ==> AtMost(cutoff, d.date) && d.tokens == 0
    ensures forall d :: d in Recent(acts, cutoff) ==> exists a :: a in acts && d == Fresh(a)
    ensures forall a :: a in acts && AtMost(cutoff, a.date) ==> Fresh(a) in Recent(acts, cutoff)
  {
    var kept := Filter(ActiveSince(cutoff), acts);
    DaysIndex(kept);
    forall d | d in Recent(acts, cutoff)
      ensures AtMost(cutoff, d.date) && d.tokens == 0 && exists a :: a in acts && d == Fresh(a)
    {
      var i :| 0 <= i < |kept| && Days(kept)[i] == d;
      assert kept[i] in kept;
    }
    forall a | a in acts && AtMost(cutoff, a.date)
      ensures Fresh(a) in Recent(acts, cutoff)
    {
      assert ActiveSince(cutoff)(a);
      var i :| 0 <= i < |kept| && kept[i] == a;
      assert Days(kept)[i] == Fresh(a);
    }
  }

  /** The `dailyActivity` loop. */
  method CollectActivity(acts: seq<Activity>, cutoff: string)
    returns (daily: seq<DailyUsage>, messages: int, sessions: int)
    ensures daily == Recent(acts, cutoff)
    ensures messages == Sum(MessagesOf, daily) && sessions == Sum(SessionsOf, daily)
  {
    daily, messages, sessions := [], 0, 0;
    for i := 0 to |acts|
      invariant daily == Days(Filter(ActiveSince(cutoff), acts[..i]))
      invariant messages == Sum(MessagesOf, daily) && sessions == Sum(SessionsOf, daily)
    {
      var day := acts[i];
      FilterSnoc(ActiveSince(cutoff), acts, i);
      assert ActiveSince(cutoff)(day) == AtMost(cutoff, day.date);
      if AtMost(cutoff, day.date) {
        ghost var kept := Filter(ActiveSince(cutoff), acts[..i]);
        assert (kept + [day])[..|kept|] == kept;
        assert Days(kept + [day]) == Days(kept) + [Fresh(day)];
        SumPush(MessagesOf, daily, Fresh(day));
        SumPush(SessionsOf, daily, Fresh(day));
        daily := daily + [DailyUsage(day.date, 0, day.messageCount, day.sessionCount)];
        messages := messages + day.messageCount;
        sessions := sessions + day.sessionCount;
        assert daily == Days(Filter(ActiveSince(cutoff), acts[..i + 1]));
      } else {
        assert Filter(ActiveSince(cutoff), acts[..i + 1]) == Filter(ActiveSince(cutoff), acts[..i]);
      }
    }
    assert acts[..|acts|] == acts;
  }

  /** One `dailyModelTokens` day: overwrite the tokens of the first day with its date. */
  function FillOne(ds: seq<DailyUsage>, md: ModelTokens, cutoff: string): seq<DailyUsage> {
    if AtMost(cutoff, md.date) then
      match FindDate(ds, md.date)
      case None => ds
      case Some(j) => ds[j := ds[j].(tokens := Total(md.tokensByModel))]
    else ds
  }

  function Filled(ds: seq<DailyUsage>, mds: seq<ModelTokens>, cutoff: string): seq<DailyUsage>
    decreases |mds|
  {
    if |mds| == 0 then ds else FillOne(Filled(ds, mds[..|mds| - 1], cutoff), mds[|mds| - 1], cutoff)
  }

  /** Total tokens of the last model-token day dated `date`, when that date is at or after the cutoff. */
  function LastTotal(mds: seq<ModelTokens>, date: string, cutoff: string): Option<int>
    decreases |mds|
  {
    if |mds| == 0 then None
    else
      var md := mds[|mds| - 1];
      if md.date == date && AtMost(cutoff, date) then Some(Total(md.tokensByModel))
      else LastTotal(mds[..|mds| - 1], date, cutoff)
  }

  /** What filling leaves at day `j` of `ds`. */
  function FilledDay(ds: seq<DailyUsage>, mds: seq<ModelTokens>, cutoff: string, j: nat): DailyUsage
    requires j < |ds|
  {
    var t := LastTotal(mds, ds[j].date, cutoff);
    if FirstOfDate(ds, j) && t.Some? then ds[j].(tokens := t.value) else ds[j]
  }

  lemma FillOneStep(ds: seq<DailyUsage>, p: seq<DailyUsage>, mds: seq<ModelTokens>, cutoff: string)
    requires |mds| > 0 && |p| == |ds|
    requires forall j :: 0 <= j < |ds| ==> p[j] == FilledDay(ds, mds[..|mds| - 1], cutoff, j)
    ensures var q := FillOne(p, mds[|mds| - 1], cutoff);
      |q| == |ds| && forall j :: 0 <= j < |ds| ==> q[j] == FilledDay(ds, mds, cutoff, j)
  {
    var n := |mds| - 1;
    var md := mds[n];
    var q := FillOne(p, md, cutoff);
    assert forall j :: 0 <= j < |ds| ==> p[j].date == ds[j].date;
    forall j | 0 <= j < |ds|
      ensures q[j] == FilledDay(ds, mds, cutoff, j)
    {
      if ds[j].date != md.date || !AtMost(cutoff, md.date) {
        assert LastTotal(mds, ds[j].date, cutoff) == LastTotal(mds[..n], ds[j].date, cutoff);
        match FindDate(p, md.date)
        case None =>
        case Some(k) =>
      } else {
        assert LastTotal(mds, ds[j].date, cutoff) == Some(Total(md.tokensByModel));
        var k := FindDate(p, md.date).value;
        if j != k {
          assert k < j;
        }
      }
    }
  }

  /** Filling sets the tokens of the first day of each date to the last matching model-token day at or after the cutoff, and changes nothing else. */
  lemma {:induction false} FilledExact(ds: seq<DailyUsage>, mds: seq<ModelTokens>, cutoff: string)
    ensures |Filled(ds, mds, cutoff)| == |ds|
    ensures forall j :: 0 <= j < |ds| ==> Filled(ds, mds, cutoff)[j] == FilledDay(ds, mds, cutoff, j)
    decreases |mds|
  {
    if |mds| > 0 {
      FilledExact(ds, mds[..|mds| - 1], cutoff);
      FillOneStep(ds, Filled(ds, mds[..|mds| - 1], cutoff), mds, cutoff);
    }
  }

  /** The `dailyModelTokens` loop. */
  method FillTokens(daily: seq<DailyUsage>, mds: seq<ModelTokens>, cutoff: string) returns (r: seq<DailyUsage>)
    ensures r == Filled(daily, mds, cutoff)
  {
    r := daily;
    for k := 0 to |mds|
      invariant r == Filled(daily, mds[..k], cutoff)
    {
      var day := mds[k];
      assert mds[..k + 1][..k] == mds[..k];
      if AtMost(cutoff, day.date) {
        var dayTokens := Total(day.tokensByModel);
        var existing := FindDate(r, day.date);
        if existing.Some? {
          r := r[existing.value := r[existing.value].(tokens := dayTokens)];
        }
      }
    }
    assert mds[..|mds|] == mds;
  }

  /** Everything a successful read of the statistics cache reports. */
  predicate ClaudeReport(data: StatsCache, cutoff: string, u: RuntimeUsage) {
    var es := OrEmpty(data.modelUsage);
    var days := Recent(OrEmpty(data.dailyActivity), cutoff);
    u.id == "claude" && u.name == "Claude Code" && u.available && u.note.None?
    && u.inputTokens == Sum(InputOf, es) && u.outputTokens == Sum(OutputOf, es)
    && u.cacheTokens == Sum(CacheOf, es)
    && u.totalTokens == u.inputTokens + u.outputTokens
    && u.models == ModelsOf(es)
    && u.messages == Sum(MessagesOf, days) && u.sessions == Sum(SessionsOf, days)
    && Descending(u.daily)
    && multiset(u.daily) == multiset(Filled(days, OrEmpty(data.dailyModelTokens), cutoff))
  }

  /** `readClaudeUsage` */
  method ReadClaudeUsage(file: StatsFile, cutoff: string) returns (usage: RuntimeUsage)
    ensures file.NotFound? ==> usage == Blank("claude", "Claude Code").(note := Some("stats-cache.json not found"))
    ensures file.Unparsable? ==> usage == Blank("claude", "Claude Code").(note := Some("Failed to parse stats-cache.json"))
    ensures file.Found? ==> ClaudeReport(file.cache, cutoff, usage)
  {
    usage := Blank("claude", "Claude Code");
    match file
    case NotFound =>
      usage := usage.(note := Some("stats-cache.json not found"));
    case Unparsable =>
      usage := usage.(note := Some("Failed to parse stats-cache.json"));
    case Found(data) =>
      usage := usage.(available := true);
      if data.modelUsage.Some? {
        var input, output, cache, models := SumModelUsage(data.modelUsage.value);
        usage := usage.(inputTokens := input, outputTokens := output, cacheTokens := cache, models := models);
        usage := usage.(totalTokens := usage.inputTokens + usage.outputTokens);
      }
      if data.dailyActivity.Some? {
        var daily, messages, sessions := CollectActivity(data.dailyActivity.value, cutoff);
        usage := usage.(daily := daily, messages := messages, sessions := sessions);
      }
      if data.dailyModelTokens.Some? {
        var filled := FillTokens(usage.daily, data.dailyModelTokens.value, cutoff);
        usage := usage.(daily := filled);
      }
      var sorted := SortByDateDesc(usage.daily);
      usage := usage.(daily := sorted);
  }

  /** Each reported day is an activity day at or after the cutoff, with tokens only from a model-token day of the same date. */
  lemma ClaudeDaily(data: StatsCache, cutoff: string, u: RuntimeUsage)
    requires ClaudeReport(data, cutoff, u)
    ensures forall d :: d in u.daily ==> AtMost(cutoff, d.date)
    ensures forall d :: d in u.daily ==>
      exists a :: (a in OrEmpty(data.dailyActivity) && a.date == d.date
        && a.messageCount == d.messages && a.sessionCount == d.sessions)
    ensures forall d :: d in u.daily && d.tokens != 0 ==>
      LastTotal(OrEmpty(data.dailyModelTokens), d.date, cutoff) == Some(d.tokens)
  {
    var days := Recent(OrEmpty(data.dailyActivity), cutoff);
    var mds := OrEmpty(data.dailyModelTokens);
    RecentExact(OrEmpty(data.dailyActivity), cutoff);
    FilledExact(days, mds, cutoff);
    forall d | d in u.daily
      ensures AtMost(cutoff, d.date)
      ensures exists a :: (a in OrEmpty(data.dailyActivity) && a.date == d.date
        && a.messageCount == d.messages && a.sessionCount == d.sessions)
      ensures d.tokens != 0 ==> LastTotal(mds, d.date, cutoff) == Some(d.tokens)
    {
      assert d in multiset(Filled(days, mds, cutoff));
      var j :| 0 <= j < |days| && Filled(days, mds, cutoff)[j] == d;
      assert days[j] in days;
      var a :| a in OrEmpty(data.dailyActivity) && days[j] == Fresh(a);
    }
  }

  // ---------------------------------------------------------------------
  // Codex CLI: ~/.codex/sessions/<year>/<month>/<day>/*.jsonl

  datatype TokenUsage = TokenUsage(
    inputTokens: Option<int>,
    cachedInputTokens: Option<int>,
    outputTokens: Option<int>,
    reasoningOutputTokens: Option<int>)

  /**
   * A non-blank log line: not JSON (or not an object), or an event with its
   * `type`, its `payload.type` and its `payload.info.total_token_usage`.
   */
  datatype LogLine =
    | Malformed
    | Event(kind: Option<string>, payloadKind: Option<string>, totalTokenUsage: Option<TokenUsage>)

  /** A session file in walk order; `lines` is None when it cannot be read. */
  datatype SessionFile = SessionFile(year: string, month: string, day: string, name: string,
                                     lines: Option<seq<LogLine>>)

  /** `/^\d+$/` on the whole name. */
  predicate IsDigits(s: string) {
    forall i :: 0 <= i < |s| ==> '0' <= s[i] <= '9'
  }

  /** The walk's name filters: a `\d{4}` year, `\d{1,2}` month and day, a `.jsonl` file. */
  predicate Listed(f: SessionFile) {
    |f.year| == 4 && IsDigits(f.year)
    && 1 <= |f.month| <= 2 && IsDigits(f.month)
    && 1 <= |f.day| <= 2 && IsDigits(f.day)
    && EndsWith(f.name, ".jsonl")
  }

  /** `${year}-${month.padStart(2, '0')}-${day.padStart(2, '0')}` */
  function DateStr(f: SessionFile): string {
    f.year + "-" + PadStart2(f.month) + "-" + PadStart2(f.day)
  }

  /** A one- or two-digit name padded to two digits. */
  lemma PadDigits(s: string)
    requires 1 <= |s| <= 2 && IsDigits(s)
    ensures |PadStart2(s)| == 2 && IsDigits(PadStart2(s)) && EndsWith(PadStart2(s), s)
  {
    if |s| == 2 {
      assert PadStart2(s)[2 - |s|..] == s;
    }
  }

  /** Where the parts of `year-mm-dd` sit, for a four-character year and two-character month and day. */
  lemma DateLayout(y: string, p: string, q: string)
    requires |y| == 4 && |p| == 2 && |q| == 2
    ensures var d := y + "-" + p + "-" + q;
      |d| == 10 && d[..4] == y && d[4] == '-' && d[5..7] == p && d[7] == '-' && d[8..] == q
  {
    var d := y + "-" + p + "-" + q;
    assert d[..4] == y;
    assert d[5..7] == p;
    assert d[8..] == q;
  }

  /** A listed file's date is `YYYY-MM-DD`: ten characters, month and day zero-padded to two digits. */
  lemma DateStrShape(f: SessionFile)
    requires Listed(f)
    ensures var d := DateStr(f);
      |d| == 10 && d[..4] == f.year && d[4] == '-' && d[7] == '-'
      && d[5..7] == PadStart2(f.month) && d[8..] == PadStart2(f.day)
      && IsDigits(d[5..7]) && IsDigits(d[8..])
  {
    PadDigits(f.month);
    PadDigits(f.day);
    DateLayout(f.year, PadStart2(f.month), PadStart2(f.day));
  }

  predicate IsUserMessage(l: LogLine) {
    l.Event? && l.kind == Some("event_msg") && l.payloadKind == Some("user_message")
  }

  predicate IsTokenCount(l: LogLine) {
    l.Event? && l.kind == Some("event_msg") && l.payloadKind == Some("token_count")
    && l.totalTokenUsage.Some?
  }

  /** The usage of the last token-count event, searching from the end. */
  function LastTokens(lines: seq<LogLine>): Option<TokenUsage>
    decreases |lines|
  {
    if |lines| == 0 then None
    else if IsTokenCount(lines[|lines| - 1]) then lines[|lines| - 1].totalTokenUsage
    else LastTokens(lines[..|lines| - 1])
  }

  /** Only the last token-count event of a file is taken; a file without one gives nothing. */
  lemma {:induction false} LastTokensIsLast(lines: seq<LogLine>)
    ensures LastTokens(lines).None? <==> forall i :: 0 <= i < |lines| ==> !IsTokenCount(lines[i])
    ensures LastTokens(lines).Some? ==>
      exists i :: 0 <= i < |lines| && IsTokenCount(lines[i])
        && lines[i].totalTokenUsage == LastTokens(lines)
        && forall j :: i < j < |lines| ==> !IsTokenCount(lines[j])
    decreases |lines|
  {
    if |lines| > 0 {
      var n := |lines| - 1;
      LastTokensIsLast(lines[..n]);
      assert forall i :: 0 <= i < n ==> lines[..n][i] == lines[i];
      if !IsTokenCount(lines[n]) && LastTokens(lines).Some? {
        var i :| 0 <= i < n && IsTokenCount(lines[..n][i])
          && lines[..n][i].totalTokenUsage == LastTokens(lines[..n])
          && forall j :: i < j < n ==> !IsTokenCount(lines[..n][j]);
        assert lines[i].totalTokenUsage == LastTokens(lines);
      }
    }
  }

  /** The backward scan for the last token-count event. */
  method FindLastTokens(lines: seq<LogLine>) returns (last: Option<TokenUsage>)
    ensures last == LastTokens(lines)
  {
    var i := |lines|;
    assert lines[..i] == lines;
    while i > 0
      invariant 0 <= i <= |lines|
      invariant LastTokens(lines[..i]) == LastTokens(lines)
    {
      i := i - 1;
      assert lines[..i + 1][..i] == lines[..i];
      if IsTokenCount(lines[i]) {
        return lines[i].totalTokenUsage;
      }
    }
    last := None;
  }

  /** Counts the user-message events of a file. */
  method CountUserMessages(lines: seq<LogLine>) returns (count: nat)
    ensures count == |Filter(IsUserMessage, lines)|
  {
    count := 0;
    for i := 0 to |lines|
      invariant count == |Filter(IsUserMessage, lines[..i])|
    {
      FilterSnoc(IsUserMessage, lines, i);
      if IsUserMessage(lines[i]) {
        count := count + 1;
      }
    }
    assert lines[..|lines|] == lines;
  }

  function FileTokens(f: SessionFile): Option<TokenUsage> {
    if f.lines.Some? then LastTokens(f.lines.value) else None
  }

  function UserMessages(f: SessionFile): int {
    if f.lines.Some? then |Filter(IsUserMessage, f.lines.value)| else 0
  }

  function InOf(f: SessionFile): int {
    if FileTokens(f).Some? then OrZero(FileTokens(f).value.inputTokens) else 0
  }

  function CachedOf(f: SessionFile): int {
    if FileTokens(f).Some? then OrZero(FileTokens(f).value.cachedInputTokens) else 0
  }

  /** Output tokens count reasoning tokens too. */
  function OutOf(f: SessionFile): int {
    if FileTokens(f).Some? then
      OrZero(FileTokens(f).value.outputTokens) + OrZero(FileTokens(f).value.reasoningOutputTokens)
    else 0
  }

  /** Adding `n` tokens and one session to day `k`. */
  function Bump(m: seq<DailyUsage>, k: nat, n: int): seq<DailyUsage>
    requires k < |m|
  {
    m[k := m[k].(tokens := m[k].tokens + n, sessions := m[k].sessions + 1)]
  }

  /** Adds one session of `n` tokens to the day `date`, creating the day if new. */
  function Tally(ds: seq<DailyUsage>, date: string, n: int): seq<DailyUsage> {
    var existing := FindDate(ds, date);
    if existing.None? then ds + [DailyUsage(date, n, 0, 1)] else Bump(ds, existing.value, n)
  }

  /** The `dailyMap` after the given files, in insertion order. */
  function DailyMap(fs: seq<SessionFile>): seq<DailyUsage>
    decreases |fs|
  {
    if |fs| == 0 then []
    else
      var f := fs[|fs| - 1];
      var m := DailyMap(fs[..|fs| - 1]);
      if FileTokens(f).Some? then Tally(m, DateStr(f), InOf(f) + OutOf(f)) else m
  }

  /** Tokens of the files dated `date` that have a token-count event. */
  function DayTokens(fs: seq<SessionFile>, date: string): int
    decreases |fs|
  {
    if |fs| == 0 then 0
    else
      var f := fs[|fs| - 1];
      DayTokens(fs[..|fs| - 1], date) + (if FileTokens(f).Some? && DateStr(f) == date then InOf(f) + OutOf(f) else 0)
  }

  /** Number of files dated `date` that have a token-count event. */
  function DaySessions(fs: seq<SessionFile>, date: string): int
    decreases |fs|
  {
    if |fs| == 0 then 0
    else
      var f := fs[|fs| - 1];
      DaySessions(fs[..|fs| - 1], date) + (if FileTokens(f).Some? && DateStr(f) == date then 1 else 0)
  }

  /** `m` is a per-date tally of `fs`: one day per date, each with its files' tokens and sessions. */
  ghost predicate Tallies(m: seq<DailyUsage>, fs: seq<SessionFile>) {
    DayCounts(m, fs) && DistinctDates(m) && Untallied(m, fs)
  }

  /** Every day carries the tokens and sessions of its date's files, and no messages. */
  ghost predicate DayCounts(m: seq<DailyUsage>, fs: seq<SessionFile>) {
    forall j :: 0 <= j < |m| ==>
      m[j].tokens == DayTokens(fs, m[j].date) && m[j].sessions == DaySessions(fs, m[j].date)
      && m[j].messages == 0
  }

  predicate DistinctDates(m: seq<DailyUsage>) {
    forall i, j :: 0 <= i < j < |m| ==> m[i].date != m[j].date
  }

  /** A date without a day has no file with a token-count event. */
  ghost predicate Untallied(m: seq<DailyUsage>, fs: seq<SessionFile>) {
    forall date :: FindDate(m, date).None? ==> DayTokens(fs, date) == 0 && DaySessions(fs, date) == 0
  }

  /** The per-date counts after one more file. */
  lemma DayStep(fs: seq<SessionFile>, f: SessionFile, d: string)
    ensures DayTokens(fs + [f], d)
      == DayTokens(fs, d) + (if FileTokens(f).Some? && DateStr(f) == d then InOf(f) + OutOf(f) else 0)
    ensures DaySessions(fs + [f], d)
      == DaySessions(fs, d) + (if FileTokens(f).Some? && DateStr(f) == d then 1 else 0)
  {
    assert (fs + [f])[..|fs|] == fs;
  }

  /** A file without a token-count event leaves the tally as it is. */
  lemma TallySkip(m: seq<DailyUsage>, fs: seq<SessionFile>, f: SessionFile)
    requires Tallies(m, fs) && FileTokens(f).None?
    ensures Tallies(m, fs + [f])
  {
    forall d | true
      ensures DayTokens(fs + [f], d) == DayTokens(fs, d) && DaySessions(fs + [f], d) == DaySessions(fs, d)
    {
      DayStep(fs, f, d);
    }
  }

  lemma AppendCounts(m: seq<DailyUsage>, fs: seq<SessionFile>, f: SessionFile)
    requires DayCounts(m, fs) && Untallied(m, fs) && FileTokens(f).Some? && FindDate(m, DateStr(f)).None?
    ensures DayCounts(m + [DailyUsage(DateStr(f), InOf(f) + OutOf(f), 0, 1)], fs + [f])
  {
    var t := m + [DailyUsage(DateStr(f), InOf(f) + OutOf(f), 0, 1)];
    forall j | 0 <= j < |t|
      ensures t[j].tokens == DayTokens(fs + [f], t[j].date) && t[j].sessions == DaySessions(fs + [f], t[j].date)
    {
      DayStep(fs, f, t[j].date);
    }
  }

  lemma AppendUntallied(m: seq<DailyUsage>, fs: seq<SessionFile>, f: SessionFile)
    requires Untallied(m, fs) && FileTokens(f).Some?
    ensures Untallied(m + [DailyUsage(DateStr(f), InOf(f) + OutOf(f), 0, 1)], fs + [f])
  {
    var t := m + [DailyUsage(DateStr(f), InOf(f) + OutOf(f), 0, 1)];
    forall d | FindDate(t, d).None?
      ensures DayTokens(fs + [f], d) == 0 && DaySessions(fs + [f], d) == 0
    {
      assert t[|m|].date == DateStr(f);
      assert forall b :: 0 <= b < |m| ==> t[b] == m[b];
      assert FindDate(m, d).None?;
      DayStep(fs, f, d);
    }
  }

  /** A file on a date not yet tallied appends a new day. */
  lemma TallyNew(m: seq<DailyUsage>, fs: seq<SessionFile>, f: SessionFile)
    requires Tallies(m, fs) && FileTokens(f).Some? && FindDate(m, DateStr(f)).None?
    ensures Tallies(Tally(m, DateStr(f), InOf(f) + OutOf(f)), fs + [f])
  {
    var t := m + [DailyUsage(DateStr(f), InOf(f) + OutOf(f), 0, 1)];
    AppendCounts(m, fs, f);
    AppendUntallied(m, fs, f);
    assert DistinctDates(t);
  }

  lemma BumpCounts(m: seq<DailyUsage>, fs: seq<SessionFile>, f: SessionFile, k: nat)
    requires DayCounts(m, fs) && DistinctDates(m) && FileTokens(f).Some?
    requires k < |m| && m[k].date == DateStr(f)
    ensures DayCounts(Bump(m, k, InOf(f) + OutOf(f)), fs + [f])
  {
    var t := Bump(m, k, InOf(f) + OutOf(f));
    forall j | 0 <= j < |t|
      ensures t[j].tokens == DayTokens(fs + [f], t[j].date) && t[j].sessions == DaySessions(fs + [f], t[j].date)
    {
      DayStep(fs, f, t[j].date);
    }
  }

  lemma BumpUntallied(m: seq<DailyUsage>, fs: seq<SessionFile>, f: SessionFile, k: nat)
    requires Untallied(m, fs) && FileTokens(f).Some?
    requires k < |m| && m[k].date == DateStr(f)
    ensures Untallied(Bump(m, k, InOf(f) + OutOf(f)), fs + [f])
  {
    var t := Bump(m, k, InOf(f) + OutOf(f));
    forall d | FindDate(t, d).None?
      ensures DayTokens(fs + [f], d) == 0 && DaySessions(fs + [f], d) == 0
    {
      assert t[k].date == DateStr(f);
      assert forall b :: 0 <= b < |m| ==> t[b].date == m[b].date;
      assert FindDate(m, d).None?;
      DayStep(fs, f, d);
    }
  }

  /** A file on a tallied date adds its tokens and one session to that day. */
  lemma TallyOld(m: seq<DailyUsage>, fs: seq<SessionFile>, f: SessionFile)
    requires Tallies(m, fs) && FileTokens(f).Some? && FindDate(m, DateStr(f)).Some?
    ensures Tallies(Tally(m, DateStr(f), InOf(f) + OutOf(f)), fs + [f])
  {
    var k := FindDate(m, DateStr(f)).value;
    var t := Bump(m, k, InOf(f) + OutOf(f));
    assert Tally(m, DateStr(f), InOf(f) + OutOf(f)) == t;
    BumpCounts(m, fs, f, k);
    BumpUntallied(m, fs, f, k);
    assert forall b :: 0 <= b < |m| ==> t[b].date == m[b].date;
    assert DistinctDates(t);
  }

  /** The `dailyMap` holds one day per date, carrying exactly that date's tokens and sessions. */
  lemma {:induction false} DailyMapExact(fs: seq<SessionFile>)
    ensures Tallies(DailyMap(fs), fs)
    decreases |fs|
  {
    if |fs| > 0 {
      var n := |fs| - 1;
      var p, f := fs[..n], fs[n];
      var m := DailyMap(p);
      DailyMapExact(p);
      assert p + [f] == fs;
      if FileTokens(f).None? {
        TallySkip(m, p, f);
        assert DailyMap(fs) == m;
      } else if FindDate(m, DateStr(f)).None? {
        TallyNew(m, p, f);
        assert DailyMap(fs) == Tally(m, DateStr(f), InOf(f) + OutOf(f));
      } else {
        TallyOld(m, p, f);
        assert DailyMap(fs) == Tally(m, DateStr(f), InOf(f) + OutOf(f));
      }
    }
  }

  /** Everything a read of an existing sessions directory reports. */
  predicate CodexReport(walk: seq<SessionFile>, cutoff: string, u: RuntimeUsage) {
    var fs := Filter(Listed, walk);
    u.id == "codex" && u.name == "Codex CLI" && u.available && u.note.None?
    && u.sessions == |fs| && u.messages == Sum(UserMessages, fs)
    && u.inputTokens == Sum(InOf, fs) && u.outputTokens == Sum(OutOf, fs)
    && u.cacheTokens == Sum(CachedOf, fs)
    && u.totalTokens == u.inputTokens + u.outputTokens
    && Descending(u.daily)
    && multiset(u.daily) == multiset(Filter(DaySince(cutoff), DailyMap(fs)))
    && u.models == map["gpt-5-codex" := ModelTotals(u.inputTokens, u.outputTokens)]
  }

  /** Running totals of the walk, kept as separate variables as the loop keeps them. */
  datatype Totals = Totals(sessions: int, messages: int, input: int, output: int, cache: int, total: int,
                           dailyMap: seq<DailyUsage>)

  predicate TotalsOf(t: Totals, fs: seq<SessionFile>) {
    t.sessions == |fs| && t.messages == Sum(UserMessages, fs)
    && t.input == Sum(InOf, fs) && t.output == Sum(OutOf, fs) && t.cache == Sum(CachedOf, fs)
    && t.total == t.input + t.output
    && t.dailyMap == DailyMap(fs)
  }

  /** The body of the file loop for one `.jsonl` file. */
  method CountFile(t: Totals, f: SessionFile, ghost fs: seq<SessionFile>) returns (t': Totals)
    requires TotalsOf(t, fs)
    ensures TotalsOf(t', fs + [f])
  {
    SumPush(UserMessages, fs, f);
    SumPush(InOf, fs, f);
    SumPush(OutOf, fs, f);
    SumPush(CachedOf, fs, f);
    assert (fs + [f])[..|fs|] == fs;
    t' := t.(sessions := t.sessions + 1);
    if f.lines.Some? {
      var lines := f.lines.value;
      var count := CountUserMessages(lines);
      t' := t'.(messages := t'.messages + count);
      var lastTokens := FindLastTokens(lines);
      if lastTokens.Some? {
        var tu := lastTokens.value;
        var inp := OrZero(tu.inputTokens);
        var cached := OrZero(tu.cachedInputTokens);
        var out := OrZero(tu.outputTokens) + OrZero(tu.reasoningOutputTokens);
        t' := t'.(input := t'.input + inp, output := t'.output + out, cache := t'.cache + cached,
                  total := t'.total + inp + out);
        t' := t'.(dailyMap := Tally(t'.dailyMap, DateStr(f), inp + out));
      }
    }
  }

  /** The year/month/day/file loops, over the session files of the walk. */
  method WalkSessions(walk: seq<SessionFile>) returns (t: Totals)
    ensures TotalsOf(t, Filter(Listed, walk))
  {
    t := Totals(0, 0, 0, 0, 0, 0, []);
    for i := 0 to |walk|
      invariant TotalsOf(t, Filter(Listed, walk[..i]))
    {
      FilterSnoc(Listed, walk, i);
      if Listed(walk[i]) {
        assert Filter(Listed, walk[..i + 1]) == Filter(Listed, walk[..i]) + [walk[i]];
        t := CountFile(t, walk[i], Filter(Listed, walk[..i]));
      } else {
        assert Filter(Listed, walk[..i + 1]) == Filter(Listed, walk[..i]);
      }
    }
    assert walk[..|walk|] == walk;
  }

  /** `readCodexUsage` */
  method ReadCodexUsage(sessionsDirExists: bool, walk: seq<SessionFile>, cutoff: string)
    returns (usage: RuntimeUsage)
    ensures !sessionsDirExists ==> usage == Blank("codex", "Codex CLI").(note := Some("No sessions directory"))
    ensures sessionsDirExists ==> CodexReport(walk, cutoff, usage)
  {
    usage := Blank("codex", "Codex CLI");
    if !sessionsDirExists {
      usage := usage.(note := Some("No sessions directory"));
      return;
    }
    usage := usage.(available := true);
    var t := WalkSessions(walk);
    var sorted := SortByDateDesc(Filter(DaySince(cutoff), t.dailyMap));
    usage := usage.(sessions := t.sessions, messages := t.messages, inputTokens := t.input,
                    outputTokens := t.output, cacheTokens := t.cache, totalTokens := t.total,
                    daily := sorted);
    usage := usage.(models := usage.models["gpt-5-codex" := ModelTotals(usage.inputTokens, usage.outputTokens)]);
  }

  /** Each reported Codex day is at or after the cutoff and holds exactly its date's tokens and sessions. */
  lemma CodexDaily(walk: seq<SessionFile>, cutoff: string, u: RuntimeUsage)
    requires CodexReport(walk, cutoff, u)
    ensures forall d :: d in u.daily ==>
      var fs := Filter(Listed, walk);
      AtMost(cutoff, d.date) && d.tokens == DayTokens(fs, d.date)
      && d.sessions == DaySessions(fs, d.date) && d.messages == 0
  {
    var fs := Filter(Listed, walk);
    DailyMapExact(fs);
    forall d | d in u.daily
      ensures AtMost(cutoff, d.date) && d.tokens == DayTokens(fs, d.date)
        && d.sessions == DaySessions(fs, d.date) && d.messages == 0
    {
      assert d in multiset(Filter(DaySince(cutoff), DailyMap(fs)));
      assert d in DailyMap(fs) && DaySince(cutoff)(d);
    }
  }
}

=== FILE: values.dfy ===
/**
 * Parsed YAML/JSON documents and the handful of JavaScript value rules the
 * source relies on: property lookup, truthiness, `??` and `String(x)`.
 */
module Values {
  import opened Wrappers
  import opened Text

  /** A parsed YAML or JSON value. Objects keep their members in insertion order. */
  datatype Value =
    | Null
    | Bool(b: bool)
    | Num(n: int)
    | Str(s: string)
    | Arr(items: seq<Value>)
    | Obj(members: seq<Member>)

  datatype Member = Member(key: string, val: Value)

  /** The value stored under `k`, or `None` (JavaScript's `undefined`). */
  function Lookup(ms: seq<Member>, k: string): (r: Option<Value>)
    ensures r.Some? <==> exists i :: 0 <= i < |ms| && ms[i].key == k
    ensures r.Some? ==> exists i :: 0 <= i < |ms| && ms[i].key == k && ms[i].val == r.value
  {
    if |ms| == 0 then None
    else if ms[0].key == k then Some(ms[0].val)
    else
      var r := Lookup(ms[1..], k);
      assert forall i :: 1 <= i < |ms| ==> ms[i] == ms[1..][i - 1];
      r
  }

  /** A lookup passes over a leading member with another key. */
  lemma LookupPast(ms: seq<Member>, k: string)
    requires |ms| > 0 && ms[0].key != k
    ensures Lookup(ms, k) == Lookup(ms[1..], k)
  {
  }

  /** `v[k]` for a property name `k`: only objects carry named properties here. */
  function Get(v: Value, k: string): Option<Value> {
    if v.Obj? then Lookup(v.members, k) else None
  }

  /** JavaScript truthiness (`undefined` is `None`). */
  predicate Truthy(o: Option<Value>) {
    match o
    case None => false
    case Some(v) =>
      match v
      case Null => false
      case Bool(b) => b
      case Num(n) => n != 0
      case Str(s) => s != ""
      case Arr(_) => true
      case Obj(_) => true
  }

  /** `o ?? d` */
  function Coalesce(o: Option<Value>, d: Value): (r: Value)
    ensures o.Some? && o.value != Null ==> r == o.value
    ensures o.None? || o.value == Null ==> r == d
  {
    if o.None? || o.value == Null then d else o.value
  }

  /** `String(v)`; inside an array, `null` renders as the empty string. */
  function JsString(v: Value): string {
    match v
    case Null => "null"
    case Bool(b) => if b then "true" else "false"
    case Num(n) => IntToString(n)
    case Str(s) => s
    case Arr(items) => JoinItems(items)
    case Obj(_) => "[object Object]"
  }

  /** `items.join(',')` */
  function JoinItems(items: seq<Value>): string
    decreases items
  {
    if |items| == 0 then ""
    else
      var head := if items[0] == Null then "" else JsString(items[0]);
      if |items| == 1 then head else head + "," + JoinItems(items[1..])
  }

  /** `obj[k] = v`: overwrite an existing member in place, or append a new one. */
  function SetMember(ms: seq<Member>, k: string, v: Value): (r: seq<Member>)
    ensures Lookup(r, k) == Some(v)
    ensures Lookup(ms, k).None? ==> r == ms + [Member(k, v)]
    decreases |ms|
  {
    if |ms| == 0 then [Member(k, v)]
    else if ms[0].key == k then [Member(k, v)] + ms[1..]
    else
      var t := SetMember(ms[1..], k, v);
      var r := [ms[0]] + t;
      assert r[1..] == t;
      assert Lookup(ms, k) == Lookup(ms[1..], k);
      assert Lookup(ms, k).None? ==> r == ms + [Member(k, v)] by {
        if Lookup(ms, k).None? {
          assert ms == [ms[0]] + ms[1..];
        }
      }
      r
  }

  /** Setting one member leaves every other member's value as it was. */
  lemma {:induction false} SetMemberOther(ms: seq<Member>, k: string, v: Value, j: string)
    requires j != k
    ensures Lookup(SetMember(ms, k, v), j) == Lookup(ms, j)
    decreases |ms|
  {
    if |ms| > 0 && ms[0].key != k {
      SetMemberOther(ms[1..], k, v, j);
      var r := SetMember(ms, k, v);
      assert r[1..] == SetMember(ms[1..], k, v);
    } else if |ms| > 0 {
      var r := SetMember(ms, k, v);
      assert r[1..] == ms[1..];
    }
  }

  /** A string-valued array, as `tools` is written. */
  function Strings(xs: seq<string>): (r: seq<Value>)
    ensures |r| == |xs| && forall i :: 0 <= i < |xs| ==> r[i] == Str(xs[i])
  {
    seq(|xs|, i requires 0 <= i < |xs| => Str(xs[i]))
  }

  /** Names every object literal inherits from `Object.prototype`: a plain
      `obj[k]` lookup finds these even though the literal never set them. */
  const PrototypeNames: set<string> := {
    "constructor", "__proto__", "hasOwnProperty", "isPrototypeOf",
    "propertyIsEnumerable", "toString", "toLocaleString", "valueOf",
    "__defineGetter__", "__defineSetter__", "__lookupGetter__", "__lookupSetter__"
  }
}

=== FILE: vanilla.dfy ===
/**
 * The vanilla snapshot: the user's own Claude configuration, copied into
 * `~/.orchester/vanilla` before any profile is applied and copied back
 * when no profile is selected or a switch fails.
 */
module Vanilla {
  import opened Wrappers
  import opened Seqs
  import opened Disk
  import opened StateStore

  datatype Detection = Detection(source: Path, labelText: string)

  /** `getDetectionPaths()` */
  function DetectionPaths(env: Env): (r: seq<Detection>)
    ensures |r| == 4
    ensures forall a :: 0 <= a < 4 ==> r[a].source == Join(SlotParent(env, a), SlotNames[a])
  {
    var claude := Join(env.home, ".claude");
    [ Detection(Join(claude, "agents"), "~/.claude/agents/"),
      Detection(Join(claude, "skills"), "~/.claude/skills/"),
      Detection(Join(claude, "hooks"), "~/.claude/hooks/"),
      Detection(Join(env.cwd, "CLAUDE.md"), "$PROJECT/CLAUDE.md") ]
  }

  /** The directory holding table entry `a`: `~/.claude` or the project. */
  function SlotParent(env: Env, a: nat): Path {
    if a < 3 then Join(env.home, ".claude") else env.cwd
  }

  /** The four entries are named agents, skills, hooks and CLAUDE.md, in that order. */
  lemma DetectionNames(env: Env)
    ensures forall a :: 0 <= a < 4 ==> Basename(DetectionPaths(env)[a].source) == SlotNames[a]
  {
    forall a | 0 <= a < 4
      ensures Basename(DetectionPaths(env)[a].source) == SlotNames[a]
    {
      SlotNamesValid();
      JoinBasename(SlotParent(env, a), SlotNames[a]);
    }
  }

  /** Whatever lies inside one of the three `~/.claude` entries lies outside
      `~/.orchester`, and so outside the vanilla directory. */
  lemma ClaudeEntriesOutsideVanilla(env: Env, q: Path, a: nat)
    requires a < 3 && Under(q, DetectionPaths(env)[a].source)
    ensures !Under(q, OrchDir(env)) && !Under(q, VanillaDir(env))
  {
    var claude := Join(env.home, ".claude");
    assert DetectionPaths(env)[a].source == Join(claude, SlotNames[a]);
    SlotNamesValid();
    UnderChild(q, claude, SlotNames[a]);
    ClaudeOutsideOrch(env, q);
  }

  lemma ClaudeOutsideOrch(env: Env, q: Path)
    requires Under(q, Join(env.home, ".claude"))
    ensures !Under(q, OrchDir(env)) && !Under(q, VanillaDir(env))
  {
    SiblingSubtrees(q, env.home, ".claude", ".orchester");
    ChildInside(OrchDir(env), "vanilla");
  }

  /** Every slot name is a plain file name. */
  lemma SlotNamesValid()
    ensures forall a :: 0 <= a < |SlotNames| ==> ValidName(SlotNames[a])
    ensures forall n :: n in SlotNames ==> ValidName(n)
  {
  }

  datatype DetectedConfig = DetectedConfig(path: Path, labelText: string, present: bool)

  /** `detectConfigs()`: one record per table entry, in order; reads only. */
  function DetectConfigs(fs: Tree, env: Env): (r: seq<DetectedConfig>)
    ensures |r| == 4
    ensures forall i :: 0 <= i < 4 ==>
      r[i].path == DetectionPaths(env)[i].source && r[i].labelText == DetectionPaths(env)[i].labelText &&
      (r[i].present <==> Exists(fs, DetectionPaths(env)[i].source))
  {
    var ps := DetectionPaths(env);
    seq(4, i requires 0 <= i < 4 => DetectedConfig(ps[i].source, ps[i].labelText, Exists(fs, ps[i].source)))
  }

  /** One copy step of snapshot or restore: `statSync` picks `copySync` for a
      directory and `copyFileSync` otherwise; a missing source throws. */
  function CopyEntry(fs: Tree, src: Path, dst: Path): (r: Effect)
    ensures r.fault.None? ==> fs.Keys <= r.tree.Keys && Key(dst) in r.tree
    ensures r.fault.None? && Plain(fs, dst) ==> HoldsCopy(fs, src, r.tree, dst)
  {
    match Stat(fs, src)
    case None => Effect(fs, Some(Io("ENOENT", Key(src))))
    case Some(n) => if n == Dir then CopyPath(fs, src, dst) else CopyFile(fs, src, dst)
  }

  function PresentOf(c: DetectedConfig): bool { c.present }

  /** The paths of the detected configs that exist, in table order. */
  function PresentPaths(fs: Tree, env: Env): seq<Path> {
    var cs := Filter(PresentOf, DetectConfigs(fs, env));
    seq(|cs|, i requires 0 <= i < |cs| => cs[i].path)
  }

  /** Exactly the existing table paths are snapshotted. */
  lemma PresentPathsIff(fs: Tree, env: Env)
    ensures forall p :: p in PresentPaths(fs, env) <==>
      exists i :: 0 <= i < 4 && Exists(fs, DetectionPaths(env)[i].source) && p == DetectionPaths(env)[i].source
    ensures forall p :: p in PresentPaths(fs, env) ==> exists i :: 0 <= i < 4 && p == DetectionPaths(env)[i].source
  {
    var cfg := DetectConfigs(fs, env);
    var cs := Filter(PresentOf, cfg);
    var r := PresentPaths(fs, env);
    forall p | p in r
      ensures exists i :: 0 <= i < 4 && cfg[i].present && p == DetectionPaths(env)[i].source
    {
      var k :| 0 <= k < |cs| && r[k] == p;
      assert cs[k] in cfg;
      var i :| 0 <= i < 4 && cfg[i] == cs[k];
      assert PresentOf(cs[k]);
    }
    forall i | 0 <= i < 4 && cfg[i].present
      ensures DetectionPaths(env)[i].source in r
    {
      assert cfg[i] in cfg && PresentOf(cfg[i]);
      assert cfg[i] in cs;
      var k :| 0 <= k < |cs| && cs[k] == cfg[i];
      assert r[k] == DetectionPaths(env)[i].source;
    }
  }

  function SnapshotDest(vdir: Path, src: Path): Path {
    Join(vdir, Basename(src))
  }

  /** The copy loop of `createVanillaSnapshot`, stopping at the first throw. */
  function SnapshotFrom(fs: Tree, vdir: Path, srcs: seq<Path>): (r: Effect)
    decreases |srcs|
  {
    if |srcs| == 0 then Effect(fs, None)
    else
      var step := CopyEntry(fs, srcs[0], SnapshotDest(vdir, srcs[0]));
      if step.fault.Some? then step else SnapshotFrom(step.tree, vdir, srcs[1..])
  }

  /** `createVanillaSnapshot()` */
  function Snapshot(fs: Tree, env: Env): Effect {
    match EnsureDir(fs, VanillaDir(env))
    case Err(e) => Effect(fs, Some(e))
    case Ok(fs1) => SnapshotFrom(fs1, VanillaDir(env), PresentPaths(fs1, env))
  }

  /** The copy loop of `createVanillaSnapshot`. */
  method SnapshotCopies(d: Disk, vdir: Path, srcs: seq<Path>) returns (fault: Option<Fault>)
    modifies d
    ensures Effect(d.tree, fault) == SnapshotFrom(old(d.tree), vdir, srcs)
  {
    assert srcs[0..] == srcs;
    for i := 0 to |srcs|
      invariant SnapshotFrom(old(d.tree), vdir, srcs) == SnapshotFrom(d.tree, vdir, srcs[i..])
    {
      var src := srcs[i];
      assert srcs[i..][0] == src && srcs[i..][1..] == srcs[i + 1..];
      SnapshotFromCons(d.tree, vdir, srcs[i..]);
      var step := CopyEntry(d.tree, src, SnapshotDest(vdir, src));
      d.tree := step.tree;
      if step.fault.Some? {
        return step.fault;
      }
    }
    assert srcs[|srcs|..] == [];
    fault := None;
  }

  method CreateVanillaSnapshot(d: Disk, env: Env) returns (fault: Option<Fault>)
    modifies d
    ensures Effect(d.tree, fault) == Snapshot(old(d.tree), env)
  {
    var vdir := VanillaDir(env);
    var made := EnsureDir(d.tree, vdir);
    if made.Err? {
      return Some(made.error);
    }
    d.tree := made.value;
    var srcs := PresentPaths(d.tree, env);
    fault := SnapshotCopies(d, vdir, srcs);
  }

  /** The snapshot never removes an entry, and leaves an entry named like
      each copied source in the vanilla directory. */
  lemma {:induction false} SnapshotFromCopies(fs: Tree, vdir: Path, srcs: seq<Path>)
    requires SnapshotFrom(fs, vdir, srcs).fault.None?
    ensures var t := SnapshotFrom(fs, vdir, srcs).tree;
      fs.Keys <= t.Keys && forall i :: 0 <= i < |srcs| ==> Key(SnapshotDest(vdir, srcs[i])) in t
    decreases |srcs|
  {
    if |srcs| > 0 {
      var step := CopyEntry(fs, srcs[0], SnapshotDest(vdir, srcs[0]));
      var rest := srcs[1..];
      SnapshotFromCons(fs, vdir, srcs);
      var t := SnapshotFrom(step.tree, vdir, rest).tree;
      SnapshotFromCopies(step.tree, vdir, rest);
      forall i | 0 <= i < |srcs|
        ensures Key(SnapshotDest(vdir, srcs[i])) in t
      {
        if i == 0 {
          assert Key(SnapshotDest(vdir, srcs[0])) in step.tree;
          assert step.tree.Keys <= t.Keys;
        } else {
          assert srcs[i] == rest[i - 1];
        }
      }
    }
  }

  /** The first copy of the snapshot, followed by the rest. */
  lemma SnapshotFromCons(fs: Tree, vdir: Path, srcs: seq<Path>)
    requires |srcs| > 0
    ensures var step := CopyEntry(fs, srcs[0], SnapshotDest(vdir, srcs[0]));
      SnapshotFrom(fs, vdir, srcs)
        == if step.fault.Some? then step else SnapshotFrom(step.tree, vdir, srcs[1..])
  {
  }

  lemma CopyEntryFrame(fs: Tree, src: Path, dst: Path)
    requires Lstat(fs, dst).None? || !Lstat(fs, dst).value.Symlink?
    ensures var r := CopyEntry(fs, src, dst);
      forall q :: q in fs && !Under(q, dst) ==> q in r.tree && r.tree[q] == fs[q]
    ensures NewOutsideAreDirs(fs, CopyEntry(fs, src, dst).tree, dst)
  {
    if Stat(fs, src) == Some(Dir) {
      assert CopyEntry(fs, src, dst) == CopyPath(fs, src, dst);
      CopyPathFrame(fs, src, dst);
    } else if Stat(fs, src).Some? {
      assert CopyEntry(fs, src, dst) == CopyFile(fs, src, dst);
      CopyFileFrame(fs, src, dst);
    }
  }

  /** No entry named in `names` inside `vdir` is a symbolic link. */
  ghost predicate NoLinkAt(fs: Tree, vdir: Path, names: seq<string>) {
    forall n :: n in names ==> Lstat(fs, Join(vdir, n)).None? || !Lstat(fs, Join(vdir, n)).value.Symlink?
  }

  /** A step that only adds directories outside the slot `m` keeps the other slots link-free. */
  lemma SlotsStayLinkFree(fs: Tree, t: Tree, vdir: Path, m: string, names: seq<string>)
    requires ValidName(m) && m !in names && forall n :: n in names ==> ValidName(n)
    requires NoLinkAt(fs, vdir, names)
    requires forall q :: q in fs && !Under(q, Join(vdir, m)) ==> q in t && t[q] == fs[q]
    requires NewOutsideAreDirs(fs, t, Join(vdir, m))
    ensures NoLinkAt(t, vdir, names)
  {
    forall n | n in names
      ensures Lstat(t, Join(vdir, n)).None? || !Lstat(t, Join(vdir, n)).value.Symlink?
    {
      SiblingsDisjoint(vdir, n, m);
      JoinName(vdir, n);
    }
  }

  /** The basenames of `srcs`, in order. */
  function Basenames(srcs: seq<Path>): (r: seq<string>)
    ensures |r| == |srcs| && forall i :: 0 <= i < |srcs| ==> r[i] == Basename(srcs[i])
  {
    seq(|srcs|, i requires 0 <= i < |srcs| => Basename(srcs[i]))
  }

  lemma BasenamesTail(srcs: seq<Path>)
    requires |srcs| > 0
    ensures Basenames(srcs[1..]) == Basenames(srcs)[1..]
    ensures Basenames(srcs)[0] == Basename(srcs[0]) && Basename(srcs[0]) in Basenames(srcs)
  {
  }

  lemma DistinctHead(ns: seq<string>)
    requires |ns| > 0 && forall i, j :: 0 <= i < j < |ns| ==> ns[i] != ns[j]
    ensures ns == [ns[0]] + ns[1..] && ns[0] !in ns[1..]
    ensures forall i, j :: 0 <= i < j < |ns[1..]| ==> ns[1..][i] != ns[1..][j]
  {
  }

  /** `b` keeps every entry of `a` except what lies inside the directory `x`
      (`x`'s own entry is kept too). */
  ghost predicate KeepsOutside(a: Tree, b: Tree, x: Path) {
    forall q :: q in a && (q == Key(x) || !Under(q, x)) ==> q in b && b[q] == a[q]
  }

  /** One snapshot copy leaves everything outside the vanilla directory, and
      the slots still to be filled, as they were. */
  lemma SnapshotStepFrame(fs: Tree, vdir: Path, src: Path, names: seq<string>)
    requires ValidName(Basename(src)) && Basename(src) !in names && forall n :: n in names ==> ValidName(n)
    requires NoLinkAt(fs, vdir, [Basename(src)] + names)
    ensures var t := CopyEntry(fs, src, SnapshotDest(vdir, src)).tree;
      KeepsOutside(fs, t, vdir) && NoLinkAt(t, vdir, names)
  {
    var m := Basename(src);
    var dst := SnapshotDest(vdir, src);
    assert m in [m] + names;
    assert forall n :: n in names ==> n in [m] + names;
    CopyEntryFrame(fs, src, dst);
    ParentOutsideChild(vdir, m);
    forall q | q in fs && (q == Key(vdir) || !Under(q, vdir))
      ensures !Under(q, dst)
    {
      if q != Key(vdir) && Under(q, dst) {
        UnderChild(q, vdir, m);
      }
    }
    SlotsStayLinkFree(fs, CopyEntry(fs, src, dst).tree, vdir, m, names);
  }

  /** What the snapshot frame needs of the slots it is about to fill: plain,
      distinct names, none of them a link yet. */
  ghost predicate SlotsReady(fs: Tree, vdir: Path, srcs: seq<Path>) {
    var ns := Basenames(srcs);
    (forall n :: n in ns ==> ValidName(n)) &&
    (forall i, j :: 0 <= i < j < |ns| ==> ns[i] != ns[j]) &&
    NoLinkAt(fs, vdir, ns)
  }

  lemma SnapshotFromStep(fs: Tree, vdir: Path, srcs: seq<Path>)
    requires |srcs| > 0 && SlotsReady(fs, vdir, srcs)
    ensures var t := CopyEntry(fs, srcs[0], SnapshotDest(vdir, srcs[0])).tree;
      KeepsOutside(fs, t, vdir) && SlotsReady(t, vdir, srcs[1..])
  {
    var ns := Basenames(srcs);
    assert Basenames(srcs[1..]) == ns[1..];
    DistinctHead(ns);
    SnapshotStepFrame(fs, vdir, srcs[0], ns[1..]);
  }

  lemma KeepsOutsideTrans(a: Tree, b: Tree, c: Tree, x: Path)
    requires KeepsOutside(a, b, x) && KeepsOutside(b, c, x)
    ensures KeepsOutside(a, c, x)
  {
  }

  /** With no link in the slots it fills, the snapshot changes nothing outside
      the vanilla directory, nor the directory's own entry: in particular it
      never modifies its sources. */
  lemma {:induction false} SnapshotFromFrame(fs: Tree, vdir: Path, srcs: seq<Path>)
    requires SlotsReady(fs, vdir, srcs)
    ensures KeepsOutside(fs, SnapshotFrom(fs, vdir, srcs).tree, vdir)
    decreases |srcs|
  {
    if |srcs| > 0 {
      SnapshotFromCons(fs, vdir, srcs);
      SnapshotFromStep(fs, vdir, srcs);
      var step := CopyEntry(fs, srcs[0], SnapshotDest(vdir, srcs[0]));
      if step.fault.None? {
        SnapshotFromFrame(step.tree, vdir, srcs[1..]);
        KeepsOutsideTrans(fs, step.tree, SnapshotFrom(step.tree, vdir, srcs[1..]).tree, vdir);
      }
    }
  }

  /** The names of the four snapshot slots, in table order. */
  const SlotNames: seq<string> := ["agents", "skills", "hooks", "CLAUDE.md"]

  /** The slot names do not repeat. */
  lemma SlotNamesDistinct()
    ensures Distinct(SlotNames)
  {
    assert "agents"[0] != "skills"[0] && "agents"[0] != "hooks"[0] && "skills"[0] != "hooks"[0];
  }

  /** `detectConfigs()` reports each table path once. */
  lemma ConfigsDistinct(fs: Tree, env: Env)
    ensures Distinct(DetectConfigs(fs, env))
  {
    DetectionNames(env);
    SlotNamesDistinct();
  }

  /** Each present path is a table entry, at the index of its detected config. */
  lemma PresentIndex(fs: Tree, env: Env, k: nat)
    requires k < |PresentPaths(fs, env)|
    ensures exists a :: (0 <= a < 4 &&
      Filter(PresentOf, DetectConfigs(fs, env))[k] == DetectConfigs(fs, env)[a] &&
      PresentPaths(fs, env)[k] == DetectionPaths(env)[a].source)
  {
    var cfg := DetectConfigs(fs, env);
    var cs := Filter(PresentOf, cfg);
    assert cs[k] in cfg;
  }

  /** The `k`th present path carries the slot name of its table row. */
  lemma PresentLabel(fs: Tree, env: Env, k: nat)
    requires k < |Filter(PresentOf, DetectConfigs(fs, env))|
    ensures var cfg := DetectConfigs(fs, env);
      var cs := Filter(PresentOf, cfg);
      exists a :: 0 <= a < 4 && cs[k] == cfg[a] && Basename(PresentPaths(fs, env)[k]) == SlotNames[a]
  {
    var ps := DetectionPaths(env);
    PresentIndex(fs, env, k);
    var a :| 0 <= a < 4 && Filter(PresentOf, DetectConfigs(fs, env))[k] == DetectConfigs(fs, env)[a] &&
      PresentPaths(fs, env)[k] == ps[a].source;
    DetectionNames(env);
    assert Basename(ps[a].source) == SlotNames[a];
  }

  /** Each present path carries the slot name of its table row. */
  lemma PresentLabels(fs: Tree, env: Env)
    ensures var cfg := DetectConfigs(fs, env);
      var cs := Filter(PresentOf, cfg);
      var ns := Basenames(PresentPaths(fs, env));
      |ns| == |cs| &&
      forall k :: 0 <= k < |cs| ==> exists a :: 0 <= a < 4 && cs[k] == cfg[a] && ns[k] == SlotNames[a]
  {
    var cfg := DetectConfigs(fs, env);
    var cs := Filter(PresentOf, cfg);
    var ps := PresentPaths(fs, env);
    var ns := Basenames(ps);
    assert |ps| == |cs|;
    forall k | 0 <= k < |cs|
      ensures exists a :: 0 <= a < 4 && cs[k] == cfg[a] && ns[k] == SlotNames[a]
    {
      PresentLabel(fs, env, k);
      var a :| 0 <= a < 4 && cs[k] == cfg[a] && Basename(ps[k]) == SlotNames[a];
      assert ns[k] == Basename(ps[k]);
    }
  }

  /** The present paths are named by distinct slot names. */
  lemma PresentSlots(fs: Tree, env: Env)
    ensures var ns := Basenames(PresentPaths(fs, env));
      (forall n :: n in ns ==> n in SlotNames) && Distinct(ns)
  {
    var cfg := DetectConfigs(fs, env);
    SlotNamesDistinct();
    ConfigsDistinct(fs, env);
    FilterDistinct(PresentOf, cfg);
    PresentLabels(fs, env);
    DistinctLabels(Filter(PresentOf, cfg), Basenames(PresentPaths(fs, env)), cfg, SlotNames);
  }

  // ------------------------------------------------------- snapshot outcome

  /** The vanilla directory's path is its own key and has a parent. */
  lemma VanillaDirShape(env: Env)
    ensures Key(VanillaDir(env)) == VanillaDir(env)
    ensures |VanillaDir(env)| > 1 && '/' in VanillaDir(env)
  {
    var p := Prefix(OrchDir(env));
    JoinName(OrchDir(env), "vanilla");
    assert VanillaDir(env)[|p| - 1] == '/';
  }

  /** After `ensureDirSync`, a vanilla directory that was missing or plain is a plain directory. */
  lemma EnsureVanillaDir(fs: Tree, env: Env)
    requires Lstat(fs, VanillaDir(env)).None? || Lstat(fs, VanillaDir(env)) == Some(Dir)
    requires EnsureDir(fs, VanillaDir(env)).Ok?
    ensures var fs1 := EnsureDir(fs, VanillaDir(env)).value;
      VanillaDir(env) in fs1 && fs1[VanillaDir(env)] == Dir && Extends(fs, fs1)
  {
    VanillaDirShape(env);
  }

  lemma NoLinkAtExtends(a: Tree, b: Tree, vdir: Path, names: seq<string>, sub: seq<string>)
    requires Extends(a, b) && forall q :: q in b && q !in a ==> b[q] == Dir
    requires NoLinkAt(a, vdir, names) && forall n :: n in sub ==> n in names
    ensures NoLinkAt(b, vdir, sub)
  {
  }

  /** With no link in the four slots, the snapshot's copy loop starts ready. */
  lemma SnapshotReady(fs: Tree, env: Env)
    requires NoLinkAt(fs, VanillaDir(env), SlotNames)
    requires EnsureDir(fs, VanillaDir(env)).Ok?
    ensures var fs1 := EnsureDir(fs, VanillaDir(env)).value;
      Extends(fs, fs1) && SlotsReady(fs1, VanillaDir(env), PresentPaths(fs1, env))
  {
    var fs1 := EnsureDir(fs, VanillaDir(env)).value;
    var ns := Basenames(PresentPaths(fs1, env));
    PresentSlots(fs1, env);
    SlotNamesValid();
    NoLinkAtExtends(fs, fs1, VanillaDir(env), SlotNames, ns);
  }

  /** `createVanillaSnapshot` changes nothing outside the vanilla directory
      when none of the four slots in it is a link. */
  lemma SnapshotKeepsOutside(fs: Tree, env: Env)
    requires NoLinkAt(fs, VanillaDir(env), SlotNames)
    ensures KeepsOutside(fs, Snapshot(fs, env).tree, VanillaDir(env))
  {
    var vdir := VanillaDir(env);
    if EnsureDir(fs, vdir).Ok? {
      var fs1 := EnsureDir(fs, vdir).value;
      SnapshotReady(fs, env);
      SnapshotFromFrame(fs1, vdir, PresentPaths(fs1, env));
    }
  }

  /** In particular it never modifies what lies in the three `~/.claude` sources. */
  lemma SnapshotKeepsSources(fs: Tree, env: Env, q: Path, a: nat)
    requires NoLinkAt(fs, VanillaDir(env), SlotNames)
    requires a < 3 && q in fs && Under(q, DetectionPaths(env)[a].source)
    ensures q in Snapshot(fs, env).tree && Snapshot(fs, env).tree[q] == fs[q]
  {
    ClaudeEntriesOutsideVanilla(env, q, a);
    SnapshotKeepsOutside(fs, env);
  }

  /** `hasVanilla()`: the directory exists and `readdirSync` finds an entry;
      `readdirSync` on something other than a directory throws. */
  function HasVanilla(fs: Tree, env: Env): (r: Result<bool, Fault>)
    ensures r == Ok(true) <==> IsDir(fs, VanillaDir(env)) && ChildNames(fs, VanillaDir(env)) != {}
    ensures r.Err? <==> Exists(fs, VanillaDir(env)) && !IsDir(fs, VanillaDir(env))
  {
    var vdir := VanillaDir(env);
    if !Exists(fs, vdir) then Ok(false)
    else if !IsDir(fs, vdir) then Err(Io("ENOTDIR", Key(vdir)))
    else Ok(ChildNames(fs, vdir) != {})
  }

  /** A present config is copied: its slot is listed in the vanilla directory afterwards. */
  lemma SnapshotFillsSlot(fs: Tree, env: Env, a: nat)
    requires NoLinkAt(fs, VanillaDir(env), SlotNames) && Snapshot(fs, env).fault.None?
    requires a < 4 && Exists(fs, DetectionPaths(env)[a].source)
    ensures Join(VanillaDir(env), SlotNames[a]) in Snapshot(fs, env).tree
  {
    var vdir := VanillaDir(env);
    var fs1 := EnsureDir(fs, vdir).value;
    var srcs := PresentPaths(fs1, env);
    var src := DetectionPaths(env)[a].source;
    SnapshotReady(fs, env);
    ExistsExtends(fs, fs1, src);
    PresentPathsIff(fs1, env);
    assert src in srcs;
    var k :| 0 <= k < |srcs| && srcs[k] == src;
    SnapshotFromCopies(fs1, vdir, srcs);
    DetectionNames(env);
    SlotNamesValid();
    JoinName(vdir, SlotNames[a]);
  }

  /** After a snapshot that found at least one config, `hasVanilla()` holds. */
  lemma SnapshotMakesVanilla(fs: Tree, env: Env, a: nat)
    requires NoLinkAt(fs, VanillaDir(env), SlotNames) && Snapshot(fs, env).fault.None?
    requires Lstat(fs, VanillaDir(env)).None? || Lstat(fs, VanillaDir(env)) == Some(Dir)
    requires a < 4 && Exists(fs, DetectionPaths(env)[a].source)
    ensures HasVanilla(Snapshot(fs, env).tree, env) == Ok(true)
  {
    var vdir := VanillaDir(env);
    var t := Snapshot(fs, env).tree;
    EnsureVanillaDir(fs, env);
    var fs1 := EnsureDir(fs, vdir).value;
    SnapshotReady(fs, env);
    SnapshotFromFrame(fs1, vdir, PresentPaths(fs1, env));
    assert t[vdir] == Dir;
    SnapshotFillsSlot(fs, env, a);
    SlotNamesValid();
    ChildListed(t, vdir, SlotNames[a]);
  }

  // ---------------------------------------------------------------- restore

  /** The basenames of the table's paths, in order. */
  function TableNames(env: Env): seq<string> {
    var ps := DetectionPaths(env);
    seq(4, a requires 0 <= a < 4 => Basename(ps[a].source))
  }

  /** `paths.find(p => path.basename(p.source) === entry)`: the first entry so named. */
  function FindSlot(env: Env, entry: string): Option<Path> {
    match FirstIndex(TableNames(env), entry)
    case None => None
    case Some(a) => Some(DetectionPaths(env)[a].source)
  }

  /** A snapshot entry matches exactly when it is a slot name, and then it
      goes back to the table path of that name. */
  lemma MatchSlot(env: Env, entry: string)
    ensures FindSlot(env, entry).Some? <==> entry in SlotNames
    ensures forall a :: 0 <= a < 4 && entry == SlotNames[a] ==>
      FindSlot(env, entry) == Some(DetectionPaths(env)[a].source)
  {
    DetectionNames(env);
    SlotNamesDistinct();
    assert TableNames(env) == SlotNames;
    forall a | 0 <= a < 4 && entry == SlotNames[a]
      ensures FirstIndex(SlotNames, entry) == Some(a)
    {
      FirstIndexDistinct(SlotNames, a);
    }
  }

  function RestoreSource(vdir: Path, entry: string): Path {
    Join(vdir, entry)
  }

  /** One pass of `restoreVanilla`'s loop: an entry that names no table path is skipped. */
  function RestoreStep(fs: Tree, env: Env, vdir: Path, entry: string): (r: Effect)
    ensures FindSlot(env, entry).None? ==> r == Effect(fs, None)
  {
    match FindSlot(env, entry)
    case None => Effect(fs, None)
    case Some(target) => CopyEntry(fs, RestoreSource(vdir, entry), target)
  }

  lemma RestoreStepCopies(fs: Tree, env: Env, vdir: Path, entry: string)
    requires RestoreStep(fs, env, vdir, entry).fault.None?
    ensures var t := RestoreStep(fs, env, vdir, entry).tree;
      fs.Keys <= t.Keys && (FindSlot(env, entry).Some? ==> Key(FindSlot(env, entry).value) in t)
    ensures var t, target := RestoreStep(fs, env, vdir, entry).tree, FindSlot(env, entry);
      target.Some? && Plain(fs, target.value) ==> HoldsCopy(fs, RestoreSource(vdir, entry), t, target.value)
  {
  }

  /** A directory in the snapshot is not restored onto a slot that holds a
      symbolic link, as the slots do while a profile is active: `copySync`
      throws and the tree is left as it was. */
  lemma RestoreRefusesLinkedSlot(fs: Tree, env: Env, vdir: Path, entry: string)
    requires FindSlot(env, entry).Some? && Lstat(fs, RestoreSource(vdir, entry)) == Some(Dir)
    requires Lstat(fs, FindSlot(env, entry).value).Some? && Lstat(fs, FindSlot(env, entry).value).value.Symlink?
    ensures RestoreStep(fs, env, vdir, entry)
      == Effect(fs, Some(KindClash(FindSlot(env, entry).value, RestoreSource(vdir, entry), true)))
  {
    var src, dst := RestoreSource(vdir, entry), FindSlot(env, entry).value;
    assert Stat(fs, src) == Some(Dir);
    assert LDir(fs, src) && !LDir(fs, dst);
    assert CopyEntry(fs, src, dst) == CopyPath(fs, src, dst);
  }

  /** The copy loop of `restoreVanilla`, stopping at the first throw. */
  function RestoreFrom(fs: Tree, env: Env, vdir: Path, entries: seq<string>): (r: Effect)
    decreases |entries|
  {
    if |entries| == 0 then Effect(fs, None)
    else
      var step := RestoreStep(fs, env, vdir, entries[0]);
      if step.fault.Some? then step else RestoreFrom(step.tree, env, vdir, entries[1..])
  }

  /** `restoreVanilla()`, given the order in which `readdirSync` lists the directory. */
  function Restore(fs: Tree, env: Env, listing: seq<string>): (r: Effect)
    ensures !Exists(fs, VanillaDir(env)) ==> r == Effect(fs, None)
  {
    var vdir := VanillaDir(env);
    if !Exists(fs, vdir) then Effect(fs, None)
    else if !IsDir(fs, vdir) then Effect(fs, Some(Io("ENOTDIR", Key(vdir))))
    else RestoreFrom(fs, env, vdir, listing)
  }

  /** One pass of the copy loop of `restoreVanilla`. */
  method RestoreOne(d: Disk, env: Env, vdir: Path, entry: string) returns (fault: Option<Fault>)
    modifies d
    ensures Effect(d.tree, fault) == RestoreStep(old(d.tree), env, vdir, entry)
  {
    var target := FindSlot(env, entry);
    fault := None;
    if target.Some? {
      var step := CopyEntry(d.tree, RestoreSource(vdir, entry), target.value);
      d.tree := step.tree;
      fault := step.fault;
    }
  }

  /** The copy loop of `restoreVanilla`. */
  method RestoreCopies(d: Disk, env: Env, vdir: Path, entries: seq<string>) returns (fault: Option<Fault>)
    modifies d
    ensures Effect(d.tree, fault) == RestoreFrom(old(d.tree), env, vdir, entries)
  {
    assert entries[0..] == entries;
    for i := 0 to |entries|
      invariant RestoreFrom(old(d.tree), env, vdir, entries) == RestoreFrom(d.tree, env, vdir, entries[i..])
    {
      ghost var before := d.tree;
      assert entries[i..][0] == entries[i] && entries[i..][1..] == entries[i + 1..];
      RestoreFromCons(before, env, vdir, entries[i..]);
      fault := RestoreOne(d, env, vdir, entries[i]);
      ghost var step := RestoreStep(before, env, vdir, entries[i]);
      assert step == Effect(d.tree, fault);
      if fault.Some? {
        assert RestoreFrom(before, env, vdir, entries[i..]) == step;
        return;
      }
      assert RestoreFrom(before, env, vdir, entries[i..]) == RestoreFrom(d.tree, env, vdir, entries[i + 1..]);
    }
    assert entries[|entries|..] == [];
    fault := None;
  }

  method RestoreVanilla(d: Disk, env: Env, listing: seq<string>) returns (fault: Option<Fault>)
    modifies d
    ensures Effect(d.tree, fault) == Restore(old(d.tree), env, listing)
  {
    var vdir := VanillaDir(env);
    if !Exists(d.tree, vdir) {
      return None;
    }
    if !IsDir(d.tree, vdir) {
      return Some(Io("ENOTDIR", Key(vdir)));
    }
    fault := RestoreCopies(d, env, vdir, listing);
  }

  function IsSlotName(n: string): bool { n in SlotNames }

  /** Entries that name no table path are skipped: restoring the listing is
      restoring its slot names alone. */
  lemma {:induction false} RestoreSkips(fs: Tree, env: Env, vdir: Path, entries: seq<string>)
    ensures RestoreFrom(fs, env, vdir, entries) == RestoreFrom(fs, env, vdir, Filter(IsSlotName, entries))
    decreases |entries|
  {
    if |entries| > 0 {
      var e := entries[0];
      var rest := Filter(IsSlotName, entries[1..]);
      MatchSlot(env, e);
      var step := RestoreStep(fs, env, vdir, e);
      if IsSlotName(e) {
        assert Filter(IsSlotName, entries) == [e] + rest;
        assert ([e] + rest)[1..] == rest;
        if step.fault.None? {
          RestoreSkips(step.tree, env, vdir, entries[1..]);
        }
      } else {
        RestoreSkips(fs, env, vdir, entries[1..]);
      }
    }
  }

  lemma RestoreFromCons(fs: Tree, env: Env, vdir: Path, entries: seq<string>)
    requires |entries| > 0
    ensures var step := RestoreStep(fs, env, vdir, entries[0]);
      RestoreFrom(fs, env, vdir, entries)
        == if step.fault.Some? then step else RestoreFrom(step.tree, env, vdir, entries[1..])
  {
  }

  /** A restore that completes leaves every matched table path in place and removes nothing. */
  lemma {:induction false} RestoreCopiesBack(fs: Tree, env: Env, vdir: Path, entries: seq<string>)
    requires RestoreFrom(fs, env, vdir, entries).fault.None?
    ensures var t := RestoreFrom(fs, env, vdir, entries).tree;
      fs.Keys <= t.Keys &&
      forall i :: 0 <= i < |entries| && FindSlot(env, entries[i]).Some? ==> Key(FindSlot(env, entries[i]).value) in t
    decreases |entries|
  {
    if |entries| > 0 {
      var step := RestoreStep(fs, env, vdir, entries[0]);
      var rest := entries[1..];
      RestoreStepCopies(fs, env, vdir, entries[0]);
      RestoreFromCons(fs, env, vdir, entries);
      var t := RestoreFrom(step.tree, env, vdir, rest).tree;
      RestoreCopiesBack(step.tree, env, vdir, rest);
      forall i | 0 <= i < |entries| && FindSlot(env, entries[i]).Some?
        ensures Key(FindSlot(env, entries[i]).value) in t
      {
        if i == 0 {
          assert Key(FindSlot(env, entries[0]).value) in step.tree;
          assert step.tree.Keys <= t.Keys;
        } else {
          assert entries[i] == rest[i - 1];
          assert 0 <= i - 1 < |rest| && FindSlot(env, rest[i - 1]).Some?;
        }
      }
    }
  }

  // ------------------------------------------------------ what the copies hold

  /** The project's `CLAUDE.md` lies apart from `~/.claude` and from
      `~/.orchester`: nothing is inside both. */
  ghost predicate ProjectApart(env: Env) {
    forall q :: Under(q, Join(env.cwd, "CLAUDE.md")) ==> !Under(q, Join(env.home, ".claude")) && !Under(q, OrchDir(env))
  }

  /** None of the four table paths is a symbolic link. */
  predicate PlainSources(fs: Tree, env: Env) {
    forall a :: 0 <= a < 4 ==> Plain(fs, DetectionPaths(env)[a].source)
  }

  /** Nothing lies both at or below `p` and at or below `x`. */
  ghost predicate Apart(p: Path, x: Path) {
    forall q :: Under(q, p) ==> !Under(q, x)
  }

  /** Whatever lies in a table path lies outside the vanilla directory. */
  lemma SourceOutsideVanilla(env: Env, a: nat, q: Path)
    requires ProjectApart(env) && a < 4 && Under(q, DetectionPaths(env)[a].source)
    ensures !Under(q, VanillaDir(env))
  {
    if a < 3 {
      ClaudeEntriesOutsideVanilla(env, q, a);
    } else {
      LayoutNamesValid();
      ChildInside(OrchDir(env), "vanilla");
    }
  }

  /** No two table paths share anything at or below them. */
  lemma SourcesApart(env: Env, a: nat, b: nat, q: Path)
    requires ProjectApart(env) && a < 4 && b < 4 && a != b
    requires Under(q, DetectionPaths(env)[a].source)
    ensures !Under(q, DetectionPaths(env)[b].source)
  {
    var claude := Join(env.home, ".claude");
    SlotNamesValid();
    SlotNamesDistinct();
    if a < 3 && b < 3 {
      SiblingSubtrees(q, claude, SlotNames[a], SlotNames[b]);
    } else if a < 3 {
      UnderChild(q, claude, SlotNames[a]);
    } else {
      ChildInside(claude, SlotNames[b]);
    }
  }

  /** Each source of the copy loop is an existing entry, not a link, lying
      apart from the vanilla directory. */
  ghost predicate SourcesReady(fs: Tree, vdir: Path, srcs: seq<Path>) {
    forall i :: 0 <= i < |srcs| ==> Key(srcs[i]) in fs && !fs[Key(srcs[i])].Symlink? && Apart(srcs[i], vdir)
  }

  /** The copy loop leaves a slot that none of its sources is named after as it was. */
  lemma {:induction false} SnapshotFromKeeps(fs: Tree, vdir: Path, srcs: seq<Path>, m: string)
    requires SlotsReady(fs, vdir, srcs) && ValidName(m) && m !in Basenames(srcs)
    ensures KeptUnder(fs, SnapshotFrom(fs, vdir, srcs).tree, Join(vdir, m))
    decreases |srcs|
  {
    if |srcs| > 0 {
      var n := Basename(srcs[0]);
      var dst := SnapshotDest(vdir, srcs[0]);
      var step := CopyEntry(fs, srcs[0], dst);
      SnapshotFromCons(fs, vdir, srcs);
      BasenamesTail(srcs);
      CopyEntryFrame(fs, srcs[0], dst);
      forall q | q in fs && Under(q, Join(vdir, m))
        ensures !Under(q, dst)
      {
        SiblingSubtrees(q, vdir, m, n);
      }
      if step.fault.None? {
        SnapshotFromStep(fs, vdir, srcs);
        SnapshotFromKeeps(step.tree, vdir, srcs[1..], m);
      }
    }
  }

  /** Outside the vanilla directory the copy loop adds nothing but directories. */
  lemma {:induction false} SnapshotFromNew(fs: Tree, vdir: Path, srcs: seq<Path>)
    requires SlotsReady(fs, vdir, srcs)
    ensures NewOutsideAreDirs(fs, SnapshotFrom(fs, vdir, srcs).tree, vdir)
    decreases |srcs|
  {
    if |srcs| > 0 {
      var n := Basename(srcs[0]);
      var dst := SnapshotDest(vdir, srcs[0]);
      var step := CopyEntry(fs, srcs[0], dst);
      SnapshotFromCons(fs, vdir, srcs);
      BasenamesTail(srcs);
      CopyEntryFrame(fs, srcs[0], dst);
      ChildInside(vdir, n);
      if step.fault.None? {
        SnapshotFromStep(fs, vdir, srcs);
        SnapshotFromFrame(step.tree, vdir, srcs[1..]);
        SnapshotFromNew(step.tree, vdir, srcs[1..]);
      }
    }
  }

  /** After a copy loop that did not throw, the slot of each source holds a
      copy of it, taken from the tree the loop started on. */
  lemma {:induction false} SnapshotFromHolds(fs: Tree, vdir: Path, srcs: seq<Path>)
    requires SlotsReady(fs, vdir, srcs) && SourcesReady(fs, vdir, srcs)
    requires SnapshotFrom(fs, vdir, srcs).fault.None?
    ensures forall i :: 0 <= i < |srcs| ==>
      HoldsCopy(fs, srcs[i], SnapshotFrom(fs, vdir, srcs).tree, SnapshotDest(vdir, srcs[i]))
    decreases |srcs|
  {
    if |srcs| > 0 {
      var step := CopyEntry(fs, srcs[0], SnapshotDest(vdir, srcs[0]));
      var t := SnapshotFrom(fs, vdir, srcs).tree;
      SnapshotFromFirst(fs, vdir, srcs);
      SourcesReadyTail(fs, step.tree, vdir, srcs);
      SnapshotFromHolds(step.tree, vdir, srcs[1..]);
      HoldsCopiesFrom(fs, step.tree, t, vdir, srcs);
    }
  }

  /** The first copy of a loop that did not throw: its slot keeps the copy
      to the end, and the rest of the loop starts ready. */
  lemma SnapshotFromFirst(fs: Tree, vdir: Path, srcs: seq<Path>)
    requires |srcs| > 0 && SlotsReady(fs, vdir, srcs)
    requires SnapshotFrom(fs, vdir, srcs).fault.None?
    ensures var dst := SnapshotDest(vdir, srcs[0]);
      var step := CopyEntry(fs, srcs[0], dst);
      && step.fault.None?
      && SnapshotFrom(fs, vdir, srcs) == SnapshotFrom(step.tree, vdir, srcs[1..])
      && HoldsCopy(fs, srcs[0], SnapshotFrom(fs, vdir, srcs).tree, dst)
      && KeepsOutside(fs, step.tree, vdir) && SlotsReady(step.tree, vdir, srcs[1..])
  {
    var dst := SnapshotDest(vdir, srcs[0]);
    var step := CopyEntry(fs, srcs[0], dst);
    var t := SnapshotFrom(fs, vdir, srcs).tree;
    SnapshotFromCons(fs, vdir, srcs);
    BasenamesTail(srcs);
    assert HoldsCopy(fs, srcs[0], step.tree, dst);
    SnapshotFromStep(fs, vdir, srcs);
    DistinctHead(Basenames(srcs));
    SnapshotFromKeeps(step.tree, vdir, srcs[1..], Basename(srcs[0]));
    HoldsCopyKept(fs, srcs[0], step.tree, t, dst);
  }

  /** Sources lying apart from `vdir` are untouched by a step that keeps
      everything outside `vdir`, so the remaining ones stay ready. */
  lemma SourcesReadyTail(fs: Tree, t: Tree, vdir: Path, srcs: seq<Path>)
    requires |srcs| > 0 && SourcesReady(fs, vdir, srcs) && KeepsOutside(fs, t, vdir)
    ensures SourcesReady(t, vdir, srcs[1..])
    ensures forall i :: 1 <= i < |srcs| ==> KeptUnder(fs, t, srcs[i])
  {
    var rest := srcs[1..];
    forall j | 0 <= j < |rest|
      ensures Key(rest[j]) in t && t[Key(rest[j])] == fs[Key(rest[j])]
    {
      assert rest[j] == srcs[j + 1];
    }
  }

  /** Copies of the later sources taken after the first step are copies of
      them as the loop found them. */
  lemma HoldsCopiesFrom(fs: Tree, t0: Tree, t: Tree, vdir: Path, srcs: seq<Path>)
    requires |srcs| > 0 && SourcesReady(fs, vdir, srcs)
    requires forall i :: 1 <= i < |srcs| ==> KeptUnder(fs, t0, srcs[i])
    requires forall j :: 0 <= j < |srcs[1..]| ==> HoldsCopy(t0, srcs[1..][j], t, SnapshotDest(vdir, srcs[1..][j]))
    ensures forall i :: 1 <= i < |srcs| ==> HoldsCopy(fs, srcs[i], t, SnapshotDest(vdir, srcs[i]))
  {
    forall i | 1 <= i < |srcs|
      ensures HoldsCopy(fs, srcs[i], t, SnapshotDest(vdir, srcs[i]))
    {
      assert srcs[i] == srcs[1..][i - 1];
      HoldsCopyFrom(fs, t0, srcs[i], t, SnapshotDest(vdir, srcs[i]));
    }
  }

  /** The copy loop starts on sources that are ready. */
  lemma SnapshotSourcesReady(fs: Tree, env: Env)
    requires ProjectApart(env) && PlainSources(fs, env) && EnsureDir(fs, VanillaDir(env)).Ok?
    ensures var fs1 := EnsureDir(fs, VanillaDir(env)).value;
      SourcesReady(fs1, VanillaDir(env), PresentPaths(fs1, env))
  {
    var vdir := VanillaDir(env);
    var fs1 := EnsureDir(fs, vdir).value;
    var srcs := PresentPaths(fs1, env);
    PresentPathsIff(fs1, env);
    forall i | 0 <= i < |srcs|
      ensures Key(srcs[i]) in fs1 && !fs1[Key(srcs[i])].Symlink? && Apart(srcs[i], vdir)
    {
      assert srcs[i] in srcs;
      var b :| 0 <= b < 4 && Exists(fs1, DetectionPaths(env)[b].source) && srcs[i] == DetectionPaths(env)[b].source;
      EnsureDirPlain(fs, vdir, srcs[i]);
      SourceApartVanilla(env, b);
    }
  }

  /** `ensureDirSync` adds only directories, so an existing path that was no
      link is none afterwards. */
  lemma EnsureDirPlain(fs: Tree, d: Path, p: Path)
    requires EnsureDir(fs, d).Ok? && Plain(fs, p) && Exists(EnsureDir(fs, d).value, p)
    ensures var fs1 := EnsureDir(fs, d).value; Key(p) in fs1 && !fs1[Key(p)].Symlink?
  {
  }

  lemma SourceApartVanilla(env: Env, b: nat)
    requires ProjectApart(env) && b < 4
    ensures Apart(DetectionPaths(env)[b].source, VanillaDir(env))
  {
    forall q | Under(q, DetectionPaths(env)[b].source)
      ensures !Under(q, VanillaDir(env))
    {
      SourceOutsideVanilla(env, b, q);
    }
  }

  /** After a snapshot that did not throw, the slot of every present config
      holds a copy of it: every entry of a directory at and below it,
      rebased into the slot, or the file itself. */
  lemma SnapshotHolds(fs: Tree, env: Env, a: nat)
    requires ProjectApart(env) && PlainSources(fs, env) && NoLinkAt(fs, VanillaDir(env), SlotNames)
    requires Snapshot(fs, env).fault.None?
    requires a < 4 && Exists(fs, DetectionPaths(env)[a].source)
    ensures HoldsCopy(fs, DetectionPaths(env)[a].source, Snapshot(fs, env).tree, Join(VanillaDir(env), SlotNames[a]))
  {
    var vdir := VanillaDir(env);
    var fs1 := EnsureDir(fs, vdir).value;
    var srcs := PresentPaths(fs1, env);
    var src := DetectionPaths(env)[a].source;
    SnapshotReady(fs, env);
    SnapshotSourcesReady(fs, env);
    ExistsExtends(fs, fs1, src);
    PresentPathsIff(fs1, env);
    SnapshotFromHolds(fs1, vdir, srcs);
    assert src in srcs;
    var k :| 0 <= k < |srcs| && srcs[k] == src;
    DetectionNames(env);
    HoldsCopyExtends(fs, fs1, src, Snapshot(fs, env).tree, SnapshotDest(vdir, src));
  }

  /** The snapshot leaves the table paths free of links and the vanilla
      directory a directory. */
  lemma SnapshotPlainSources(fs: Tree, env: Env)
    requires ProjectApart(env) && PlainSources(fs, env) && NoLinkAt(fs, VanillaDir(env), SlotNames)
    requires Lstat(fs, VanillaDir(env)).None? || Lstat(fs, VanillaDir(env)) == Some(Dir)
    requires Snapshot(fs, env).fault.None?
    ensures PlainSources(Snapshot(fs, env).tree, env) && IsDir(Snapshot(fs, env).tree, VanillaDir(env))
  {
    var vdir := VanillaDir(env);
    var fs1 := EnsureDir(fs, vdir).value;
    var srcs := PresentPaths(fs1, env);
    var t1 := Snapshot(fs, env).tree;
    EnsureVanillaDir(fs, env);
    SnapshotReady(fs, env);
    SnapshotFromFrame(fs1, vdir, srcs);
    SnapshotFromNew(fs1, vdir, srcs);
    VanillaDirShape(env);
    assert t1[vdir] == Dir;
    forall b | 0 <= b < 4
      ensures Plain(t1, DetectionPaths(env)[b].source)
    {
      var p := DetectionPaths(env)[b].source;
      SourceOutsideVanilla(env, b, Key(p));
      PlainThroughSnapshot(fs, fs1, t1, vdir, p);
    }
  }

  /** A path outside `x` that was no link is none after `ensureDirSync` and a
      copy loop that keeps what lies outside `x` and adds only directories there. */
  lemma PlainThroughSnapshot(fs: Tree, fs1: Tree, t1: Tree, x: Path, p: Path)
    requires Extends(fs, fs1) && forall q :: q in fs1 && q !in fs ==> fs1[q] == Dir
    requires KeepsOutside(fs1, t1, x) && NewOutsideAreDirs(fs1, t1, x)
    requires !Under(Key(p), x) && Plain(fs, p)
    ensures Plain(t1, p)
  {
  }

  /** The table paths whose slot names occur in `names` hold no link. */
  ghost predicate TargetsPlain(fs: Tree, env: Env, names: seq<string>) {
    forall b :: 0 <= b < 4 && SlotNames[b] in names ==> Plain(fs, DetectionPaths(env)[b].source)
  }

  /** One restore pass changes nothing in the vanilla directory nor in the
      table paths other than its own, and leaves the targets still to come
      free of links. */
  lemma RestoreStepFrame(fs: Tree, env: Env, e: string, rest: seq<string>)
    requires ProjectApart(env) && TargetsPlain(fs, env, [e] + rest) && e !in rest
    ensures var t := RestoreStep(fs, env, VanillaDir(env), e).tree;
      && KeptUnder(fs, t, VanillaDir(env))
      && (forall b :: 0 <= b < 4 && SlotNames[b] != e ==> KeptUnder(fs, t, DetectionPaths(env)[b].source))
      && TargetsPlain(t, env, rest)
  {
    var vdir := VanillaDir(env);
    MatchSlot(env, e);
    if e in SlotNames {
      var c :| 0 <= c < 4 && SlotNames[c] == e;
      var t := RestoreStep(fs, env, vdir, e).tree;
      assert SlotNames[c] in [e] + rest;
      assert t == CopyEntry(fs, Join(vdir, SlotNames[c]), DetectionPaths(env)[c].source).tree;
      RestoreCopyKeepsVanilla(fs, env, c);
      forall b | 0 <= b < 4 && SlotNames[b] != e
        ensures KeptUnder(fs, t, DetectionPaths(env)[b].source)
      {
        RestoreCopyKeepsOther(fs, env, c, b);
      }
      forall b | 0 <= b < 4 && SlotNames[b] in rest
        ensures Plain(t, DetectionPaths(env)[b].source)
      {
        assert SlotNames[b] in [e] + rest;
        RestoreCopyKeepsOther(fs, env, c, b);
      }
    } else {
      assert forall n :: n in rest ==> n in [e] + rest;
    }
  }

  /** Restoring slot `c` into its table path, with no link there, changes
      nothing in the vanilla directory. */
  lemma RestoreCopyKeepsVanilla(fs: Tree, env: Env, c: nat)
    requires ProjectApart(env) && c < 4 && Plain(fs, DetectionPaths(env)[c].source)
    ensures KeptUnder(fs, CopyEntry(fs, Join(VanillaDir(env), SlotNames[c]), DetectionPaths(env)[c].source).tree, VanillaDir(env))
  {
    var target := DetectionPaths(env)[c].source;
    CopyEntryFrame(fs, Join(VanillaDir(env), SlotNames[c]), target);
    forall q | Under(q, target)
      ensures !Under(q, VanillaDir(env))
    {
      SourceOutsideVanilla(env, c, q);
    }
  }

  /** Restoring slot `c` into its table path, with no link there, changes
      nothing in another table path and puts no link at it. */
  lemma RestoreCopyKeepsOther(fs: Tree, env: Env, c: nat, b: nat)
    requires ProjectApart(env) && c < 4 && b < 4 && b != c && Plain(fs, DetectionPaths(env)[c].source)
    ensures var t := CopyEntry(fs, Join(VanillaDir(env), SlotNames[c]), DetectionPaths(env)[c].source).tree;
      && KeptUnder(fs, t, DetectionPaths(env)[b].source)
      && (Plain(fs, DetectionPaths(env)[b].source) ==> Plain(t, DetectionPaths(env)[b].source))
  {
    var target := DetectionPaths(env)[c].source;
    var p := DetectionPaths(env)[b].source;
    forall q | Under(q, p)
      ensures !Under(q, target)
    {
      SourcesApart(env, b, c, q);
    }
    CopyApart(fs, Join(VanillaDir(env), SlotNames[c]), target, p);
  }

  /** A copy into `dst`, with no link there, changes nothing under a path
      apart from `dst` and puts no link at it. */
  lemma CopyApart(fs: Tree, src: Path, dst: Path, p: Path)
    requires Plain(fs, dst) && Apart(p, dst)
    ensures var t := CopyEntry(fs, src, dst).tree;
      KeptUnder(fs, t, p) && (Plain(fs, p) ==> Plain(t, p))
  {
    CopyEntryFrame(fs, src, dst);
    assert Under(Key(p), p);
  }

  /** A restore whose entries do not name slot `a` leaves table path `a` as it was. */
  lemma {:induction false} RestoreFromKeeps(fs: Tree, env: Env, entries: seq<string>, a: nat)
    requires ProjectApart(env) && TargetsPlain(fs, env, entries) && Distinct(entries)
    requires a < 4 && SlotNames[a] !in entries
    ensures KeptUnder(fs, RestoreFrom(fs, env, VanillaDir(env), entries).tree, DetectionPaths(env)[a].source)
    decreases |entries|
  {
    if |entries| > 0 {
      var vdir := VanillaDir(env);
      var step := RestoreStep(fs, env, vdir, entries[0]);
      RestoreFromCons(fs, env, vdir, entries);
      DistinctHead(entries);
      RestoreStepFrame(fs, env, entries[0], entries[1..]);
      if step.fault.None? {
        RestoreFromKeeps(step.tree, env, entries[1..], a);
      }
    }
  }

  /** After a restore loop that did not throw, table path `a` holds a copy
      of its slot as the loop found it. */
  lemma {:induction false} RestoreFromHolds(fs: Tree, env: Env, entries: seq<string>, a: nat)
    requires ProjectApart(env) && TargetsPlain(fs, env, entries) && Distinct(entries)
    requires a < 4 && SlotNames[a] in entries
    requires Join(VanillaDir(env), SlotNames[a]) in fs && !fs[Join(VanillaDir(env), SlotNames[a])].Symlink?
    requires RestoreFrom(fs, env, VanillaDir(env), entries).fault.None?
    ensures HoldsCopy(fs, Join(VanillaDir(env), SlotNames[a]),
      RestoreFrom(fs, env, VanillaDir(env), entries).tree, DetectionPaths(env)[a].source)
    decreases |entries|
  {
    var vdir := VanillaDir(env);
    var slot := Join(vdir, SlotNames[a]);
    var target := DetectionPaths(env)[a].source;
    var e, rest := entries[0], entries[1..];
    var step := RestoreStep(fs, env, vdir, e);
    var t := RestoreFrom(fs, env, vdir, entries).tree;
    RestoreFromCons(fs, env, vdir, entries);
    DistinctHead(entries);
    RestoreStepFrame(fs, env, e, rest);
    SlotNamesValid();
    JoinName(vdir, SlotNames[a]);
    ChildInside(vdir, SlotNames[a]);
    if e == SlotNames[a] {
      MatchSlot(env, e);
      RestoreStepCopies(fs, env, vdir, e);
      RestoreFromKeeps(step.tree, env, rest, a);
      HoldsCopyKept(fs, slot, step.tree, t, target);
    } else {
      RestoreFromHolds(step.tree, env, rest, a);
      HoldsCopyFrom(fs, step.tree, slot, t, target);
    }
  }

  /** After a `restoreVanilla` that did not throw, each table path whose slot
      the listing names holds a copy of that slot, provided no table path
      and not the slot itself is a link. */
  lemma RestoreHolds(fs: Tree, env: Env, listing: seq<string>, a: nat)
    requires ProjectApart(env) && PlainSources(fs, env) && Distinct(listing)
    requires Exists(fs, VanillaDir(env)) && Restore(fs, env, listing).fault.None?
    requires a < 4 && SlotNames[a] in listing
    requires Join(VanillaDir(env), SlotNames[a]) in fs && !fs[Join(VanillaDir(env), SlotNames[a])].Symlink?
    ensures HoldsCopy(fs, Join(VanillaDir(env), SlotNames[a]), Restore(fs, env, listing).tree, DetectionPaths(env)[a].source)
  {
    RestoreFromHolds(fs, env, listing, a);
  }

  /** A snapshot followed by a restore, both completing, gives each present
      config back as it was (every entry at and below a directory, or the
      file itself), when the table paths are not links, the project's
      `CLAUDE.md` lies apart from `~/.claude` and `~/.orchester`, and the
      vanilla directory and its slots held no link. */
  lemma SnapshotRestoreRoundTrip(fs: Tree, env: Env, listing: seq<string>, a: nat)
    requires ProjectApart(env) && PlainSources(fs, env) && NoLinkAt(fs, VanillaDir(env), SlotNames)
    requires Lstat(fs, VanillaDir(env)).None? || Lstat(fs, VanillaDir(env)) == Some(Dir)
    requires Snapshot(fs, env).fault.None?
    requires IsListing(Snapshot(fs, env).tree, VanillaDir(env), listing)
    requires Restore(Snapshot(fs, env).tree, env, listing).fault.None?
    requires a < 4 && Exists(fs, DetectionPaths(env)[a].source)
    ensures var src, t := DetectionPaths(env)[a].source, Restore(Snapshot(fs, env).tree, env, listing).tree;
      if IsDir(fs, src) then forall q :: q in fs && Under(q, src) ==> q in t && t[q] == fs[q]
      else Lstat(t, src) == Lstat(fs, src)
  {
    var vdir := VanillaDir(env);
    var src := DetectionPaths(env)[a].source;
    var slot := Join(vdir, SlotNames[a]);
    var t1 := Snapshot(fs, env).tree;
    var t := Restore(t1, env, listing).tree;
    SlotNamesValid();
    JoinName(vdir, SlotNames[a]);
    JoinName(SlotParent(env, a), SlotNames[a]);
    SnapshotHolds(fs, env, a);
    SnapshotPlainSources(fs, env);
    if IsDir(fs, src) {
      assert src in fs && Under(src, src);
    }
    assert slot in t1 && !t1[slot].Symlink?;
    ChildListed(t1, vdir, SlotNames[a]);
    RestoreHolds(t1, env, listing, a);
    if IsDir(fs, src) {
      forall q | q in fs && Under(q, src)
        ensures q in t && t[q] == fs[q]
      {
        RebaseBack(q, src, slot);
      }
    }
  }
}

=== FILE: wrappers.dfy ===
/** Option and Result, the two failure-carrying datatypes used throughout the model. */
module Wrappers {
  datatype Option<+T> = None | Some(value: T)

  datatype Result<+T, +E> = Ok(value: T) | Err(error: E)
}
